=== FILE: README.md ===
# Quadrotor firmware core, modelled in Dafny

This project models the sequential core of an STM32 quadrotor firmware written in C and C++, together with the frame-transform teaching demo written in Python. The model covers six groups:

- **Frame transforms and the demo's input loop.** The ground-to-body transform and the keyboard-driven slider machine of `coordinate_transform_demo.py` (module `TransformDemo`).
- **Utilities.** Clamp, lerp, sign, factorial and the exponential filter (`MathCommon`). Bit tricks, gcd and lcm (`MathBits`). Angle normalisation (`MathAngle`). The sorts, partition, selection and binary searches of `math_sort.cpp` (`SortSpec` and `Sort*`).
- **Byte-stream parsers and sensor decoders.**
  - The Lidar frame machine (`Lidar`).
  - The two optical-flow parsers (`OpticalFlow`, `Upt20x`, `UpT201`).
  - The SPL06 barometer decoders and median filters, new and old (`Spl06`, `Spl06Old`).
  - The WS2812 bit-to-PWM encoding (`Ws2812`).
- **Small state machines.**
  - The link watchdog (`CommuCheck`) and the response package macros (`NrfResponse`).
  - The waypoint hierarchy (`Point`, `Path`, `Track`).
  - The cooperative scheduler (`Scheduler`) and the odometer slot table (`Odometer`).
  - The stopwatch and the timeout checker (`TimeWatch`, `TimeoutChecker`).
- **Limiting arithmetic.**
  - The PID controller (`Pid`).
  - The quad mixer and throttle modes (`Chassis`) and the position and attitude commands (`Move`).
  - Motor direction and ESC pulse mapping (`Motor`, `SdcDual`).
  - The rate limiter (`SlopeSmoother`), tick conversions (`TimeStamp`) and the timer prescaler search (`TimDrv`).
- **Algebra over reals.** Matrices (`MathMatrix`) and quaternions (`MathQuaternion`).

The shared modules are `CTypes` (C integer widths, wrap-around and truncation), `Wrappers` (`Option`/`Result`) and `MathConst` (π and `FLOAT_EPSILON`).

Modelling conventions:

- A C `float` is a Dafny `real`, so float rounding is not modelled.
- Unsigned C integers are `nat` values reduced explicitly modulo 2^8, 2^16, 2^32 or 2^64 wherever the code wraps or truncates.
- A null C pointer is `None`.
- Each object is an immutable datatype, and each operation is a function returning the next state.
- The sorts are methods over sequences, proved sorted and a permutation of their input.
- Several values come from outside the computation and are parameters. They include:
  - the HAL clock and the tick counters;
  - the values of sine, cosine, square root, `powf` and `atan2f`;
  - allocation and queue outcomes;
  - sensor readings.

  Lemmas that need, for example, cos² + sin² = 1 take it as a precondition about the supplied values.

Rotation senses are modelled as each file writes them; they are not unified:

- the Python demo rotates by −yaw;
- `move.cpp` rotates by +yaw, although its comment describes the opposite;
- `odometer.c` applies the inverse rotation.

`path.h` declares a non-template `Path` that does not match `path_impl.h`; the model follows the template in `path_impl.h`.

## Model

| member | source | states |
|---|---|---|
| MathCommon.Max | Project/utils/math/math_common.h:18-20 | the result is one of the arguments and no smaller than either |
| MathCommon.Min | Project/utils/math/math_common.h:22-24 | the result is one of the arguments and no larger than either |
| MathCommon.MaxMinDual | Project/utils/math/math_common.h:18-24 | max is min mirrored through zero, and max plus min is the sum of the pair |
| MathCommon.Clamp | Project/utils/math/math_common.h:26-30 | with ordered bounds the result lies within them; inside values pass through, values below give the lower bound, values above give the upper one |
| MathCommon.ClampIdempotentMonotone | Project/utils/math/math_common.h:26-30 | clamping twice equals clamping once, and clamping preserves order |
| MathCommon.Sign | Project/utils/math/math_common.h:32-36 | 1 for positive, -1 for negative, 0 for zero |
| MathCommon.SignTimesSelf | Project/utils/math/math_common.h:32-36 | the sign times the value is the absolute value, and the sign is odd |
| MathCommon.Square | Project/utils/math/math_common.h:38-40 | the square is non-negative and equals the squared magnitude |
| MathCommon.Mean | Project/utils/math/math_common.c:5-15 | a null or empty buffer gives 0; otherwise the mean times the length is the sum of the samples |
| MathCommon.SumBounds | Project/utils/math/math_common.c:5-15 | samples between lo and hi sum to between n·lo and n·hi, so the mean lies between the extremes |
| MathCommon.StdDev | Project/utils/math/math_common.c:18-33 | null or fewer than two samples give 0; otherwise the square root of the unbiased variance about the mean |
| MathCommon.Lerp | Project/utils/math/math_common.c:47-50 | t at or below 0 gives a, at or above 1 gives b, and the result always lies between a and b |
| MathCommon.LerpBetween | Project/utils/math/math_common.c:47-50 | for t in [0, 1], a + t(b - a) lies between a and b |
| MathCommon.Factorial32 | Project/utils/math/math_common.c:80-90 | corrected: the loop exits for every 32-bit n with n! modulo 2^32, which is n! itself up to n = 12; below 4294967295 this is exactly what the as-written loop returns |
| MathCommon.FactorialHangsAtMax | Project/utils/math/math_common.c:85-87 | as written, at n = 4294967295 the loop has not exited after any number of iterations, from any 32-bit counter value, because `i <= n` always holds and `i++` wraps to 0 |
| MathCommon.FactorialLoopAgrees | Project/utils/math/math_common.c:85-87 | below 4294967295, the as-written loop started at counter i with the wrapped product of 2..i-1 exits within n + 1 - i iterations with n! modulo 2^32 |
| MathCommon.FactorialMonotone | Project/utils/math/math_common.c:80-90 | the factorial grows with n (so 12! < 2^32 bounds all smaller ones) |
| MathCommon.ExpFilterInit | Project/utils/math/math_common.c:93-101 | a null filter is left alone; otherwise alpha is clamped into [0, 1] (kept when already there, 0 below, 1 above), the last value is the initial one and the filter is marked initialised |
| MathCommon.ExpFilterUpdate | Project/utils/math/math_common.c:104-118 | a null filter echoes the input; the first sample seeds it; afterwards the output lies between the new sample and the previous output and becomes the stored value |
| MathCommon.BlendBetween | Project/utils/math/math_common.c:104-118 | a blend with weight in [0, 1] lies between its two inputs |
| MathCommon.ExpFilterExtremes | Project/utils/math/math_common.c:104-118 | alpha 1 follows the input exactly, alpha 0 holds the previous value |
| MathBits.BitsCount | Project/utils/math/math_bits.c:5-12 | the count is the number of set bits of n, at most 32 |
| MathBits.PopcountBound | Project/utils/math/math_bits.c:5-12 | a value below 2^k has at most k set bits |
| MathBits.Clz | Project/utils/math/math_bits.c:15-29 | 32 for zero; otherwise n lies in [2^(31-c), 2^(32-c)), i.e. exactly c leading zeros |
| MathBits.Ctz | Project/utils/math/math_bits.c:32-44 | 32 for zero; otherwise 2^c divides n and bit c is set, i.e. exactly c trailing zeros |
| MathBits.TrailingZerosOddPart | Project/utils/math/math_bits.c:32-44 | the reference trailing-zero count names a set bit below which n is divisible |
| MathBits.Log2Floor | Project/utils/math/math_bits.c:47-59 | 0 for zero; otherwise 2^log <= n < 2^(log+1) |
| MathBits.Log2Bounds | Project/utils/math/math_bits.c:47-59 | the reference floor logarithm brackets n between consecutive powers of two |
| MathBits.Log2Ceil | Project/utils/math/math_bits.c:62-73 | 0 for n <= 1; otherwise 2^(log-1) < n <= 2^log |
| MathBits.Log2Less | Project/utils/math/math_bits.c:47-59 | a value below 2^k has floor logarithm below k |
| MathBits.NextPow2 | Project/utils/math/math_bits.c:76-90 | 1 for zero; for n up to 2^31 the least power of two at or above n; above 2^31 the 32-bit result wraps to 0 |
| MathBits.TopBit | Project/utils/math/math_bits.c:76-90 | with the bits above k clear, bit k is set exactly when n reaches 2^k (the smearing step's basis) |
| MathBits.BitAdd | Project/utils/math/math_bits.c:76-90 | OR-ing in a clear bit adds 2^k and moves no other bit |
| MathBits.BitSub | Project/utils/math/math_bits.c:76-90 | clearing a set bit subtracts 2^k and moves no other bit |
| MathBits.EuclidStep | Project/utils/math/math_bits.c:93-108 | (a, b) and (b, a mod b) have the same common divisors, the invariant of the remainder loop |
| MathBits.Gcd | Project/utils/math/math_bits.c:93-108 | gcd(0, b) = b, gcd(a, 0) = a; otherwise a common divisor of a and b that every common divisor divides |
| MathBits.Lcm | Project/utils/math/math_bits.c:111-117 | 0 when either argument is 0; without 32-bit overflow a common multiple of a and b no larger than a·b |
| MathBits.LcmCommonMultiple | Project/utils/math/math_bits.c:111-117 | (a / gcd) · b is a multiple of both a and b |
| MathAngle.WrapInto | Project/utils/math/math_angle.c:5-11 | fmodf then a shift by m lands in [0, m), congruent to x, and leaves values already there alone |
| MathAngle.TurnsDown | Project/component/move.cpp:293-295 | subtracting whole turns while above PI ends at or below PI, congruent to the input, and changes nothing at or below PI |
| MathAngle.NormalizeRadian0To2Pi | Project/utils/math/math_angle.c:5-11 | the result is in [0, 2PI), congruent to the angle, and equal to it when already in range |
| MathAngle.NormalizeRadianPi | Project/utils/math/math_angle.c:14-20 | the result is in [-PI, PI), congruent to the angle, and equal to it when already in range |
| MathAngle.NormalizeAngle0To360 | Project/utils/math/math_angle.c:23-29 | the result is in [0, 360), congruent modulo 360, identity on that range |
| MathAngle.NormalizeAngle180 | Project/utils/math/math_angle.c:32-38 | the result is in [-180, 180), congruent modulo 360, identity on that range |
| MathAngle.AngleDiffRad | Project/utils/math/math_angle.c:41-47 | the signed shortest turn from a to b: in [-PI, PI) and congruent to b - a |
| MathAngle.AngleDiffDeg | Project/utils/math/math_angle.c:50-56 | the signed shortest turn in degrees: in [-180, 180) and congruent to b - a |
| MathAngle.NormalizeIdempotent | Project/utils/math/math_angle.c:5-38 | each normaliser applied twice equals applied once |
| MathAngle.NormalizeRadianPiUnique | Project/utils/math/math_angle.c:14-20 | any value in [-PI, PI) congruent to the angle is the normaliser's result, so it is the unique representative |
| MathAngle.NormalizeAngle0To360Unique | Project/utils/math/math_angle.c:23-29 | any value in [0, 360) congruent to the angle is the normaliser's result |
| MathAngle.CongruentUnique | Project/utils/math/math_angle.c:5-38 | two congruent values in one window of width m are equal |
| MathAngle.AngleDiffDegAntisymmetric | Project/utils/math/math_angle.c:50-56 | swapping the arguments negates the difference away from the seam, and an angle is 0 from itself |
| MathAngle.Atan2 | Project/utils/math/math_angle.c:59-71 | near-vertical inputs give +PI/2, -PI/2 or 0 by the sign of y; otherwise the library atan2f |
| MathAngle.Atan2VerticalOdd | Project/utils/math/math_angle.c:59-71 | on the vertical special cases the result is odd in y and within [-PI/2, PI/2] |
| MathAngle.AngleLerp | Project/utils/math/math_angle.c:74-83 | t outside (0, 1) gives the endpoint; inside, the result is less than PI away from a |
| MathAngle.AngleLerpAlongShorterArc | Project/utils/math/math_angle.c:78-82 | strictly inside (0, 1) the result moves from a in the direction of the shortest signed difference to b, and no further than that difference |
| SortSpec.RankOfSorted | Project/utils/math/math_sort.cpp:382-402 | in a sorted sequence the element of rank k is exactly the k-th entry, in both directions |
| SortSpec.SortedOf | Project/utils/math/math_sort.cpp:352-379 | the reference sort: a sorted permutation of its input |
| SortSpec.RankIsSortedOf | Project/utils/math/math_sort.cpp:382-402 | a value has rank k exactly when it is the k-th entry of the sorted arrangement |
| SortSpec.SortedUnique | Project/utils/math/math_sort.cpp:31-241 | any sorted permutation of a sequence equals the reference sort, so every sorting routine agrees with it |
| SortSpec.CountPermutation | Project/utils/math/math_sort.cpp:382-402 | permutations have the same number of elements below any value |
| SortBasic.Swap | Project/utils/math/math_sort.cpp:18-22 | the two positions exchange their values, everything else stays, and the contents are a permutation |
| SortBasic.BubbleSort | Project/utils/math/math_sort.cpp:31-48 | the result is sorted and a permutation of the input |
| SortBasic.InsertionSortRange | Project/utils/math/math_sort.cpp:51-67 | the range becomes sorted, the rest is untouched, and the contents are a permutation |
| SortBasic.InsertOne | Project/utils/math/math_sort.cpp:57-66 | one outer step extends the sorted prefix by one element, permuting only that prefix |
| SortBasic.InsertionSort | Project/utils/math/math_sort.cpp:51-67 | the result is sorted and a permutation of the input |
| SortBasic.SelectionSort | Project/utils/math/math_sort.cpp:70-86 | the result is sorted and a permutation of the input |
| SortBasic.ReversedInvolution | Project/utils/math/math_sort.cpp:343-349 | reversing twice gives back the sequence |
| SortBasic.Reverse | Project/utils/math/math_sort.cpp:343-349 | entry i of the result is entry n-1-i of the input |
| SortQuick.Partition | Project/utils/math/math_sort.cpp:89-102 | the pivot (the last element) lands at p with everything before it at most the pivot and everything after it above, the range permuted and the outside untouched |
| SortQuick.PartitionScan | Project/utils/math/math_sort.cpp:92-99 | the scan keeps a[lo..i] at most the pivot and a(i..hi) above it |
| SortQuick.QuickSortRange | Project/utils/math/math_sort.cpp:105-138 | the inclusive range becomes sorted, permuted in place, with the outside untouched |
| SortQuick.QuickSort | Project/utils/math/math_sort.cpp:141-151 | the result is sorted and a permutation of the input |
| SortQuick.KthElement | Project/utils/math/math_sort.cpp:382-402 | an index past the end gives 0 and leaves the array; otherwise the result is the element of rank k, found at position k of a permutation of the array |
| SortQuick.Median | Project/utils/math/math_sort.cpp:352-379 | null or empty gives 0, one element gives it, a failed buffer allocation gives the first element; otherwise the middle of the sorted copy, or the mean of the two middle entries for an even count |
| SortHeap.Largest | Project/utils/math/math_sort.cpp:155-163 | the chosen index is i or a child inside the heap and holds the largest of the three |
| SortHeap.Heapify | Project/utils/math/math_sort.cpp:154-169 | sifting down makes the subtree at i a max-heap, touching only that subtree and permuting it |
| SortHeap.HeapRootMax | Project/utils/math/math_sort.cpp:172-187 | the root of a max-heap is its largest element |
| SortHeap.ExtractRoot | Project/utils/math/math_sort.cpp:183-186 | moving the root behind the heap keeps a heap in front of a sorted tail whose entries bound the heap from above |
| SortHeap.HeapSort | Project/utils/math/math_sort.cpp:172-187 | the result is sorted and a permutation of the input |
| SortMerge.MergePermutation | Project/utils/math/math_sort.cpp:190-212 | merging keeps exactly the elements of both runs |
| SortMerge.MergeSorted | Project/utils/math/math_sort.cpp:190-212 | merging two sorted runs gives a sorted run |
| SortMerge.MergeRuns | Project/utils/math/math_sort.cpp:190-212 | the array has the merge of the two adjacent runs in their place and is otherwise unchanged |
| SortMerge.MergeInto | Project/utils/math/math_sort.cpp:194-209 | the scratch buffer receives the merge of the two runs |
| SortMerge.MergeSortRange | Project/utils/math/math_sort.cpp:215-223 | the inclusive range becomes sorted and permuted, the outside is untouched |
| SortMerge.MergeSort | Project/utils/math/math_sort.cpp:226-241 | the result is a permutation; it is sorted unless the scratch buffer for more than ten elements could not be had, in which case the array is unchanged |
| SortCounting.CountingSort | Project/utils/math/math_sort.cpp:244-270 | the result is a permutation; it is sorted unless there is at most one element, the range is empty or the tally buffer failed, in which cases the array is unchanged |
| SortCounting.BucketsPermutation | Project/utils/math/math_sort.cpp:273-299 | a digit pass's buckets, laid end to end, hold exactly the input |
| SortCounting.DigitPass | Project/utils/math/math_sort.cpp:273-299 | with its buffers a pass returns the input stably grouped by the current digit; without them it leaves the array |
| SortCounting.BucketsSortedMod | Project/utils/math/math_sort.cpp:273-299 | after a stable pass on digit e, the values are ordered by their residue modulo 10e |
| SortCounting.RadixPass | Project/utils/math/math_sort.cpp:328-330 | one iteration of the digit loop keeps a permutation and extends the ordering to the next decimal digit |
| SortCounting.RadixSort | Project/utils/math/math_sort.cpp:302-340 | the result is a permutation; it is sorted unless a buffer allocation failed, in which case the array is unchanged |
| SortCounting.Extremes | Project/utils/math/math_sort.cpp:305-318 | the two scans return a smallest and a largest element of the array, both taken from it |
| SortCounting.DigitPasses | Project/utils/math/math_sort.cpp:329-331 | one counting pass per decimal weight up to the maximum sorts a non-negative array as a permutation of it, and leaves it untouched when allocation fails |
| SortSearch.BinarySearch | Project/utils/math/math_sort.cpp:405-424 | a non-negative answer indexes the value; on a sorted array the answer is -1 exactly when the value is absent |
| SortSearch.BinarySearchLeft | Project/utils/math/math_sort.cpp:427-446 | on a sorted array: the first index whose entry is at least the value, or -1 when every entry is below it |
| SortSearch.BinarySearchRight | Project/utils/math/math_sort.cpp:449-468 | on a sorted array: the last index whose entry is at most the value, or -1 when every entry is above it |
| MathMatrix.Create | Project/utils/math/math_matrix.c:8-29 | a matrix exists exactly when both dimensions are positive and the allocation succeeds, with the requested shape |
| MathMatrix.CreateFromArray | Project/utils/math/math_matrix.c:31-47 | fails on a null array, a zero dimension or a failed allocation; otherwise the matrix holds the array's first rows*cols entries in row-major order |
| MathMatrix.Zeros | Project/utils/math/math_matrix.c:49-55 | every entry of the created matrix is 0 |
| MathMatrix.Ones | Project/utils/math/math_matrix.c:57-65 | every entry of the created matrix is 1 |
| MathMatrix.Identity | Project/utils/math/math_matrix.c:67-75 | a square matrix with 1 on the diagonal and 0 elsewhere |
| MathMatrix.Get | Project/utils/math/math_matrix.c:91-97 | the entry at (row, col) for an in-range index; 0 for a null matrix or an index out of range |
| MathMatrix.Set | Project/utils/math/math_matrix.c:99-105 | an in-range write changes exactly that entry and keeps the shape; a null matrix or an out-of-range index is left unchanged |
| MathMatrix.Index | Project/utils/math/math_matrix.c:107-113 | the row-major offset of an in-range entry, which reads that entry and maps back to (row, col); 0 otherwise |
| MathMatrix.GetRow | Project/utils/math/math_matrix.c:115-121 | the first cols slots of the destination hold the row, the rest are untouched; nothing happens on a null argument or a bad row |
| MathMatrix.GetCol | Project/utils/math/math_matrix.c:123-131 | the first rows slots of the destination hold the column, the rest are untouched; nothing happens on a null argument or a bad column |
| MathMatrix.Copy | Project/utils/math/math_matrix.c:135-141 | with matching shapes the destination reads like the source at every index; otherwise it is unchanged |
| MathMatrix.TransposeOf | Project/utils/math/math_matrix.c:143-153 | the transpose has swapped dimensions and entry (j, i) equal to the original's (i, j) |
| MathMatrix.TransposeInvolution | Project/utils/math/math_matrix.c:143-153 | transposing twice gives back the matrix |
| MathMatrix.Transpose | Project/utils/math/math_matrix.c:143-153 | a destination of the swapped shape receives the transpose; a mismatched or null argument leaves it unchanged |
| MathMatrix.Determinant | Project/utils/math/math_matrix.c:283-352 | 0 for a null or non-square matrix; the entry itself for 1x1; for 2x2 and 3x3 the Laplace cofactor expansion along the first row |
| MathMatrix.Det2Agrees | Project/utils/math/math_matrix.c:262-264 | the 2x2 closed form equals the cofactor-expansion determinant |
| MathMatrix.Det3Agrees | Project/utils/math/math_matrix.c:267-279 | the 3x3 rule of Sarrus as written equals the cofactor-expansion determinant |
| MathMatrix.NormInf | Project/utils/math/math_matrix.c:508-525 | the infinity norm is non-negative, at least every row's absolute sum, and equal to one of them; 0 for a null matrix |
| MathMatrix.RowSum | Project/utils/math/math_matrix.c:516-518 | the loop accumulates exactly the absolute sum of the row |
| MathMatrix.AccessExample | Project/utils/math/math_matrix.c:91-131 | on the 3x3 matrix 1..9: diagonal 1, 5, 9; out of range reads 0; index (1,2) is 5; row 1 is 4,5,6 and column 1 is 2,5,8 |
| MathMatrix.DeterminantExample | Project/utils/math/math_matrix.c:267-279 | the tridiagonal matrix (4,1,0 / 1,4,1 / 0,1,4) has determinant 56 |
| MathMatrix.NormInfExample | Project/utils/math/math_matrix.c:508-525 | the 2x2 matrix (3, 4 / 5, 6) has infinity norm 11: its row sums of absolute values are 7 and 11, and the larger is returned |
| MathQuaternion.SetIdentity | Project/utils/math/math_quaternion.cpp:282-287 | afterwards the quaternion is (1, 0, 0, 0) and isIdentity holds |
| MathQuaternion.ApproxEqualProperties | Project/utils/math/math_quaternion.cpp:151-156 | approximate equality is reflexive and symmetric, and isIdentity is approximate equality with the identity |
| MathQuaternion.AddSubInverse | Project/utils/math/math_quaternion.cpp:126-132 | subtraction undoes addition in both orders, and addition commutes |
| MathQuaternion.MulIdentity | Project/utils/math/math_quaternion.cpp:134-141 | the identity is a two-sided unit of the Hamilton product |
| MathQuaternion.MulScaleRight | Project/utils/math/math_quaternion.cpp:134-145 | scaling the right factor scales the product |
| MathQuaternion.MulScaleLeft | Project/utils/math/math_quaternion.cpp:134-149 | scaling the left factor scales the product |
| MathQuaternion.Conjugate | Project/utils/math/math_quaternion.cpp:111-113 | the product with the conjugate on either side is the real squared norm, and the norm is kept |
| MathQuaternion.ConjugateInvolution | Project/utils/math/math_quaternion.cpp:111-113 | conjugating twice gives back the quaternion, and the conjugate of a product is the reversed product of conjugates |
| MathQuaternion.Inverse | Project/utils/math/math_quaternion.cpp:115-123 | a near-zero quaternion yields the identity; otherwise the result is a two-sided multiplicative inverse |
| MathQuaternion.Slerp | Project/utils/math/math_quaternion.cpp:235-270 | t at or below 0 gives the first quaternion, at or above 1 the second; strictly between them, the great-circle value supplied as a parameter |
| Spl06.Median3 | Project/device/spl06.cpp:125-131 | the value returned is a median of the three: one of them, with at least two no larger and two no smaller |
| Spl06.Median3Symmetric | Project/device/spl06.cpp:125-131 | the median does not depend on the order of the three slots |
| Spl06.MedianUnique | Project/device/spl06.cpp:125-131 | any value with the median property is the one returned |
| Spl06.FilterStep | Project/device/spl06.cpp:492-524 | the ready flag latches when the index wraps; before that the input is stored and passed through; once ready, a reading within the glitch threshold of the previous slot is stored and the median of the buffer returned, and a glitch returns the previous slot with buffer and index kept |
| Spl06.ReadyStays | Project/device/spl06.cpp:492-524 | once ready the filter stays ready |
| Spl06.WarmUp | Project/device/spl06.cpp:492-524 | from the zeroed state the first two readings pass through unchanged and the third call finds the filter ready |
| Spl06.IndexCycles | Project/device/spl06.cpp:492-524 | an accepted reading advances the index round 0, 1, 2 |
| Spl06.Raw24 | Project/device/spl06.cpp:419-427 | three big-endian bytes read as a 24-bit two's-complement value: in range, negative exactly when the top byte's high bit is set, and congruent to the unsigned 24-bit number |
| Spl06.OrIsPlus24 | Project/device/spl06.cpp:423-425 | OR-ing the shifted bytes equals adding them, and the 0xFF000000 sign fill equals adding it |
| Spl06.DecodeCalib | Project/device/spl06.cpp:161-181 | C0 and C1 come out as 12-bit, C00 and C10 as 20-bit and the rest as 16-bit signed values |
| Spl06.DecodeEncode | Project/device/spl06.cpp:161-181 | every in-range coefficient set has an 18-byte block that decodes back to it, so the decode loses nothing |
| Spl06.PressureScale | Project/device/spl06.cpp:192-203 | the datasheet scale factor for codes 0..7 and 516096 for any other code |
| Spl06.TemperatureScale | Project/device/spl06.cpp:206-217 | the datasheet scale factor for codes 0..7 and 1572864 for any other code |
| Spl06.CfgReg | Project/device/spl06.cpp:219-231 | the CFG_REG byte has the pressure shift bit iff pressure oversampling exceeds 8x, the temperature bit iff temperature oversampling does, and no other bit |
| Spl06.InitConfiguration | Project/device/spl06.cpp:185-231 | 32x pressure and 2x temperature oversampling give kP 516096, kT 1572864 and only the pressure shift bit |
| Spl06.PressureToAltitude | Project/device/spl06.cpp:448-456 | a non-positive pressure gives altitude 0 |
| Spl06.AltitudeFallsWithPressure | Project/device/spl06.cpp:448-456 | with a power function increasing in its base, a higher pressure never gives a higher altitude, and 101325 Pa gives 0 m |
| Spl06Old.BaroMedianFilter | Project/temp/spl06_old.c:301-342 | the older filter, with threshold 1000, makes exactly the steps of the newer one |
| Spl06Old.GlitchKeepsState | Project/temp/spl06_old.c:322-335 | on a glitch the old filter returns the previous slot and leaves buffer and index alone |
| Spl06Old.GetRaw24 | Project/temp/spl06_old.c:235-245 | the byte sum with the 0xFF000000 fill reads the same 24-bit signed value as the newer driver |
| Spl06Old.DecodeCalib | Project/temp/spl06_old.c:46-57 | joining the fields with + and sign-extending by mask gives the newer driver's coefficients, all in range |
| Spl06Old.CfgOversampling | Project/temp/spl06_old.c:186-223 | a known code sets the scale factor and an unknown one keeps the previous factor; the shift bit is added iff oversampling exceeds 8x and no other CFG_REG bit changes |
| Spl06Old.ScalesAgree | Project/temp/spl06_old.c:147-223 | for the eight known codes both setters choose the same factors as the newer driver |
| Spl06Old.PressureToAltitude | Project/temp/spl06_old.c:260-278 | a non-positive pressure gives altitude 0 |
| Lidar.Create | Project/device/lidar.cpp:6-38 | the constructed parser waits for the first header byte with all counters zero, no valid data and the given pose frequency |
| Lidar.Init | Project/device/lidar.cpp:46-59 | back to waiting for a header with counters cleared and data invalid, the position filter kept |
| Lidar.SetPoseFrequency | Project/device/lidar.cpp:121-125 | the frequency takes the new value exactly when it lies in (0, 1000] Hz; nothing else changes |
| Lidar.SetVelocityLowpassAlpha | Project/device/lidar.cpp:128-132 | the coefficient takes the new value exactly when it lies in [0, 1], so it always stays in [0, 1]; nothing else changes |
| Lidar.NextReceiveLength | Project/device/lidar.cpp:153-169 | while receiving a payload the DMA asks for exactly the bytes still missing, otherwise for one byte |
| Lidar.SumBounds | Project/device/lidar.cpp:346-383 | a window's sum lies between the count times its minimum and the count times its maximum |
| Lidar.SumAboveMaxPlusMins | Project/device/lidar.cpp:367-379 | the sum holds one maximum plus at least the minimum for every other sample, and at most the maximum for every other |
| Lidar.MeanBetween | Project/device/lidar.cpp:352-358 | the plain mean of a non-empty window lies between its extremes |
| Lidar.TrimmedMeanBetween | Project/device/lidar.cpp:360-382 | with one maximum and one minimum dropped, the mean still lies between the extremes |
| Lidar.FilteredPosition | Project/device/lidar.cpp:346-383 | 0 with no sample; otherwise, plain or trimmed, the filtered position lies between the smallest and largest buffered sample |
| Lidar.GetFilteredPosition | Project/device/lidar.cpp:346-383 | the single loop keeping a running sum, minimum and maximum computes the filtered position |
| Lidar.SumMinMax | Project/device/lidar.cpp:361-375 | the loop ends holding exactly the sum, the minimum and the maximum of the buffered samples |
| Lidar.UpdatePositionFilter | Project/device/lidar.cpp:333-344 | the sample lands in the current slot of each axis buffer, the index moves on round ten slots, the count saturates at ten, and nothing else changes |
| Lidar.FeedFills | Project/device/lidar.cpp:333-344 | feeding samples into a filter that does not overflow appends them after the existing ones and keeps those |
| Lidar.ParsePose | Project/device/lidar.cpp:258-331 | a complete payload decodes into the pose, counts a pose packet and feeds the filter; an incomplete one only counts an error; the IMU side and the framing state are untouched |
| Lidar.ParseImu | Project/device/lidar.cpp:386-400 | the decoded attitude replaces the IMU data, which becomes valid, and the IMU counter advances; nothing else changes |
| Lidar.ProcessByte | Project/device/lidar.cpp:204-255 | a byte is rejected exactly on a bad second header or an unknown command, resetting to the header wait; stray bytes before a header are ignored; payload bytes are stored in order; the footer byte always ends the frame and a wrong footer counts an error |
| Lidar.ProcessReceivedData | Project/device/lidar.cpp:194-201 | a batch stops right after the first rejected byte and is consumed in full otherwise; a rejection leaves the parser waiting for a header |
| Lidar.RejectedByte | Project/device/lidar.cpp:194-201 | when a batch stops, every byte before the last one looked at was accepted and the last one was rejected |
| Lidar.StopsAtRejection | Project/device/lidar.cpp:194-201 | bytes after a rejection in the same batch change nothing |
| Lidar.AcceptedSplit | Project/device/lidar.cpp:194-201 | a batch accepted in full acts like its two halves delivered one after the other |
| Lidar.PayloadFill | Project/device/lidar.cpp:232-237 | the remaining payload bytes are stored in order and leave the parser waiting for the footer |
| Lidar.HeaderAccepted | Project/device/lidar.cpp:206-230 | the two header bytes and a known command open a payload at index 0 |
| Lidar.FooterAccepted | Project/device/lidar.cpp:239-251 | the footer after a full payload dispatches to the parser of the frame's command and returns to the header wait |
| Lidar.PoseFrameRoundTrip | Project/device/lidar.cpp:204-331 | a whole 16-byte pose frame is accepted, counted once, and its pose is the decoded payload with the error count and IMU side unchanged |
| Lidar.PoseFooter | Project/device/lidar.cpp:239-251 | the footer closing a full pose payload counts the packet and decodes the pose |
| Lidar.ImuFrameRoundTrip | Project/device/lidar.cpp:204-255 | a whole 16-byte IMU frame is accepted, counted once, and its attitude is the decoded payload with the pose side unchanged |
| OpticalFlow.Decode | Project/device/up_t201.cpp:254-272 | the flow fields are signed 16-bit counts over 10000, time and distance are unsigned 16-bit, the data is valid exactly when byte 8 is 0xF5, and the confidence is byte 9 |
| OpticalFlow.DecodeEncode | Project/device/up_t201.cpp:254-272 | decoding the payload that carries given field values gives back exactly those values, scaled |
| OpticalFlow.Displacement | Project/device/up_t201.h:27-33 | invalid data or zero height gives 0; for valid data above the ground the displacement has the sign of the flow |
| OpticalFlow.Create | Project/device/up_t201.cpp:4-18 | the constructed parser waits for a header with nothing counted |
| OpticalFlow.Reset | Project/device/up_t201.cpp:94-103 | the parser waits for a header with index, checksum and counters cleared and the clock read; the last data is kept |
| OpticalFlow.Store | Project/device/up_t201.cpp:204-213 | a payload byte is stored at the index and folded into the XOR checksum, and the tenth byte moves on to the checksum |
| OpticalFlow.Step | Project/device/up_t201.cpp:185-241 | a packet is reported exactly for a footer after a good checksum with a successful parse, which decodes the payload, counts the packet and stamps the time; a bad length, checksum, footer or parse counts one error and returns to the header wait; every footer byte ends the frame |
| OpticalFlow.RunSplit | Project/device/up_t201.cpp:178-250 | the byte stream can be cut anywhere: feeding two pieces in turn equals feeding them joined, and the packets add up |
| OpticalFlow.PayloadFill | Project/device/up_t201.cpp:204-213 | the remaining payload bytes are stored in order with their XOR as the checksum, leaving the parser waiting for the checksum |
| OpticalFlow.HeaderAccepted | Project/device/up_t201.cpp:186-202 | header and length bytes open an empty payload with a cleared checksum |
| OpticalFlow.FrameRoundTrip | Project/device/up_t201.cpp:185-241 | a well-formed 14-byte frame yields one packet whose data is the decoded payload, with no error counted |
| OpticalFlow.BadChecksumRejected | Project/device/up_t201.cpp:215-224 | a frame whose checksum byte is not the payload XOR yields no packet, counts one error and leaves the data alone |
| OpticalFlow.UpdateFrequency | Project/device/up_t201.cpp:312-323 | 0 Hz when no tick has elapsed, otherwise the reciprocal of the elapsed milliseconds times 1000 |
| Upt20x.ProcessByteAsWritten | Project/device/upt20x.cpp:168-187 | a good footer reports the packet but leaves the parser in the footer state; every other byte acts as the shared parser step |
| Upt20x.NextHeaderLostAsWritten | Project/device/upt20x.cpp:168-187 | after a good packet the next frame's header and length bytes are misread and counted as an error, where the corrected parser opens the payload |
| Upt20x.ProcessByte | Project/device/upt20x.cpp:123-188 | the corrected step returns to the header wait after every footer and reports exactly the good packets |
| Upt20x.ConsecutiveFrames | Project/device/upt20x.cpp:123-188 | with the correction two back-to-back frames both arrive, the second one's data is kept, and no error is counted |
| Upt20x.Init | Project/device/upt20x.cpp:35-49 | the parser waits for a header with counters cleared and the clock read |
| UpT201.ParsePacket | Project/device/up_t201.cpp:254-293 | succeeds exactly when the mutex is acquired, replacing the shared data with the decoded payload; otherwise the data is kept |
| UpT201.ProcessSerialByte | Project/device/up_t201.cpp:185-241 | a footer byte always returns to the header wait; a good footer counts a packet when the parse succeeds and an error when it does not |
| UpT201.Start | Project/device/up_t201.cpp:84-123 | a running driver is left alone and reports success; a failed serial start changes nothing and fails; otherwise the parser and counters are reset and the result follows the thread creation |
| Ws2812.Reload | Project/device/ws2812.cpp:17-19 | the auto-reload value makes one timer period the nearest 800 kHz bit time from below: (arr + 1) bit periods fit the clock and (arr + 2) do not; a clock slower than 800 kHz wraps to 2^32 - 1 |
| Ws2812.Init | Project/device/ws2812.cpp:7-36 | without a timer or with a zero clock nothing changes; otherwise the reload value is set, the one and zero compare values are 70 % and 30 % of it, so a zero bit is never longer than a one bit, and the buffer is cleared |
| Ws2812.DutyOrdered | Project/device/ws2812.cpp:31-32 | the zero-bit compare value never exceeds the one-bit compare value |
| Ws2812.ToBitsShift | Project/device/ws2812.cpp:73-75 | slot base - i carries bit i of the byte, so the most significant bit goes out first |
| Ws2812.BitsRoundTrip | Project/device/ws2812.cpp:73-75 | reading the bits of a byte back most significant first gives the byte |
| Ws2812.Clamp255 | Project/device/ws2812.cpp:48-50 | a channel value above 255 is cut to 255 and any other passes unchanged |
| Ws2812.Paint | Project/device/ws2812.cpp:73-75 | the eight slots ending at the base carry the byte's bits as one and zero compare values, and every other slot and the timer settings are unchanged |
| Ws2812.SetColor | Project/device/ws2812.cpp:40-79 | an uninitialised driver is initialised first; without a timer nothing is written; otherwise the clamped green, red and blue bytes fill slots 230-237, 238-245 and 246-253 and nothing else changes |
| Ws2812.ColorRoundTrip | Project/device/ws2812.cpp:40-79 | reading the colour slots back gives the clamped green, red and blue values |
| Ws2812.ByteRoundTrip | Project/device/ws2812.cpp:73-75 | a painted byte reads back as itself |
| Scheduler.Create | Project/module/scheduler.cpp:9-21 | a new scheduler is uninitialised, has no tasks, the next id 1 and obstructed mode |
| Scheduler.Init | Project/module/scheduler.cpp:56-112 | initialisation succeeds exactly when a timer and a non-zero period are present, the queues exist or can be created, and the timer starts; success empties the task list and keeps pending requests and the id counter, failure keeps the tasks |
| Scheduler.GenerateTaskId | Project/module/scheduler.cpp:129-136 | 0 exactly when uninitialised; otherwise the counter's value, with 0 skipped, and the counter moves one on modulo 2^32 |
| Scheduler.IdsAdvance | Project/module/scheduler.cpp:129-136 | two ids drawn in a row from an initialised scheduler are both non-zero and different |
| Scheduler.AddTask | Project/module/scheduler.h:129-160 | a non-zero id is returned exactly when the scheduler is initialised, the node is allocated and the request is queued; the queued node has that id, the given period or the base period for 0, and a zeroed counter; the list itself is untouched |
| Scheduler.RemoveTask | Project/module/scheduler.cpp:139-155 | succeeds exactly for a non-zero id on an initialised scheduler whose queue accepts the request, which is then queued; otherwise nothing changes |
| Scheduler.ClearAllTasks | Project/module/scheduler.cpp:158-171 | succeeds exactly on an initialised scheduler whose queue accepts the request, which is then queued; otherwise nothing changes |
| Scheduler.IndexOf | Project/module/scheduler.cpp:197-222 | the position of the first task with the id, or the length when there is none |
| Scheduler.Unlink | Project/module/scheduler.cpp:197-222 | the pointer walk removes a task exactly when one has the id, and then removes just the first such task |
| Scheduler.Apply | Project/module/scheduler.cpp:183-240 | an add puts its node at the head; a null node or id 0 changes nothing; a remove drops the first task with the id and shortens the list by one exactly when such a task exists; a clear empties the list; the count is always the list length |
| Scheduler.ProcessRequestQueue | Project/module/scheduler.cpp:175-243 | an uninitialised scheduler is left alone; otherwise every queued request is applied in order and the queue is emptied |
| Scheduler.AddThenRemove | Project/module/scheduler.cpp:183-224 | adding a task with a fresh id and then removing that id restores the list and count |
| Scheduler.TaskTick | Project/module/scheduler.cpp:256-266 | a task runs exactly when its counter plus the base period reaches its period; the counter then restarts at 0, else it grows by the base period |
| Scheduler.TimerCallback | Project/module/scheduler.cpp:246-286 | nothing happens when uninitialised or for another timer; otherwise the requests are applied first and then every task ticks once, in list order, reporting the tasks that ran |
| Scheduler.TicksSplit | Project/module/scheduler.cpp:256-266 | a run of ticks can be split anywhere, the runs adding up |
| Scheduler.Interval | Project/module/scheduler.cpp:256-266 | a task runs every ceiling(period / base period) ticks, at least one |
| Scheduler.NoEarlyRun | Project/module/scheduler.cpp:256-266 | before that many ticks a fresh task has not run and its counter is the ticks times the base period |
| Scheduler.FirstRun | Project/module/scheduler.cpp:256-266 | at exactly that many ticks a fresh task runs once and its counter is back at 0 |
| Scheduler.Periodic | Project/module/scheduler.cpp:256-266 | over m such intervals a fresh task runs exactly m times |
| Scheduler.SetPeriod | Project/module/scheduler.cpp:293-297 | a zero period is refused and changes nothing; otherwise the base period is set and the scheduler re-initialised |
| NrfResponse.UpdateBit | Project/task/taskNrfResponse.h:71-74 | within a field of the given width, the chosen bit becomes the requested value and every other bit is kept; a bit beyond the width changes nothing |
| NrfResponse.SetWarningBit | Project/task/taskNrfResponse.h:71-161 | setting a warning bit of one bit-field changes only that bit of that field, and leaves the watch values and string alone |
| NrfResponse.SetWarningBitIdempotent | Project/task/taskNrfResponse.h:71-161 | setting the same warning bit twice is the same as setting it once |
| NrfResponse.ClearAllWarnings | Project/task/taskNrfResponse.h:199-203 | every warning field reads 0 and nothing else changes |
| NrfResponse.ClearWatchValues | Project/task/taskNrfResponse.h:205-209 | the three watch values read 0 and nothing else changes |
| NrfResponse.SetGyro | Project/task/taskNrfResponse.h:179 | only the gyro watch value changes, to the given pattern |
| NrfResponse.SetOpenmvLeft | Project/task/taskNrfResponse.h:180 | only the left OpenMV watch value changes |
| NrfResponse.SetOpenmvRight | Project/task/taskNrfResponse.h:181 | only the right OpenMV watch value changes |
| NrfResponse.SetString | Project/task/taskNrfResponse.h:184-189 | the string is always terminated in its last byte and holds the source text cut to at most 18 characters |
| NrfResponse.WarningsRoundTrip | Project/task/taskNrfResponse.h:8-39 | the 7 warning bytes, packed least significant bit first, decode back to the same bit-fields |
| NrfResponse.PackageRoundTrip | Project/task/taskNrfResponse.h:8-53 | the 32-byte package decodes back to the warnings, watch values and string it was built from |
| CommuCheck.UpdateRecovery | Project/task/taskCommuCheck.cpp:26-47 | a packet resets the time since the last packet; it extends the run of packets when one is under way and close enough, and starts a new run of 1 otherwise |
| CommuCheck.RxCallback | Project/task/taskCommuCheck.cpp:50-57 | a packet of the right size is stored and raises the receive flag; any other length changes nothing |
| CommuCheck.CheckNrf | Project/task/taskCommuCheck.cpp:79-128 | a connected link clears the flag on a packet and otherwise adds 5 ms, dropping with recovery cleared once silent longer than 250 ms; a dropped link feeds packets into recovery, reconnects after two close packets, and sends a dummy packet every poll |
| CommuCheck.NrfHoldsFor50 | Project/task/taskCommuCheck.cpp:92-101 | a connected link that hears nothing stays up for 50 polls, counting 5 ms each |
| CommuCheck.NrfDropsOn51st | Project/task/taskCommuCheck.cpp:92-101 | the 51st silent poll, 255 ms, drops the link and clears recovery |
| CommuCheck.SilenceDisconnected | Project/task/taskCommuCheck.cpp:111-115 | a dropped link only accumulates silent time |
| CommuCheck.NrfTwoPacketsReconnect | Project/task/taskCommuCheck.cpp:104-122 | from a dropped link a packet starts recovery, and a second packet reconnects exactly when it comes within 250 ms of the first |
| CommuCheck.PoseCallback | Project/task/taskCommuCheck.cpp:60-67 | a valid pose raises the pose flag and counts; a null or invalid one changes nothing |
| CommuCheck.ImuCallback | Project/task/taskCommuCheck.cpp:69-76 | a valid IMU sample raises the IMU flag and counts; a null or invalid one changes nothing |
| CommuCheck.SampleRates | Project/task/taskCommuCheck.cpp:136-151 | every 200th poll the rates become the counts since the last sample and the sample restarts; other polls only advance the counter |
| CommuCheck.SampledEvery200 | Project/task/taskCommuCheck.cpp:136-151 | after n polls the counter is n mod 200, so the rates are refreshed exactly on every 200th poll |
| CommuCheck.HandleFlags | Project/task/taskCommuCheck.cpp:153-183 | each flag is cleared and its silence timer reset on a packet or grown by 5 ms otherwise; only a dropped link feeds packets into recovery |
| CommuCheck.CheckLidar | Project/task/taskCommuCheck.cpp:130-212 | a connected lidar stays up exactly while both pose and IMU silences are within 500 ms; a dropped one comes back on any packet; each change of state clears recovery |
| CommuCheck.LidarStaysConnected | Project/task/taskCommuCheck.cpp:185-196 | a connected lidar that keeps receiving both streams stays connected |
| CommuCheck.Poll | Project/task/taskCommuCheck.cpp:216-236 | one poll checks both links and then sets the azimuth warning bit exactly when the lidar is down |
| Pid.Coefficients | Project/module/pid.cpp:9-47 | below the Nyquist limit the designed low-pass coefficients are used, otherwise the pass-through filter |
| Pid.Init | Project/module/pid.cpp:50-78 | the configuration is taken as given; target, measurement, errors, integral, differential, output and filter delays start at 0; the coefficients are the designed low-pass when the filter is on and the cutoff is below Nyquist, and the pass-through otherwise |
| Pid.SetTarget | Project/module/pid.cpp:80-83 | only the target changes |
| Pid.BiquadStep | Project/module/pid.cpp:86-94 | only the two filter delays change; the pass-through filter at rest returns its input and stays at rest |
| Pid.IntegralError | Project/module/pid.cpp:103-107 | an error inside the deadband contributes 0 to the integral, any other error itself |
| Pid.NextIntegral | Project/module/pid.cpp:109-128 | the integral moves only for PI/PID with non-zero ki and separation passed, and then ki times the integral lies within the integral limit; an error inside the deadband can only move the integral onto that limit |
| Pid.NextIntegralSettings | Project/module/pid.cpp:109-128 | the integral depends only on the integral settings, not on kp or kd |
| Pid.Limit | Project/module/pid.cpp:170-175 | the output is cut to [-maxOutput, maxOutput] and passes unchanged inside it |
| Pid.Differentiate | Project/module/pid.cpp:130-140 | for P and PI the differential is 0; for PD and PID it is the error change, filtered only when the filter is on and kd is non-zero |
| Pid.Update | Project/module/pid.cpp:97-182 | the error is target minus measurement, the output is limited, the last two errors shift, the integral follows the integral rule, and P/PI leave the differential at 0 and the filter state alone |
| Pid.ProportionalOnly | Project/module/pid.cpp:143-175 | a position-form P controller outputs kp times the error, limited |
| Pid.NoDifferentialTerm | Project/module/pid.cpp:130-164 | P and PI controllers behave the same whatever kd is |
| Pid.NoIntegralTerm | Project/module/pid.cpp:109-160 | P and PD controllers behave the same whatever ki is and never change the integral |
| Pid.IncrementalTelescopes | Project/module/pid.cpp:154-167 | for an incremental P controller that stays within its limit, two steps add kp times the total error change to the output |
| Pid.Reset | Project/module/pid.cpp:194-206 | errors, integral, differential, output and filter delays are zeroed; target, measurement, coefficients and configuration are kept |
| Pid.ResetAtTarget | Project/module/pid.cpp:194-206 | a reset controller measuring exactly its target outputs 0 in position form |
| Pid.ResetIdempotent | Project/module/pid.cpp:194-206 | resetting twice equals resetting once |
| Pid.ClearIntegral | Project/module/pid.cpp:208-211 | only the integral changes, to 0 |
| Pid.SetLimits | Project/module/pid.cpp:213-218 | a positive argument becomes its limit and a non-positive one leaves that limit unchanged, so positive limits stay positive; nothing else changes |
| Pid.SetErrorDeadband | Project/module/pid.cpp:220-223 | a non-negative deadband is taken as given and a negative one stores 0; nothing else changes |
| Pid.SetIntegralSeparation | Project/module/pid.cpp:225-228 | a non-negative threshold is taken as given and a threshold of 0 or less disables separation |
| Pid.SetAntiSaturation | Project/module/pid.cpp:230-233 | only the anti-windup switch changes |
| Pid.SetParams | Project/module/pid.cpp:267-272 | only the three gains change |
| Pid.InitDifferentialFilter | Project/module/pid.cpp:236-253 | the filter settings are stored and enabled, the delays cleared, and the coefficients designed or pass-through by the Nyquist test |
| Pid.SetDifferentialFilter | Project/module/pid.cpp:256-265 | the enable flag is stored; enabling with a positive cutoff also stores it and redesigns the coefficients |
| Pid.UpdateNullable | Project/module/pid.cpp:97-98 | a null controller yields 0 and nothing else; otherwise the update runs |
| Pid.ControllerUpdate | Project/module/pid.cpp:294-297 | the two-argument update sets the target first, then measures the error against it and limits the output |
| Odometer.NormalizeAngle | Project/temp/odometer.c:10-17 | the result lies in (-PI, PI] and differs from the input by a whole number of turns; an angle already in range is unchanged |
| Odometer.NormalizeUnique | Project/temp/odometer.c:10-17 | any in-range angle congruent to the input is the normalised one |
| Odometer.FindFreeSlot | Project/temp/odometer.c:20-28 | the first slot with id 0, or 0xFF exactly when every slot is taken |
| Odometer.FindSlotById | Project/temp/odometer.c:31-41 | the first slot holding the id, or 0xFF exactly when the id is 0 or held by no slot |
| Odometer.Init | Project/temp/odometer.c:49-61 | every slot is marked free with its other fields kept, the count is 0 and the next id is 1 |
| Odometer.CountUpdate | Project/temp/odometer.c:144-145 | writing one slot changes the number of used slots by exactly that slot's change of use |
| Odometer.NextId | Project/temp/odometer.c:141-142 | the id counter moves one on in 64 bits and skips 0 |
| Odometer.FreeSlotWhenRoom | Project/temp/odometer.c:127-138 | while the count is below 20 a free slot exists, so the free-slot search cannot fail after the count check |
| Odometer.AddAbsolute | Project/temp/odometer.c:120-156 | adding succeeds exactly when fewer than 20 frames exist; the first free slot gets the pose with its heading normalised and the current id, the count grows by one and the id counter advances; failure changes nothing |
| Odometer.AddRelative | Project/temp/odometer.c:163-205 | exactly an absolute add of the robot seen from the new frame: success exactly when fewer than 20 frames exist; the first free slot gets the rotated, negated offset, the negated heading normalised and the current id, the count grows by one, the id counter advances, and other slots are kept; failure changes nothing |
| Odometer.Delete | Project/temp/odometer.c:211-234 | deleting succeeds exactly for a non-zero id that some slot holds; that slot is zeroed, the count drops by one and the caller's id is set to 0; otherwise nothing changes |
| Odometer.AddThenDelete | Project/temp/odometer.c:120-234 | adding a frame and deleting the returned id restores the count and the slot ids |
| Odometer.Move | Project/temp/odometer.c:78-85 | a frame moves by the body displacement rotated by its own heading |
| Odometer.Update | Project/temp/odometer.c:67-89 | every used frame moves by the rotated displacement and turns by the normalised heading change, its heading renormalised; free slots, ids, count and id counter are untouched |
| Odometer.UpdateAbsoluteTheta | Project/temp/odometer.c:91-113 | every used frame moves by the rotated displacement and takes the normalised absolute heading; free slots, ids, count and id counter are untouched |
| Odometer.TransformToRobot | Project/temp/odometer.c:241-262 | an unknown id leaves the outputs as they were; otherwise the offset from the frame's position is rotated by the frame's heading (x' = dx cos + dy sin, y' = -dx sin + dy cos), the heading is the normalised difference from the frame's heading, and the frame's own position maps to the origin |
| Odometer.TransformToRobotInverts | Project/temp/odometer.c:253-260 | with sine and cosine on the unit circle, rotating the result back by the frame's heading and adding the frame's position recovers the point |
| Odometer.GetPosition | Project/temp/odometer.c:267-277 | an unknown id leaves the outputs as they were; otherwise the pose stored for that id |
| Odometer.AddThenGet | Project/temp/odometer.c:120-277 | the pose read back for a freshly added frame is the pose given, heading normalised |
| Chassis.New | Project/component/chassis.cpp:7-21 | a new chassis is not initialized, is in additive throttle mode with no additive part, and has all four motor outputs at 0 |
| Chassis.Constrain | Project/component/chassis.cpp:200-202 | the result stays in [lo, hi] and leaves values inside the range alone; with an inverted range the lower bound wins |
| Chassis.ConstrainIsClamp | Project/component/chassis.cpp:200-202 | for a proper range, the chassis limiter agrees with the shared clamp |
| Chassis.ClampThrottle | Project/component/chassis.cpp:139 | a throttle always lands in [0, 100]: in-range values are kept, low values go to 0 and high values to 100 |
| Chassis.MixInverse | Project/component/chassis.cpp:184-189 | the X-quad mix loses nothing: throttle, roll, pitch and yaw can all be recovered from the four motor values |
| Chassis.Mixer | Project/component/chassis.cpp:166-196 | there are four motor outputs, each in [0, 100]; with zero roll, pitch and yaw every motor gets the same clamped throttle |
| Chassis.MixerUnsaturated | Project/component/chassis.cpp:166-196 | while no motor saturates, the mixer output is the plain mix, so the clamped throttle and the three commands can be read back from it |
| Chassis.ThrottleInput | Project/component/chassis.cpp:130-139 | the mixer throttle is in [0, 100]: the clamped override in direct mode, or the clamped hover-plus-additive value in additive mode |
| Chassis.AdditiveHover | Project/component/chassis.h:174 | additive mode with no additive part flies at the hover throttle of 50 |
| Chassis.BodyFrame | Project/component/chassis.cpp:88-102 | moving to the body frame keeps roll and negates pitch and yaw |
| Chassis.BodyFrameInvolution | Project/component/chassis.cpp:88-102 | converting to the body frame twice gives back the IMU reading |
| Chassis.StepLoop | Project/component/chassis.cpp:107-128 | a missing PID keeps the previous command; a present one keeps its configuration, and its new output is the command, bounded by the PID's output limit |
| Chassis.StepLoops | Project/component/chassis.cpp:107-128 | each of roll, pitch and yaw is handled by its own guarded loop; no controller appears or disappears |
| Chassis.Drive | Project/component/chassis.cpp:145-149 | every present motor receives its output and null motors stay null |
| Chassis.Init | Project/component/chassis.cpp:23-52 | init succeeds exactly when the attitude manager, all four motors and all six PIDs are present; the initialized flag records that answer and nothing else changes |
| Chassis.SetThrottleOverride | Project/component/chassis.cpp:61-63 | only the override changes; the stored value is in [0, 100] and equals the argument when the argument is in range |
| Chassis.Update | Project/component/chassis.cpp:77-150 | an uninitialized chassis is left unchanged. Otherwise the body-frame attitude and rates are the converted IMU values, each angle error is the target minus the body angle (so pitch and yaw add the IMU value), the outputs are the mixer result for the mode's throttle, all in [0, 100], and every present motor receives its output |
| Chassis.Disarm | Project/component/chassis.cpp:152-164 | every output is 0, every present motor is commanded 0, and nothing else changes |
| Chassis.LevelDirectThrottle | Project/component/chassis.cpp:130-139 | in direct mode with level commands, after setThrottleOverride(t) all four motors get t limited to [0, 100] |
| Move.TurnsUp | Project/component/move.cpp:296-298 | an angle of at most PI is brought into [-PI, PI] by adding whole turns, and angles already at or above -PI are kept |
| Move.NormalizeAngle | Project/component/move.cpp:292-300 | the result is in the closed range [-PI, PI] and differs from the input by a whole number of turns; angles already in range are kept |
| Move.NormalizersAgree | Project/component/move.cpp:292-300 | this normaliser and the odometer's agree everywhere except at -PI, where the odometer answers PI because its range is (-PI, PI] |
| Move.WholeTurnsNormalizeToZero | Project/component/move.cpp:292-300 | an angle that is a whole number of turns normalises to exactly 0 |
| Move.Transform | Project/component/move.cpp:255-274 | z is carried over unchanged, and a zero yaw (cos 1, sin 0) leaves the vector as it is |
| Move.TransformKeepsLength | Project/component/move.cpp:263-272 | when cos² + sin² = 1 the ground-to-body transform keeps the planar length |
| Move.TransformInverse | Project/component/move.cpp:263-272 | when cos² + sin² = 1, rotating by the opposite angle undoes the transform |
| Move.New | Project/component/move.cpp:11-21 | a new controller is not initialized and starts in position mode |
| Move.Init | Project/component/move.cpp:23-62 | init succeeds exactly when the lidar, the chassis and all six PIDs are present; on success the targets are zero in position mode and the status is zero apart from the flag; on failure only the flag changes, to false |
| Move.SetTargetPosition | Project/component/move.cpp:64-69 | the position target is stored and position control is selected; the velocity target is untouched |
| Move.SetTargetVelocity | Project/component/move.cpp:71-76 | the velocity target is stored and velocity control is selected; the position target is untouched |
| Move.SetOffset | Project/component/move.cpp:191-196 | the position offset is stored as given; the yaw offset is stored in [-PI, PI] and equals the argument up to whole turns; nothing else changes |
| Move.SetCurrentAsOrigin | Project/component/move.cpp:205-221 | with a lidar, a chassis and a valid pose, the pose and the normalised chassis yaw become the offsets; otherwise nothing changes |
| Move.UpdateSensorData | Project/component/move.cpp:223-253 | a valid pose gives position = pose - offset, else the old position is kept; a valid velocity replaces the old one; the yaw is chassis yaw minus the yaw offset, in [-PI, PI] up to whole turns; the body velocity is the transformed ground velocity; without a lidar or a chassis nothing changes |
| Move.CurrentAsOriginZeroes | Project/component/move.cpp:205-253 | taking the current pose as origin makes the next reading at that pose position (0, 0, 0) with yaw 0 |
| Move.UpdatePositionError | Project/component/move.cpp:276-286 | the body-frame error is the transformed ground error (target - position); its z part is the plain height error and nothing else changes |
| Move.StepLoop | Project/component/move.cpp:127-163 | a missing PID keeps the previous command; a present one keeps its configuration, sees the error target - actual, and its output becomes the command |
| Move.PositionLoops | Project/component/move.cpp:124-144 | in velocity mode the target velocity is the command and the position PIDs are not run; in position mode each present PID sees the body error on its axis as its error |
| Move.Update | Project/component/move.cpp:113-169 | without initialization or a lidar nothing changes; otherwise roll and pitch end in [-PI/6, PI/6] and throttle in [-50, 50], velocity mode passes the target velocity on as the command, and the body error is formed from the freshly read sensors; roll, pitch and throttle are each the clamp of their velocity PID's new output, or of the previous command when that PID is missing |
| Move.ResetLoop | Project/component/move.cpp:173-180 | a present PID is reset and a null one stays null |
| Move.Reset | Project/component/move.cpp:171-189 | every present PID is reset (integral 0), all six commands are zeroed, the targets are kept and nothing else in the status changes |
| Motor.New | Project/motor/motor.cpp:4-5 | a new motor keeps its direction and starts with stored throttle 0 |
| Motor.Limit | Project/motor/motor.cpp:15 | the limited throttle lies in [-100, 100]; in-range values are kept and out-of-range values go to the nearer bound |
| Motor.Adjust | Project/motor/motor.cpp:11-22 | the adjusted throttle lies in [-100, 100]: the limited value for a normal motor, its negation for a reversed one |
| Motor.AdjustOdd | Project/motor/motor.cpp:11-22 | the adjustment commutes with negation |
| Motor.AdjustInvolution | Project/motor/motor.cpp:11-22 | within [-100, 100], adjusting twice gives back the throttle |
| Motor.ReversedOpposes | Project/motor/motor.cpp:18-20 | a reversed motor and a normal one given the same throttle turn in opposite senses |
| SdcDual.New | Project/motor/sdc_dual.cpp:12-16 | a new driver keeps the timer, direction and limit factor it is given, with ARR, compare value and throttle all 0 |
| SdcDual.Compare | Project/motor/sdc_dual.cpp:73-75 | the compare value is the pulse's fraction of the 2000 µs period times ARR + 1, rounded down; for a legal pulse it lies between half and all of ARR + 1 |
| SdcDual.Init | Project/motor/sdc_dual.cpp:18-40 | without a timer nothing changes; an ARR of 0 is stored and nothing else happens; otherwise ARR is stored and the compare value is the half-period value (ARR + 1) / 2 |
| SdcDual.Effective | Project/motor/sdc_dual.cpp:52-59 | with a non-negative factor the effective throttle lies in ±100·factor and equals the direction-adjusted throttle when that is already inside the limit |
| SdcDual.Pulse | Project/motor/sdc_dual.cpp:61-71 | the pulse always lies in [1000, 2000] µs, and within ±100 percent it is 1500 µs plus 5 µs per percent |
| SdcDual.PulseInverse | Project/motor/sdc_dual.cpp:61-71 | within ±100 percent the throttle can be read back from the pulse |
| SdcDual.SetThrottle | Project/motor/sdc_dual.cpp:42-78 | without a timer or with ARR 0 nothing changes; otherwise the raw request is stored, the compare value encodes the pulse of the adjusted and limited throttle, and it lies between half and all of ARR + 1 |
| SdcDual.ZeroThrottleNeutral | Project/motor/sdc_dual.cpp:42-78 | throttle 0 gives the neutral 1500 µs pulse, whose compare value is three quarters of ARR + 1 |
| SdcDual.PulseMonotone | Project/motor/sdc_dual.cpp:42-78 | with a factor in [0, 1] the pulse grows with the requested throttle on a forward motor and shrinks on a reversed one, and reversing a motor mirrors its pulse about 1500 µs |
| SdcDual.SetThrottleLimitFactor | Project/motor/sdc_dual.cpp:80-84 | the stored factor is in [0, 1], equals the argument when that is in range, and is 0 or 1 when it is below or above; nothing else changes |
| SdcDual.ZeroFactorHolds | Project/motor/sdc_dual.cpp:57-71 | with a limit factor of 0 every request gives the neutral pulse |
| TimDrv.Yield | Project/driver/tim_drv.c:231-241 | with prescaler i the largest period not overshooting the target count reaches at most the target, at least 1 when i fits into it, and exactly the target when i divides it |
| TimDrv.Candidate | Project/driver/tim_drv.c:238-241 | at full width the loop's product is the prescaler's yield; narrowed to 32 bits it is either that yield or 0 |
| TimDrv.Consider | Project/driver/tim_drv.c:245-249 | the best candidate stays sound and never gets worse; it is replaced only by the current prescaler, and only when that prescaler reaches further |
| TimDrv.Scan | Project/driver/tim_drv.c:227-253 | the search reports a sound candidate no worse than the one it started with; at full width, if no earlier prescaler beat the starting candidate, the result reaches at least every fitting prescaler's yield |
| TimDrv.ScanSkips | Project/driver/tim_drv.c:229-236 | prescalers that do not fit are passed over without changing the best candidate |
| TimDrv.TargetCount | Project/driver/tim_drv.c:202 | the target count is the clock divided by the frequency, rounded down |
| TimDrv.CalcPscAndAtrAsWritten | Project/driver/tim_drv.c:180-265 | as written, any failure leaves PSC and ARR untouched and code 1 is never returned; on success (PSC + 1)(ARR + 1) does not exceed the target count and both registers fit their widths |
| TimDrv.CalcPscAndAtr | Project/driver/tim_drv.c:180-265 | corrected: failure leaves PSC and ARR untouched and code 1 is never returned. Code 2 is returned exactly when no prescaler in 1..65536 fits. On success the overflow count does not exceed the target, is at least every fitting prescaler's yield, and equals the target whenever some fitting prescaler divides it |
| TimDrv.Calc | Project/driver/tim_drv.c:190-212 | the checks run in order: a frequency of 0 or less gives code 3, a zero timer clock code 4 and a zero target count code 5. Because the clock is read through the same lookup and is 0 when it fails, a failed width lookup also gives code 4, and code 1 is never returned |
| TimDrv.SearchBest | Project/driver/tim_drv.c:227-258 | the full-width search finds nothing exactly when no prescaler fits; otherwise it reaches every fitting prescaler's yield, and the target itself when some fitting prescaler divides it |
| TimDrv.DirectFit | Project/driver/tim_drv.c:227-262 | when the whole target count fits the ARR, prescaler 1 hits it exactly: PSC 0 and ARR = count - 1 |
| TimDrv.NarrowedPeriodLosesExactFit | Project/driver/tim_drv.c:238-241 | for a 32-bit timer on a 4294967295 Hz clock asked for 4294967295 / 2^48 Hz (target count 2^48), the code as written returns code 2, while the full-width search returns PSC 65535 and ARR 0xFFFFFFFF, which hits the count exactly |
| Point.Default | Project/positioning/point.cpp:6-10 | the default point aims at the origin with a cleared counter |
| Point.New | Project/positioning/point.cpp:13-15 | a new point keeps the given target and tolerance and starts with a cleared counter |
| Point.SetTargetPose | Project/positioning/point.cpp:18-21 | a new target restarts the settling count and keeps the tolerance |
| Point.Diff | Project/positioning/point.cpp:81-89 | the position differences are target minus current; the yaw difference is in [-PI, PI) and equals the raw difference up to whole turns; the distance is the square root of the squared length |
| Point.WithinSquared | Project/positioning/point.cpp:92-94 | with a non-negative distance tolerance and an exact square root, being within tolerance is the same as the squared distance being at most errR² with the yaw error in range |
| Point.AtTargetWithin | Project/positioning/point.cpp:92-94 | standing exactly on the target is within any non-negative tolerance |
| Point.NegativeToleranceNeverWithin | Project/positioning/point.cpp:92-94 | a negative distance tolerance can never be met |
| Point.IsReached | Project/positioning/point.cpp:60-78 | the diff is written only to a non-null output. Within tolerance the 32-bit counter steps and the answer is whether it has passed the threshold; outside, the counter is cleared and the answer is false. Target and tolerance are kept |
| Point.RunSplit | Project/positioning/point.cpp:60-78 | a run of checks is the shorter run followed by one more check |
| Point.RunCountsConsecutive | Project/positioning/point.cpp:60-78 | from a cleared counter, the counter counts the trailing poses that are within tolerance, so a target is reported reached exactly when more than threshold consecutive final poses were within tolerance |
| Path.Default | Project/positioning/path_impl.h:5-14 | the default path is idle, with N null targets, so it cannot be started |
| Path.New | Project/positioning/path_impl.h:17-23 | a new path holds the given targets and guide tolerance, is idle, and satisfies the path invariant |
| Path.InitializePath | Project/positioning/path_impl.h:26-32 | the targets are replaced and the path is reset to idle, keeping the invariant and the guide tolerance |
| Path.ResetPath | Project/positioning/path_impl.h:60-68 | the path returns to idle with index, step, step count and step length cleared and the guide's counter cleared; targets and segment ends are kept |
| Path.StartPathAsWritten | Project/positioning/path_impl.h:43-57 | as written, a path with all targets present heads for the first target, but the guide's distance and yaw tolerances are that target's x and y coordinates; targets, step counts and guide threshold are kept, as is the invariant; a path with a null target, or with none at all, is unchanged |
| Path.StartPath | Project/positioning/path_impl.h:43-57 | corrected: a path with all targets present heads for the first target, with the guide on it using that target's own distance and yaw tolerances; otherwise the path is unchanged; the invariant is kept |
| Path.StartPathGuideReachable | Project/positioning/path_impl.h:53-56 | with the corrected start, standing exactly on the first target passes the guide check (for non-negative tolerances) |
| Path.StartPathAsWrittenNegativeX | Project/positioning/path_impl.h:55 | as written, a first target with negative x gives the guide a negative distance tolerance, so no pose ever passes the guide check |
| Path.StartPathAsWrittenStuck | Project/positioning/path_impl.h:55 | a single target at (-1, 0, 0): standing on it meets the target's own tolerance, yet the guide started as written is never reached |
| Path.InterpolationSteps | Project/positioning/path_impl.h:131-147 | there is at least one step and the count fits 32 bits; the steps together cover the segment length; from one interval upwards the count is the length in 0.05 m intervals, rounded half up |
| Path.InterpolatePose | Project/positioning/path_impl.h:178-190 | the interpolated yaw lies in [-PI, PI); at ratio 0 the pose is the start, with its yaw normalised |
| Path.InterpolateEnd | Project/positioning/path_impl.h:178-190 | at ratio 1 the interpolation lands on the end pose, with its yaw normalised |
| Path.UpdateGuidePoint | Project/positioning/path_impl.h:150-175 | the step advances by one. Short of the last step the guide moves to the interpolated pose; otherwise the index advances and the path either completes or heads for the next target with the guide on it. The guide's counter restarts and the targets and tolerance are kept |
| Path.MoveToNextSegment | Project/positioning/path_impl.h:193-213 | from the last target the path completes and nothing else changes; otherwise the next segment is measured and entered, and its first guide step is taken |
| Path.EnterSegment | Project/positioning/path_impl.h:202-211 | entering a segment records its two end targets and its step count, starts at step 0 between targets, and gives the guide the guide tolerance and threshold |
| Path.IsReached | Project/positioning/path_impl.h:98-122 | an idle path or one with a null target answers false and is unchanged; a completed path answers true; otherwise the guide is checked, a reached guide moves the path on (to the next segment or the next guide step), and the answer is whether the path is now complete |
| Path.MoveToNextSegmentInv | Project/positioning/path_impl.h:193-213 | moving to the next segment keeps the path invariant |
| Path.UpdateGuidePointInv | Project/positioning/path_impl.h:150-175 | stepping the guide keeps the path invariant |
| Path.IsReachedInv | Project/positioning/path_impl.h:98-122 | every check keeps the path invariant: an idle path is cleared, a heading path has its guide on the target, and between targets the guide sits on the segment at the current step |
| Path.GetProgressAsWritten | Project/positioning/path_impl.h:83-95 | as written, progress lies in [0, 1], is 0 for an empty or idle path and 1 for a completed one |
| Path.GetProgress | Project/positioning/path_impl.h:83-95 | corrected: progress lies in [0, 1], is 0 when empty or idle and 1 when completed; heading for target i it is i/N, and between targets it adds the fraction of steps taken |
| Path.Ratio | Project/positioning/path_impl.h:92 | the fraction of steps taken within a segment lies in [0, 1], and is below 1 before the last step |
| Path.Fraction | Project/positioning/path_impl.h:93 | the total progress at index i lies between i/N and (i+1)/N, and below (i+1)/N while the segment is unfinished |
| Path.FractionMono | Project/positioning/path_impl.h:93 | total progress grows with the index and, at the same index, with the segment fraction |
| Path.MoveToNextSegmentProgress | Project/positioning/path_impl.h:193-213 | with the corrected progress, moving to the next segment never moves progress backwards |
| Path.UpdateGuidePointProgress | Project/positioning/path_impl.h:150-175 | with the corrected progress, stepping the guide never moves progress backwards |
| Path.ProgressMonotone | Project/positioning/path_impl.h:83-122 | with the corrected progress, no check ever moves progress backwards |
| Path.ProgressRegressesAsWritten | Project/positioning/path_impl.h:92-93 | with targets at x = 0, 0.01 and 1 and guide threshold 0, progress as written drops from 2/3 to 1/3 + 1/60 when the second segment starts |
| Track.New | Project/positioning/track.cpp:4-10 | a new track is idle at stage 0 with no stages, all eight slots empty, and satisfies the track invariant |
| Track.AddStage | Project/positioning/track.cpp:13-21 | a stage is accepted exactly when its path is present and the track has fewer than eight stages; an accepted stage goes into the next free slot and nothing else changes; a refused one changes nothing |
| Track.ClearStages | Project/positioning/track.cpp:24-30 | after clearing, every slot is empty and the track is idle at stage 0 with no stages |
| Track.ClearStagesIsNew | Project/positioning/track.cpp:24-30 | clearing a track leaves it exactly as constructed |
| Track.SetPath | Project/positioning/track.cpp:44 | only stage i's path changes; its callback and every other stage are kept |
| Track.ResetTrack | Project/positioning/track.cpp:85-95 | the track goes back to stage 0, idle; every present path among the first count stages is reset, and the slots beyond count are untouched |
| Track.ResetTrackIdempotent | Project/positioning/track.cpp:85-95 | resetting twice is the same as resetting once |
| Track.SwitchToStage | Project/positioning/track.cpp:38-55 | the switch succeeds exactly when the index is below count and that stage has a path. That path is reset, becomes current, and is started if the track is executing, with `startPath` as written (or corrected, for the corrected version); other stages are kept, and a refused switch changes nothing |
| Track.StartTrack | Project/positioning/track.cpp:58-68 | with valid stages the first path is started by the chosen version of `startPath` (as written, as the track calls it, or corrected) and the track executes from stage 0, leaving the other stages alone; without valid stages nothing changes |
| Track.PauseTrack | Project/positioning/track.cpp:71-75 | only an executing track pauses; any other state is left unchanged |
| Track.ResumeTrack | Project/positioning/track.cpp:78-82 | only a paused track resumes; any other state is left unchanged |
| Track.PauseResume | Project/positioning/track.cpp:71-82 | pausing then resuming an executing track restores it exactly |
| Track.PauseResumeInv | Project/positioning/track.cpp:71-82 | pausing and resuming keep the track invariant |
| Track.GetTotalProgress | Project/positioning/track.cpp:108-123 | total progress lies in [0, 1]; it is 0 for an empty or idle track and 1 for a completed one; executing or paused at stage i of n it lies between i/n and (i+1)/n and is i/n plus the current path's progress (as written or corrected, per the version) over n |
| Track.CheckStage | Project/positioning/track.cpp:150-151 | checking stage i advances only that stage's path, exactly as the path's own check does, and keeps the invariant |
| Track.Process | Project/positioning/track.cpp:126-164 | an idle, paused or invalid track answers false and keeps its state, index and callback; a completed valid track answers true; without a diff output a track that is not executing is unchanged; an executing valid track advances, starting later paths with the chosen version of `startPath`. With a diff output, an idle track refreshes stage 0 (when present), a paused or invalid one its current stage, and a completed valid one its last stage; the refreshed path takes its isReached step |
| Track.Refresh | Project/positioning/track.cpp:127-147 | a check made for the diff output keeps the track's state and index and fires no callback, but stage i's path still takes its isReached step and every other stage is kept |
| Track.Advance | Project/positioning/track.cpp:149-163 | the current path is checked and the diff output written. If the path is not complete, only that path's state changes. If it is, the stage's callback gets the stage index, and the track either completes after the last stage or executes the next stage with that stage's path started by the chosen version of `startPath` |
| Track.MoveToNextStage | Project/positioning/track.cpp:186-199 | the index advances; past the last stage the track completes; otherwise the next stage's path, if present, is started by the chosen version of `startPath` and nothing else changes |
| Track.RefreshProgress | Project/positioning/track.cpp:108-123 | corrected: with the corrected `getProgress`, checking the current stage never lowers total progress (as written it can, see Track.ProgressRegressesAsWritten) |
| Track.MoveToNextStageProgress | Project/positioning/track.cpp:186-199 | in either version, moving past a finished stage never lowers total progress |
| Track.ProcessProgressMonotone | Project/positioning/track.cpp:108-164 | corrected: with the corrected `startPath` and `getProgress`, process never lowers the track's total progress |
| Track.ProgressRegressesAsWritten | Project/positioning/track.cpp:108-123 | as written, a one-stage track on targets x = 0, 0.01 and 1 that has passed the first target reports 2/3, and one process call on the middle target drops it to 1/3 + 1/60 while the stage keeps executing |
| TimeStamp.ToMicroseconds | Project/utils/time/time_timestamp.cpp:14-16 | the result is the 64-bit-wrapped product ticks × 10^6 divided by the clock, rounded down |
| TimeStamp.ToMilliseconds | Project/utils/time/time_timestamp.cpp:18-20 | the result is the 64-bit-wrapped product ticks × 1000 divided by the clock, rounded down |
| TimeStamp.FromMicroseconds | Project/utils/time/time_timestamp.cpp:22-24 | the result fits 64 bits and is the wrapped product microseconds × clock divided by 10^6, rounded down |
| TimeStamp.FromMilliseconds | Project/utils/time/time_timestamp.cpp:26-28 | the result fits 64 bits and is the wrapped product milliseconds × clock divided by 1000, rounded down |
| TimeStamp.FromSeconds | Project/utils/time/time_timestamp.cpp:30-32 | the result fits 64 bits, and is exactly seconds × clock when that product fits |
| TimeStamp.ToSecondsFloat | Project/utils/time/time_timestamp.cpp:10-12 | the seconds are non-negative, and multiplied by the clock they give back the ticks |
| TimeStamp.FromSecondsFloat | Project/utils/time/time_timestamp.cpp:34-36 | the ticks fit 64 bits and are seconds × clock rounded down |
| TimeStamp.Diff | Project/utils/time/time_timestamp.cpp:38-40 | when end is not earlier than start, start plus the result is end; otherwise the result is 0 |
| TimeStamp.DiffMonotone | Project/utils/time/time_timestamp.cpp:38-40 | measured from a common start, a later end never gives a shorter difference |
| TimeStamp.ScaleRoundTrip | Project/utils/time/time_timestamp.cpp:18-28 | scaling up by c, down by k, up by k and down by c never gains, and is exact when k divides c |
| TimeStamp.MillisecondsRoundTrip | Project/utils/time/time_timestamp.cpp:18-28 | milliseconds to ticks and back never gain time, and are exact when the clock is a whole number of kilohertz (products fitting 64 bits) |
| TimeStamp.MicrosecondsRoundTrip | Project/utils/time/time_timestamp.cpp:14-24 | microseconds to ticks and back never gain time, and are exact when the clock is a whole number of megahertz (products fitting 64 bits) |
| TimeStamp.SecondsToMilliseconds | Project/utils/time/time_timestamp.cpp:18-20 | whole seconds converted to ticks read back as exactly 1000 milliseconds each |
| TimeStamp.SecondsFloatRoundTrip | Project/utils/time/time_timestamp.cpp:10-12 | without float rounding, ticks to seconds and back give exactly the original ticks |
| TimeStamp.DivUnique | Project/utils/time/time_timestamp.cpp:19 | integer division gives the one quotient that brackets the dividend |
| TimeWatch.Init | Project/utils/time/time_watch.cpp:9-15 | a present watch is zeroed and stopped; a null one stays null |
| TimeWatch.New | Project/utils/time/time_watch.cpp:79-84 | a new stopwatch reads 0 and runs only when asked to, in which case it starts from now |
| TimeWatch.Start | Project/utils/time/time_watch.cpp:17-22 | a stopped watch starts running from now; a running or null watch is unchanged |
| TimeWatch.Stop | Project/utils/time/time_watch.cpp:24-30 | a running watch adds the ticks since its start (64-bit wrap) and stops; a stopped or null watch is unchanged |
| TimeWatch.Reset | Project/utils/time/time_watch.cpp:32-39 | the elapsed count is cleared; a running watch restarts from now; the running flag is kept |
| TimeWatch.Restart | Project/utils/time/time_watch.cpp:41-47 | a present watch is cleared and running from now |
| TimeWatch.IsRunning | Project/utils/time/time_watch.cpp:49-51 | the answer is true exactly for a present, running watch |
| TimeWatch.ElapsedTicks | Project/utils/time/time_watch.cpp:53-65 | a null watch reads 0; a stopped watch reads its accumulated ticks; a running watch adds the ticks since its start when there is no wrap |
| TimeWatch.StoppedIsFrozen | Project/utils/time/time_watch.cpp:53-65 | a stopped watch reads the same at any time |
| TimeWatch.ElapsedMonotone | Project/utils/time/time_watch.cpp:53-65 | as long as 64 bits do not overflow, a watch's reading never decreases as time goes on |
| TimeWatch.StopKeepsReading | Project/utils/time/time_watch.cpp:24-30 | stopping freezes the reading at the value it had at that moment |
| TimeWatch.StartKeepsReading | Project/utils/time/time_watch.cpp:17-22 | starting a watch does not change its reading at the start time |
| TimeWatch.ResetReadsZero | Project/utils/time/time_watch.cpp:32-47 | after a reset or restart at now, the watch reads 0 at now |
| TimeWatch.IntervalsAdd | Project/utils/time/time_watch.cpp:17-65 | start at a, stop at b, start at c and read at d: the reading is the earlier count plus (b - a) + (d - c) |
| TimeoutChecker.Init | Project/utils/time/time_timeoutChecker.cpp:9-14 | a present checker starts counting at now with the given length; a null one stays null |
| TimeoutChecker.SetTimeout | Project/utils/time/time_timeoutChecker.cpp:16-20 | only the length changes |
| TimeoutChecker.SetTimeoutMicroseconds | Project/utils/time/time_timeoutChecker.cpp:22-26 | the length becomes the microseconds converted to ticks |
| TimeoutChecker.SetTimeoutMilliseconds | Project/utils/time/time_timeoutChecker.cpp:28-32 | the length becomes the milliseconds converted to ticks |
| TimeoutChecker.SetTimeoutSeconds | Project/utils/time/time_timeoutChecker.cpp:34-38 | the length becomes the seconds converted to ticks |
| TimeoutChecker.SetTimeoutSecondsFloat | Project/utils/time/time_timeoutChecker.cpp:40-44 | the length becomes the float seconds converted to ticks |
| TimeoutChecker.Reset | Project/utils/time/time_timeoutChecker.cpp:46-50 | only the start changes, to now |
| TimeoutChecker.IsTimeout | Project/utils/time/time_timeoutChecker.cpp:52-61 | a null checker never times out; before the tick wraps, a checker has timed out exactly when the ticks since its start reach its length |
| TimeoutChecker.ZeroTimeoutExpired | Project/utils/time/time_timeoutChecker.cpp:52-61 | a zero-length checker has always timed out |
| TimeoutChecker.TimeoutStays | Project/utils/time/time_timeoutChecker.cpp:52-61 | once timed out, a checker stays timed out as time goes on, until the tick wraps |
| TimeoutChecker.ResetRestarts | Project/utils/time/time_timeoutChecker.cpp:46-61 | right after a reset, a checker has timed out only if its length is zero |
| TimeoutChecker.ExpiresOnTime | Project/utils/time/time_timeoutChecker.cpp:9-61 | a checker set up at start with length t expires exactly at start + t, and not one tick earlier |
| SlopeSmoother.New | Project/control/slope_smoother.cpp:4-10 | the smoother starts at the initial value with the given rate and timeout, and its time base at now |
| SlopeSmoother.Limit | Project/control/slope_smoother.cpp:35-48 | a target within reach is taken; otherwise the value moves by the allowance towards the target |
| SlopeSmoother.LimitBounded | Project/control/slope_smoother.cpp:35-48 | with a non-negative allowance a step moves the value by at most the allowance and never past the target |
| SlopeSmoother.LimitCloses | Project/control/slope_smoother.cpp:35-48 | each step brings the value closer to the target by the allowance, or lands on it |
| SlopeSmoother.IterateReaches | Project/control/slope_smoother.cpp:35-48 | a fixed target is reached within n steps once n allowances cover the distance, and the value stays there |
| SlopeSmoother.IterateAtTarget | Project/control/slope_smoother.cpp:38-39 | once at the target, further steps stay there |
| SlopeSmoother.ElapsedMilliseconds | Project/control/slope_smoother.cpp:19-21 | the elapsed milliseconds are non-negative and equal the microseconds since the last update divided by 1000 |
| SlopeSmoother.Update | Project/control/slope_smoother.cpp:12-51 | the time base moves to now; past the timeout the value is kept, otherwise it is limited by rate × elapsed milliseconds; rate and timeout are kept |
| SlopeSmoother.UpdateRateBounded | Project/control/slope_smoother.cpp:12-51 | with a non-negative rate, an update moves the value by at most rate × elapsed milliseconds |
| SlopeSmoother.SetCurrentValue | Project/control/slope_smoother.cpp:58-63 | the value is set exactly and the time base restarts at now |
| SlopeSmoother.SetThenUpdate | Project/control/slope_smoother.cpp:58-63 | an update at the same tick as setCurrentValue leaves the set value in place |
| TransformDemo.GroundToBody | coordinate_transform_demo.py:160-189 | the body-frame point is the robot-to-target displacement rotated by minus the yaw; when cos and sin at -yaw lie on the unit circle the squared length of the displacement is kept (TransformDemo.BodyToGroundInverts undoes it) |
| TransformDemo.ZeroYawIsTranslation | coordinate_transform_demo.py:160-189 | with zero yaw the body frame is the ground frame shifted to the robot |
| TransformDemo.DistancePreserved | coordinate_transform_demo.py:174-189 | given cos² + sin² = 1 at -yaw, the body-frame distance the demo shows equals the ground distance from the robot to the target |
| TransformDemo.BodyToGroundInverts | coordinate_transform_demo.py:174-189 | rotating the body-frame point forward by the yaw and adding the robot position gives back the ground-frame target (cos even, sin odd, cos² + sin² = 1) |
| TransformDemo.Nudge | coordinate_transform_demo.py:112-145 | with neither key held the value is kept; the up key alone raises it by the step, capped at hi; the down key alone lowers it by the step, floored at lo; an in-range value stays in range |
| TransformDemo.ProcessKeyboardInput | coordinate_transform_demo.py:107-150 | values inside the keyboard bounds stay inside them; a change is reported exactly when some recognised key is held; with no change reported the values are untouched |
| TransformDemo.KeysAreIndependent | coordinate_transform_demo.py:111-145 | each value moves only when one of its own two keys is held |
| TransformDemo.SingleKeySteps | coordinate_transform_demo.py:112-144 | a single held key moves its value one step in its own direction, up to the bound (w raises robot y, d lowers robot x, q raises yaw, down lowers target y, left raises target x) |
| TransformDemo.OpposingKeysCancel | coordinate_transform_demo.py:112-117 | holding w and s together leaves robot y unchanged when the raise is not capped |
| TransformDemo.ClampedKeyStillChanges | coordinate_transform_demo.py:112-114 | a recognised key held at its bound leaves the value as it is but still counts as a change |
| TransformDemo.KeyPress | coordinate_transform_demo.py:97-100 | a key event with a key adds that key to the held set; an event without one does nothing |
| TransformDemo.KeyRelease | coordinate_transform_demo.py:102-105 | the released key is no longer held, and nothing else is removed; releasing a key that is not held does nothing |
| TransformDemo.PressReleaseRestores | coordinate_transform_demo.py:97-105 | pressing and then releasing a key that was not held gives back the held set |
| TransformDemo.PressIdempotent | coordinate_transform_demo.py:97-100 | pressing a key that is already held changes nothing |
| TransformDemo.SetSlider | coordinate_transform_demo.py:319-337 | a slider writes its value into its own field and leaves the others alone |
| TransformDemo.InitialInRange | coordinate_transform_demo.py:14-26 | the opening values are within the keyboard bounds |

## Left out

- Hardware I/O.
  - BMI088 and the SPL06 SPI access and init sequencing.
  - HC-12 AT commands, the NRF radio, FDCAN, USB and VOFA output.
  - The WS2812 DMA start and the SDC dual PWM initialisation.
  - Clock discovery and timer start or stop in `tim_drv.c`.

  These are register and HAL plumbing. Where their results feed the core, they are parameters.
- Concurrency.
  - RTOS threads, mutexes, semaphores and message queues: the scheduler's queues and timer, the `up_t201` thread, the odometer mutex.
  - Lidar DMA callbacks and the watchdog manager.

  Only the list and state effects are modelled, never interleavings. A queue put or an allocation is a boolean parameter.
- Float rounding. Every `float` is a real. Conversions from float to integer that would be undefined in C are excluded by preconditions.
- Sensor fusion. Mahony, the quaternion EKF and the attitude manager are float- and trig-heavy, with nothing stateable beyond their guards.
- Quaternion trigonometry. Euler, axis-angle and rotation-matrix conversions, `rotateVector`, `normalize` and `angleBetween` depend on sine, cosine and square root.
- Matrix operations over CMSIS-DSP. Add, subtract, multiply, scale, inverse, solve and the LU decomposition are foreign calls. `math_normalize`, the Frobenius norm, printing, destroying and the C++ wrapper in `math_matrix.cpp` are also out.
- PID filter design. The biquad coefficients computed from a cut-off frequency are a parameter of the differential filter, and the low-pass path is a single `BiquadStep`.
- Lidar velocity. The velocity estimate and its low-pass filter are not modelled. The little-endian float decode (`bytesToFloat`) is a parameter of the pose and IMU parsers. The start, stop and getter methods are also out.
- Optical flow. The watchdog, `waitForData` and the reader thread are out.
- SPL06 pressure compensation and `calibrateGroundPressure` are float polynomial arithmetic and are not modelled.
- `odometer_get_distance` uses a square root of stored coordinates and is not modelled.
- `time_utils.cpp` and `time_delay.cpp` read SysTick or spin, so the tick is a parameter throughout.
- Task bodies, `freertos.c`, `config`, `appCallback.cpp` and the allocator are glue around the modelled components.
- The Python presentation code is out: axes, sliders, robot drawing, plot updates, the timer and `main`. The keyboard tick reports whether anything changed rather than redrawing.
- Trivial getters and setters get no row, because any contract for them repeats the assignment. These include:
  - the `Move`, `Path`, `Point`, `SdcDual` and `Track` getters;
  - `SlopeSmoother` `setMaxChange`, `setTimeout` and its getters;
  - the scheduler's `setMode`;
  - `TimeWatch_GetElapsedSecondsFloat`, which is elapsed ticks over the clock.
- `move.h` declares no chassis member, although `move.cpp` uses one. The model follows `move.cpp`, with a presence flag and the chassis yaw as a parameter.
- `sdc_dual` has a constructor whose signature differs from its header. The model follows the `.cpp`.
- The C++ `StopWatch`, `TimeoutChecker` and timestamp wrappers call the C functions with a non-null pointer. They are modelled as the non-null case.
- The `Motor` base class is modelled as its stored throttle and direction. Its pure virtual `init` and `setThrottle` are modelled by `SdcDual`.
- MathMatrix.CreateFromArray: the C matrix aliases the caller's array, so later writes through either are seen by both. The model copies the contents at creation and does not model that aliasing.
- A `Track` owns its paths as values, and the stage callback's `user_data` is omitted. The callback is reported as the completed stage index.
- Track.RefreshProgress, Track.ProcessProgressMonotone: the track's operations take a path version; the code as written is the `AsWritten` one, and these monotonicity lemmas hold only for the corrected version (see the findings).
- Path.SegmentsDefined: path operations that divide a segment length by the guide step require the step count to be a defined `uint32_t` conversion. C leaves a larger float undefined.
- Path.UpdateGuidePoint: while moving between targets the guide keeps the tolerance set by `startPath`. This follows the code; see the findings for the first-target tolerance.
- SortCounting.RadixSort: requires every shifted value to stay below 10^9 (`RadixFits`); beyond that the 32-bit digit weight overflows, and that behaviour is not modelled. One `allocOk` flag also stands for every pass's buffer allocation. A run where only some passes fail to allocate, leaving a partly sorted array, is not modelled.
- SlopeSmoother.Update: the `dt < 0` test of the source can never fire, because the elapsed time is an unsigned difference. It is kept in the body for fidelity.
- TimeWatch.ElapsedMonotone, TimeoutChecker.TimeoutStays: 64-bit tick wrap-around is modelled in the operations. These lemmas assume no wrap between the readings compared.
- Spl06.PressureToAltitude: only the non-positive guard is stated. `powf` is a parameter, so the barometric formula has no property beyond its shape.
- Spl06Old.PressureToAltitude: only the non-positive guard is stated, for the same reason.
- MathQuaternion.Slerp: only the endpoints are stated. The value strictly between them is a parameter, because the interior calls `arm_cos_f32` and `arm_sin_f32` and normalises a float blend, none of which is modelled. The angle is taken as `arm_cos_f32(cos_theta)` where an arccosine is evidently meant; without trigonometry in the model this is noted here, not proved.
- SortCounting.CountingSort: requires every element to lie in [minV, maxV]. For an element outside that range the source writes outside its count buffer, which is not modelled. The range is an unbounded integer, so the 32-bit overflow of `max_val - min_val + 1` and of `range * sizeof(uint32_t)` for very wide ranges is not modelled either.
- MathMatrix.Determinant: for matrices larger than 3x3, the Gaussian-elimination value is a parameter. Only the null, non-square, 1x1, 2x2 and 3x3 cases are stated.
- MathCommon.StdDev: the square root is a parameter. The contract states the guard and the unbiased variance it is applied to.
- `taskCommuCheck.cpp` tests the receive flags after they have been cleared, so the silence timer always advances in that branch. With a minimum recovery count of 1 this has no observable effect, and it is modelled as written.
- `tim_drv.c` compares a 64-bit period against `0xFFFFFFFF` before narrowing it. The narrowing is listed under findings.

## Findings

| source | as written | input that shows it | evidently intended | confidence | as-written member | corrected member |
|---|---|---|---|---|---|---|
| Project/utils/math/math_common.c:86 | `math_factorial` counts with a 32-bit `i` while `i <= n` | n = 4294967295: `i <= n` holds for every 32-bit `i`, and `i++` wraps 4294967295 to 0, so the loop never exits | return n! modulo 2^32 for every 32-bit n, for instance by stopping before the counter wraps | not executed | MathCommon.FactorialHangsAtMax | MathCommon.Factorial32 |
| Project/device/upt20x.cpp:168-187 | on a good footer `processByte` returns true before the line that sets the state back to wait-for-header, so the parser stays in the footer state | a valid frame followed by the next frame's `FE 0A` bytes: the `FE` is counted as a footer error and the second frame is lost | return to wait-for-header after every footer byte, as the comment at line 182 and the `up_t201.cpp` twin do | not executed | Upt20x.NextHeaderLostAsWritten | Upt20x.ConsecutiveFrames |
| Project/driver/tim_drv.c:238-241 | the candidate period is narrowed with `(uint32_t)j_64`, so a period of exactly 2^32 becomes 0 | a 32-bit timer on a 4294967295 Hz clock asked for 4294967295 / 2^48 Hz (about 1.5e-5 Hz, exact as a double), so the target count is 2^48: prescaler 65535 with ARR 0xFFFFFFFF fits exactly, but the code finds no candidate and returns 2 | keep the period in 64 bits (or test it against 2^32 before narrowing) so the exact fit is found | not executed | TimDrv.NarrowedPeriodLosesExactFit | TimDrv.SearchBest |
| Project/positioning/path_impl.h:55 | `startPath` sets the guide point's distance and yaw tolerances from the first target's x and y coordinates | a single target at (−1, 0, 0): the guide's distance tolerance is −1, so it is never reached and the path never advances | copy the first target's tolerances, as the comment on that line says | not executed | Path.StartPathAsWrittenStuck | Path.StartPathGuideReachable |
| Project/positioning/path_impl.h:92-93 | `getProgress` adds the segment fraction in the moving-to-target state, using the step counts left over from the previous segment | targets at x = 0, 0.01 and 1 with guide threshold 0: progress drops from 2/3 to 1/3 + 1/60 on entering the third target's approach | add the segment fraction only while moving between targets, so progress never decreases | not executed | Path.ProgressRegressesAsWritten | Path.ProgressMonotone |
| Project/positioning/track.cpp:108-123 | `getTotalProgress` adds the current path's `getProgress`, so the path fault above reaches the track | a one-stage track on targets x = 0, 0.01 and 1 with guide threshold 0, past the first target: total progress drops from 2/3 to 1/3 + 1/60 after one `process` on the middle target | take the current path's progress from the corrected `getProgress`, so total progress never decreases | not executed | Track.ProgressRegressesAsWritten | Track.ProcessProgressMonotone |

=== FILE: chassis.dfy ===
/**
 * The quadrotor chassis (`chassis.cpp`): the IMU-to-body sign convention, the
 * cascaded angle and rate PID loops, the throttle-mode selection and the
 * X-quad mixer that turns a throttle and three attitude commands into four
 * motor outputs in [0, 100].
 *
 * The attitude manager is represented by the IMU angles and rates it would
 * report, passed to `Update`.  Each motor is represented by the last throttle
 * it was commanded (`None` for a null motor pointer); what a motor does with
 * that command is modelled in `Motor` and `SdcDual`.
 */
module Chassis {
  import opened Wrappers
  import MathCommon
  import Pid

  /** `hoverThrottle_`: the base throttle of the additive mode. */
  const HOVER_THROTTLE: real := 50.0
  const THROTTLE_MIN: real := 0.0
  const THROTTLE_MAX: real := 100.0

  const MOTOR_FRONT_RIGHT: nat := 0
  const MOTOR_FRONT_LEFT: nat := 1
  const MOTOR_REAR_LEFT: nat := 2
  const MOTOR_REAR_RIGHT: nat := 3

  datatype ThrottleMode = Direct | Additive

  /** A roll/pitch/yaw triple: angles, rates or commands. */
  datatype Axes = Axes(roll: real, pitch: real, yaw: real)

  const ZeroAxes := Axes(0.0, 0.0, 0.0)

  datatype Target = Target(
    attitude: Axes,
    throttleOverride: real,
    throttleAdditive: real,
    mode: ThrottleMode)

  /** The three loops of one axis family, roll, pitch and yaw; a null PID is `None`. */
  datatype Loops = Loops(roll: Option<Pid.Pid>, pitch: Option<Pid.Pid>, yaw: Option<Pid.Pid>)

  datatype Dependencies = Dependencies(
    hasAttitude: bool,
    motors: seq<Option<real>>,
    anglePids: Loops,
    ratePids: Loops)

  datatype Status = Status(
    imu: Axes, imuGyro: Axes,
    body: Axes, bodyGyro: Axes,
    rateTarget: Axes,
    command: Axes,
    motorOutputs: seq<real>,
    initialized: bool)

  datatype Chassis = Chassis(deps: Dependencies, target: Target, status: Status)

  predicate Valid(c: Chassis) {
    |c.deps.motors| == 4 && |c.status.motorOutputs| == 4
  }

  /** The constructor: default targets (additive mode), zeroed status. */
  function New(deps: Dependencies): (c: Chassis)
    requires |deps.motors| == 4
    ensures Valid(c) && !c.status.initialized
    ensures c.target.mode == Additive && c.target.throttleAdditive == 0.0
    ensures forall i :: 0 <= i < 4 ==> c.status.motorOutputs[i] == 0.0
  {
    Chassis(deps, Target(ZeroAxes, 0.0, 0.0, Additive),
            Status(ZeroAxes, ZeroAxes, ZeroAxes, ZeroAxes, ZeroAxes, ZeroAxes, [0.0, 0.0, 0.0, 0.0], false))
  }

  /** `constrain`: `max(lo, min(value, hi))`. */
  function Constrain(value: real, lo: real, hi: real): (r: real)
    ensures lo <= hi ==> lo <= r <= hi
    ensures lo <= value <= hi ==> r == value
    ensures lo > hi ==> r == lo
  {
    if lo > (if value < hi then value else hi) then lo
    else if value < hi then value else hi
  }

  /** With a proper range, `constrain` agrees with the library clamp. */
  lemma ConstrainIsClamp(value: real, lo: real, hi: real)
    requires lo <= hi
    ensures Constrain(value, lo, hi) == MathCommon.Clamp(value, lo, hi)
  {
  }

  /** Clamping to the throttle range [0, 100]. */
  function ClampThrottle(v: real): (r: real)
    ensures THROTTLE_MIN <= r <= THROTTLE_MAX
    ensures THROTTLE_MIN <= v <= THROTTLE_MAX ==> r == v
    ensures v < THROTTLE_MIN ==> r == THROTTLE_MIN
    ensures v > THROTTLE_MAX ==> r == THROTTLE_MAX
  {
    Constrain(v, THROTTLE_MIN, THROTTLE_MAX)
  }

  /**
   * The unclamped X-quad mix, indexed front-right, front-left, rear-left,
   * rear-right: roll raises the left side, pitch the front, yaw the
   * front-right/rear-left diagonal.
   */
  function Mix(throttle: real, roll: real, pitch: real, yaw: real): (m: seq<real>)
    ensures |m| == 4
  {
    [throttle - roll + pitch + yaw,
     throttle + roll + pitch - yaw,
     throttle + roll - pitch + yaw,
     throttle - roll - pitch - yaw]
  }

  /** Recovering throttle and commands from four motor values (the inverse of `Mix`). */
  function Demix(m: seq<real>): (r: (real, Axes))
    requires |m| == 4
  {
    ((m[0] + m[1] + m[2] + m[3]) / 4.0,
     Axes((m[1] + m[2] - m[0] - m[3]) / 4.0,
          (m[0] + m[1] - m[2] - m[3]) / 4.0,
          (m[0] + m[2] - m[1] - m[3]) / 4.0))
  }

  /** `Demix` undoes `Mix`: the four motors carry exactly the four inputs. */
  lemma MixInverse(throttle: real, roll: real, pitch: real, yaw: real)
    ensures Demix(Mix(throttle, roll, pitch, yaw)) == (throttle, Axes(roll, pitch, yaw))
  {
  }

  /** `mixer`: clamps the throttle, mixes, and clamps every motor to [0, 100]. */
  function Mixer(throttle: real, roll: real, pitch: real, yaw: real): (r: seq<real>)
    ensures |r| == 4
    ensures forall i :: 0 <= i < 4 ==> THROTTLE_MIN <= r[i] <= THROTTLE_MAX
    ensures roll == 0.0 && pitch == 0.0 && yaw == 0.0 ==>
              forall i :: 0 <= i < 4 ==> r[i] == ClampThrottle(throttle)
  {
    var m := Mix(ClampThrottle(throttle), roll, pitch, yaw);
    [ClampThrottle(m[0]), ClampThrottle(m[1]), ClampThrottle(m[2]), ClampThrottle(m[3])]
  }

  /**
   * While no motor saturates, the mixer output is the plain mix, so the
   * (clamped) throttle and the three commands can be read back from it.
   */
  lemma MixerUnsaturated(throttle: real, roll: real, pitch: real, yaw: real)
    requires THROTTLE_MIN <= throttle <= THROTTLE_MAX
    requires forall i :: 0 <= i < 4 ==> THROTTLE_MIN <= Mix(throttle, roll, pitch, yaw)[i] <= THROTTLE_MAX
    ensures Mixer(throttle, roll, pitch, yaw) == Mix(throttle, roll, pitch, yaw)
    ensures Demix(Mixer(throttle, roll, pitch, yaw)) == (throttle, Axes(roll, pitch, yaw))
  {
    var m := Mix(throttle, roll, pitch, yaw);
    assert m[0] == throttle - roll + pitch + yaw;
    assert ClampThrottle(throttle) == throttle;
    MixInverse(throttle, roll, pitch, yaw);
  }

  /**
   * The throttle handed to the mixer: the override in direct mode, hover
   * plus the additive part in additive mode, clamped to [0, 100].
   */
  function ThrottleInput(t: Target): (r: real)
    ensures THROTTLE_MIN <= r <= THROTTLE_MAX
    ensures t.mode == Direct ==> r == ClampThrottle(t.throttleOverride)
    ensures t.mode == Additive ==> r == ClampThrottle(HOVER_THROTTLE + t.throttleAdditive)
  {
    var raw := if t.mode == Direct then t.throttleOverride else HOVER_THROTTLE + t.throttleAdditive;
    ClampThrottle(raw)
  }

  /** The additive mode with no additive part hovers at 50. */
  lemma AdditiveHover(t: Target)
    requires t.mode == Additive && t.throttleAdditive == 0.0
    ensures ThrottleInput(t) == HOVER_THROTTLE
  {
  }

  /** The IMU-to-body convention: roll kept, pitch and yaw negated. */
  function BodyFrame(imu: Axes): (r: Axes)
    ensures r.roll == imu.roll && r.pitch == -imu.pitch && r.yaw == -imu.yaw
  {
    Axes(imu.roll, -imu.pitch, -imu.yaw)
  }

  /** The body convention is its own inverse. */
  lemma BodyFrameInvolution(a: Axes)
    ensures BodyFrame(BodyFrame(a)) == a
  {
  }

  /**
   * One guarded loop: a present controller runs `update(target, actual)` and
   * its output becomes the command; a null one keeps the previous command.
   */
  function StepLoop(h: Option<Pid.Pid>, target: real, actual: real, previous: real): (r: (Option<Pid.Pid>, real))
    ensures h.None? ==> r == (None, previous)
    ensures h.Some? ==> r.0.Some? && r.0.value.config == h.value.config &&
                        r.0.value.status.target == target && r.0.value.status.error == target - actual &&
                        r.1 == r.0.value.status.output
    ensures h.Some? && h.value.config.maxOutput >= 0.0 ==>
              -h.value.config.maxOutput <= r.1 <= h.value.config.maxOutput
  {
    match h
    case None => (None, previous)
    case Some(p) => var u := Pid.ControllerUpdate(p, target, actual); (Some(u.0), u.1)
  }

  /** Runs the three loops of one family against targets and measurements. */
  function StepLoops(l: Loops, target: Axes, actual: Axes, previous: Axes): (r: (Loops, Axes))
    ensures r.0.roll.Some? == l.roll.Some? && r.0.pitch.Some? == l.pitch.Some? && r.0.yaw.Some? == l.yaw.Some?
    ensures l.roll.None? ==> r.1.roll == previous.roll
    ensures l.pitch.None? ==> r.1.pitch == previous.pitch
    ensures l.yaw.None? ==> r.1.yaw == previous.yaw
    ensures l.roll.Some? ==> r.1.roll == r.0.roll.value.status.output &&
                             r.0.roll.value.status.error == target.roll - actual.roll
    ensures l.pitch.Some? ==> r.1.pitch == r.0.pitch.value.status.output &&
                              r.0.pitch.value.status.error == target.pitch - actual.pitch
    ensures l.yaw.Some? ==> r.1.yaw == r.0.yaw.value.status.output &&
                            r.0.yaw.value.status.error == target.yaw - actual.yaw
  {
    var a := StepLoop(l.roll, target.roll, actual.roll, previous.roll);
    var b := StepLoop(l.pitch, target.pitch, actual.pitch, previous.pitch);
    var c := StepLoop(l.yaw, target.yaw, actual.yaw, previous.yaw);
    (Loops(a.0, b.0, c.0), Axes(a.1, b.1, c.1))
  }

  /** Hands every present motor its output; null motors stay null. */
  function Drive(motors: seq<Option<real>>, outputs: seq<real>): (r: seq<Option<real>>)
    requires |motors| == |outputs|
    ensures |r| == |motors|
    ensures forall i :: 0 <= i < |r| ==> r[i] == if motors[i].Some? then Some(outputs[i]) else None
  {
    seq(|motors|, i requires 0 <= i < |motors| => if motors[i].Some? then Some(outputs[i]) else None)
  }

  predicate AllLoopsPresent(l: Loops) {
    l.roll.Some? && l.pitch.Some? && l.yaw.Some?
  }

  /**
   * `init`: succeeds exactly when the attitude manager, all four motors and
   * all six PIDs are present; the initialized flag records the answer.
   */
  function Init(c: Chassis): (r: (Chassis, bool))
    requires Valid(c)
    ensures Valid(r.0) && r.0.deps == c.deps && r.0.target == c.target
    ensures r.0.status == c.status.(initialized := r.1)
    ensures r.1 <==> c.deps.hasAttitude && (forall i :: 0 <= i < 4 ==> c.deps.motors[i].Some?) &&
                     AllLoopsPresent(c.deps.anglePids) && AllLoopsPresent(c.deps.ratePids)
  {
    var ok := c.deps.hasAttitude && (forall i :: 0 <= i < 4 ==> c.deps.motors[i].Some?) &&
              AllLoopsPresent(c.deps.anglePids) && AllLoopsPresent(c.deps.ratePids);
    (c.(status := c.status.(initialized := ok)), ok)
  }

  function SetTargetAttitude(c: Chassis, roll: real, pitch: real, yaw: real): (r: Chassis)
    ensures r == c.(target := c.target.(attitude := Axes(roll, pitch, yaw)))
  {
    c.(target := c.target.(attitude := Axes(roll, pitch, yaw)))
  }

  /** `setThrottleOverride`: the stored override is the argument clamped to [0, 100]. */
  function SetThrottleOverride(c: Chassis, throttle: real): (r: Chassis)
    ensures r.deps == c.deps && r.status == c.status
    ensures r.target == c.target.(throttleOverride := r.target.throttleOverride)
    ensures THROTTLE_MIN <= r.target.throttleOverride <= THROTTLE_MAX
    ensures THROTTLE_MIN <= throttle <= THROTTLE_MAX ==> r.target.throttleOverride == throttle
  {
    c.(target := c.target.(throttleOverride := ClampThrottle(throttle)))
  }

  /** `setThrottleAdditive`: stored without a limit; the sum is limited later. */
  function SetThrottleAdditive(c: Chassis, additive: real): (r: Chassis)
    ensures r == c.(target := c.target.(throttleAdditive := additive))
  {
    c.(target := c.target.(throttleAdditive := additive))
  }

  function SetThrottleMode(c: Chassis, mode: ThrottleMode): (r: Chassis)
    ensures r == c.(target := c.target.(mode := mode))
  {
    c.(target := c.target.(mode := mode))
  }

  /**
   * `update`: nothing happens unless the chassis is initialized and has an
   * attitude manager.  Otherwise the IMU reading is converted to the body
   * frame, the angle loops turn attitude errors into rate targets, the rate
   * loops turn rate errors into commands, and the mixer output for the mode's
   * throttle is stored and sent to every present motor.
   */
  function Update(c: Chassis, imu: Axes, imuGyro: Axes): (r: Chassis)
    requires Valid(c)
    ensures Valid(r) && r.target == c.target
    ensures !(c.status.initialized && c.deps.hasAttitude) ==> r == c
    ensures c.status.initialized && c.deps.hasAttitude ==>
              r.status.body == BodyFrame(imu) && r.status.bodyGyro == BodyFrame(imuGyro) &&
              r.status.motorOutputs == Mixer(ThrottleInput(c.target), r.status.command.roll,
                                             r.status.command.pitch, r.status.command.yaw) &&
              (forall i :: 0 <= i < 4 ==> THROTTLE_MIN <= r.status.motorOutputs[i] <= THROTTLE_MAX) &&
              (forall i :: 0 <= i < 4 ==> (r.deps.motors[i].Some? <==> c.deps.motors[i].Some?)) &&
              (forall i :: 0 <= i < 4 && c.deps.motors[i].Some? ==> r.deps.motors[i] == Some(r.status.motorOutputs[i]))
    ensures c.status.initialized && c.deps.hasAttitude && c.deps.anglePids.roll.Some? ==>
              r.deps.anglePids.roll.Some? && r.deps.anglePids.roll.value.status.error == c.target.attitude.roll - imu.roll
    ensures c.status.initialized && c.deps.hasAttitude && c.deps.anglePids.pitch.Some? ==>
              r.deps.anglePids.pitch.Some? && r.deps.anglePids.pitch.value.status.error == c.target.attitude.pitch + imu.pitch
    ensures c.status.initialized && c.deps.hasAttitude && c.deps.anglePids.yaw.Some? ==>
              r.deps.anglePids.yaw.Some? && r.deps.anglePids.yaw.value.status.error == c.target.attitude.yaw + imu.yaw
  {
    if !(c.status.initialized && c.deps.hasAttitude) then c
    else
      var body := BodyFrame(imu);
      var bodyGyro := BodyFrame(imuGyro);
      var outer := StepLoops(c.deps.anglePids, c.target.attitude, body, c.status.rateTarget);
      var inner := StepLoops(c.deps.ratePids, outer.1, bodyGyro, c.status.command);
      var cmd := inner.1;
      var outputs := Mixer(ThrottleInput(c.target), cmd.roll, cmd.pitch, cmd.yaw);
      var deps := c.deps.(motors := Drive(c.deps.motors, outputs), anglePids := outer.0, ratePids := inner.0);
      Chassis(deps, c.target,
              c.status.(imu := imu, imuGyro := imuGyro, body := body, bodyGyro := bodyGyro,
                        rateTarget := outer.1, command := cmd, motorOutputs := outputs))
  }

  /** `disarm`: every output is 0 and every present motor is commanded 0. */
  function Disarm(c: Chassis): (r: Chassis)
    requires Valid(c)
    ensures Valid(r) && r.target == c.target
    ensures forall i :: 0 <= i < 4 ==> r.status.motorOutputs[i] == 0.0
    ensures forall i :: 0 <= i < 4 ==> r.deps.motors[i] == if c.deps.motors[i].Some? then Some(0.0) else None
    ensures r.status == c.status.(motorOutputs := r.status.motorOutputs)
    ensures r.deps == c.deps.(motors := r.deps.motors)
  {
    var zero := [0.0, 0.0, 0.0, 0.0];
    c.(deps := c.deps.(motors := Drive(c.deps.motors, zero)), status := c.status.(motorOutputs := zero))
  }

  /**
   * Direct mode with level commands: after `setThrottleOverride(t)` every
   * motor receives the same throttle, `t` limited to [0, 100].
   */
  lemma LevelDirectThrottle(c: Chassis, throttle: real)
    requires Valid(c) && c.target.mode == Direct
    ensures var d := SetThrottleOverride(c, throttle);
            forall i :: 0 <= i < 4 ==> Mixer(ThrottleInput(d.target), 0.0, 0.0, 0.0)[i] == ClampThrottle(throttle)
  {
  }
}

=== FILE: commu_check.dfy ===
/**
 * The link monitor (`taskCommuCheck.cpp`): every 5 ms poll it decides from
 * receive flags set by callbacks whether the NRF ground-station link and the
 * lidar link are up.  A connected link drops after a silence longer than its
 * timeout; a dropped link comes back after enough packets close together.
 * The radio's dummy transmit is reported as a flag; the delay is left out.
 */
module CommuCheck {
  import opened CTypes
  import opened Wrappers
  import NrfResponse
  import MathBits

  const POLL_PERIOD_MS: nat := 5
  const NRF_DISCONNECT_TIMEOUT_MS: nat := 250
  const NRF_MAX_PACKET_INTERVAL_MS: nat := 250
  const NRF_MIN_RECOVERY_PACKETS: nat := 2
  const LIDAR_DISCONNECT_TIMEOUT_MS: nat := 500
  const LIDAR_MAX_PACKET_INTERVAL_MS: nat := 500
  const LIDAR_MIN_RECOVERY_PACKETS: nat := 1
  /** Polls between two rate samples: `1000 / POLL_PERIOD_MS`, one second. */
  const RATE_POLLS: nat := 200
  /** `sizeof(ground_station_rx_data_t)`: 2 bytes of field info and 12 of keyboard state. */
  const RX_DATA_SIZE: nat := 14

  /** `connection_recovery_state_t`. */
  datatype Recovery = Recovery(sinceMs: nat, packets: nat)

  predicate RecoveryValid(r: Recovery) { IsU64(r.sinceMs) && IsU8(r.packets) }

  const Cleared: Recovery := Recovery(0, 0)

  /**
   * `update_recovery_state`, on a received packet: a packet that arrives
   * within `maxInterval` of the previous one extends the run, otherwise it
   * starts a new run of one.  The silence timer restarts.
   */
  function UpdateRecovery(r: Recovery, maxInterval: nat): (n: Recovery)
    requires RecoveryValid(r)
    ensures RecoveryValid(n) && n.sinceMs == 0
    ensures r.packets < 255 ==> n.packets >= 1
    ensures r.packets > 0 && r.sinceMs <= maxInterval ==> n.packets == Wrap8(r.packets + 1)
    ensures r.packets == 0 || r.sinceMs > maxInterval ==> n.packets == 1
  {
    if r.packets == 0 then Recovery(0, 1)
    else if r.sinceMs <= maxInterval then Recovery(0, Wrap8(r.packets + 1))
    else Recovery(0, 1)
  }

  /** `ground_station_status_t`. */
  datatype GroundStation = GroundStation(connected: bool, rxFlag: bool, recovery: Recovery)

  /**
   * The ground-station invariant: a disconnected link has seen at most one
   * packet of a run (two reconnect it) and a connected one holds no run.
   */
  predicate GroundStationValid(g: GroundStation)
  {
    RecoveryValid(g.recovery) && g.recovery.packets < NRF_MIN_RECOVERY_PACKETS &&
    (g.connected ==> g.recovery.packets == 0)
  }

  /**
   * `ground_station_rx_callback`: a payload of the wrong length is ignored;
   * one of 14 bytes replaces the stored data and raises the receive flag.
   */
  function RxCallback(g: GroundStation, stored: seq<nat>, data: seq<nat>): (r: (GroundStation, seq<nat>))
    requires |data| < U8
    ensures GroundStationValid(g) ==> GroundStationValid(r.0)
    ensures r.0.rxFlag <==> g.rxFlag || |data| == RX_DATA_SIZE
    ensures |data| != RX_DATA_SIZE ==> r == (g, stored)
    ensures |data| == RX_DATA_SIZE ==> r.1 == data && r.0.connected == g.connected && r.0.recovery == g.recovery
  {
    if |data| != RX_DATA_SIZE then (g, stored) else (g.(rxFlag := true), data)
  }

  /** What an NRF poll leaves behind, and whether it sent the 4-byte keep-alive packet. */
  datatype NrfPoll = NrfPoll(status: GroundStation, sentDummy: bool)

  /**
   * `check_nrf_connection_status`.  Connected: a flagged poll restarts the
   * silence timer, an empty one adds 5 ms and drops the link past 250 ms,
   * clearing the recovery state.  Disconnected: a flagged poll extends or
   * restarts the run, an empty one adds 5 ms, and a run of two reconnects,
   * clearing the recovery state; a keep-alive packet is sent.
   */
  function CheckNrf(g: GroundStation): (r: NrfPoll)
    requires RecoveryValid(g.recovery)
    ensures RecoveryValid(r.status.recovery) && !r.status.rxFlag && r.sentDummy == !g.connected
    ensures GroundStationValid(g) ==> GroundStationValid(r.status)
    ensures g.connected && g.rxFlag ==> r.status == GroundStation(true, false, g.recovery.(sinceMs := 0))
    ensures g.connected && !g.rxFlag ==>
      var t := Wrap64(g.recovery.sinceMs + POLL_PERIOD_MS);
      if t > NRF_DISCONNECT_TIMEOUT_MS then r.status == GroundStation(false, false, Cleared)
      else r.status == GroundStation(true, false, g.recovery.(sinceMs := t))
    ensures !g.connected ==>
      var rec := if g.rxFlag then UpdateRecovery(g.recovery, NRF_MAX_PACKET_INTERVAL_MS)
                 else g.recovery.(sinceMs := Wrap64(g.recovery.sinceMs + POLL_PERIOD_MS));
      if rec.packets >= NRF_MIN_RECOVERY_PACKETS then r.status == GroundStation(true, false, Cleared)
      else r.status == GroundStation(false, false, rec)
  {
    if g.connected then
      if g.rxFlag then NrfPoll(GroundStation(true, false, g.recovery.(sinceMs := 0)), false)
      else
        var t := Wrap64(g.recovery.sinceMs + POLL_PERIOD_MS);
        if t > NRF_DISCONNECT_TIMEOUT_MS then NrfPoll(GroundStation(false, false, Cleared), false)
        else NrfPoll(GroundStation(true, false, g.recovery.(sinceMs := t)), false)
    else
      var rec := if g.rxFlag then UpdateRecovery(g.recovery, NRF_MAX_PACKET_INTERVAL_MS)
                 else g.recovery.(sinceMs := Wrap64(g.recovery.sinceMs + POLL_PERIOD_MS));
      if rec.packets >= NRF_MIN_RECOVERY_PACKETS then NrfPoll(GroundStation(true, false, Cleared), true)
      else NrfPoll(GroundStation(false, false, rec), true)
  }

  /** k polls with no packet. */
  function Silence(g: GroundStation, k: nat): (r: GroundStation)
    requires RecoveryValid(g.recovery) && !g.rxFlag
    ensures RecoveryValid(r.recovery) && !r.rxFlag
    decreases k
  {
    if k == 0 then g else Silence(CheckNrf(g).status, k - 1)
  }

  /** The connected link survives 50 empty polls after a packet, with 5 ms counted per poll. */
  lemma {:induction false} NrfHoldsFor50(g: GroundStation, k: nat)
    requires g.connected && !g.rxFlag && RecoveryValid(g.recovery) && g.recovery.sinceMs == 0
    requires k <= 50
    ensures Silence(g, k) == g.(recovery := g.recovery.(sinceMs := POLL_PERIOD_MS * k))
  {
    if k > 0 {
      NrfHoldsFor50(g, k - 1);
      SilenceLast(g, k);
    }
  }

  lemma {:induction false} SilenceLast(g: GroundStation, k: nat)
    requires RecoveryValid(g.recovery) && !g.rxFlag && k > 0
    ensures Silence(g, k) == CheckNrf(Silence(g, k - 1)).status
    decreases k
  {
    if k > 1 {
      SilenceLast(CheckNrf(g).status, k - 1);
    }
  }

  /** The 51st consecutive empty poll drops the link and clears the recovery state. */
  lemma NrfDropsOn51st(g: GroundStation)
    requires g.connected && !g.rxFlag && RecoveryValid(g.recovery) && g.recovery.sinceMs == 0
    ensures Silence(g, 51) == GroundStation(false, false, Cleared)
  {
    NrfHoldsFor50(g, 50);
    SilenceLast(g, 51);
  }

  /** While disconnected and silent, only the timer of the run advances. */
  lemma {:induction false} SilenceDisconnected(g: GroundStation, k: nat)
    requires !g.connected && !g.rxFlag && RecoveryValid(g.recovery) && g.recovery.packets < NRF_MIN_RECOVERY_PACKETS
    requires g.recovery.sinceMs + POLL_PERIOD_MS * k < U64
    ensures Silence(g, k) == g.(recovery := g.recovery.(sinceMs := g.recovery.sinceMs + POLL_PERIOD_MS * k))
  {
    if k > 0 {
      SilenceDisconnected(g, k - 1);
      SilenceLast(g, k);
    }
  }

  /**
   * A disconnected link with no run: a packet, m empty polls and a second
   * packet reconnect it exactly when the two packets are at most 250 ms
   * apart (m <= 50); reconnecting clears the recovery state.
   */
  lemma NrfTwoPacketsReconnect(g: GroundStation, m: nat)
    requires !g.connected && g.rxFlag && RecoveryValid(g.recovery) && g.recovery.packets == 0
    requires POLL_PERIOD_MS * m < U64
    ensures var first := CheckNrf(g).status;
            first == GroundStation(false, false, Recovery(0, 1)) &&
            var second := CheckNrf(Silence(first, m).(rxFlag := true)).status;
            (second.connected <==> POLL_PERIOD_MS * m <= NRF_MAX_PACKET_INTERVAL_MS) &&
            (second.connected ==> second.recovery == Cleared)
  {
    var first := CheckNrf(g).status;
    SilenceDisconnected(first, m);
  }

  /** `lidar_status_t`; the rates are the floats `(float)` of 64-bit differences. */
  datatype LidarStatus = LidarStatus(
    connected: bool, poseFlag: bool, imuFlag: bool,
    poseCount: nat, imuCount: nat, poseRate: real, imuRate: real,
    poseSinceMs: nat, imuSinceMs: nat, recovery: Recovery)

  /**
   * The lidar invariant: no run is ever pending, since one packet is enough
   * to reconnect.
   */
  predicate LidarValid(s: LidarStatus)
  {
    IsU64(s.poseCount) && IsU64(s.imuCount) && IsU64(s.poseSinceMs) && IsU64(s.imuSinceMs) &&
    RecoveryValid(s.recovery) && s.recovery.packets == 0
  }

  /**
   * `lidar_pose_rx_callback` / `lidar_imu_rx_callback`: `data` is the valid
   * flag of the received data, None for a null pointer.  Null or invalid
   * data is ignored; otherwise the flag is raised and the count advances.
   */
  function PoseCallback(s: LidarStatus, data: Option<bool>): (r: LidarStatus)
    requires LidarValid(s)
    ensures LidarValid(r)
    ensures data != Some(true) ==> r == s
    ensures data == Some(true) ==> r == s.(poseFlag := true, poseCount := Wrap64(s.poseCount + 1))
  {
    if data.None? || !data.value then s else s.(poseFlag := true, poseCount := Wrap64(s.poseCount + 1))
  }

  function ImuCallback(s: LidarStatus, data: Option<bool>): (r: LidarStatus)
    requires LidarValid(s)
    ensures LidarValid(r)
    ensures data != Some(true) ==> r == s
    ensures data == Some(true) ==> r == s.(imuFlag := true, imuCount := Wrap64(s.imuCount + 1))
  {
    if data.None? || !data.value then s else s.(imuFlag := true, imuCount := Wrap64(s.imuCount + 1))
  }

  /** The static locals of `check_lidar_connection_status`: the poll counter and the counts at the last sample. */
  datatype Sampler = Sampler(counter: nat, lastPose: nat, lastImu: nat)

  predicate SamplerValid(m: Sampler) { m.counter < RATE_POLLS && IsU64(m.lastPose) && IsU64(m.lastImu) }

  /** The 8-bit poll counter after one poll. */
  function Tick(counter: nat): (c: nat)
    requires counter < RATE_POLLS
    ensures c < RATE_POLLS && c == (counter + 1) % RATE_POLLS
  {
    var c := Wrap8(counter + 1);
    if c >= RATE_POLLS then 0 else c
  }

  /**
   * The rate block: on every 200th poll each rate becomes the count gained
   * since the previous sample (modulo 2^64) and the counts are remembered.
   */
  function SampleRates(s: LidarStatus, m: Sampler): (r: (LidarStatus, Sampler))
    requires LidarValid(s) && SamplerValid(m)
    ensures LidarValid(r.0) && SamplerValid(r.1) && r.1.counter == Tick(m.counter)
    ensures m.counter + 1 < RATE_POLLS ==> r == (s, m.(counter := m.counter + 1))
    ensures m.counter + 1 == RATE_POLLS ==>
      r.1 == Sampler(0, s.poseCount, s.imuCount) &&
      r.0 == s.(poseRate := Wrap64(s.poseCount - m.lastPose) as real, imuRate := Wrap64(s.imuCount - m.lastImu) as real)
  {
    var c := Wrap8(m.counter + 1);
    if c >= RATE_POLLS then
      (s.(poseRate := Wrap64(s.poseCount - m.lastPose) as real, imuRate := Wrap64(s.imuCount - m.lastImu) as real),
       Sampler(0, s.poseCount, s.imuCount))
    else (s, m.(counter := c))
  }

  /** The counter after n polls from 0. */
  function Counter(n: nat): (c: nat)
    ensures c < RATE_POLLS
  {
    if n == 0 then 0 else Tick(Counter(n - 1))
  }

  /** Counting from 0, the rates are sampled on poll n exactly when n is a multiple of 200. */
  lemma {:induction false} SampledEvery200(n: nat)
    ensures Counter(n) == n % RATE_POLLS
    ensures n > 0 ==> (Counter(n - 1) + 1 == RATE_POLLS <==> n % RATE_POLLS == 0)
  {
    if n > 0 {
      SampledEvery200(n - 1);
      var q, c := (n - 1) / RATE_POLLS, (n - 1) % RATE_POLLS;
      if c + 1 < RATE_POLLS {
        MathBits.ModUnique(n, RATE_POLLS, q, c + 1);
      } else {
        MathBits.ModUnique(n, RATE_POLLS, q + 1, 0);
      }
    }
  }

  /**
   * The flag and recovery block for the lidar: a flagged source restarts its
   * silence timer (and, while disconnected, extends the run); an empty one
   * adds 5 ms.  The flags are cleared.
   */
  function HandleFlags(s: LidarStatus): (r: LidarStatus)
    requires LidarValid(s)
    ensures !r.poseFlag && !r.imuFlag && r.connected == s.connected
    ensures r.poseSinceMs == (if s.poseFlag then 0 else Wrap64(s.poseSinceMs + POLL_PERIOD_MS))
    ensures r.imuSinceMs == (if s.imuFlag then 0 else Wrap64(s.imuSinceMs + POLL_PERIOD_MS))
    ensures RecoveryValid(r.recovery) && r.recovery.packets <= 2
    ensures s.connected || !(s.poseFlag || s.imuFlag) ==> r.recovery == s.recovery
    ensures !s.connected && (s.poseFlag || s.imuFlag) ==> r.recovery.packets >= 1
    ensures r.poseCount == s.poseCount && r.imuCount == s.imuCount && r.poseRate == s.poseRate && r.imuRate == s.imuRate
  {
    var rec1 := if s.poseFlag && !s.connected then UpdateRecovery(s.recovery, LIDAR_MAX_PACKET_INTERVAL_MS) else s.recovery;
    var rec2 := if s.imuFlag && !s.connected then UpdateRecovery(rec1, LIDAR_MAX_PACKET_INTERVAL_MS) else rec1;
    s.(poseFlag := false, imuFlag := false,
       poseSinceMs := if s.poseFlag then 0 else Wrap64(s.poseSinceMs + POLL_PERIOD_MS),
       imuSinceMs := if s.imuFlag then 0 else Wrap64(s.imuSinceMs + POLL_PERIOD_MS),
       recovery := rec2)
  }

  /**
   * `check_lidar_connection_status`.  Connected: the link drops when either
   * silence exceeds 500 ms.  Disconnected: any pose or IMU packet reconnects
   * it in the same poll, and reconnecting clears the recovery state.
   * The source's test of both flags before adding 5 ms to the run timer reads
   * flags the poll has already cleared, so the 5 ms is always added; the run
   * is cleared on reconnect either way.
   */
  function CheckLidar(s: LidarStatus, m: Sampler): (r: (LidarStatus, Sampler))
    requires LidarValid(s) && SamplerValid(m)
    ensures LidarValid(r.0) && SamplerValid(r.1) && r.1 == SampleRates(s, m).1
    ensures !r.0.poseFlag && !r.0.imuFlag
    ensures s.connected ==>
      var h := HandleFlags(s);
      (r.0.connected <==> h.poseSinceMs <= LIDAR_DISCONNECT_TIMEOUT_MS && h.imuSinceMs <= LIDAR_DISCONNECT_TIMEOUT_MS)
    ensures !s.connected ==> (r.0.connected <==> s.poseFlag || s.imuFlag)
    ensures r.0.connected != s.connected ==> r.0.recovery == Cleared
  {
    var sampled := SampleRates(s, m);
    var h := HandleFlags(sampled.0);
    var status :=
      if h.connected then
        if h.poseSinceMs > LIDAR_DISCONNECT_TIMEOUT_MS || h.imuSinceMs > LIDAR_DISCONNECT_TIMEOUT_MS then
          h.(connected := false, recovery := Cleared)
        else h
      else
        var rec := if !h.poseFlag && !h.imuFlag then h.recovery.(sinceMs := Wrap64(h.recovery.sinceMs + POLL_PERIOD_MS)) else h.recovery;
        if rec.packets >= LIDAR_MIN_RECOVERY_PACKETS then h.(connected := true, recovery := Cleared)
        else h.(recovery := rec);
    (status, sampled.1)
  }

  /** A connected lidar that keeps sending both pose and IMU data stays connected. */
  lemma LidarStaysConnected(s: LidarStatus, m: Sampler)
    requires LidarValid(s) && SamplerValid(m) && s.connected && s.poseFlag && s.imuFlag
    ensures CheckLidar(s, m).0.connected
  {
  }

  /**
   * `check_user`: bit 0 of the chassis azimuth warning reports a lost lidar
   * link.  The whole poll: NRF check, lidar check, then this bit.
   */
  function Poll(g: GroundStation, s: LidarStatus, m: Sampler, p: NrfResponse.Package): (r: (NrfPoll, (LidarStatus, Sampler), NrfResponse.Package))
    requires RecoveryValid(g.recovery) && LidarValid(s) && SamplerValid(m) && NrfResponse.Valid(p)
    ensures r.0 == CheckNrf(g) && r.1 == CheckLidar(s, m)
    ensures NrfResponse.Valid(r.2) && r.2.watch == p.watch && r.2.str == p.str
    ensures MathBits.BitSet(NrfResponse.Get(r.2.warnings, NrfResponse.ChassisAzimuth), 0) <==> !r.1.0.connected
  {
    var nrf := CheckNrf(g);
    var lidar := CheckLidar(s, m);
    var pkg := NrfResponse.SetWarningBit(p, NrfResponse.ChassisAzimuth, 0, if lidar.0.connected then 0 else 1);
    (nrf, lidar, pkg)
  }
}

=== FILE: ctypes.dfy ===
/**
 * C scalar semantics shared by the firmware models: unsigned wrap-around,
 * two's-complement reinterpretation, truncating float-to-integer conversion
 * and `fmodf`.  Floats are modelled as `real`, so rounding is not modelled.
 */
module CTypes {

  const U8: nat := 0x100
  const U16: nat := 0x1_0000
  const U32: nat := 0x1_0000_0000
  const U64: nat := 0x1_0000_0000_0000_0000

  predicate IsU8(x: int) { 0 <= x < U8 }
  predicate IsU16(x: int) { 0 <= x < U16 }
  predicate IsU32(x: int) { 0 <= x < U32 }
  predicate IsU64(x: int) { 0 <= x < U64 }

  /** Arithmetic result stored back into a `uint8_t`. */
  function Wrap8(x: int): (r: nat)
    ensures r < U8
    ensures IsU8(x) ==> r == x
  {
    x % U8
  }

  /** Arithmetic result stored back into a `uint32_t`. */
  function Wrap32(x: int): (r: nat)
    ensures r < U32
    ensures IsU32(x) ==> r == x
  {
    x % U32
  }

  /** Arithmetic result stored back into a `uint64_t`. */
  function Wrap64(x: int): (r: nat)
    ensures r < U64
    ensures IsU64(x) ==> r == x
  {
    x % U64
  }

  /** An unsigned `bits`-wide pattern read as two's complement. */
  function SignExtend(v: nat, bits: nat): (r: int)
    requires 1 <= bits && v < Pow2(bits)
    ensures -(Pow2(bits - 1) as int) <= r < Pow2(bits - 1)
    ensures v < Pow2(bits - 1) ==> r == v
    ensures v >= Pow2(bits - 1) ==> r == v - Pow2(bits)
  {
    if v < Pow2(bits - 1) then v else v - Pow2(bits)
  }

  function Pow2(n: nat): (r: nat)
    ensures r >= 1
  {
    if n == 0 then 1 else 2 * Pow2(n - 1)
  }

  /** The powers of two the sign extensions of the drivers use. */
  lemma Pow2Values()
    ensures Pow2(11) == 0x800 && Pow2(12) == 0x1000
    ensures Pow2(15) == 0x8000 && Pow2(16) == 0x1_0000
    ensures Pow2(19) == 0x8_0000 && Pow2(20) == 0x10_0000
    ensures Pow2(23) == 0x80_0000 && Pow2(24) == 0x100_0000
  {
  }

  function Abs(x: real): (r: real)
    ensures r >= 0.0 && (r == x || r == -x)
  {
    if x < 0.0 then -x else x
  }

  function AbsInt(x: int): (r: nat)
    ensures r == x || r == -x
  {
    if x < 0 then -x else x
  }

  /** C conversion of a float to an integer type: truncation toward zero. */
  function Trunc(x: real): (r: int)
    ensures x >= 0.0 ==> r >= 0 && r as real <= x < r as real + 1.0
    ensures x < 0.0 ==> r <= 0 && r as real - 1.0 < x <= r as real
  {
    if x >= 0.0 then x.Floor else -((-x).Floor)
  }

  /**
   * Real product kept behind a function symbol, so that facts about a product
   * combine linearly with other terms instead of feeding the non-linear solver.
   */
  function Mul(a: real, b: real): real
  {
    a * b
  }

  /** `k * m` for an integer multiplier; named so that quantifiers over `k` have a trigger. */
  function Times(k: int, m: real): real
  {
    Mul(k as real, m)
  }

  /** `a` and `b` differ by an integer multiple of `m`. */
  ghost predicate Congruent(a: real, b: real, m: real)
  {
    exists k: int :: a - b == Times(k, m)
  }

  /** C `fmodf(x, m)` for a positive modulus: x - trunc(x / m) * m. */
  function FmodF(x: real, m: real): (r: real)
    requires m > 0.0
    ensures -m < r < m
    ensures x >= 0.0 ==> r >= 0.0
    ensures x < 0.0 ==> r <= 0.0
    ensures r - x == Times(-Trunc(x / m), m)
    ensures 0.0 <= x < m ==> r == x
  {
    var q := x / m;
    DivSign(x, m);
    TruncScale(x, q, m);
    NegTimes(Trunc(q), m);
    x - Times(Trunc(q), m)
  }

  lemma NegTimes(k: int, m: real)
    ensures Times(-k, m) == -Times(k, m)
  {
  }

  lemma TruncScale(x: real, q: real, m: real)
    requires m > 0.0 && Mul(q, m) == x && (x >= 0.0 <==> q >= 0.0)
    ensures x >= 0.0 ==> Times(Trunc(q), m) <= x < Times(Trunc(q), m) + m
    ensures x < 0.0 ==> Times(Trunc(q), m) - m < x <= Times(Trunc(q), m)
    ensures 0.0 <= x < m ==> Trunc(q) == 0
  {
    var t := Trunc(q);
    if x >= 0.0 {
      MulLe(t as real, q, m);
      MulLt(q, t as real + 1.0, m);
      MulAddOne(t as real, m);
      if x < m {
        MulCancel(t as real, 1.0, m);
      }
    } else {
      MulLt(t as real - 1.0, q, m);
      MulLe(q, t as real, m);
      MulAddOne(t as real - 1.0, m);
    }
  }

  lemma DivSign(x: real, m: real)
    requires m > 0.0
    ensures x >= 0.0 <==> x / m >= 0.0
    ensures Mul(x / m, m) == x
  {
    assert (x / m) * m == x;
  }

  lemma MulAddOne(a: real, m: real)
    ensures Mul(a + 1.0, m) == Mul(a, m) + m
    ensures Mul(1.0, m) == m
  {
  }

  lemma MulLe(a: real, b: real, m: real)
    requires a <= b && m > 0.0
    ensures Mul(a, m) <= Mul(b, m)
  {
    assert (b - a) * m >= 0.0;
  }

  lemma MulLt(a: real, b: real, m: real)
    requires a < b && m > 0.0
    ensures Mul(a, m) < Mul(b, m)
  {
    assert (b - a) * m > 0.0;
  }

  lemma MulCancel(a: real, b: real, m: real)
    requires Mul(a, m) < Mul(b, m) && m > 0.0
    ensures a < b
  {
    assert (b - a) * m > 0.0;
  }
}

=== FILE: lidar.dfy ===
/**
 * The Lidar serial link (`lidar.cpp`): the byte-at-a-time frame state
 * machine `3F 21 <cmd> <12 payload bytes> 21`, batch processing that stops at
 * the first rejected byte, the DMA length choice, the ten-slot position
 * filter and the setter guards.
 *
 * `bytesToFloat` reinterprets four little-endian bytes as an IEEE float; it is
 * the parameter `decode`.  The velocity estimate, its low-pass filter and
 * the last filtered pose they work from are not modelled.
 */
module Lidar {
  import opened CTypes

  const HEADER1: nat := 0x3F
  const HEADER2: nat := 0x21
  const FOOTER: nat := 0x21
  const CMD_POSE: nat := 0x01
  const CMD_IMU: nat := 0x02
  const PAYLOAD_SIZE: nat := 12
  const FILTER_SIZE: nat := 10
  /** Below this many samples the filter takes the plain mean. */
  const TRIM_THRESHOLD: nat := 5

  datatype ParseState = WaitHeader1 | WaitHeader2 | WaitCommand | ReceivePayload | WaitFooter

  datatype Vec3 = Vec3(x: real, y: real, z: real)

  datatype Lidar = Lidar(
    state: ParseState,
    cmd: nat,
    payload: seq<nat>,
    payloadIndex: nat,
    pose: Vec3,
    poseValid: bool,
    imu: Vec3,
    imuValid: bool,
    xBuf: seq<real>,
    yBuf: seq<real>,
    zBuf: seq<real>,
    filterIndex: nat,
    filterCount: nat,
    frequency: real,
    alpha: real,
    poseCount: nat,
    imuCount: nat,
    errorCount: nat)

  predicate Bytes(s: seq<nat>)
  {
    forall i :: 0 <= i < |s| ==> IsU8(s[i])
  }

  /**
   * What the class keeps true between calls: the payload index never passes
   * 12 and is below 12 while payload bytes are expected, the footer is only
   * awaited after a full payload of a known command, the filter index stays
   * in its ring and, until the ring is full, points just past the samples.
   */
  predicate Valid(l: Lidar)
  {
    |l.payload| == PAYLOAD_SIZE && Bytes(l.payload) && l.payloadIndex <= PAYLOAD_SIZE &&
    (l.state == ReceivePayload ==> l.payloadIndex < PAYLOAD_SIZE) &&
    (l.state == WaitFooter ==> l.payloadIndex == PAYLOAD_SIZE) &&
    (l.state == ReceivePayload || l.state == WaitFooter ==> l.cmd == CMD_POSE || l.cmd == CMD_IMU) &&
    |l.xBuf| == FILTER_SIZE && |l.yBuf| == FILTER_SIZE && |l.zBuf| == FILTER_SIZE &&
    l.filterIndex < FILTER_SIZE && l.filterCount <= FILTER_SIZE &&
    (l.filterCount < FILTER_SIZE ==> l.filterIndex == l.filterCount) &&
    0.0 <= l.alpha <= 1.0 &&
    IsU32(l.poseCount) && IsU32(l.imuCount) && IsU32(l.errorCount)
  }

  function Zeros(n: nat): (s: seq<real>)
    ensures |s| == n && forall i :: 0 <= i < n ==> s[i] == 0.0
  {
    seq(n, _ => 0.0)
  }

  /** The constructor: everything zero, waiting for the first header byte, alpha 0.4. */
  function Create(frequency: real): (l: Lidar)
    ensures Valid(l)
    ensures l.state == WaitHeader1 && !l.poseValid && !l.imuValid
    ensures l.poseCount == 0 && l.imuCount == 0 && l.errorCount == 0 && l.filterCount == 0
    ensures l.frequency == frequency
  {
    var zero := Vec3(0.0, 0.0, 0.0);
    Lidar(WaitHeader1, 0, seq(PAYLOAD_SIZE, _ => 0), 0, zero, false, zero, false,
          Zeros(FILTER_SIZE), Zeros(FILTER_SIZE), Zeros(FILTER_SIZE), 0, 0, frequency, 0.4, 0, 0, 0)
  }

  /** `init`: back to waiting for a header, counters cleared, data invalid; the filter is kept. */
  function Init(l: Lidar): (r: Lidar)
    requires Valid(l)
    ensures Valid(r)
    ensures r.state == WaitHeader1 && r.poseCount == 0 && r.imuCount == 0 && r.errorCount == 0
    ensures !r.poseValid && !r.imuValid
    ensures r.xBuf == l.xBuf && r.filterCount == l.filterCount && r.filterIndex == l.filterIndex
  {
    l.(state := WaitHeader1, cmd := 0, payloadIndex := 0, poseCount := 0, imuCount := 0,
       errorCount := 0, poseValid := false, imuValid := false)
  }

  /** `setPoseFrequency`: only a frequency in (0, 1000] Hz is taken; nothing else changes. */
  function SetPoseFrequency(l: Lidar, f: real): (r: Lidar)
    requires Valid(l)
    ensures Valid(r)
    ensures r.frequency == f <==> (0.0 < f <= 1000.0 || l.frequency == f)
    ensures r == l.(frequency := r.frequency)
  {
    if 0.0 < f <= 1000.0 then l.(frequency := f) else l
  }

  /** `setVelocityLowpassAlpha`: only a coefficient in [0, 1] is taken, so alpha stays in [0, 1]. */
  function SetVelocityLowpassAlpha(l: Lidar, a: real): (r: Lidar)
    requires Valid(l)
    ensures Valid(r) && 0.0 <= r.alpha <= 1.0
    ensures r.alpha == a <==> (0.0 <= a <= 1.0 || l.alpha == a)
    ensures r == l.(alpha := r.alpha)
  {
    if 0.0 <= a <= 1.0 then l.(alpha := a) else l
  }

  /**
   * `getNextReceiveLength`: the rest of the payload while payload bytes are
   * expected, otherwise a single byte; never zero and never beyond a payload.
   */
  function NextReceiveLength(l: Lidar): (n: nat)
    requires Valid(l)
    ensures 1 <= n <= PAYLOAD_SIZE
    ensures l.state == ReceivePayload ==> l.payloadIndex + n == PAYLOAD_SIZE
    ensures l.state != ReceivePayload ==> n == 1
  {
    match l.state
    case ReceivePayload => PAYLOAD_SIZE - l.payloadIndex
    case _ => 1
  }

  // ---------------------------------------------------------------------------
  // Position filter

  /** The samples summed in the order the loop visits them. */
  function Sum(s: seq<real>): real
    decreases |s|
  {
    if |s| == 0 then 0.0 else Sum(s[..|s| - 1]) + s[|s| - 1]
  }

  /** The running minimum of the loop: start at the first sample, take any smaller one. */
  function MinOf(s: seq<real>): (m: real)
    requires |s| > 0
    ensures m in s
    ensures forall i :: 0 <= i < |s| ==> m <= s[i]
    decreases |s|
  {
    if |s| == 1 then s[0]
    else
      var p := MinOf(s[..|s| - 1]);
      assert forall i :: 0 <= i < |s| - 1 ==> s[..|s| - 1][i] == s[i];
      if s[|s| - 1] < p then s[|s| - 1] else p
  }

  /** The running maximum of the loop. */
  function MaxOf(s: seq<real>): (m: real)
    requires |s| > 0
    ensures m in s
    ensures forall i :: 0 <= i < |s| ==> s[i] <= m
    decreases |s|
  {
    if |s| == 1 then s[0]
    else
      var p := MaxOf(s[..|s| - 1]);
      assert forall i :: 0 <= i < |s| - 1 ==> s[..|s| - 1][i] == s[i];
      if s[|s| - 1] > p then s[|s| - 1] else p
  }

  /** n copies of a added up: the count-times-value products of the bounds below. */
  function Scaled(n: nat, a: real): real
  {
    if n == 0 then 0.0 else Scaled(n - 1, a) + a
  }

  lemma {:induction false} ScaleLe(n: nat, a: real, b: real)
    requires a <= b
    ensures Scaled(n, a) <= Scaled(n, b)
  {
    if n > 0 {
      ScaleLe(n - 1, a, b);
    }
  }

  lemma {:induction false} ScaledIsProduct(n: nat, a: real)
    ensures Scaled(n, a) == a * (n as real)
  {
    if n > 0 {
      ScaledIsProduct(n - 1, a);
    }
  }

  /** A sum of samples lies between the count times the least and the count times the greatest. */
  lemma {:induction false} SumBounds(s: seq<real>)
    requires |s| > 0
    ensures Scaled(|s|, MinOf(s)) <= Sum(s) <= Scaled(|s|, MaxOf(s))
    decreases |s|
  {
    if |s| > 1 {
      var p := s[..|s| - 1];
      SumBounds(p);
      assert forall i :: 0 <= i < |p| ==> p[i] == s[i];
      assert MinOf(p) in s && MaxOf(p) in s;
      ScaleLe(|p|, MinOf(s), MinOf(p));
      ScaleLe(|p|, MaxOf(p), MaxOf(s));
    }
  }

  /** The sum holds one maximum and, for every other sample, at least the minimum. */
  lemma {:induction false} SumAboveMaxPlusMins(s: seq<real>)
    requires |s| > 0
    ensures Sum(s) >= MaxOf(s) + Scaled(|s| - 1, MinOf(s))
    ensures Sum(s) <= MinOf(s) + Scaled(|s| - 1, MaxOf(s))
    decreases |s|
  {
    if |s| > 1 {
      var p := s[..|s| - 1];
      var x := s[|s| - 1];
      assert forall i :: 0 <= i < |p| ==> p[i] == s[i];
      assert MinOf(p) in s && MaxOf(p) in s;
      ScaleLe(|p| - 1, MinOf(s), MinOf(p));
      ScaleLe(|p| - 1, MaxOf(p), MaxOf(s));
      SumAboveMaxPlusMins(p);
      if x > MaxOf(p) || x < MinOf(p) {
        SumBounds(p);
        ScaleLe(|p|, MinOf(s), MinOf(p));
        ScaleLe(|p|, MaxOf(p), MaxOf(s));
      }
    }
  }

  lemma MulLeCancel(a: real, b: real, m: real)
    requires m > 0.0 && a * m <= b * m
    ensures a <= b
  {
    assert (b - a) * m >= 0.0;
  }

  lemma DivBetween(a: real, n: nat, lo: real, hi: real)
    requires n > 0 && Scaled(n, lo) <= a <= Scaled(n, hi)
    ensures lo <= a / (n as real) <= hi
  {
    var m := n as real;
    ScaledIsProduct(n, lo);
    ScaledIsProduct(n, hi);
    var q := a / m;
    assert q * m == a;
    assert lo * m <= a;
    assert a <= hi * m;
    MulLeCancel(lo, q, m);
    MulLeCancel(q, hi, m);
  }

  function Mean(w: seq<real>): real
    requires |w| > 0
  {
    Sum(w) / (|w| as real)
  }

  /** A plain mean of a non-empty window lies between its extremes. */
  lemma MeanBetween(w: seq<real>)
    requires |w| > 0
    ensures MinOf(w) <= Mean(w) <= MaxOf(w)
  {
    SumBounds(w);
    DivBetween(Sum(w), |w|, MinOf(w), MaxOf(w));
  }

  /** So does the mean left after dropping one maximum and one minimum. */
  lemma TrimmedMeanBetween(w: seq<real>)
    requires |w| > 2
    ensures MinOf(w) <= TrimmedMean(w) <= MaxOf(w)
  {
    var k := |w| - 2;
    SumAboveMaxPlusMins(w);
    assert Scaled(k + 1, MinOf(w)) == Scaled(k, MinOf(w)) + MinOf(w);
    assert Scaled(k + 1, MaxOf(w)) == Scaled(k, MaxOf(w)) + MaxOf(w);
    DivBetween(Sum(w) - MaxOf(w) - MinOf(w), k, MinOf(w), MaxOf(w));
  }

  /** The mean of a window with one maximum and one minimum left out. */
  function TrimmedMean(w: seq<real>): real
    requires |w| > 2
  {
    (Sum(w) - MaxOf(w) - MinOf(w)) / ((|w| - 2) as real)
  }

  /**
   * `getFilteredPosition` over the first `count` samples: 0 with no sample,
   * the plain mean below five samples, otherwise the mean left after one
   * maximum and one minimum are dropped.  Whatever the count, a non-empty
   * window's result lies between its smallest and largest sample.
   */
  function FilteredPosition(buf: seq<real>, count: nat): (r: real)
    requires count <= |buf|
    ensures count == 0 ==> r == 0.0
    ensures count > 0 ==> MinOf(buf[..count]) <= r <= MaxOf(buf[..count])
  {
    if count == 0 then 0.0
    else
      var w := buf[..count];
      if count < TRIM_THRESHOLD then
        MeanBetween(w);
        Mean(w)
      else
        TrimmedMeanBetween(w);
        TrimmedMean(w)
  }

  /** `getFilteredPosition` as the loop that keeps a running sum, minimum and maximum. */
  method GetFilteredPosition(buf: seq<real>, count: nat) returns (r: real)
    requires count <= |buf|
    ensures r == FilteredPosition(buf, count)
    ensures count > 0 ==> MinOf(buf[..count]) <= r <= MaxOf(buf[..count])
  {
    if count == 0 {
      return 0.0;
    }
    var sum, lo, hi := SumMinMax(buf[..count]);
    if count < TRIM_THRESHOLD {
      r := sum / (count as real);
    } else {
      r := (sum - hi - lo) / ((count - 2) as real);
    }
  }

  /** The loop of `getFilteredPosition`: the sum, the minimum and the maximum of the samples. */
  method SumMinMax(w: seq<real>) returns (sum: real, lo: real, hi: real)
    requires |w| > 0
    ensures sum == Sum(w) && lo == MinOf(w) && hi == MaxOf(w)
  {
    sum := 0.0;
    lo, hi := w[0], w[0];
    var i := 0;
    while i < |w|
      invariant 0 <= i <= |w|
      invariant sum == Sum(w[..i])
      invariant i > 0 ==> lo == MinOf(w[..i]) && hi == MaxOf(w[..i])
      invariant i == 0 ==> lo == w[0] && hi == w[0]
    {
      assert w[..i + 1][..i] == w[..i];
      var v := w[i];
      sum := sum + v;
      if v < lo {
        lo := v;
      }
      if v > hi {
        hi := v;
      }
      i := i + 1;
    }
    assert w == w[..i];
  }

  /**
   * `updatePositionFilter`: write the sample at the ring index, advance the
   * index round the ring of ten, and count samples until the ring is full.
   */
  function UpdatePositionFilter(l: Lidar, p: Vec3): (r: Lidar)
    requires Valid(l)
    ensures Valid(r)
    ensures r.filterIndex == (l.filterIndex + 1) % FILTER_SIZE
    ensures r.filterCount == if l.filterCount < FILTER_SIZE then l.filterCount + 1 else FILTER_SIZE
    ensures r.xBuf[l.filterIndex] == p.x && r.yBuf[l.filterIndex] == p.y && r.zBuf[l.filterIndex] == p.z
    ensures forall i :: 0 <= i < FILTER_SIZE && i != l.filterIndex ==>
      r.xBuf[i] == l.xBuf[i] && r.yBuf[i] == l.yBuf[i] && r.zBuf[i] == l.zBuf[i]
    ensures r == l.(xBuf := r.xBuf, yBuf := r.yBuf, zBuf := r.zBuf,
                    filterIndex := r.filterIndex, filterCount := r.filterCount)
  {
    l.(xBuf := l.xBuf[l.filterIndex := p.x],
       yBuf := l.yBuf[l.filterIndex := p.y],
       zBuf := l.zBuf[l.filterIndex := p.z],
       filterIndex := (l.filterIndex + 1) % FILTER_SIZE,
       filterCount := if l.filterCount < FILTER_SIZE then l.filterCount + 1 else FILTER_SIZE)
  }

  /** Feeding samples one after another through the filter. */
  function Feed(l: Lidar, ps: seq<Vec3>): (r: Lidar)
    requires Valid(l)
    ensures Valid(r)
    decreases |ps|
  {
    if |ps| == 0 then l else Feed(UpdatePositionFilter(l, ps[0]), ps[1..])
  }

  /**
   * Until the ring is full, the filter has seen exactly the samples in its
   * first `count` slots, in order; after ten samples the count stays at ten.
   */
  lemma {:induction false} FeedFills(l: Lidar, ps: seq<Vec3>)
    requires Valid(l)
    ensures Feed(l, ps).filterCount == if l.filterCount + |ps| < FILTER_SIZE then l.filterCount + |ps| else FILTER_SIZE
    ensures l.filterCount + |ps| <= FILTER_SIZE ==>
      forall i :: 0 <= i < |ps| ==> Feed(l, ps).xBuf[l.filterCount + i] == ps[i].x
    ensures l.filterCount + |ps| <= FILTER_SIZE ==>
      forall i :: 0 <= i < l.filterCount ==> Feed(l, ps).xBuf[i] == l.xBuf[i]
    decreases |ps|
  {
    if |ps| > 0 {
      var l1 := UpdatePositionFilter(l, ps[0]);
      FeedFills(l1, ps[1..]);
      if l.filterCount + |ps| <= FILTER_SIZE {
        assert l.filterIndex == l.filterCount;
        forall i | 0 <= i < |ps|
          ensures Feed(l, ps).xBuf[l.filterCount + i] == ps[i].x
        {
          if i > 0 {
            assert ps[1..][i - 1] == ps[i];
          }
        }
      }
    }
  }

  // ---------------------------------------------------------------------------
  // Frame parser

  /** The three little-endian floats of a payload. */
  function DecodeVec(payload: seq<nat>, decode: seq<nat> -> real): Vec3
    requires |payload| == PAYLOAD_SIZE
  {
    Vec3(decode(payload[0..4]), decode(payload[4..8]), decode(payload[8..12]))
  }

  /**
   * `parsePosePacket`: with a full payload, the decoded position replaces the
   * pose and passes through the position filter, and the pose counter
   * advances; a short payload counts an error.
   */
  function ParsePose(l: Lidar, decode: seq<nat> -> real): (r: Lidar)
    requires Valid(l)
    ensures Valid(r)
    ensures l.payloadIndex == PAYLOAD_SIZE ==>
      r.poseValid && r.pose == DecodeVec(l.payload, decode) && r.poseCount == Wrap32(l.poseCount + 1) &&
      r.errorCount == l.errorCount && r.filterCount >= 1
    ensures l.payloadIndex != PAYLOAD_SIZE ==> r == l.(errorCount := Wrap32(l.errorCount + 1))
    ensures r.imu == l.imu && r.imuValid == l.imuValid && r.imuCount == l.imuCount
    ensures r.state == l.state && r.payload == l.payload && r.payloadIndex == l.payloadIndex && r.cmd == l.cmd
  {
    if l.payloadIndex != PAYLOAD_SIZE then
      l.(errorCount := Wrap32(l.errorCount + 1))
    else
      var p := DecodeVec(l.payload, decode);
      var f := UpdatePositionFilter(l, p);
      f.(pose := p, poseValid := true, poseCount := Wrap32(l.poseCount + 1))
  }

  /** `parseImuPacket`: the decoded attitude replaces the IMU data and the IMU counter advances. */
  function ParseImu(l: Lidar, decode: seq<nat> -> real): (r: Lidar)
    requires Valid(l)
    ensures Valid(r)
    ensures r.imuValid && r.imu == DecodeVec(l.payload, decode) && r.imuCount == Wrap32(l.imuCount + 1)
    ensures r == l.(imu := r.imu, imuValid := true, imuCount := r.imuCount)
  {
    l.(imu := DecodeVec(l.payload, decode), imuValid := true, imuCount := Wrap32(l.imuCount + 1))
  }

  /** The bytes that make the state machine give up: a bad second header or an unknown command. */
  predicate Rejects(state: ParseState, b: nat)
  {
    (state == WaitHeader2 && b != HEADER2) ||
    (state == WaitCommand && b != CMD_POSE && b != CMD_IMU)
  }

  /**
   * `processByte`: one step of the frame state machine.  The answer is false
   * exactly for a bad second header or an unknown command, and then the
   * machine is back to hunting for the first header with nothing else changed.
   */
  function ProcessByte(l: Lidar, b: nat, decode: seq<nat> -> real): (r: (Lidar, bool))
    requires Valid(l) && IsU8(b)
    ensures Valid(r.0)
    ensures !r.1 <==> Rejects(l.state, b)
    ensures !r.1 ==> r.0 == l.(state := WaitHeader1)
    ensures l.state == WaitHeader1 && b != HEADER1 ==> r.0 == l
    ensures l.state == WaitFooter ==> r.0.state == WaitHeader1
    ensures l.state == WaitFooter && b != FOOTER ==>
      r.0 == l.(state := WaitHeader1, errorCount := Wrap32(l.errorCount + 1))
    ensures l.state == ReceivePayload ==>
      r.0 == l.(payload := l.payload[l.payloadIndex := b], payloadIndex := l.payloadIndex + 1,
                state := if l.payloadIndex + 1 == PAYLOAD_SIZE then WaitFooter else ReceivePayload)
  {
    match l.state
    case WaitHeader1 =>
      if b == HEADER1 then (l.(state := WaitHeader2), true) else (l, true)
    case WaitHeader2 =>
      if b == HEADER2 then (l.(state := WaitCommand), true) else (l.(state := WaitHeader1), false)
    case WaitCommand =>
      if b == CMD_POSE || b == CMD_IMU then
        (l.(cmd := b, payloadIndex := 0, state := ReceivePayload), true)
      else
        (l.(state := WaitHeader1), false)
    case ReceivePayload =>
      StoreKeepsBytes(l, b);
      (l.(payload := l.payload[l.payloadIndex := b], payloadIndex := l.payloadIndex + 1,
          state := if l.payloadIndex + 1 == PAYLOAD_SIZE then WaitFooter else ReceivePayload), true)
    case WaitFooter =>
      if b == FOOTER then
        var parsed := if l.cmd == CMD_POSE then ParsePose(l, decode)
                      else if l.cmd == CMD_IMU then ParseImu(l, decode)
                      else l;
        (parsed.(state := WaitHeader1), true)
      else
        (l.(errorCount := Wrap32(l.errorCount + 1), state := WaitHeader1), true)
  }

  /** A stored byte keeps the payload a sequence of bytes. */
  lemma StoreKeepsBytes(l: Lidar, b: nat)
    requires Valid(l) && IsU8(b) && l.state == ReceivePayload
    ensures Bytes(l.payload[l.payloadIndex := b])
  {
    var p := l.payload[l.payloadIndex := b];
    forall i | 0 <= i < |p|
      ensures IsU8(p[i])
    {
      if i != l.payloadIndex {
        assert p[i] == l.payload[i];
      }
    }
  }

  /** How a batch ended: the parser, how many bytes it looked at, and whether none was rejected. */
  datatype Outcome = Outcome(lidar: Lidar, used: nat, ok: bool)

  /**
   * `processReceivedData`: bytes go through `processByte` in order until one
   * is rejected; that byte is the last one looked at and the rest of the
   * batch is dropped.
   */
  function ProcessReceivedData(l: Lidar, data: seq<nat>, decode: seq<nat> -> real): (r: Outcome)
    requires Valid(l) && Bytes(data)
    ensures Valid(r.lidar) && r.used <= |data|
    ensures r.ok ==> r.used == |data|
    ensures !r.ok ==> r.used >= 1 && r.lidar.state == WaitHeader1
    decreases |data|
  {
    if |data| == 0 then Outcome(l, 0, true)
    else
      var step := ProcessByte(l, data[0], decode);
      if !step.1 then
        Outcome(step.0, 1, false)
      else
        var rest := ProcessReceivedData(step.0, data[1..], decode);
        Outcome(rest.lidar, rest.used + 1, rest.ok)
  }

  /**
   * A batch that ends early ends at a rejected byte: every byte before it
   * was accepted, and it is the one the state machine refused.
   */
  lemma {:induction false} RejectedByte(l: Lidar, data: seq<nat>, decode: seq<nat> -> real)
    requires Valid(l) && Bytes(data)
    requires !ProcessReceivedData(l, data, decode).ok
    ensures var r := ProcessReceivedData(l, data, decode);
            var before := ProcessReceivedData(l, data[..r.used - 1], decode);
            before.ok && Rejects(before.lidar.state, data[r.used - 1])
    decreases |data|
  {
    var r := ProcessReceivedData(l, data, decode);
    var step := ProcessByte(l, data[0], decode);
    if !step.1 {
      assert data[..r.used - 1] == [];
    } else {
      var rest := ProcessReceivedData(step.0, data[1..], decode);
      RejectedByte(step.0, data[1..], decode);
      var pre := data[..r.used - 1];
      assert pre[0] == data[0];
      assert pre[1..] == data[1..][..rest.used - 1];
      assert data[r.used - 1] == data[1..][rest.used - 1];
    }
  }

  /** Once a byte is rejected, whatever follows it in the batch makes no difference. */
  lemma {:induction false} StopsAtRejection(l: Lidar, a: seq<nat>, b: seq<nat>, decode: seq<nat> -> real)
    requires Valid(l) && Bytes(a) && Bytes(b)
    requires !ProcessReceivedData(l, a, decode).ok
    ensures ProcessReceivedData(l, a + b, decode) == ProcessReceivedData(l, a, decode)
    decreases |a|
  {
    assert (a + b)[0] == a[0];
    var step := ProcessByte(l, a[0], decode);
    if step.1 {
      assert (a + b)[1..] == a[1..] + b;
      StopsAtRejection(step.0, a[1..], b, decode);
    }
  }

  /** A batch accepted in full is the same as its two halves fed one after the other. */
  lemma {:induction false} AcceptedSplit(l: Lidar, a: seq<nat>, b: seq<nat>, decode: seq<nat> -> real)
    requires Valid(l) && Bytes(a) && Bytes(b)
    requires ProcessReceivedData(l, a, decode).ok
    ensures var first := ProcessReceivedData(l, a, decode).lidar;
            var second := ProcessReceivedData(first, b, decode);
            ProcessReceivedData(l, a + b, decode) == second.(used := |a| + second.used)
    decreases |a|
  {
    if |a| > 0 {
      assert (a + b)[0] == a[0];
      assert (a + b)[1..] == a[1..] + b;
      var step := ProcessByte(l, a[0], decode);
      AcceptedSplit(step.0, a[1..], b, decode);
    } else {
      assert a + b == b;
    }
  }

  /** The frame the sender writes for a command and a 12-byte payload. */
  function Frame(cmd: nat, payload: seq<nat>): (f: seq<nat>)
    ensures |f| == |payload| + 4
  {
    [HEADER1, HEADER2, cmd] + payload + [FOOTER]
  }

  /**
   * The remaining payload bytes, fed while payload is expected, land in order
   * after the ones already stored and bring the machine to the footer state.
   */
  lemma {:induction false} PayloadFill(l: Lidar, bytes: seq<nat>, decode: seq<nat> -> real)
    requires Valid(l) && Bytes(bytes) && l.state == ReceivePayload
    requires |bytes| == NextReceiveLength(l)
    ensures var r := ProcessReceivedData(l, bytes, decode);
            r.ok && r.lidar == l.(state := WaitFooter, payloadIndex := PAYLOAD_SIZE,
                                   payload := l.payload[..l.payloadIndex] + bytes)
    decreases |bytes|
  {
    var step := ProcessByte(l, bytes[0], decode);
    if |bytes| == 1 {
      assert l.payload[l.payloadIndex := bytes[0]] == l.payload[..l.payloadIndex] + bytes;
    } else {
      PayloadFill(step.0, bytes[1..], decode);
      assert step.0.payload[..step.0.payloadIndex] == l.payload[..l.payloadIndex] + [bytes[0]];
      assert l.payload[..l.payloadIndex] + [bytes[0]] + bytes[1..] == l.payload[..l.payloadIndex] + bytes;
    }
  }

  /** The three leading bytes of a frame with a known command open its payload. */
  function HeaderAccepted(l: Lidar, cmd: nat, decode: seq<nat> -> real): (l3: Lidar)
    requires Valid(l) && l.state == WaitHeader1 && (cmd == CMD_POSE || cmd == CMD_IMU)
    ensures Valid(l3) && l3 == l.(cmd := cmd, payloadIndex := 0, state := ReceivePayload)
    ensures ProcessReceivedData(l, [HEADER1, HEADER2, cmd], decode) == Outcome(l3, 3, true)
  {
    var l1 := l.(state := WaitHeader2);
    var l2 := l.(state := WaitCommand);
    var l3 := l.(cmd := cmd, payloadIndex := 0, state := ReceivePayload);
    var head := [HEADER1, HEADER2, cmd];
    assert ProcessByte(l, HEADER1, decode) == (l1, true);
    assert ProcessByte(l1, HEADER2, decode) == (l2, true);
    assert ProcessByte(l2, cmd, decode) == (l3, true);
    assert ProcessReceivedData(l3, [], decode) == Outcome(l3, 0, true);
    assert [cmd][1..] == [];
    assert ProcessReceivedData(l2, [cmd], decode) == Outcome(l3, 1, true);
    assert head[1..] == [HEADER2, cmd] && [HEADER2, cmd][1..] == [cmd];
    assert ProcessReceivedData(l1, [HEADER2, cmd], decode) == Outcome(l3, 2, true);
    l3
  }

  /** The footer byte after a full payload dispatches to the parser of the command. */
  lemma FooterAccepted(l: Lidar, decode: seq<nat> -> real)
    requires Valid(l) && l.state == WaitFooter
    ensures var parsed := if l.cmd == CMD_POSE then ParsePose(l, decode) else ParseImu(l, decode);
            ProcessReceivedData(l, [FOOTER], decode) == Outcome(parsed.(state := WaitHeader1), 1, true)
  {
    assert [FOOTER][1..] == [];
  }

  /**
   * A well-formed pose frame fed from the header-hunting state is accepted
   * in full, counts exactly one pose packet, and leaves the decoded pose
   * valid, no new error, the IMU untouched and the machine ready for the next
   * frame.
   */
  lemma PoseFrameRoundTrip(l: Lidar, payload: seq<nat>, decode: seq<nat> -> real)
    requires Valid(l) && l.state == WaitHeader1
    requires |payload| == PAYLOAD_SIZE && Bytes(payload)
    ensures var r := ProcessReceivedData(l, Frame(CMD_POSE, payload), decode);
            r.ok && r.used == 16 && r.lidar.state == WaitHeader1 &&
            r.lidar.poseCount == Wrap32(l.poseCount + 1) && r.lidar.poseValid &&
            r.lidar.pose == DecodeVec(payload, decode) &&
            r.lidar.errorCount == l.errorCount &&
            r.lidar.imuCount == l.imuCount && r.lidar.imu == l.imu
  {
    var head := [HEADER1, HEADER2, CMD_POSE];
    assert Frame(CMD_POSE, payload) == head + (payload + [FOOTER]);
    var l3 := HeaderAccepted(l, CMD_POSE, decode);
    AcceptedSplit(l, head, payload + [FOOTER], decode);
    PayloadFill(l3, payload, decode);
    AcceptedSplit(l3, payload, [FOOTER], decode);
    var l4 := ProcessReceivedData(l3, payload, decode).lidar;
    assert l4.payload == payload && l4.cmd == CMD_POSE && l4.payloadIndex == PAYLOAD_SIZE;
    PoseFooter(l4, decode);
  }

  /** The footer that closes a full pose payload counts the packet and decodes the pose. */
  lemma PoseFooter(l: Lidar, decode: seq<nat> -> real)
    requires Valid(l) && l.state == WaitFooter && l.cmd == CMD_POSE
    ensures var r := ProcessReceivedData(l, [FOOTER], decode);
            r.ok && r.used == 1 && r.lidar.state == WaitHeader1 &&
            r.lidar.poseCount == Wrap32(l.poseCount + 1) && r.lidar.poseValid &&
            r.lidar.pose == DecodeVec(l.payload, decode) && r.lidar.errorCount == l.errorCount &&
            r.lidar.imuCount == l.imuCount && r.lidar.imu == l.imu
  {
    var p := PoseParsed(l, decode);
    FooterAccepted(l, decode);
  }

  /** What the pose parser leaves behind a complete payload. */
  lemma PoseParsed(l: Lidar, decode: seq<nat> -> real) returns (p: Lidar)
    requires Valid(l) && l.state == WaitFooter && l.cmd == CMD_POSE
    ensures p == ParsePose(l, decode)
    ensures p.poseValid && p.pose == DecodeVec(l.payload, decode) && p.poseCount == Wrap32(l.poseCount + 1)
    ensures p.errorCount == l.errorCount && p.imuCount == l.imuCount && p.imu == l.imu
  {
    p := ParsePose(l, decode);
  }

  /** The same for an IMU frame: one IMU packet counted, the pose side untouched. */
  lemma ImuFrameRoundTrip(l: Lidar, payload: seq<nat>, decode: seq<nat> -> real)
    requires Valid(l) && l.state == WaitHeader1
    requires |payload| == PAYLOAD_SIZE && Bytes(payload)
    ensures var r := ProcessReceivedData(l, Frame(CMD_IMU, payload), decode);
            r.ok && r.used == 16 && r.lidar.state == WaitHeader1 &&
            r.lidar.imuCount == Wrap32(l.imuCount + 1) && r.lidar.imuValid &&
            r.lidar.imu == DecodeVec(payload, decode) &&
            r.lidar.errorCount == l.errorCount &&
            r.lidar.poseCount == l.poseCount && r.lidar.pose == l.pose && r.lidar.xBuf == l.xBuf
  {
    var head := [HEADER1, HEADER2, CMD_IMU];
    assert Frame(CMD_IMU, payload) == head + (payload + [FOOTER]);
    var l3 := HeaderAccepted(l, CMD_IMU, decode);
    AcceptedSplit(l, head, payload + [FOOTER], decode);
    PayloadFill(l3, payload, decode);
    AcceptedSplit(l3, payload, [FOOTER], decode);
    var l4 := ProcessReceivedData(l3, payload, decode).lidar;
    assert l4.payload == payload && l4.cmd == CMD_IMU && l4.payloadIndex == PAYLOAD_SIZE;
    FooterAccepted(l4, decode);
  }
}

=== FILE: math_angle.dfy ===
/**
 * Angle normalisation and differences (`math_angle.c`).  Every normaliser
 * in the C file is the same `fmodf`-then-shift pattern, so the pattern is
 * defined once as `WrapInto` and each C function instantiates it.
 */
module MathAngle {
  import opened CTypes
  import opened MathConst

  /** fmodf(x, m), then add m when negative: the representative of x in [0, m). */
  function WrapInto(x: real, m: real): (r: real)
    requires m > 0.0
    ensures 0.0 <= r < m
    ensures Congruent(r, x, m)
    ensures 0.0 <= x < m ==> r == x
  {
    var f := FmodF(x, m);
    var k := -Trunc(x / m);
    TimesSucc(k, m);
    var r := if f < 0.0 then f + m else f;
    assert r - x == Times(k, m) || r - x == Times(k + 1, m);
    r
  }

  /** Angles above PI come down by whole turns (the first loop of the firmware normalisers). */
  function TurnsDown(theta: real): (r: real)
    ensures r <= PI && Congruent(r, theta, TWO_PI)
    ensures theta <= PI ==> r == theta
    decreases theta.Floor
  {
    if theta > PI then
      var r := TurnsDown(theta - TWO_PI);
      TimesSucc(-1, TWO_PI);
      assert (theta - TWO_PI) - theta == Times(-1, TWO_PI);
      CongruentTrans(r, theta - TWO_PI, theta, TWO_PI);
      r
    else
      assert theta - theta == Times(0, TWO_PI);
      theta
  }

  lemma TimesSucc(k: int, m: real)
    ensures Times(k + 1, m) == Times(k, m) + m
  {
    MulAddOne(k as real, m);
  }

  /** Multiples of a positive m other than 0 are at least m away from 0. */
  lemma TimesAwayFromZero(k: int, m: real)
    requires m > 0.0
    ensures k >= 1 ==> Times(k, m) >= m
    ensures k <= -1 ==> Times(k, m) <= -m
    ensures k == 0 ==> Times(k, m) == 0.0
  {
    MulAddOne(0.0, m);
    if k >= 1 {
      MulLe(1.0, k as real, m);
    }
    if k <= -1 {
      MulLe(k as real, -1.0, m);
      MulAddOne(-1.0, m);
    }
  }

  /** Two congruent values in the same half-open window of width m are equal. */
  lemma {:induction false} CongruentUnique(r1: real, r2: real, lo: real, m: real)
    requires m > 0.0
    requires lo <= r1 < lo + m && lo <= r2 < lo + m
    requires Congruent(r1, r2, m)
    ensures r1 == r2
  {
    var k :| r1 - r2 == Times(k, m);
    TimesAwayFromZero(k, m);
  }

  lemma CongruentSymm(a: real, b: real, m: real)
    requires Congruent(a, b, m)
    ensures Congruent(b, a, m)
  {
    var k :| a - b == Times(k, m);
    NegTimes(k, m);
    assert b - a == Times(-k, m);
  }

  lemma CongruentTrans(a: real, b: real, c: real, m: real)
    requires Congruent(a, b, m) && Congruent(b, c, m)
    ensures Congruent(a, c, m)
  {
    var k1 :| a - b == Times(k1, m);
    var k2 :| b - c == Times(k2, m);
    TimesAdd(k1, k2, m);
    assert a - c == Times(k1 + k2, m);
  }

  lemma TimesAdd(k1: int, k2: int, m: real)
    ensures Times(k1 + k2, m) == Times(k1, m) + Times(k2, m)
  {
    assert (k1 as real + k2 as real) * m == k1 as real * m + k2 as real * m;
  }

  /** `math_normalize_radian_0_2pi`. */
  function NormalizeRadian0To2Pi(angle: real): (r: real)
    ensures 0.0 <= r < TWO_PI
    ensures Congruent(r, angle, TWO_PI)
    ensures 0.0 <= angle < TWO_PI ==> r == angle
  {
    WrapInto(angle, TWO_PI)
  }

  /** `math_normalize_radian_pi`. */
  function NormalizeRadianPi(angle: real): (r: real)
    ensures -PI <= r < PI
    ensures Congruent(r, angle, TWO_PI)
    ensures -PI <= angle < PI ==> r == angle
  {
    var w := WrapInto(angle + PI, TWO_PI);
    var k :| w - (angle + PI) == Times(k, TWO_PI);
    assert (w - PI) - angle == Times(k, TWO_PI);
    w - PI
  }

  /** `math_normalize_angle_0_360`. */
  function NormalizeAngle0To360(angle: real): (r: real)
    ensures 0.0 <= r < 360.0
    ensures Congruent(r, angle, 360.0)
    ensures 0.0 <= angle < 360.0 ==> r == angle
  {
    WrapInto(angle, 360.0)
  }

  /** `math_normalize_angle_180`. */
  function NormalizeAngle180(angle: real): (r: real)
    ensures -180.0 <= r < 180.0
    ensures Congruent(r, angle, 360.0)
    ensures -180.0 <= angle < 180.0 ==> r == angle
  {
    var w := WrapInto(angle + 180.0, 360.0);
    var k :| w - (angle + 180.0) == Times(k, 360.0);
    assert (w - 180.0) - angle == Times(k, 360.0);
    w - 180.0
  }

  /** `math_angle_diff_rad(a, b)`: the signed shortest turn from a to b. */
  function AngleDiffRad(a: real, b: real): (r: real)
    ensures -PI <= r < PI
    ensures Congruent(r, b - a, TWO_PI)
    ensures -PI <= b - a < PI ==> r == b - a
  {
    var w := WrapInto(b - a + PI, TWO_PI);
    var k :| w - (b - a + PI) == Times(k, TWO_PI);
    assert (w - PI) - (b - a) == Times(k, TWO_PI);
    w - PI
  }

  /** `math_angle_diff_deg(a, b)`. */
  function AngleDiffDeg(a: real, b: real): (r: real)
    ensures -180.0 <= r < 180.0
    ensures Congruent(r, b - a, 360.0)
    ensures -180.0 <= b - a < 180.0 ==> r == b - a
  {
    var w := WrapInto(b - a + 180.0, 360.0);
    var k :| w - (b - a + 180.0) == Times(k, 360.0);
    assert (w - 180.0) - (b - a) == Times(k, 360.0);
    w - 180.0
  }

  /** The normalisers are idempotent. */
  lemma NormalizeIdempotent(angle: real)
    ensures NormalizeRadian0To2Pi(NormalizeRadian0To2Pi(angle)) == NormalizeRadian0To2Pi(angle)
    ensures NormalizeRadianPi(NormalizeRadianPi(angle)) == NormalizeRadianPi(angle)
    ensures NormalizeAngle0To360(NormalizeAngle0To360(angle)) == NormalizeAngle0To360(angle)
    ensures NormalizeAngle180(NormalizeAngle180(angle)) == NormalizeAngle180(angle)
  {
  }

  /**
   * Reference definition of `math_normalize_radian_pi`: it returns THE value
   * of [-pi, pi) congruent to its input, so any such value is its result.
   */
  lemma NormalizeRadianPiUnique(angle: real, r: real)
    requires -PI <= r < PI
    requires Congruent(r, angle, TWO_PI)
    ensures NormalizeRadianPi(angle) == r
  {
    var n := NormalizeRadianPi(angle);
    CongruentSymm(n, angle, TWO_PI);
    CongruentTrans(r, angle, n, TWO_PI);
    CongruentUnique(r, n, -PI, TWO_PI);
  }

  /** Likewise, `math_normalize_angle_0_360` is the unique representative in [0, 360). */
  lemma NormalizeAngle0To360Unique(angle: real, r: real)
    requires 0.0 <= r < 360.0
    requires Congruent(r, angle, 360.0)
    ensures NormalizeAngle0To360(angle) == r
  {
    var n := NormalizeAngle0To360(angle);
    CongruentSymm(n, angle, 360.0);
    CongruentTrans(r, angle, n, 360.0);
    CongruentUnique(r, n, 0.0, 360.0);
  }

  /** A difference in degrees is antisymmetric except at the -180 seam. */
  lemma AngleDiffDegAntisymmetric(a: real, b: real)
    requires AngleDiffDeg(a, b) != -180.0
    ensures AngleDiffDeg(b, a) == -AngleDiffDeg(a, b)
    ensures AngleDiffDeg(a, a) == 0.0
  {
    var d := AngleDiffDeg(a, b);
    var k :| d - (b - a) == Times(k, 360.0);
    NegTimes(k, 360.0);
    assert -d - (a - b) == Times(-k, 360.0);
    var e := AngleDiffDeg(b, a);
    CongruentSymm(e, a - b, 360.0);
    CongruentTrans(-d, a - b, e, 360.0);
    CongruentUnique(-d, e, -180.0, 360.0);
  }

  /** `math_atan2`: the vertical special cases, otherwise the library `atan2f`. */
  function Atan2(y: real, x: real, atan2f: (real, real) -> real): (r: real)
    ensures Abs(x) < FLOAT_EPSILON && y > 0.0 ==> r == PI_2
    ensures Abs(x) < FLOAT_EPSILON && y < 0.0 ==> r == -PI_2
    ensures Abs(x) < FLOAT_EPSILON && y == 0.0 ==> r == 0.0
    ensures Abs(x) >= FLOAT_EPSILON ==> r == atan2f(y, x)
  {
    if Abs(x) < FLOAT_EPSILON then
      (if y > 0.0 then PI_2 else if y < 0.0 then -PI_2 else 0.0)
    else
      atan2f(y, x)
  }

  /** On the vertical axis the special cases are odd in y, as atan2 is. */
  lemma Atan2VerticalOdd(y: real, x: real, atan2f: (real, real) -> real)
    requires Abs(x) < FLOAT_EPSILON
    ensures Atan2(-y, x, atan2f) == -Atan2(y, x, atan2f)
    ensures -PI_2 <= Atan2(y, x, atan2f) <= PI_2
  {
  }

  /** `math_angle_lerp`: endpoints for t outside (0, 1), else a + diff(a, b) * t. */
  function AngleLerp(a: real, b: real, t: real): (r: real)
    ensures t <= 0.0 ==> r == a
    ensures t >= 1.0 ==> r == b
    ensures 0.0 < t < 1.0 ==> Abs(r - a) < PI
  {
    if t <= 0.0 then a
    else if t >= 1.0 then b
    else
      var d := AngleDiffRad(a, b);
      LerpStepBound(d, t);
      a + d * t
  }

  lemma LerpStepBound(d: real, t: real)
    requires -PI <= d < PI && 0.0 < t < 1.0
    ensures Abs(d * t) < PI
  {
    if d >= 0.0 {
      assert d * t <= d;
    } else {
      assert d * t >= d;
      assert d * t > -PI;
    }
  }

  /**
   * Strictly between the endpoints the result moves from a along the shorter
   * arc towards b: in the direction of the signed difference, and no further.
   */
  lemma AngleLerpAlongShorterArc(a: real, b: real, t: real)
    requires 0.0 < t < 1.0
    ensures AngleDiffRad(a, b) >= 0.0 ==> 0.0 <= AngleLerp(a, b, t) - a <= AngleDiffRad(a, b)
    ensures AngleDiffRad(a, b) < 0.0 ==> AngleDiffRad(a, b) < AngleLerp(a, b, t) - a < 0.0
  {
    var d := AngleDiffRad(a, b);
    StepBetween(d, t, AngleLerp(a, b, t) - a);
  }

  /** A fraction t of the signed step d lies between 0 and d. */
  lemma StepBetween(d: real, t: real, s: real)
    requires 0.0 < t < 1.0 && s == d * t
    ensures d >= 0.0 ==> 0.0 <= s <= d
    ensures d < 0.0 ==> d < s < 0.0
  {
    if d < 0.0 {
      ProductPos(-d, t);
      ProductPos(-d, 1.0 - t);
      assert (-d) * t == -s;
      assert (-d) * (1.0 - t) == s - d;
    } else if d > 0.0 {
      ProductPos(d, t);
      ProductPos(d, 1.0 - t);
      assert d * (1.0 - t) == d - s;
    }
  }

  lemma ProductPos(x: real, y: real)
    requires x > 0.0 && y > 0.0
    ensures x * y > 0.0
  {
  }
}

=== FILE: math_bits.dfy ===
/**
 * Bit and integer utilities of `math_bits.c` on `uint32_t` values.  Inputs
 * are naturals below 2^32; a test `n & mask` against a one-bit mask 2^k is
 * the arithmetic bit test `(n / 2^k) % 2 == 1`.  `math_next_pow2`, whose
 * whole point is the or-shift cascade, is modelled on `bv32`.
 */
module MathBits {
  import opened CTypes

  /** Number of set bits, least significant first. */
  function Popcount(n: nat): nat
  {
    if n == 0 then 0 else n % 2 + Popcount(n / 2)
  }

  /** floor(log2 n) for n >= 1, and 0 for n <= 1. */
  function Log2(n: nat): nat
  {
    if n <= 1 then 0 else 1 + Log2(n / 2)
  }

  lemma {:induction false} Log2Bounds(n: nat)
    requires n >= 1
    ensures Pow2(Log2(n)) <= n < Pow2(Log2(n) + 1)
  {
    if n > 1 {
      Log2Bounds(n / 2);
    }
  }

  /** A value below 2^k has at most k significant bits, hence at most k set bits. */
  lemma {:induction false} PopcountBound(n: nat, k: nat)
    requires n < Pow2(k)
    ensures Popcount(n) <= k
  {
    if n > 0 {
      PopcountBound(n / 2, k - 1);
    }
  }

  /** `math_bits_count`: shift right, adding the low bit each time. */
  method BitsCount(n: nat) returns (count: nat)
    requires IsU32(n)
    ensures count == Popcount(n)
    ensures count <= 32
  {
    count := 0;
    var m := n;
    while m != 0
      invariant count + Popcount(m) == Popcount(n)
    {
      count := count + m % 2;
      m := m / 2;
    }
    Pow2U32();
    PopcountBound(n, 32);
  }

  lemma Pow2U32()
    ensures Pow2(32) == U32
    ensures Pow2(31) == 0x8000_0000
  {
    assert Pow2(8) == 256;
    assert Pow2(16) == 65536 by { Pow2Add(8, 8); }
    Pow2Add(16, 15);
    Pow2Add(16, 16);
    assert Pow2(15) == 32768 by { Pow2Add(8, 7); }
  }

  lemma {:induction false} Pow2Add(a: nat, b: nat)
    ensures Pow2(a + b) == Pow2(a) * Pow2(b)
  {
    if b > 0 {
      Pow2Add(a, b - 1);
    }
  }

  /** Bit k of n. */
  predicate BitSet(n: nat, k: nat)
  {
    (n / Pow2(k)) % 2 == 1
  }

  /** With every bit above k clear, bit k decides whether n reaches 2^k. */
  lemma TopBit(n: nat, k: nat)
    requires n < Pow2(k + 1)
    ensures BitSet(n, k) <==> n >= Pow2(k)
  {
    var p := Pow2(k);
    assert Pow2(k + 1) == 2 * p;
    if n >= p {
      DivLow(n - p, p);
      assert n / p == 1 by { DivShift(n - p, p); }
    } else {
      DivLow(n, p);
    }
  }

  lemma DivDiv2(a: nat, c: nat)
    requires c > 0
    ensures a / 2 / c == a / (2 * c)
  {
    var q, r1 := a / 2, a % 2;
    var q2, r2 := q / c, q % c;
    assert q == q2 * c + r2;
    assert a == q2 * (2 * c) + (2 * r2 + r1);
    ModUnique(a, 2 * c, q2, 2 * r2 + r1);
  }

  /** Bit j + 1 of n is bit j of n / 2. */
  lemma BitHalve(n: nat, j: nat)
    ensures BitSet(n, j + 1) <==> BitSet(n / 2, j)
  {
    DivDiv2(n, Pow2(j));
  }

  /** `n | (1 << k)` when bit k is clear is `n + 2^k`: bit k becomes set and no other bit moves. */
  lemma {:induction false} BitAdd(n: nat, k: nat, j: nat)
    requires !BitSet(n, k)
    ensures BitSet(n + Pow2(k), j) <==> (j == k || BitSet(n, j))
  {
    var m := n + Pow2(k);
    if k == 0 {
      BitAddLowest(n, j);
    } else {
      HalfOfSum(n, k);
      if j > 0 {
        BitHalve(m, j - 1);
        BitHalve(n, j - 1);
        BitAdd(n / 2, k - 1, j - 1);
      } else {
        LowBit(m);
        LowBit(n);
      }
    }
  }

  /** Adding 1 to an even value sets bit 0 and moves no other bit. */
  lemma BitAddLowest(n: nat, j: nat)
    requires !BitSet(n, 0)
    ensures BitSet(n + Pow2(0), j) <==> (j == 0 || BitSet(n, j))
  {
    var m := n + Pow2(0);
    LowBit(n);
    assert n % 2 == 0 && m == n + 1;
    if j > 0 {
      BitHalve(m, j - 1);
      BitHalve(n, j - 1);
      assert m / 2 == n / 2;
    } else {
      LowBit(m);
    }
  }

  /** Adding 2^k (k > 0) adds 2^(k-1) to the half and keeps the low bit. */
  lemma HalfOfSum(n: nat, k: nat)
    requires k > 0 && !BitSet(n, k)
    ensures (n + Pow2(k)) / 2 == n / 2 + Pow2(k - 1) && (n + Pow2(k)) % 2 == n % 2
    ensures !BitSet(n / 2, k - 1)
  {
    assert Pow2(k) == 2 * Pow2(k - 1);
    BitHalve(n, k - 1);
  }

  /** Bit 0 is the remainder mod 2. */
  lemma LowBit(n: nat)
    ensures BitSet(n, 0) <==> n % 2 == 1
  {
    assert Pow2(0) == 1;
  }

  /** `n & ~(1 << k)` when bit k is set is `n - 2^k`: bit k becomes clear and no other bit moves. */
  lemma BitSub(n: nat, k: nat, j: nat)
    requires BitSet(n, k)
    ensures n >= Pow2(k)
    ensures BitSet(n - Pow2(k), j) <==> (j != k && BitSet(n, j))
  {
    var p := Pow2(k);
    if n < p {
      DivLow(n, p);
    }
    var m := n - p;
    ModUnique(n, p, m / p + 1, m % p);
    BitAdd(m, k, j);
  }

  /** Setting a clear bit below the width keeps the value within the width. */
  lemma {:induction false} BitAddBound(n: nat, k: nat, w: nat)
    requires k < w && n < Pow2(w) && !BitSet(n, k)
    ensures n + Pow2(k) < Pow2(w)
  {
    assert Pow2(w) == 2 * Pow2(w - 1);
    if k == 0 {
      assert n % 2 == 0;
    } else {
      assert Pow2(k) == 2 * Pow2(k - 1);
      BitHalve(n, k - 1);
      BitAddBound(n / 2, k - 1, w - 1);
    }
  }

  lemma DivLow(x: nat, p: nat)
    requires p > 0 && x < p
    ensures x / p == 0
  {
  }

  lemma DivShift(x: nat, p: nat)
    requires p > 0 && x < p
    ensures (x + p) / p == 1
  {
  }

  /** `math_clz`: 32 for zero, else scan from bit 31 down to the first set bit. */
  method Clz(n: nat) returns (count: nat)
    requires IsU32(n)
    ensures n == 0 ==> count == 32
    ensures n > 0 ==> count <= 31 && Pow2(31 - count) <= n < Pow2(32 - count)
  {
    if n == 0 {
      return 32;
    }
    Pow2U32();
    count := 0;
    var k: nat := 31;
    TopBit(n, k);
    while !BitSet(n, k)
      invariant k + count == 31
      invariant n < Pow2(k + 1)
      invariant BitSet(n, k) <==> n >= Pow2(k)
      decreases k
    {
      count := count + 1;
      k := k - 1;
      TopBit(n, k);
    }
  }

  /** Number of trailing zero bits of a positive value. */
  function TrailingZeros(n: nat): nat
    requires n >= 1
  {
    if n % 2 == 1 then 0 else 1 + TrailingZeros(n / 2)
  }

  /** 2^TrailingZeros(n) divides n and the bit at that position is set. */
  lemma {:induction false} TrailingZerosOddPart(n: nat)
    requires n >= 1
    ensures n % Pow2(TrailingZeros(n)) == 0 && BitSet(n, TrailingZeros(n))
  {
    if n % 2 == 0 {
      var h := n / 2;
      assert n == 2 * h;
      TrailingZerosOddPart(h);
      var t := TrailingZeros(h);
      assert TrailingZeros(n) == t + 1;
      var p := Pow2(t);
      var o := h / p;
      assert h == o * p;
      assert Pow2(t + 1) == 2 * p;
      assert o * (2 * p) == 2 * (o * p);
      ModUnique(n, Pow2(t + 1), o, 0);
      BitHalve(n, t);
    } else {
      ModUnique(n, 1, n, 0);
    }
  }

  /** `math_ctz`: 32 for zero, else shift right while the low bit is clear. */
  method Ctz(n: nat) returns (count: nat)
    requires IsU32(n)
    ensures n == 0 ==> count == 32
    ensures n > 0 ==> count == TrailingZeros(n)
    ensures n > 0 ==> n % Pow2(count) == 0 && BitSet(n, count)
  {
    if n == 0 {
      return 32;
    }
    count := 0;
    var m := n;
    while m % 2 == 0
      invariant m >= 1
      invariant count + TrailingZeros(m) == TrailingZeros(n)
      decreases m
    {
      m := m / 2;
      count := count + 1;
    }
    TrailingZerosOddPart(n);
  }

  /** `math_log2_floor`: 0 for zero, else the number of halvings down to 1. */
  method Log2Floor(n: nat) returns (log: nat)
    requires IsU32(n)
    ensures n == 0 ==> log == 0
    ensures n > 0 ==> log == Log2(n) && log < 32
    ensures n > 0 ==> Pow2(log) <= n < Pow2(log + 1)
  {
    if n == 0 {
      return 0;
    }
    log := 0;
    var m := n;
    while m > 1
      invariant m >= 1
      invariant log + Log2(m) == Log2(n)
    {
      m := m / 2;
      log := log + 1;
    }
    Log2Bounds(n);
    Pow2U32();
    Log2Less(n, 32);
  }

  /** `math_log2_ceil`: 0 for n <= 1, else floor, plus one unless n is a power of two. */
  method Log2Ceil(n: nat) returns (log: nat)
    requires IsU32(n)
    ensures n <= 1 ==> log == 0
    ensures n > 1 ==> n <= Pow2(log) && Pow2(log - 1) < n
  {
    if n <= 1 {
      return 0;
    }
    log := Log2Floor(n);
    if Pow2(log) < n {
      log := log + 1;
    }
  }

  /** A value below 2^k has its top set bit below position k. */
  lemma {:induction false} Log2Less(n: nat, k: nat)
    requires 1 <= n < Pow2(k)
    ensures Log2(n) < k
  {
    if n > 1 {
      Log2Less(n / 2, k - 1);
    }
  }

  /** `math_next_pow2` on the 32-bit pattern: decrement, smear the top bit down, increment. */
  function NextPow2(n: bv32): (r: bv32)
    ensures n == 0 ==> r == 1
    ensures 1 <= n <= 0x8000_0000 ==> r >= n && r & (r - 1) == 0 && r != 0 && (r >> 1) < n
    ensures n > 0x8000_0000 ==> r == 0
  {
    if n == 0 then 1
    else
      var m0 := n - 1;
      var m1 := m0 | (m0 >> 1);
      var m2 := m1 | (m1 >> 2);
      var m3 := m2 | (m2 >> 4);
      var m4 := m3 | (m3 >> 8);
      var m5 := m4 | (m4 >> 16);
      m5 + 1
  }

  /** `d` divides `x`. */
  predicate Divides(d: nat, x: nat)
  {
    d > 0 && x % d == 0
  }

  lemma ModUnique(n: nat, d: nat, q: nat, r: nat)
    requires d > 0 && r < d && n == q * d + r
    ensures n % d == r && n / d == q
  {
    var q0, r0 := n / d, n % d;
    assert n == q0 * d + r0;
    MulStep(q, q0, d);
    MulStep(q0, q, d);
  }

  /** A larger multiplier gives a product at least one `d` larger. */
  lemma MulStep(a: nat, b: nat, d: nat)
    ensures a >= b + 1 ==> a * d >= b * d + d
  {
    if a >= b + 1 {
      var k: nat := a - b - 1;
      assert a * d == (b + 1 + k) * d;
      assert (b + 1 + k) * d == b * d + d + k * d;
    }
  }

  lemma DividesMultiple(d: nat, k: nat, x: nat)
    requires d > 0
    ensures (k * d + x) % d == x % d
  {
    var q := x / d;
    assert x == q * d + x % d;
    assert k * d + x == (k + q) * d + x % d;
    ModUnique(k * d + x, d, k + q, x % d);
  }

  /** The common divisors of (a, b) and of (b, a % b) coincide. */
  lemma EuclidStep(a: nat, b: nat, d: nat)
    requires b > 0 && d > 0
    ensures (Divides(d, a) && Divides(d, b)) <==> (Divides(d, b) && Divides(d, a % b))
  {
    var q := a / b;
    assert a == q * b + a % b;
    if Divides(d, b) {
      var j := b / d;
      assert b == j * d;
      var k := q * j;
      assert q * b == k * d by {
        MulAssoc(q, j, d);
      }
      assert a == k * d + a % b;
      DividesMultiple(d, k, a % b);
      assert a % d == (a % b) % d;
    }
  }

  lemma MulAssoc(x: nat, y: nat, z: nat)
    ensures x * (y * z) == (x * y) * z
  {
  }

  /** `math_gcd`: the zero cases, then Euclid's remainder loop. */
  method Gcd(a: nat, b: nat) returns (g: nat)
    requires IsU32(a) && IsU32(b)
    ensures a == 0 ==> g == b
    ensures a != 0 && b == 0 ==> g == a
    ensures a != 0 || b != 0 ==> Divides(g, a) && Divides(g, b)
    ensures forall d: nat :: d > 0 && Divides(d, a) && Divides(d, b) ==> Divides(d, g)
    ensures g < U32
  {
    if a == 0 {
      return b;
    }
    if b == 0 {
      return a;
    }
    var x: nat, y: nat := a, b;
    while y != 0
      invariant x > 0 && x < U32 && y < U32
      invariant forall d: nat :: d > 0 ==> ((Divides(d, x) && Divides(d, y)) <==> (Divides(d, a) && Divides(d, b)))
      decreases y
    {
      forall d: nat | d > 0
        ensures (Divides(d, y) && Divides(d, x % y)) <==> (Divides(d, a) && Divides(d, b))
      {
        EuclidStep(x, y, d);
      }
      x, y := y, x % y;
    }
    g := x;
    assert Divides(g, g) && Divides(g, 0);
  }

  /** `math_lcm`: 0 if either argument is 0, else (a / gcd) * b wrapped to 32 bits. */
  method Lcm(a: nat, b: nat) returns (l: nat)
    requires IsU32(a) && IsU32(b)
    ensures a == 0 || b == 0 ==> l == 0
    ensures l < U32
    ensures a != 0 && b != 0 && a * b < U32 ==> Divides(a, l) && Divides(b, l) && l <= a * b
  {
    if a == 0 || b == 0 {
      return 0;
    }
    var g := Gcd(a, b);
    var q := a / g;
    assert a == q * g;
    l := Wrap32(q * b);
    LcmCommonMultiple(a, b, g, q);
    LcmBound(a, b, g, q);
  }

  lemma LcmBound(a: nat, b: nat, g: nat, q: nat)
    requires g >= 1 && q == a / g
    ensures q * b <= a * b
  {
    assert q <= a;
    MulStep(a, q, b);
  }

  lemma LcmCommonMultiple(a: nat, b: nat, g: nat, q: nat)
    requires a > 0 && b > 0 && Divides(g, a) && Divides(g, b) && q == a / g
    ensures Divides(a, q * b) && Divides(b, q * b)
  {
    var j := b / g;
    assert b == j * g;
    assert a == q * g;
    assert q * b == j * a;
    DividesMultiple(a, j, 0);
    DividesMultiple(b, q, 0);
  }
}

=== FILE: math_common.dfy ===
/**
 * Scalar helpers of the math library (`math_common.h`, `math_common.c`):
 * min/max/clamp/sign/square, the mean and the standard-deviation guard,
 * linear interpolation, the 32-bit factorial and the exponential filter.
 */
module MathCommon {
  import opened CTypes
  import opened Wrappers

  /** `math_max`: `(a > b) ? a : b`. */
  function Max(a: real, b: real): (r: real)
    ensures r == a || r == b
    ensures r >= a && r >= b
  {
    if a > b then a else b
  }

  /** `math_min`: `(a < b) ? a : b`. */
  function Min(a: real, b: real): (r: real)
    ensures r == a || r == b
    ensures r <= a && r <= b
  {
    if a < b then a else b
  }

  /** Max and min are mirror images of each other. */
  lemma MaxMinDual(a: real, b: real)
    ensures Max(a, b) == -Min(-a, -b)
    ensures Max(a, b) + Min(a, b) == a + b
  {
  }

  /** `math_clamp(value, min, max)`: the lower bound is tested first. */
  function Clamp(value: real, lo: real, hi: real): (r: real)
    ensures lo <= hi ==> lo <= r <= hi
    ensures lo <= value <= hi ==> r == value
    ensures value < lo ==> r == lo
    ensures lo <= value && value > hi ==> r == hi
  {
    if value < lo then lo
    else if value > hi then hi
    else value
  }

  /** Clamping twice is clamping once, and clamping is monotone. */
  lemma ClampIdempotentMonotone(v: real, w: real, lo: real, hi: real)
    requires lo <= hi
    ensures Clamp(Clamp(v, lo, hi), lo, hi) == Clamp(v, lo, hi)
    ensures v <= w ==> Clamp(v, lo, hi) <= Clamp(w, lo, hi)
  {
  }

  /** `math_sign`. */
  function Sign(x: real): (r: int)
    ensures x > 0.0 ==> r == 1
    ensures x < 0.0 ==> r == -1
    ensures x == 0.0 ==> r == 0
  {
    if x > 0.0 then 1 else if x < 0.0 then -1 else 0
  }

  /** The sign recovers the magnitude: sign(x) * x == |x|. */
  lemma SignTimesSelf(x: real)
    ensures Sign(x) as real * x == Abs(x)
    ensures Sign(-x) == -Sign(x)
  {
  }

  /** `math_square`. */
  function Square(x: real): (r: real)
    ensures r >= 0.0
    ensures r == Abs(x) * Abs(x)
  {
    x * x
  }

  function Sum(data: seq<real>): real
  {
    if |data| == 0 then 0.0 else Sum(data[..|data| - 1]) + data[|data| - 1]
  }

  /**
   * `math_mean`: 0 for a null or empty buffer, otherwise the running sum
   * divided by the length.  `None` stands for the null pointer.
   */
  method Mean(data: Option<seq<real>>) returns (m: real)
    ensures data.None? || |data.value| == 0 ==> m == 0.0
    ensures data.Some? && |data.value| > 0 ==> m * |data.value| as real == Sum(data.value)
  {
    if data.None? || |data.value| == 0 {
      return 0.0;
    }
    var xs := data.value;
    var sum := 0.0;
    var i := 0;
    while i < |xs|
      invariant 0 <= i <= |xs|
      invariant sum == Sum(xs[..i])
    {
      assert xs[..i + 1][..i] == xs[..i];
      sum := sum + xs[i];
      i := i + 1;
    }
    assert xs[..|xs|] == xs;
    m := sum / |xs| as real;
  }

  /** The mean of a non-empty buffer lies between its smallest and largest element. */
  lemma {:induction false} SumBounds(data: seq<real>, lo: real, hi: real)
    requires forall i :: 0 <= i < |data| ==> lo <= data[i] <= hi
    ensures lo * |data| as real <= Sum(data) <= hi * |data| as real
  {
    if |data| > 0 {
      SumBounds(data[..|data| - 1], lo, hi);
      assert lo * |data| as real == lo * (|data| - 1) as real + lo;
      assert hi * |data| as real == hi * (|data| - 1) as real + hi;
    }
  }

  /**
   * `math_std_dev`: the guard returns 0 for a null buffer or fewer than two
   * samples; otherwise sqrtf of the unbiased variance, with `sqrtf` passed in.
   */
  function StdDev(data: Option<seq<real>>, sqrtf: real -> real): (r: real)
    ensures data.None? || |data.value| <= 1 ==> r == 0.0
    ensures data.Some? && |data.value| > 1 ==>
      r == sqrtf(SquaredDeviation(data.value, Sum(data.value) / |data.value| as real) / (|data.value| - 1) as real)
  {
    if data.None? || |data.value| <= 1 then 0.0
    else
      var xs := data.value;
      var mean := Sum(xs) / |xs| as real;
      sqrtf(SquaredDeviation(xs, mean) / (|xs| - 1) as real)
  }

  function SquaredDeviation(data: seq<real>, mean: real): (r: real)
    ensures r >= 0.0
  {
    if |data| == 0 then 0.0
    else SquaredDeviation(data[..|data| - 1], mean) + Square(data[|data| - 1] - mean)
  }

  /** `math_lerp`: t is clamped to [0, 1] before a + t * (b - a). */
  function Lerp(a: real, b: real, t: real): (r: real)
    ensures t <= 0.0 ==> r == a
    ensures t >= 1.0 ==> r == b
    ensures Min(a, b) <= r <= Max(a, b)
  {
    var tc := Clamp(t, 0.0, 1.0);
    LerpBetween(a, b, tc);
    a + tc * (b - a)
  }

  lemma LerpBetween(a: real, b: real, t: real)
    requires 0.0 <= t <= 1.0
    ensures Min(a, b) <= a + t * (b - a) <= Max(a, b)
  {
    var d := b - a;
    if a <= b {
      MulNonNeg(t, d);
      MulNonNeg(1.0 - t, d);
    } else {
      MulNonNeg(t, -d);
      MulNonNeg(1.0 - t, -d);
    }
    assert (1.0 - t) * d == d - t * d;
  }

  lemma MulNonNeg(a: real, b: real)
    requires a >= 0.0 && b >= 0.0
    ensures a * b >= 0.0
  {
  }

  function Factorial(n: nat): nat
  {
    if n <= 1 then 1 else n * Factorial(n - 1)
  }

  /**
   * The `for` loop of `math_factorial` as written, with a 32-bit counter `i`
   * and product `r`, run for at most `fuel` iterations: `None` when the loop
   * has not exited by then.
   */
  function FactorialLoopAsWritten(n: nat, i: nat, r: nat, fuel: nat): Option<nat>
    decreases fuel
  {
    if !(i <= n) then Some(r)
    else if fuel == 0 then None
    else FactorialLoopAsWritten(n, Wrap32(i + 1), Wrap32(r * i), fuel - 1)
  }

  /**
   * At n = 0xFFFFFFFF the guard `i <= n` holds for every 32-bit counter and
   * `i++` wraps to 0, so the as-written loop never exits, however long it runs.
   */
  lemma {:induction false} FactorialHangsAtMax(i: nat, r: nat, fuel: nat)
    requires IsU32(i)
    ensures FactorialLoopAsWritten(U32 - 1, i, r, fuel) == None
    decreases fuel
  {
    if fuel > 0 {
      FactorialHangsAtMax(Wrap32(i + 1), Wrap32(r * i), fuel - 1);
    }
  }

  /** Below 0xFFFFFFFF the as-written loop exits within n iterations with n! modulo 2^32. */
  lemma {:induction false} FactorialLoopAgrees(n: nat, i: nat, r: nat, fuel: nat)
    requires n < U32 - 1 && 2 <= i <= n + 1 && r == Factorial(i - 1) % U32 && fuel >= n + 1 - i
    ensures FactorialLoopAsWritten(n, i, r, fuel) == Some(Factorial(n) % U32)
    decreases n + 1 - i
  {
    if i <= n {
      FactorialStep(Factorial(i - 1), i, r);
      FactorialLoopAgrees(n, i + 1, Wrap32(r * i), fuel - 1);
    }
  }

  /**
   * `math_factorial` with a loop that exits for every 32-bit n: the product
   * 2 * 3 * ... * n in 32-bit arithmetic.  Below 0xFFFFFFFF it is what the
   * as-written loop returns.
   */
  method Factorial32(n: nat) returns (r: nat)
    requires IsU32(n)
    ensures r == Factorial(n) % U32
    ensures n <= 12 ==> r == Factorial(n)
    ensures n < U32 - 1 ==> FactorialLoopAsWritten(n, 2, 1, n) == Some(r)
  {
    if n <= 1 {
      return 1;
    }
    r := 1;
    var i := 2;
    while i <= n
      invariant 2 <= i <= n + 1
      invariant r == Factorial(i - 1) % U32
    {
      FactorialStep(Factorial(i - 1), i, r);
      r := Wrap32(r * i);
      i := i + 1;
    }
    if n <= 12 {
      FactorialSmall(n);
    }
    if n < U32 - 1 {
      FactorialLoopAgrees(n, 2, 1, n);
    }
  }

  /** One loop step: multiplying the wrapped product by i wraps the true product. */
  lemma FactorialStep(f: nat, i: nat, r: nat)
    requires i >= 2 && f == Factorial(i - 1) && r == f % U32
    ensures (r * i) % U32 == Factorial(i) % U32
  {
    var q := f / U32;
    assert f == q * U32 + r;
    assert f * i == (q * i) * U32 + r * i;
    ModAddMultiple(r * i, q * i);
  }

  lemma ModAddMultiple(x: nat, k: nat)
    ensures (k * U32 + x) % U32 == x % U32
  {
  }

  lemma FactorialSmall(n: nat)
    requires n <= 12
    ensures Factorial(n) < U32
  {
    assert Factorial(12) == 479001600;
    FactorialMonotone(n, 12);
  }

  lemma {:induction false} FactorialMonotone(a: nat, b: nat)
    requires a <= b
    ensures Factorial(a) <= Factorial(b)
  {
    if a < b {
      FactorialMonotone(a, b - 1);
      assert Factorial(b) == (if b <= 1 then 1 else b * Factorial(b - 1));
    }
  }

  /** `math_exp_filter_t`. */
  datatype ExpFilter = ExpFilter(alpha: real, lastValue: real, initialized: bool)

  /**
   * `math_exp_filter_init`: a null filter (`None`) is left alone; otherwise
   * alpha is clamped to [0, 1] and the last value is the initial one.
   */
  function ExpFilterInit(filter: Option<ExpFilter>, alpha: real, initial: real): (r: Option<ExpFilter>)
    ensures filter.None? <==> r.None?
    ensures r.Some? ==>
              0.0 <= r.value.alpha <= 1.0
              && (0.0 <= alpha <= 1.0 ==> r.value.alpha == alpha)
              && (alpha < 0.0 ==> r.value.alpha == 0.0)
              && (alpha > 1.0 ==> r.value.alpha == 1.0)
              && r.value.lastValue == initial && r.value.initialized
  {
    if filter.None? then None else Some(ExpFilter(Clamp(alpha, 0.0, 1.0), initial, true))
  }

  datatype Filtered = Filtered(filter: Option<ExpFilter>, output: real)

  /**
   * `math_exp_filter_update`.  A null filter echoes the input; the first
   * sample seeds the filter; later samples blend alpha * new + (1 - alpha) * last,
   * which is stored as the new last value.
   */
  function ExpFilterUpdate(filter: Option<ExpFilter>, x: real): (r: Filtered)
    ensures filter.None? ==> r == Filtered(None, x)
    ensures filter.Some? && !filter.value.initialized ==>
      r.output == x && r.filter == Some(filter.value.(lastValue := x, initialized := true))
    ensures filter.Some? ==>
      (r.filter.Some? && r.filter.value.initialized &&
       r.filter.value.alpha == filter.value.alpha && r.filter.value.lastValue == r.output)
    ensures filter.Some? && filter.value.initialized && 0.0 <= filter.value.alpha <= 1.0 ==>
      Min(x, filter.value.lastValue) <= r.output <= Max(x, filter.value.lastValue)
  {
    match filter
    case None => Filtered(None, x)
    case Some(f) =>
      if !f.initialized then Filtered(Some(f.(lastValue := x, initialized := true)), x)
      else
        var out := f.alpha * x + (1.0 - f.alpha) * f.lastValue;
        BlendBetween(f.alpha, x, f.lastValue);
        Filtered(Some(f.(lastValue := out)), out)
  }

  lemma BlendBetween(alpha: real, x: real, last: real)
    ensures 0.0 <= alpha <= 1.0 ==>
      Min(x, last) <= alpha * x + (1.0 - alpha) * last <= Max(x, last)
  {
    if 0.0 <= alpha <= 1.0 {
      assert alpha * x + (1.0 - alpha) * last == last + alpha * (x - last);
      LerpBetween(last, x, alpha);
    }
  }

  /** A filter with alpha = 1 tracks its input; with alpha = 0 it holds its value. */
  lemma ExpFilterExtremes(f: ExpFilter, x: real)
    requires f.initialized
    ensures f.alpha == 1.0 ==> ExpFilterUpdate(Some(f), x).output == x
    ensures f.alpha == 0.0 ==> ExpFilterUpdate(Some(f), x).output == f.lastValue
  {
  }
}

=== FILE: math_const.dfy ===
/** Constants of the firmware's math library (`math_const.h`). */
module MathConst {

  /** `M_PI` as written in the header. */
  const PI: real := 3.14159265358979323846

  /** `M_PI_2`. */
  const PI_2: real := 1.57079632679489661923

  const TWO_PI: real := 2.0 * PI

  /** `FLOAT_EPSILON`, the single-precision machine epsilon. */
  const FLOAT_EPSILON: real := 0.0000001192092896

  lemma HalfPi()
    ensures PI_2 + PI_2 == PI
    ensures 3.0 < PI < 4.0
  {
  }
}

=== FILE: math_matrix.dfy ===
/**
 * `math_matrix.c`: row-major float matrices with bounds-checked access,
 * row and column extraction, copy, transpose, small determinants and the
 * infinity norm.  A null matrix or destination pointer is `None`; a failed
 * allocation is the `allocOk` parameter.
 */
module MathMatrix {
  import opened Wrappers
  import opened CTypes
  import opened MathBits

  /** `math_matrix_t`: the element (r, c) is stored at data[r * cols + c]. */
  datatype Matrix = Matrix(rows: nat, cols: nat, data: seq<real>)

  /** What `math_matrix_create` guarantees of every matrix it hands out. */
  predicate Valid(m: Matrix)
  {
    m.rows > 0 && m.cols > 0 && |m.data| == m.rows * m.cols
  }

  predicate ValidOpt(m: Option<Matrix>)
  {
    m.Some? ==> Valid(m.value)
  }

  lemma IndexBound(r: nat, c: nat, rows: nat, cols: nat)
    requires r < rows && c < cols
    ensures r * cols + c < rows * cols
  {
    MulStep(rows, r, cols);
  }

  /** Row-major positions are distinct for distinct coordinates. */
  lemma IndexUnique(r: nat, c: nat, r': nat, c': nat, cols: nat)
    requires c < cols && c' < cols && r * cols + c == r' * cols + c'
    ensures r == r' && c == c'
  {
    ModUnique(r * cols + c, cols, r, c);
    ModUnique(r' * cols + c', cols, r', c');
  }

  /** The row index of position k in a row-major layout of h rows of w. */
  lemma RowBound(k: nat, h: nat, w: nat)
    requires k < h * w
    ensures w > 0 && k / w < h
  {
    if k / w >= h {
      MulStep(k / w, h - 1, w);
    }
  }

  /** The coordinates (row, column) of position k in a row-major h x w layout. */
  function Coord(k: nat, h: nat, w: nat): (rc: (nat, nat))
    requires k < h * w
    ensures rc.0 < h && rc.1 < w && rc.0 * w + rc.1 == k
  {
    RowBound(k, h, w);
    (k / w, k % w)
  }

  /** The element at (r, c) of a valid matrix. */
  function At(m: Matrix, r: nat, c: nat): real
    requires Valid(m) && r < m.rows && c < m.cols
  {
    IndexBound(r, c, m.rows, m.cols);
    m.data[r * m.cols + c]
  }

  /** m with the single element (r, c) replaced by v. */
  function Update(m: Matrix, r: nat, c: nat, v: real): (u: Matrix)
    requires Valid(m) && r < m.rows && c < m.cols
    ensures Valid(u) && u.rows == m.rows && u.cols == m.cols
    ensures forall a: nat, b: nat :: a < m.rows && b < m.cols ==>
      At(u, a, b) == if a == r && b == c then v else At(m, a, b)
  {
    IndexBound(r, c, m.rows, m.cols);
    var u := m.(data := m.data[r * m.cols + c := v]);
    assert forall a: nat, b: nat :: a < m.rows && b < m.cols ==>
      At(u, a, b) == if a == r && b == c then v else At(m, a, b) by {
      forall a: nat, b: nat | a < m.rows && b < m.cols
        ensures At(u, a, b) == if a == r && b == c then v else At(m, a, b)
      {
        IndexBound(a, b, m.rows, m.cols);
        if a * m.cols + b == r * m.cols + c {
          IndexUnique(a, b, r, c, m.cols);
        }
      }
    }
    u
  }

  // ---------------------------------------------------------------------------
  // Creation
  // ---------------------------------------------------------------------------

  /** A matrix of the given shape with every element v. */
  function Filled(rows: nat, cols: nat, v: real): (m: Matrix)
    requires rows > 0 && cols > 0
    ensures Valid(m) && m.rows == rows && m.cols == cols
    ensures forall r: nat, c: nat :: r < rows && c < cols ==> At(m, r, c) == v
  {
    var m := Matrix(rows, cols, seq(rows * cols, _ => v));
    assert forall r: nat, c: nat :: r < rows && c < cols ==> At(m, r, c) == v by {
      forall r: nat, c: nat | r < rows && c < cols
        ensures At(m, r, c) == v
      {
        IndexBound(r, c, rows, cols);
      }
    }
    m
  }

  /**
   * `math_matrix_create`: no matrix for a zero dimension or a failed
   * allocation; otherwise one of the requested shape.  The C buffer is left
   * uninitialised; here its contents are zero.
   */
  function Create(rows: nat, cols: nat, allocOk: bool): (r: Option<Matrix>)
    ensures r.Some? <==> rows > 0 && cols > 0 && allocOk
    ensures r.Some? ==> Valid(r.value) && r.value.rows == rows && r.value.cols == cols
  {
    if rows == 0 || cols == 0 || !allocOk then None else Some(Filled(rows, cols, 0.0))
  }

  /**
   * `math_matrix_create_from_array`: wrap caller-owned data (at least
   * rows * cols floats).  The C matrix aliases the caller's array; as a
   * value here, the matrix holds the array's contents at the time of the
   * call, and later writes through either one do not reach the other.
   */
  function CreateFromArray(data: Option<seq<real>>, rows: nat, cols: nat, allocOk: bool): (r: Option<Matrix>)
    requires data.Some? && rows > 0 && cols > 0 ==> |data.value| >= rows * cols
    ensures r.Some? <==> data.Some? && rows > 0 && cols > 0 && allocOk
    ensures r.Some? ==> Valid(r.value) && r.value.rows == rows && r.value.cols == cols
    ensures r.Some? ==> forall k :: 0 <= k < rows * cols ==> r.value.data[k] == data.value[k]
  {
    if data.None? || rows == 0 || cols == 0 || !allocOk then None
    else Some(Matrix(rows, cols, data.value[..rows * cols]))
  }

  /** `math_matrix_create_zeros`. */
  function Zeros(rows: nat, cols: nat, allocOk: bool): (r: Option<Matrix>)
    ensures r.Some? <==> rows > 0 && cols > 0 && allocOk
    ensures r.Some? ==> Valid(r.value) && r.value.rows == rows && r.value.cols == cols
    ensures r.Some? ==> forall i: nat, j: nat :: i < rows && j < cols ==> At(r.value, i, j) == 0.0
  {
    if rows == 0 || cols == 0 || !allocOk then None else Some(Filled(rows, cols, 0.0))
  }

  /** `math_matrix_create_ones`. */
  function Ones(rows: nat, cols: nat, allocOk: bool): (r: Option<Matrix>)
    ensures r.Some? <==> rows > 0 && cols > 0 && allocOk
    ensures r.Some? ==> Valid(r.value) && r.value.rows == rows && r.value.cols == cols
    ensures r.Some? ==> forall i: nat, j: nat :: i < rows && j < cols ==> At(r.value, i, j) == 1.0
  {
    if rows == 0 || cols == 0 || !allocOk then None else Some(Filled(rows, cols, 1.0))
  }

  /** `math_matrix_create_identity`: zeros, then a 1 at data[i * size + i] for each i. */
  method Identity(size: nat, allocOk: bool) returns (r: Option<Matrix>)
    ensures r.Some? <==> size > 0 && allocOk
    ensures r.Some? ==> Valid(r.value) && r.value.rows == size && r.value.cols == size
    ensures r.Some? ==> forall i: nat, j: nat :: i < size && j < size ==> At(r.value, i, j) == if i == j then 1.0 else 0.0
  {
    r := Zeros(size, size, allocOk);
    if r.None? {
      return;
    }
    var m := r.value;
    var i := 0;
    while i < size
      invariant 0 <= i <= size && Valid(m) && m.rows == size && m.cols == size
      invariant forall a: nat, b: nat :: a < size && b < size ==>
        At(m, a, b) == if a == b && a < i then 1.0 else 0.0
    {
      m := Update(m, i, i, 1.0);
      i := i + 1;
    }
    r := Some(m);
  }

  // ---------------------------------------------------------------------------
  // Access
  // ---------------------------------------------------------------------------

  /** `math_matrix_get`: the element, or 0 for a null matrix or a coordinate out of range. */
  function Get(m: Option<Matrix>, row: nat, col: nat): (v: real)
    requires ValidOpt(m)
    ensures m.Some? && row < m.value.rows && col < m.value.cols ==> v == At(m.value, row, col)
    ensures m.None? || row >= m.value.rows || col >= m.value.cols ==> v == 0.0
  {
    if m.None? || row >= m.value.rows || col >= m.value.cols then 0.0 else At(m.value, row, col)
  }

  /** `math_matrix_set`: write the one addressed element; out of range, nothing changes. */
  function Set(m: Option<Matrix>, row: nat, col: nat, value: real): (r: Option<Matrix>)
    requires ValidOpt(m)
    ensures ValidOpt(r) && r.Some? == m.Some?
    ensures r.Some? ==> r.value.rows == m.value.rows && r.value.cols == m.value.cols
    ensures m.None? || row >= m.value.rows || col >= m.value.cols ==> r == m
    ensures m.Some? && row < m.value.rows && col < m.value.cols ==>
      forall i: nat, j: nat :: Get(r, i, j) == if i == row && j == col then value else Get(m, i, j)
  {
    if m.None? || row >= m.value.rows || col >= m.value.cols then m
    else Some(Update(m.value, row, col, value))
  }

  /** `math_matrix_index`: the row-major position of (row, col), or 0 out of range. */
  function Index(m: Option<Matrix>, row: nat, col: nat): (k: nat)
    requires ValidOpt(m)
    ensures m.Some? && row < m.value.rows && col < m.value.cols ==>
      k < |m.value.data| && m.value.data[k] == Get(m, row, col) && Coord(k, m.value.rows, m.value.cols) == (row, col)
    ensures m.None? || row >= m.value.rows || col >= m.value.cols ==> k == 0
  {
    if m.None? || row >= m.value.rows || col >= m.value.cols then 0
    else
      IndexBound(row, col, m.value.rows, m.value.cols);
      var k := row * m.value.cols + col;
      var rc := Coord(k, m.value.rows, m.value.cols);
      IndexUnique(rc.0, rc.1, row, col, m.value.cols);
      k
  }

  /**
   * `math_matrix_get_row`: copy row `row` into the first cols slots of the
   * destination; a null pointer or a row out of range leaves it as it was.
   */
  function GetRow(m: Option<Matrix>, row: nat, dst: Option<seq<real>>): (r: Option<seq<real>>)
    requires ValidOpt(m)
    requires m.Some? && dst.Some? && row < m.value.rows ==> |dst.value| >= m.value.cols
    ensures m.None? || dst.None? || row >= m.value.rows ==> r == dst
    ensures m.Some? && dst.Some? && row < m.value.rows ==>
      r.Some? && |r.value| == |dst.value| &&
      (forall j :: 0 <= j < m.value.cols ==> r.value[j] == Get(m, row, j)) &&
      (forall j :: m.value.cols <= j < |dst.value| ==> r.value[j] == dst.value[j])
  {
    if m.None? || dst.None? || row >= m.value.rows then dst
    else
      var mv := m.value;
      Some(seq(|dst.value|, j requires 0 <= j < |dst.value| => if j < mv.cols then At(mv, row, j) else dst.value[j]))
  }

  /** `math_matrix_get_col`: copy column `col` into the first rows slots of the destination. */
  function GetCol(m: Option<Matrix>, col: nat, dst: Option<seq<real>>): (r: Option<seq<real>>)
    requires ValidOpt(m)
    requires m.Some? && dst.Some? && col < m.value.cols ==> |dst.value| >= m.value.rows
    ensures m.None? || dst.None? || col >= m.value.cols ==> r == dst
    ensures m.Some? && dst.Some? && col < m.value.cols ==>
      r.Some? && |r.value| == |dst.value| &&
      (forall i :: 0 <= i < m.value.rows ==> r.value[i] == Get(m, i, col)) &&
      (forall i :: m.value.rows <= i < |dst.value| ==> r.value[i] == dst.value[i])
  {
    if m.None? || dst.None? || col >= m.value.cols then dst
    else
      var mv := m.value;
      Some(seq(|dst.value|, i requires 0 <= i < |dst.value| => if i < mv.rows then At(mv, i, col) else dst.value[i]))
  }

  // ---------------------------------------------------------------------------
  // Copy and transpose
  // ---------------------------------------------------------------------------

  /** `math_matrix_copy`: only between matrices of the same shape. */
  function Copy(src: Option<Matrix>, dst: Option<Matrix>): (r: Option<Matrix>)
    requires ValidOpt(src) && ValidOpt(dst)
    ensures ValidOpt(r)
    ensures src.None? || dst.None? || src.value.rows != dst.value.rows || src.value.cols != dst.value.cols ==> r == dst
    ensures src.Some? && dst.Some? && src.value.rows == dst.value.rows && src.value.cols == dst.value.cols ==>
      r.Some? && r.value.rows == dst.value.rows && r.value.cols == dst.value.cols &&
      forall i: nat, j: nat :: Get(r, i, j) == Get(src, i, j)
  {
    if src.None? || dst.None? || src.value.rows != dst.value.rows || src.value.cols != dst.value.cols then dst
    else Some(dst.value.(data := src.value.data))
  }

  /** Reference definition of the transpose: element (j, i) is element (i, j) of m. */
  function TransposeOf(m: Matrix): (t: Matrix)
    requires Valid(m)
    ensures Valid(t) && t.rows == m.cols && t.cols == m.rows
    ensures forall j: nat, i: nat :: j < m.cols && i < m.rows ==> At(t, j, i) == At(m, i, j)
  {
    var n := m.cols * m.rows;
    assert n == m.rows * m.cols;
    var t := Matrix(m.cols, m.rows, seq(n, k requires 0 <= k < n => var rc := Coord(k, m.cols, m.rows); At(m, rc.1, rc.0)));
    assert forall j: nat, i: nat :: j < m.cols && i < m.rows ==> At(t, j, i) == At(m, i, j) by {
      forall j: nat, i: nat | j < m.cols && i < m.rows
        ensures At(t, j, i) == At(m, i, j)
      {
        IndexBound(j, i, m.cols, m.rows);
        var rc := Coord(j * m.rows + i, m.cols, m.rows);
        IndexUnique(rc.0, rc.1, j, i, m.rows);
      }
    }
    t
  }

  /** Two matrices of the same shape that agree everywhere are equal. */
  lemma MatrixExt(a: Matrix, b: Matrix)
    requires Valid(a) && Valid(b) && a.rows == b.rows && a.cols == b.cols
    requires forall i: nat, j: nat :: i < a.rows && j < a.cols ==> At(a, i, j) == At(b, i, j)
    ensures a == b
  {
    forall k | 0 <= k < |a.data|
      ensures a.data[k] == b.data[k]
    {
      var rc := Coord(k, a.rows, a.cols);
      assert At(a, rc.0, rc.1) == At(b, rc.0, rc.1);
    }
  }

  /** Transposing twice gives back the matrix. */
  lemma TransposeInvolution(m: Matrix)
    requires Valid(m)
    ensures TransposeOf(TransposeOf(m)) == m
  {
    MatrixExt(TransposeOf(TransposeOf(m)), m);
  }

  /**
   * `math_matrix_transpose`: for a destination of the transposed shape, write
   * dst(j, i) = src(i, j) row by row of the source; otherwise do nothing.
   */
  method Transpose(src: Option<Matrix>, dst: Option<Matrix>) returns (r: Option<Matrix>)
    requires ValidOpt(src) && ValidOpt(dst)
    ensures src.None? || dst.None? || src.value.rows != dst.value.cols || src.value.cols != dst.value.rows ==> r == dst
    ensures src.Some? && dst.Some? && src.value.rows == dst.value.cols && src.value.cols == dst.value.rows ==>
      r == Some(TransposeOf(src.value))
  {
    if src.None? || dst.None? || src.value.rows != dst.value.cols || src.value.cols != dst.value.rows {
      return dst;
    }
    var s, t := src.value, dst.value;
    var i := 0;
    while i < s.rows
      invariant 0 <= i <= s.rows && Valid(t) && t.rows == s.cols && t.cols == s.rows
      invariant forall a: nat, b: nat :: a < i && b < s.cols ==> At(t, b, a) == At(s, a, b)
    {
      var j := 0;
      while j < s.cols
        invariant 0 <= j <= s.cols && Valid(t) && t.rows == s.cols && t.cols == s.rows
        invariant forall a: nat, b: nat :: (a < i || (a == i && b < j)) && b < s.cols ==> At(t, b, a) == At(s, a, b)
      {
        t := Update(t, j, i, At(s, i, j));
        j := j + 1;
      }
      i := i + 1;
    }
    MatrixExt(t, TransposeOf(s));
    r := Some(t);
  }

  // ---------------------------------------------------------------------------
  // Determinant and norm
  // ---------------------------------------------------------------------------

  /** `math_det2x2`. */
  function Det2(a: real, b: real, c: real, d: real): real
  {
    a * d - b * c
  }

  /** `math_det3x3`: cofactor expansion along the first row. */
  function Det3(m: Matrix): real
    requires Valid(m) && m.rows == 3 && m.cols == 3
  {
    var d := m.data;
    d[0] * (d[4] * d[8] - d[5] * d[7]) - d[1] * (d[3] * d[8] - d[5] * d[6]) + d[2] * (d[3] * d[7] - d[4] * d[6])
  }

  /**
   * `math_matrix_determinant`: 0 for a null or non-square matrix and the
   * closed forms up to 3 x 3, which agree with the cofactor expansion `Det`.
   * Larger matrices go through floating-point elimination, whose outcome is
   * the parameter `elimination`.
   */
  function Determinant(m: Option<Matrix>, elimination: real): (r: real)
    requires ValidOpt(m)
    ensures m.None? || m.value.rows != m.value.cols ==> r == 0.0
    ensures m.Some? && m.value.rows == m.value.cols == 1 ==> r == At(m.value, 0, 0)
    ensures m.Some? && m.value.rows == m.value.cols && m.value.rows <= 3 ==> r == Det(Rows(m.value))
  {
    if m.None? || m.value.rows != m.value.cols then 0.0
    else
      var mv := m.value;
      if mv.rows == 1 then
        Det1(Rows(mv));
        mv.data[0]
      else if mv.rows == 2 then
        Det2Agrees(mv);
        Det2(mv.data[0], mv.data[1], mv.data[2], mv.data[3])
      else if mv.rows == 3 then
        Det3Agrees(mv);
        Det3(mv)
      else elimination
  }

  /** Sum of |m(i, j)| over the first n columns of row i. */
  function RowAbsSum(m: Matrix, i: nat, n: nat): (r: real)
    requires Valid(m) && i < m.rows && n <= m.cols
    ensures r >= 0.0
  {
    if n == 0 then 0.0 else RowAbsSum(m, i, n - 1) + Abs(At(m, i, n - 1))
  }

  /**
   * `math_matrix_norm_inf`: the largest absolute row sum (0 for a null
   * matrix), found by keeping the running maximum from 0.
   */
  method NormInf(m: Option<Matrix>) returns (r: real)
    requires ValidOpt(m)
    ensures r >= 0.0
    ensures m.None? ==> r == 0.0
    ensures m.Some? ==> forall i: nat :: i < m.value.rows ==> RowAbsSum(m.value, i, m.value.cols) <= r
    ensures m.Some? ==> exists i: nat :: i < m.value.rows && r == RowAbsSum(m.value, i, m.value.cols)
  {
    if m.None? {
      return 0.0;
    }
    var mv := m.value;
    r := 0.0;
    var i := 0;
    ghost var w: nat := 0;
    while i < mv.rows
      invariant 0 <= i <= mv.rows && r >= 0.0
      invariant forall k: nat :: k < i ==> RowAbsSum(mv, k, mv.cols) <= r
      invariant i == 0 ==> r == 0.0
      invariant i > 0 ==> w < i && r == RowAbsSum(mv, w, mv.cols)
    {
      var rowSum := RowSum(mv, i);
      if rowSum > r || i == 0 {
        w := i;
      }
      if rowSum > r {
        r := rowSum;
      }
      i := i + 1;
    }
  }

  /** The inner loop of `math_matrix_norm_inf`: the absolute sum of row i. */
  method RowSum(m: Matrix, i: nat) returns (s: real)
    requires Valid(m) && i < m.rows
    ensures s == RowAbsSum(m, i, m.cols)
  {
    s := 0.0;
    var j := 0;
    while j < m.cols
      invariant 0 <= j <= m.cols && s == RowAbsSum(m, i, j)
    {
      s := s + Abs(At(m, i, j));
      j := j + 1;
    }
  }

  // The determinant proper, by Laplace expansion along the first row, on a
  // matrix given as its list of rows.

  predicate Square(a: seq<seq<real>>)
  {
    forall i :: 0 <= i < |a| ==> |a[i]| == |a|
  }

  function Rows(m: Matrix): (a: seq<seq<real>>)
    requires Valid(m)
    ensures |a| == m.rows && forall i :: 0 <= i < m.rows ==> |a[i]| == m.cols
    ensures forall i, j :: 0 <= i < m.rows && 0 <= j < m.cols ==> a[i][j] == At(m, i, j)
  {
    seq(m.rows, i requires 0 <= i < m.rows => seq(m.cols, j requires 0 <= j < m.cols => At(m, i, j)))
  }

  /** a without its first row and without column j. */
  function Minor(a: seq<seq<real>>, j: nat): (b: seq<seq<real>>)
    requires |a| >= 1 && Square(a) && j < |a|
    ensures |b| == |a| - 1 && Square(b)
    ensures forall r, c :: 0 <= r < |b| && 0 <= c < |b| ==> b[r][c] == a[r + 1][if c < j then c else c + 1]
  {
    seq(|a| - 1, r requires 0 <= r < |a| - 1 => a[r + 1][..j] + a[r + 1][j + 1..])
  }

  function Det(a: seq<seq<real>>): real
    requires Square(a)
    decreases |a|, 1
  {
    if |a| == 0 then 1.0 else Cofactors(a, 0)
  }

  /** The terms j, j + 1, ... of the expansion along the first row. */
  function Cofactors(a: seq<seq<real>>, j: nat): real
    requires |a| >= 1 && Square(a) && j <= |a|
    decreases |a|, 0, |a| - j
  {
    if j == |a| then 0.0
    else (if j % 2 == 0 then 1.0 else -1.0) * a[0][j] * Det(Minor(a, j)) + Cofactors(a, j + 1)
  }

  /** The expansion of a 1 x 1 matrix is its element. */
  lemma Det1(b: seq<seq<real>>)
    requires |b| == 1 && Square(b)
    ensures Det(b) == b[0][0]
  {
    assert Det(Minor(b, 0)) == 1.0;
    assert Cofactors(b, 1) == 0.0;
    assert Det(b) == Cofactors(b, 0);
  }

  /** The expansion of a 2 x 2 matrix is `math_det2x2` of its elements. */
  lemma Det2ByRows(b: seq<seq<real>>)
    requires |b| == 2 && Square(b)
    ensures Det(b) == Det2(b[0][0], b[0][1], b[1][0], b[1][1])
  {
    Det1(Minor(b, 0));
    Det1(Minor(b, 1));
    assert Cofactors(b, 2) == 0.0;
    assert Cofactors(b, 1) == -1.0 * b[0][1] * b[1][0];
    assert Det(b) == Cofactors(b, 0);
  }

  lemma Det2Agrees(m: Matrix)
    requires Valid(m) && m.rows == 2 && m.cols == 2
    ensures Det(Rows(m)) == Det2(m.data[0], m.data[1], m.data[2], m.data[3])
  {
    var a := Rows(m);
    assert a[0][0] == m.data[0] && a[0][1] == m.data[1];
    assert a[1][0] == m.data[2] && a[1][1] == m.data[3];
    Det2ByRows(a);
  }

  lemma Det3Agrees(m: Matrix)
    requires Valid(m) && m.rows == 3 && m.cols == 3
    ensures Det(Rows(m)) == Det3(m)
  {
    var a := Rows(m);
    assert a[0][0] == m.data[0] && a[0][1] == m.data[1] && a[0][2] == m.data[2];
    assert a[1][0] == m.data[3] && a[1][1] == m.data[4] && a[1][2] == m.data[5];
    assert a[2][0] == m.data[6] && a[2][1] == m.data[7] && a[2][2] == m.data[8];
    Det2ByRows(Minor(a, 0));
    Det2ByRows(Minor(a, 1));
    Det2ByRows(Minor(a, 2));
    assert Cofactors(a, 3) == 0.0;
    assert Cofactors(a, 2) == a[0][2] * Det(Minor(a, 2));
    assert Cofactors(a, 1) == -1.0 * a[0][1] * Det(Minor(a, 1)) + Cofactors(a, 2);
    assert Det(a) == a[0][0] * Det(Minor(a, 0)) + Cofactors(a, 1);
  }

  // ---------------------------------------------------------------------------
  // The values the test program expects
  // ---------------------------------------------------------------------------

  /** The 3 x 3 matrix whose element (i, j) is 3i + j + 1. */
  const Counting3: Matrix := Matrix(3, 3, [1.0, 2.0, 3.0, 4.0, 5.0, 6.0, 7.0, 8.0, 9.0])

  lemma AccessExample()
    ensures Get(Some(Counting3), 0, 0) == 1.0 && Get(Some(Counting3), 1, 1) == 5.0 && Get(Some(Counting3), 2, 2) == 9.0
    ensures Get(Some(Counting3), 5, 5) == 0.0
    ensures Index(Some(Counting3), 1, 2) == 5
    ensures GetRow(Some(Counting3), 1, Some([0.0, 0.0, 0.0])) == Some([4.0, 5.0, 6.0])
    ensures GetCol(Some(Counting3), 1, Some([0.0, 0.0, 0.0])) == Some([2.0, 5.0, 8.0])
  {
    var c := Counting3;
    assert Valid(c);
    assert At(c, 1, 0) == 4.0 && At(c, 1, 1) == 5.0 && At(c, 1, 2) == 6.0;
    assert At(c, 0, 1) == 2.0 && At(c, 2, 1) == 8.0;
    assert GetRow(Some(c), 1, Some([0.0, 0.0, 0.0])).value == [4.0, 5.0, 6.0];
    assert GetCol(Some(c), 1, Some([0.0, 0.0, 0.0])).value == [2.0, 5.0, 8.0];
  }

  lemma DeterminantExample(elimination: real)
    ensures Determinant(Some(Matrix(3, 3, [4.0, 1.0, 0.0, 1.0, 4.0, 1.0, 0.0, 1.0, 4.0])), elimination) == 56.0
  {
  }

  method NormInfExample() returns (r: real)
    ensures r == 11.0
  {
    var m := Matrix(2, 2, [3.0, 4.0, 5.0, 6.0]);
    r := NormInf(Some(m));
    assert RowAbsSum(m, 0, 2) == 7.0;
    assert RowAbsSum(m, 1, 2) == 11.0;
  }
}

=== FILE: math_quaternion.dfy ===
/**
 * The algebraic part of `math_quaternion.cpp`: construction, conjugate,
 * inverse, componentwise sum and difference, the Hamilton product and the
 * endpoints of `slerp`.  Components are `real` in place of `float`.
 */
module MathQuaternion {
  import opened CTypes
  import opened MathConst

  /** w + xi + yj + zk. */
  datatype Quaternion = Quaternion(w: real, x: real, y: real, z: real)

  /** The default constructor and `setIdentity`: (1, 0, 0, 0). */
  const Identity: Quaternion := Quaternion(1.0, 0.0, 0.0, 0.0)

  /** `isIdentity`: every component within FLOAT_EPSILON of (1, 0, 0, 0). */
  predicate IsIdentity(q: Quaternion)
  {
    Abs(q.w - 1.0) < FLOAT_EPSILON && Abs(q.x) < FLOAT_EPSILON && Abs(q.y) < FLOAT_EPSILON && Abs(q.z) < FLOAT_EPSILON
  }

  /** `setIdentity`: whatever the quaternion held, afterwards it is the identity. */
  function SetIdentity(q: Quaternion): (r: Quaternion)
    ensures IsIdentity(r) && r.w == 1.0 && r.x == r.y == r.z == 0.0
  {
    Identity
  }

  /** `operator==`: componentwise equality up to FLOAT_EPSILON. */
  predicate ApproxEqual(p: Quaternion, q: Quaternion)
  {
    Abs(p.w - q.w) < FLOAT_EPSILON && Abs(p.x - q.x) < FLOAT_EPSILON &&
    Abs(p.y - q.y) < FLOAT_EPSILON && Abs(p.z - q.z) < FLOAT_EPSILON
  }

  /** `operator==` is reflexive and symmetric, and `isIdentity` is equality with the identity. */
  lemma ApproxEqualProperties(p: Quaternion, q: Quaternion)
    ensures ApproxEqual(p, p)
    ensures ApproxEqual(p, q) <==> ApproxEqual(q, p)
    ensures IsIdentity(p) <==> ApproxEqual(p, Identity)
  {
    assert Abs(p.w - q.w) == Abs(q.w - p.w);
    assert Abs(p.x - q.x) == Abs(q.x - p.x);
    assert Abs(p.y - q.y) == Abs(q.y - p.y);
    assert Abs(p.z - q.z) == Abs(q.z - p.z);
  }

  /** The squared norm w^2 + x^2 + y^2 + z^2 that `norm` and `inverse` use. */
  function NormSquared(q: Quaternion): (n: real)
    ensures n >= 0.0
  {
    SquareNonNeg(q.w);
    SquareNonNeg(q.x);
    SquareNonNeg(q.y);
    SquareNonNeg(q.z);
    q.w * q.w + q.x * q.x + q.y * q.y + q.z * q.z
  }

  lemma SquareNonNeg(a: real)
    ensures a * a >= 0.0
  {
    if a > 0.0 {
      MulPos(a, a);
    } else if a < 0.0 {
      MulPos(-a, -a);
      assert (-a) * (-a) == a * a;
    }
  }

  lemma MulPos(a: real, b: real)
    requires a > 0.0 && b > 0.0
    ensures a * b > 0.0
  {
  }

  lemma Assoc(a: real, b: real, c: real)
    ensures a * (b * c) == (a * b) * c
  {
  }

  /** `operator+`. */
  function Add(p: Quaternion, q: Quaternion): Quaternion
  {
    Quaternion(p.w + q.w, p.x + q.x, p.y + q.y, p.z + q.z)
  }

  /** `operator-`. */
  function Sub(p: Quaternion, q: Quaternion): Quaternion
  {
    Quaternion(p.w - q.w, p.x - q.x, p.y - q.y, p.z - q.z)
  }

  /** Subtracting what was added gives back the quaternion, and addition commutes. */
  lemma AddSubInverse(p: Quaternion, q: Quaternion)
    ensures Sub(Add(p, q), q) == p
    ensures Add(Sub(p, q), q) == p
    ensures Add(p, q) == Add(q, p)
  {
  }

  /** `operator*(float)`. */
  function Scale(q: Quaternion, s: real): Quaternion
  {
    Quaternion(q.w * s, q.x * s, q.y * s, q.z * s)
  }

  /** `operator*`: the Hamilton product. */
  function Mul(p: Quaternion, q: Quaternion): Quaternion
  {
    Quaternion(
      p.w * q.w - p.x * q.x - p.y * q.y - p.z * q.z,
      p.w * q.x + p.x * q.w + p.y * q.z - p.z * q.y,
      p.w * q.y - p.x * q.z + p.y * q.w + p.z * q.x,
      p.w * q.z + p.x * q.y - p.y * q.x + p.z * q.w)
  }

  /** The identity is a unit on both sides of the product. */
  lemma MulIdentity(q: Quaternion)
    ensures Mul(Identity, q) == q && Mul(q, Identity) == q
  {
  }

  /** The product is linear in its right factor. */
  lemma MulScaleRight(p: Quaternion, q: Quaternion, s: real)
    ensures Mul(p, Scale(q, s)) == Scale(Mul(p, q), s)
  {
    ScaleRightW(p, q, s);
    ScaleRightX(p, q, s);
    ScaleRightY(p, q, s);
    ScaleRightZ(p, q, s);
  }

  lemma ScaleRightW(p: Quaternion, q: Quaternion, s: real)
    ensures Mul(p, Scale(q, s)).w == Scale(Mul(p, q), s).w
  {
    var a, b, c, d := p.w * q.w, p.x * q.x, p.y * q.y, p.z * q.z;
    assert Mul(p, q).w == a - b - c - d;
    assert Scale(Mul(p, q), s).w == (a - b - c - d) * s;
    assert p.w * (q.w * s) == a * s;
    assert p.x * (q.x * s) == b * s;
    assert p.y * (q.y * s) == c * s;
    assert p.z * (q.z * s) == d * s;
    assert Mul(p, Scale(q, s)).w == a * s - b * s - c * s - d * s;
    assert (a - b - c - d) * s == a * s - b * s - c * s - d * s;
  }

  lemma ScaleRightX(p: Quaternion, q: Quaternion, s: real)
    ensures Mul(p, Scale(q, s)).x == Scale(Mul(p, q), s).x
  {
    var a, b, c, d := p.w * q.x, p.x * q.w, p.y * q.z, p.z * q.y;
    assert Mul(p, q).x == a + b + c - d;
    assert Scale(Mul(p, q), s).x == (a + b + c - d) * s;
    assert p.w * (q.x * s) == a * s;
    assert p.x * (q.w * s) == b * s;
    assert p.y * (q.z * s) == c * s;
    assert p.z * (q.y * s) == d * s;
    assert Mul(p, Scale(q, s)).x == a * s + b * s + c * s - d * s;
    assert (a + b + c - d) * s == a * s + b * s + c * s - d * s;
  }

  lemma ScaleRightY(p: Quaternion, q: Quaternion, s: real)
    ensures Mul(p, Scale(q, s)).y == Scale(Mul(p, q), s).y
  {
    var a, b, c, d := p.w * q.y, p.x * q.z, p.y * q.w, p.z * q.x;
    assert Mul(p, q).y == a - b + c + d;
    assert Scale(Mul(p, q), s).y == (a - b + c + d) * s;
    assert p.w * (q.y * s) == a * s;
    assert p.x * (q.z * s) == b * s;
    assert p.y * (q.w * s) == c * s;
    assert p.z * (q.x * s) == d * s;
    assert Mul(p, Scale(q, s)).y == a * s - b * s + c * s + d * s;
    assert (a - b + c + d) * s == a * s - b * s + c * s + d * s;
  }

  lemma ScaleRightZ(p: Quaternion, q: Quaternion, s: real)
    ensures Mul(p, Scale(q, s)).z == Scale(Mul(p, q), s).z
  {
    var a, b, c, d := p.w * q.z, p.x * q.y, p.y * q.x, p.z * q.w;
    assert Mul(p, q).z == a + b - c + d;
    assert Scale(Mul(p, q), s).z == (a + b - c + d) * s;
    assert p.w * (q.z * s) == a * s;
    assert p.x * (q.y * s) == b * s;
    assert p.y * (q.x * s) == c * s;
    assert p.z * (q.w * s) == d * s;
    assert Mul(p, Scale(q, s)).z == a * s + b * s - c * s + d * s;
    assert (a + b - c + d) * s == a * s + b * s - c * s + d * s;
  }

  /** The product is linear in its left factor. */
  lemma MulScaleLeft(p: Quaternion, q: Quaternion, s: real)
    ensures Mul(Scale(p, s), q) == Scale(Mul(p, q), s)
  {
    ScaleLeftW(p, q, s);
    ScaleLeftX(p, q, s);
    ScaleLeftY(p, q, s);
    ScaleLeftZ(p, q, s);
  }

  lemma ScaleLeftW(p: Quaternion, q: Quaternion, s: real)
    ensures Mul(Scale(p, s), q).w == Scale(Mul(p, q), s).w
  {
    var a, b, c, d := p.w * q.w, p.x * q.x, p.y * q.y, p.z * q.z;
    assert Mul(p, q).w == a - b - c - d;
    assert Scale(Mul(p, q), s).w == (a - b - c - d) * s;
    assert (p.w * s) * q.w == a * s;
    assert (p.x * s) * q.x == b * s;
    assert (p.y * s) * q.y == c * s;
    assert (p.z * s) * q.z == d * s;
    assert Mul(Scale(p, s), q).w == a * s - b * s - c * s - d * s;
    assert (a - b - c - d) * s == a * s - b * s - c * s - d * s;
  }

  lemma ScaleLeftX(p: Quaternion, q: Quaternion, s: real)
    ensures Mul(Scale(p, s), q).x == Scale(Mul(p, q), s).x
  {
    var a, b, c, d := p.w * q.x, p.x * q.w, p.y * q.z, p.z * q.y;
    assert Mul(p, q).x == a + b + c - d;
    assert Scale(Mul(p, q), s).x == (a + b + c - d) * s;
    assert (p.w * s) * q.x == a * s;
    assert (p.x * s) * q.w == b * s;
    assert (p.y * s) * q.z == c * s;
    assert (p.z * s) * q.y == d * s;
    assert Mul(Scale(p, s), q).x == a * s + b * s + c * s - d * s;
    assert (a + b + c - d) * s == a * s + b * s + c * s - d * s;
  }

  lemma ScaleLeftY(p: Quaternion, q: Quaternion, s: real)
    ensures Mul(Scale(p, s), q).y == Scale(Mul(p, q), s).y
  {
    var a, b, c, d := p.w * q.y, p.x * q.z, p.y * q.w, p.z * q.x;
    assert Mul(p, q).y == a - b + c + d;
    assert Scale(Mul(p, q), s).y == (a - b + c + d) * s;
    assert (p.w * s) * q.y == a * s;
    assert (p.x * s) * q.z == b * s;
    assert (p.y * s) * q.w == c * s;
    assert (p.z * s) * q.x == d * s;
    assert Mul(Scale(p, s), q).y == a * s - b * s + c * s + d * s;
    assert (a - b + c + d) * s == a * s - b * s + c * s + d * s;
  }

  lemma ScaleLeftZ(p: Quaternion, q: Quaternion, s: real)
    ensures Mul(Scale(p, s), q).z == Scale(Mul(p, q), s).z
  {
    var a, b, c, d := p.w * q.z, p.x * q.y, p.y * q.x, p.z * q.w;
    assert Mul(p, q).z == a + b - c + d;
    assert Scale(Mul(p, q), s).z == (a + b - c + d) * s;
    assert (p.w * s) * q.z == a * s;
    assert (p.x * s) * q.y == b * s;
    assert (p.y * s) * q.x == c * s;
    assert (p.z * s) * q.w == d * s;
    assert Mul(Scale(p, s), q).z == a * s + b * s - c * s + d * s;
    assert (a + b - c + d) * s == a * s + b * s - c * s + d * s;
  }

  /** `conjugate`: negate the vector part; q times its conjugate is the real |q|^2. */
  function Conjugate(q: Quaternion): (c: Quaternion)
    ensures Mul(q, c) == Quaternion(NormSquared(q), 0.0, 0.0, 0.0)
    ensures Mul(c, q) == Quaternion(NormSquared(q), 0.0, 0.0, 0.0)
    ensures NormSquared(c) == NormSquared(q)
  {
    Quaternion(q.w, -q.x, -q.y, -q.z)
  }

  /** Conjugating twice gives back the quaternion, and conjugation reverses products. */
  lemma ConjugateInvolution(p: Quaternion, q: Quaternion)
    ensures Conjugate(Conjugate(q)) == q
    ensures Conjugate(Mul(p, q)) == Mul(Conjugate(q), Conjugate(p))
  {
  }

  /**
   * `inverse`: the identity when |q|^2 < FLOAT_EPSILON, otherwise the
   * conjugate divided by |q|^2, which is a two-sided inverse.
   */
  function Inverse(q: Quaternion): (r: Quaternion)
    ensures NormSquared(q) < FLOAT_EPSILON ==> r == Identity
    ensures NormSquared(q) >= FLOAT_EPSILON ==> Mul(q, r) == Identity && Mul(r, q) == Identity
  {
    var n := NormSquared(q);
    if n < FLOAT_EPSILON then Identity
    else
      var inv := 1.0 / n;
      var r := Quaternion(q.w * inv, -q.x * inv, -q.y * inv, -q.z * inv);
      assert r == Scale(Conjugate(q), inv);
      MulScaleRight(q, Conjugate(q), inv);
      MulScaleLeft(Conjugate(q), q, inv);
      r
  }

  /**
   * `slerp`: q1 for t <= 0 and q2 for t >= 1.  In between the result comes
   * from trigonometry and normalisation, given here as `between`.
   */
  function Slerp(q1: Quaternion, q2: Quaternion, t: real, between: Quaternion): (r: Quaternion)
    ensures t <= 0.0 ==> r == q1
    ensures t >= 1.0 ==> r == q2
    ensures 0.0 < t < 1.0 ==> r == between
  {
    if t <= 0.0 then q1 else if t >= 1.0 then q2 else between
  }
}

=== FILE: motor.dfy ===
/**
 * The motor base class (`motor.cpp`): the stored throttle and the direction
 * adjustment that limits a throttle to [-100, 100] and negates it for a
 * motor mounted in reverse.
 */
module Motor {
  import Chassis

  const THROTTLE_RANGE: real := 100.0

  datatype Motor = Motor(reversed: bool, throttle: real)

  /** The constructor: the direction is kept and the stored throttle starts at 0. */
  function New(reversed: bool): (m: Motor)
    ensures m.reversed == reversed && GetThrottle(m) == 0.0
  {
    Motor(reversed, 0.0)
  }

  /** `getThrottle`: the throttle last requested by `setThrottle`, not the adjusted one. */
  function GetThrottle(m: Motor): real {
    m.throttle
  }

  /** The ±100 limit, written with the same max/min idiom as `Chassis::constrain`. */
  function Limit(t: real): (r: real)
    ensures -THROTTLE_RANGE <= r <= THROTTLE_RANGE
    ensures -THROTTLE_RANGE <= t <= THROTTLE_RANGE ==> r == t
    ensures t > THROTTLE_RANGE ==> r == THROTTLE_RANGE
    ensures t < -THROTTLE_RANGE ==> r == -THROTTLE_RANGE
  {
    Chassis.Constrain(t, -THROTTLE_RANGE, THROTTLE_RANGE)
  }

  /**
   * `adjustThrottleForDirection`: limited to [-100, 100], then negated when
   * the motor is reversed.
   */
  function Adjust(m: Motor, t: real): (r: real)
    ensures -THROTTLE_RANGE <= r <= THROTTLE_RANGE
    ensures !m.reversed ==> r == Limit(t)
    ensures m.reversed ==> r == -Limit(t)
  {
    var l := Limit(t);
    if m.reversed then -l else l
  }

  /** The adjustment is odd: it commutes with negation. */
  lemma AdjustOdd(m: Motor, t: real)
    ensures Adjust(m, -t) == -Adjust(m, t)
  {
  }

  /** Within range the adjustment is its own inverse, so a reversed motor undoes it. */
  lemma AdjustInvolution(m: Motor, t: real)
    requires -THROTTLE_RANGE <= t <= THROTTLE_RANGE
    ensures Adjust(m, Adjust(m, t)) == t
  {
  }

  /** A reversed and a normal motor given the same throttle turn in opposite senses. */
  lemma ReversedOpposes(t: real)
    ensures Adjust(Motor(true, 0.0), t) == -Adjust(Motor(false, 0.0), t)
  {
  }
}

=== FILE: move.dfy ===
/**
 * Position and velocity control (`move.cpp`): lidar positions minus a
 * settable origin offset, the chassis yaw minus a yaw offset, the
 * ground-to-body transform, the cascaded position and velocity PID loops
 * and the clamps on the resulting roll, pitch and throttle commands.
 *
 * The lidar's pose and velocity readings (`None` when not valid), the
 * chassis yaw and the sine and cosine functions are parameters.
 */
module Move {
  import opened Wrappers
  import opened CTypes
  import opened MathConst
  import MathAngle
  import Pid
  import Chassis
  import Odometer
  import Lidar

  type Vec3 = Lidar.Vec3

  /** `M_PI/6`: the roll and pitch command limit (30 degrees). */
  const ANGLE_LIMIT: real := PI / 6.0
  const THROTTLE_LIMIT: real := 50.0

  const Zero := Lidar.Vec3(0.0, 0.0, 0.0)

  /** The x, y and z loops of one family; a null PID is `None`. */
  datatype Loops = Loops(x: Option<Pid.Pid>, y: Option<Pid.Pid>, z: Option<Pid.Pid>)

  datatype Dependencies = Dependencies(
    hasLidar: bool,
    hasChassis: bool,
    positionPids: Loops,
    velocityPids: Loops)

  datatype Target = Target(position: Vec3, velocity: Vec3, usePosition: bool)

  datatype Status = Status(
    position: Vec3,
    velocity: Vec3,
    offset: Vec3,
    offsetYaw: real,
    errorBody: Vec3,
    velocityBody: Vec3,
    yaw: real,
    velocityCommand: Vec3,
    roll: real, pitch: real, throttle: real,
    initialized: bool)

  datatype Move = Move(deps: Dependencies, target: Target, status: Status)

  const ZeroStatus := Status(Zero, Zero, Zero, 0.0, Zero, Zero, 0.0, Zero, 0.0, 0.0, 0.0, false)

  predicate InRange(angle: real) { -PI <= angle <= PI }

  /** Angles below -PI go up by whole turns (the second loop of `normalizeAngle`). */
  function TurnsUp(angle: real): (r: real)
    requires angle <= PI
    ensures InRange(r) && Congruent(r, angle, TWO_PI)
    ensures angle >= -PI ==> r == angle
    decreases (-angle).Floor
  {
    if angle < -PI then
      var r := TurnsUp(angle + TWO_PI);
      MathAngle.TimesSucc(0, TWO_PI);
      assert (angle + TWO_PI) - angle == Times(1, TWO_PI);
      MathAngle.CongruentTrans(r, angle + TWO_PI, angle, TWO_PI);
      r
    else
      assert angle - angle == Times(0, TWO_PI);
      angle
  }

  /**
   * `normalizeAngle`: subtract whole turns while above PI, add whole turns
   * while below -PI.  The result lies in the closed range [-PI, PI], differs
   * from the input by whole turns, and in-range inputs are kept.
   */
  function NormalizeAngle(angle: real): (r: real)
    ensures InRange(r) && Congruent(r, angle, TWO_PI)
    ensures InRange(angle) ==> r == angle
  {
    var d := MathAngle.TurnsDown(angle);
    MathAngle.CongruentTrans(TurnsUp(d), d, angle, TWO_PI);
    TurnsUp(d)
  }

  /**
   * This normaliser and the odometer's agree everywhere except where this
   * one answers -PI; the odometer's range is (-PI, PI], so it answers PI.
   */
  lemma NormalizersAgree(angle: real)
    ensures NormalizeAngle(angle) != -PI ==> Odometer.NormalizeAngle(angle) == NormalizeAngle(angle)
    ensures NormalizeAngle(angle) == -PI ==> Odometer.NormalizeAngle(angle) == PI
  {
    var r := NormalizeAngle(angle);
    if r != -PI {
      Odometer.NormalizeUnique(angle, r);
    } else {
      assert PI - r == Times(1, TWO_PI) by { MathAngle.TimesSucc(0, TWO_PI); }
      MathAngle.CongruentTrans(PI, r, angle, TWO_PI);
      Odometer.NormalizeUnique(angle, PI);
    }
  }

  /** An angle that is a whole number of turns normalises to 0. */
  lemma WholeTurnsNormalizeToZero(angle: real)
    requires Congruent(angle, 0.0, TWO_PI)
    ensures NormalizeAngle(angle) == 0.0
  {
    var r := NormalizeAngle(angle);
    MathAngle.CongruentTrans(r, angle, 0.0, TWO_PI);
    var k :| r - 0.0 == Times(k, TWO_PI);
    MathAngle.TimesAwayFromZero(k, TWO_PI);
  }

  /**
   * `transformGroundToBody` as written: x and y rotated by +yaw, given the
   * cosine and sine of yaw; z is carried over.  The comment beside it
   * describes the rotation by -yaw instead.
   */
  function Transform(v: Vec3, cos: real, sin: real): (r: Vec3)
    ensures r.z == v.z
    ensures cos == 1.0 && sin == 0.0 ==> r == v
  {
    Lidar.Vec3(v.x * cos - v.y * sin, v.x * sin + v.y * cos, v.z)
  }

  /** Given cos² + sin² = 1 the transform keeps the planar length. */
  lemma TransformKeepsLength(v: Vec3, cos: real, sin: real)
    requires cos * cos + sin * sin == 1.0
    ensures var r := Transform(v, cos, sin);
            r.x * r.x + r.y * r.y == v.x * v.x + v.y * v.y
  {
    var r := Transform(v, cos, sin);
    calc {
      r.x * r.x + r.y * r.y;
      (v.x * cos - v.y * sin) * (v.x * cos - v.y * sin) + (v.x * sin + v.y * cos) * (v.x * sin + v.y * cos);
      (v.x * v.x) * (cos * cos + sin * sin) + (v.y * v.y) * (cos * cos + sin * sin);
    }
  }

  /** Given cos² + sin² = 1, rotating by the opposite angle undoes the transform. */
  lemma TransformInverse(v: Vec3, cos: real, sin: real)
    requires cos * cos + sin * sin == 1.0
    ensures Transform(Transform(v, cos, sin), cos, -sin) == v
  {
    var r := Transform(v, cos, sin);
    calc {
      r.x * cos - r.y * -sin;
      (v.x * cos - v.y * sin) * cos + (v.x * sin + v.y * cos) * sin;
      v.x * (cos * cos + sin * sin);
    }
    calc {
      r.x * -sin + r.y * cos;
      -(v.x * cos - v.y * sin) * sin + (v.x * sin + v.y * cos) * cos;
      v.y * (cos * cos + sin * sin);
    }
  }

  function Sub(a: Vec3, b: Vec3): Vec3 {
    Lidar.Vec3(a.x - b.x, a.y - b.y, a.z - b.z)
  }

  /** The constructor: default targets (position mode), zeroed status. */
  function New(deps: Dependencies): (m: Move)
    ensures !m.status.initialized && m.target.usePosition
  {
    Move(deps, Target(Zero, Zero, true), ZeroStatus)
  }

  predicate AllPresent(l: Loops) { l.x.Some? && l.y.Some? && l.z.Some? }

  /**
   * `init`: succeeds exactly when the lidar, the chassis and all six PIDs are
   * present; then targets are reset (position mode) and the status zeroed.
   * On failure only the initialized flag changes, to false.
   */
  function Init(m: Move): (r: (Move, bool))
    ensures r.1 <==> m.deps.hasLidar && m.deps.hasChassis && AllPresent(m.deps.positionPids) && AllPresent(m.deps.velocityPids)
    ensures r.0.deps == m.deps && r.0.status.initialized == r.1
    ensures !r.1 ==> r.0 == m.(status := m.status.(initialized := false))
    ensures r.1 ==> r.0.target == Target(Zero, Zero, true) && r.0.status == ZeroStatus.(initialized := true)
  {
    var ok := m.deps.hasLidar && m.deps.hasChassis && AllPresent(m.deps.positionPids) && AllPresent(m.deps.velocityPids);
    if ok then (Move(m.deps, Target(Zero, Zero, true), ZeroStatus.(initialized := true)), true)
    else (m.(status := m.status.(initialized := false)), false)
  }

  /** `setTargetPosition`: stores the position and selects position control. */
  function SetTargetPosition(m: Move, p: Vec3): (r: Move)
    ensures r.target.usePosition && r.target.position == p
    ensures r == m.(target := m.target.(position := p, usePosition := true))
  {
    m.(target := m.target.(position := p, usePosition := true))
  }

  /** `setTargetVelocity`: stores the velocity and selects velocity control. */
  function SetTargetVelocity(m: Move, v: Vec3): (r: Move)
    ensures !r.target.usePosition && r.target.velocity == v
    ensures r == m.(target := m.target.(velocity := v, usePosition := false))
  {
    m.(target := m.target.(velocity := v, usePosition := false))
  }

  function SetPositionControlMode(m: Move, usePosition: bool): (r: Move)
    ensures r == m.(target := m.target.(usePosition := usePosition))
  {
    m.(target := m.target.(usePosition := usePosition))
  }

  /** `setOffset`: the position offset verbatim, the yaw offset normalised. */
  function SetOffset(m: Move, offset: Vec3, offsetYaw: real): (r: Move)
    ensures r.deps == m.deps && r.target == m.target
    ensures r.status == m.status.(offset := offset, offsetYaw := r.status.offsetYaw)
    ensures InRange(r.status.offsetYaw) && Congruent(r.status.offsetYaw, offsetYaw, TWO_PI)
  {
    m.(status := m.status.(offset := offset, offsetYaw := NormalizeAngle(offsetYaw)))
  }

  /**
   * `setCurrentAsOrigin`: with a lidar and a chassis and a valid pose, the
   * current pose and chassis yaw become the offsets; otherwise no change.
   */
  function SetCurrentAsOrigin(m: Move, pose: Option<Vec3>, chassisYaw: real): (r: Move)
    ensures !(m.deps.hasLidar && m.deps.hasChassis && pose.Some?) ==> r == m
    ensures m.deps.hasLidar && m.deps.hasChassis && pose.Some? ==>
              r == m.(status := m.status.(offset := pose.value, offsetYaw := NormalizeAngle(chassisYaw)))
  {
    if m.deps.hasLidar && m.deps.hasChassis && pose.Some? then
      m.(status := m.status.(offset := pose.value, offsetYaw := NormalizeAngle(chassisYaw)))
    else m
  }

  /**
   * `updateSensorData`: the position is the valid lidar pose minus the
   * offset, the velocity the valid lidar velocity, the yaw the chassis yaw
   * minus the yaw offset, normalised, and the body velocity the transformed
   * ground velocity.  Without a lidar or chassis nothing changes.
   */
  function UpdateSensorData(m: Move, pose: Option<Vec3>, velocity: Option<Vec3>, chassisYaw: real,
                            cosf: real -> real, sinf: real -> real): (r: Move)
    ensures r.deps == m.deps && r.target == m.target
    ensures !(m.deps.hasLidar && m.deps.hasChassis) ==> r == m
    ensures m.deps.hasLidar && m.deps.hasChassis ==>
              var s := r.status;
              s == m.status.(position := s.position, velocity := s.velocity, yaw := s.yaw, velocityBody := s.velocityBody) &&
              s.position == (if pose.Some? then Sub(pose.value, m.status.offset) else m.status.position) &&
              s.velocity == (if velocity.Some? then velocity.value else m.status.velocity) &&
              InRange(s.yaw) && Congruent(s.yaw, chassisYaw - m.status.offsetYaw, TWO_PI) &&
              s.velocityBody == Transform(s.velocity, cosf(s.yaw), sinf(s.yaw))
  {
    if !(m.deps.hasLidar && m.deps.hasChassis) then m
    else
      var position := if pose.Some? then Sub(pose.value, m.status.offset) else m.status.position;
      var vel := if velocity.Some? then velocity.value else m.status.velocity;
      var yaw := NormalizeAngle(chassisYaw - m.status.offsetYaw);
      m.(status := m.status.(position := position, velocity := vel, yaw := yaw,
                             velocityBody := Transform(vel, cosf(yaw), sinf(yaw))))
  }

  /**
   * Zeroing the origin where the drone stands makes its next reading the
   * origin: position (0, 0, 0) and yaw 0.
   */
  lemma CurrentAsOriginZeroes(m: Move, pose: Vec3, chassisYaw: real, velocity: Option<Vec3>,
                              cosf: real -> real, sinf: real -> real)
    requires m.deps.hasLidar && m.deps.hasChassis
    ensures var r := UpdateSensorData(SetCurrentAsOrigin(m, Some(pose), chassisYaw), Some(pose), velocity,
                                      chassisYaw, cosf, sinf);
            r.status.position == Zero && r.status.yaw == 0.0
  {
    var o := NormalizeAngle(chassisYaw);
    MathAngle.CongruentSymm(o, chassisYaw, TWO_PI);
    var k :| chassisYaw - o == Times(k, TWO_PI);
    assert (chassisYaw - o) - 0.0 == Times(k, TWO_PI);
    WholeTurnsNormalizeToZero(chassisYaw - o);
  }

  /** `updatePositionErrorTransform`: the ground error (target - position) in the body frame. */
  function UpdatePositionError(m: Move, cosf: real -> real, sinf: real -> real): (r: Move)
    ensures r == m.(status := m.status.(errorBody := r.status.errorBody))
    ensures r.status.errorBody.z == m.target.position.z - m.status.position.z
    ensures r.status.errorBody == Transform(Sub(m.target.position, m.status.position), cosf(m.status.yaw), sinf(m.status.yaw))
  {
    var e := Sub(m.target.position, m.status.position);
    m.(status := m.status.(errorBody := Transform(e, cosf(m.status.yaw), sinf(m.status.yaw))))
  }

  /** One guarded loop: `update(target, actual)` when present, else the previous command. */
  function StepLoop(h: Option<Pid.Pid>, target: real, actual: real, previous: real): (r: (Option<Pid.Pid>, real))
    ensures h.None? ==> r == (None, previous)
    ensures h.Some? ==> r.0.Some? && r.0.value.config == h.value.config &&
                        r.0.value.status.error == target - actual && r.1 == r.0.value.status.output
  {
    Chassis.StepLoop(h, target, actual, previous)
  }

  /**
   * The outer loops: in position mode each position PID chases the body
   * error towards 0 and yields a velocity command; in velocity mode the
   * target velocity is the command and the PIDs are not run.
   */
  function PositionLoops(m: Move): (r: (Loops, Vec3))
    ensures !m.target.usePosition ==> r == (m.deps.positionPids, m.target.velocity)
    ensures m.target.usePosition ==>
              (r.0.x.Some? <==> m.deps.positionPids.x.Some?) &&
              (m.deps.positionPids.x.Some? ==> r.0.x.value.status.error == m.status.errorBody.x) &&
              (m.deps.positionPids.y.Some? ==> r.0.y.Some? && r.0.y.value.status.error == m.status.errorBody.y) &&
              (m.deps.positionPids.z.Some? ==> r.0.z.Some? && r.0.z.value.status.error == m.status.errorBody.z) &&
              (m.deps.positionPids.x.None? ==> r.1.x == m.status.velocityCommand.x)
  {
    if !m.target.usePosition then (m.deps.positionPids, m.target.velocity)
    else
      var l := m.deps.positionPids;
      var e := m.status.errorBody;
      var c := m.status.velocityCommand;
      var a := StepLoop(l.x, e.x, 0.0, c.x);
      var b := StepLoop(l.y, e.y, 0.0, c.y);
      var d := StepLoop(l.z, e.z, 0.0, c.z);
      (Loops(a.0, b.0, d.0), Lidar.Vec3(a.1, b.1, d.1))
  }

  /**
   * `update`: without initialization or a lidar nothing changes.  Otherwise
   * sensors are read, the body error is formed, the outer loops give the
   * velocity command, the velocity loops give roll (x), pitch (y) and
   * throttle (z), and those are clamped to ±PI/6, ±PI/6 and ±50.  A
   * missing velocity PID leaves its previous command to be clamped.
   */
  function Update(m: Move, pose: Option<Vec3>, velocity: Option<Vec3>, chassisYaw: real,
                  cosf: real -> real, sinf: real -> real): (r: Move)
    ensures r.target == m.target
    ensures !(m.status.initialized && m.deps.hasLidar) ==> r == m
    ensures m.status.initialized && m.deps.hasLidar ==>
              -ANGLE_LIMIT <= r.status.roll <= ANGLE_LIMIT &&
              -ANGLE_LIMIT <= r.status.pitch <= ANGLE_LIMIT &&
              -THROTTLE_LIMIT <= r.status.throttle <= THROTTLE_LIMIT
    ensures m.status.initialized && m.deps.hasLidar && !m.target.usePosition ==>
              r.status.velocityCommand == m.target.velocity
    ensures m.status.initialized && m.deps.hasLidar && m.deps.hasChassis ==>
              var s := UpdateSensorData(m, pose, velocity, chassisYaw, cosf, sinf).status;
              r.status.errorBody == Transform(Sub(m.target.position, s.position), cosf(s.yaw), sinf(s.yaw))
    ensures m.status.initialized && m.deps.hasLidar ==>
              var v, w := m.deps.velocityPids, r.deps.velocityPids;
              (w.x.Some? <==> v.x.Some?) && (w.y.Some? <==> v.y.Some?) && (w.z.Some? <==> v.z.Some?) &&
              r.status.roll == Chassis.Constrain(if w.x.Some? then w.x.value.status.output else m.status.roll,
                                                 -ANGLE_LIMIT, ANGLE_LIMIT) &&
              r.status.pitch == Chassis.Constrain(if w.y.Some? then w.y.value.status.output else m.status.pitch,
                                                  -ANGLE_LIMIT, ANGLE_LIMIT) &&
              r.status.throttle == Chassis.Constrain(if w.z.Some? then w.z.value.status.output else m.status.throttle,
                                                     -THROTTLE_LIMIT, THROTTLE_LIMIT)
  {
    if !(m.status.initialized && m.deps.hasLidar) then m
    else
      var m1 := UpdateSensorData(m, pose, velocity, chassisYaw, cosf, sinf);
      var m2 := UpdatePositionError(m1, cosf, sinf);
      var outer := PositionLoops(m2);
      var cmd := outer.1;
      var s := m2.status;
      var l := m2.deps.velocityPids;
      var a := StepLoop(l.x, cmd.x, s.velocityBody.x, s.roll);
      var b := StepLoop(l.y, cmd.y, s.velocityBody.y, s.pitch);
      var c := StepLoop(l.z, cmd.z, s.velocityBody.z, s.throttle);
      var deps := m2.deps.(positionPids := outer.0, velocityPids := Loops(a.0, b.0, c.0));
      Move(deps, m2.target,
           s.(velocityCommand := cmd,
              roll := Chassis.Constrain(a.1, -ANGLE_LIMIT, ANGLE_LIMIT),
              pitch := Chassis.Constrain(b.1, -ANGLE_LIMIT, ANGLE_LIMIT),
              throttle := Chassis.Constrain(c.1, -THROTTLE_LIMIT, THROTTLE_LIMIT)))
  }

  function ResetLoop(h: Option<Pid.Pid>): (r: Option<Pid.Pid>)
    ensures r.Some? == h.Some?
    ensures h.Some? ==> r.value == Pid.Reset(h.value)
  {
    if h.Some? then Some(Pid.Reset(h.value)) else None
  }

  /** `reset`: every present PID is reset and all commands are zeroed. */
  function Reset(m: Move): (r: Move)
    ensures r.target == m.target
    ensures r.status == m.status.(velocityCommand := Zero, roll := 0.0, pitch := 0.0, throttle := 0.0)
    ensures r.deps.hasLidar == m.deps.hasLidar && r.deps.hasChassis == m.deps.hasChassis
    ensures AllPresent(m.deps.positionPids) ==>
              AllPresent(r.deps.positionPids) &&
              r.deps.positionPids.x.value.status.integral == 0.0 &&
              r.deps.positionPids.y.value.status.integral == 0.0 &&
              r.deps.positionPids.z.value.status.integral == 0.0
    ensures AllPresent(m.deps.velocityPids) ==>
              AllPresent(r.deps.velocityPids) &&
              r.deps.velocityPids.x.value.status.integral == 0.0 &&
              r.deps.velocityPids.y.value.status.integral == 0.0 &&
              r.deps.velocityPids.z.value.status.integral == 0.0
  {
    var p := m.deps.positionPids;
    var v := m.deps.velocityPids;
    Move(m.deps.(positionPids := Loops(ResetLoop(p.x), ResetLoop(p.y), ResetLoop(p.z)),
                 velocityPids := Loops(ResetLoop(v.x), ResetLoop(v.y), ResetLoop(v.z))),
         m.target,
         m.status.(velocityCommand := Zero, roll := 0.0, pitch := 0.0, throttle := 0.0))
  }
}

=== FILE: nrf_response.dfy ===
/**
 * The 32-byte reply package to the ground station (`taskNrfResponse.h`):
 * 7 bytes of packed warning bit-fields, 6 bytes of watch values and a
 * 19-byte string, with the macros that set one warning bit, clear the
 * warnings, set watch values and copy the string.  Bit-fields are packed
 * least significant bit first, as GCC does on a little-endian target; the
 * gyro value is held as the bit pattern of its float.
 */
module NrfResponse {
  import opened CTypes
  import MathBits

  const WARNING_SIZE: nat := 7
  const WATCH_SIZE: nat := 6
  const PACKAGE_SIZE: nat := 32
  const STRING_SIZE: nat := PACKAGE_SIZE - WARNING_SIZE - WATCH_SIZE

  /** The bit-fields of `NrfCommu_BitsWarning_t`, in declaration order. */
  datatype Field =
    | ChassisVesc | ChassisAs5047 | ChassisAzimuth | ChassisDt35 | ChassisGyro
    | ChassisOpenmv | ChassisFetcher | ChassisHtdw | ChassisVibMotor | ChassisReserve
    | SeedlingM2006 | SeedlingEncoder
    | ShootVesc | ShootAs5047 | ShootBsqjn | ShootM2006Roller | ShootEncoder
    | ShootM3508Blade | ShootM2006Clamp | ShootReserve

  function Width(f: Field): (w: nat)
    ensures 1 <= w <= 8
  {
    match f
    case ChassisVesc => 8
    case ChassisAs5047 => 8
    case ChassisAzimuth => 4
    case ChassisDt35 => 3
    case ChassisGyro => 1
    case ChassisOpenmv => 2
    case ChassisFetcher => 2
    case ChassisHtdw => 2
    case ChassisVibMotor => 1
    case ChassisReserve => 1
    case SeedlingM2006 => 4
    case SeedlingEncoder => 4
    case ShootVesc => 3
    case ShootAs5047 => 3
    case ShootBsqjn => 1
    case ShootM2006Roller => 1
    case ShootEncoder => 1
    case ShootM3508Blade => 2
    case ShootM2006Clamp => 4
    case ShootReserve => 1
  }

  /** The fields with a `NRF_SET_*_BIT` macro: all but the reserve bits. */
  predicate HasMacro(f: Field) { f != ChassisReserve && f != ShootReserve }

  datatype Warnings = Warnings(
    chassisVesc: nat, chassisAs5047: nat, chassisAzimuth: nat, chassisDt35: nat, chassisGyro: nat,
    chassisOpenmv: nat, chassisFetcher: nat, chassisHtdw: nat, chassisVibMotor: nat, chassisReserve: nat,
    seedlingM2006: nat, seedlingEncoder: nat,
    shootVesc: nat, shootAs5047: nat, shootBsqjn: nat, shootM2006Roller: nat, shootEncoder: nat,
    shootM3508Blade: nat, shootM2006Clamp: nat, shootReserve: nat)

  function Get(w: Warnings, f: Field): nat
  {
    match f
    case ChassisVesc => w.chassisVesc
    case ChassisAs5047 => w.chassisAs5047
    case ChassisAzimuth => w.chassisAzimuth
    case ChassisDt35 => w.chassisDt35
    case ChassisGyro => w.chassisGyro
    case ChassisOpenmv => w.chassisOpenmv
    case ChassisFetcher => w.chassisFetcher
    case ChassisHtdw => w.chassisHtdw
    case ChassisVibMotor => w.chassisVibMotor
    case ChassisReserve => w.chassisReserve
    case SeedlingM2006 => w.seedlingM2006
    case SeedlingEncoder => w.seedlingEncoder
    case ShootVesc => w.shootVesc
    case ShootAs5047 => w.shootAs5047
    case ShootBsqjn => w.shootBsqjn
    case ShootM2006Roller => w.shootM2006Roller
    case ShootEncoder => w.shootEncoder
    case ShootM3508Blade => w.shootM3508Blade
    case ShootM2006Clamp => w.shootM2006Clamp
    case ShootReserve => w.shootReserve
  }

  /** Field f replaced by v; every other field kept. */
  function Put(w: Warnings, f: Field, v: nat): (r: Warnings)
    ensures Get(r, f) == v
    ensures forall g :: g != f ==> Get(r, g) == Get(w, g)
  {
    match f
    case ChassisVesc => w.(chassisVesc := v)
    case ChassisAs5047 => w.(chassisAs5047 := v)
    case ChassisAzimuth => w.(chassisAzimuth := v)
    case ChassisDt35 => w.(chassisDt35 := v)
    case ChassisGyro => w.(chassisGyro := v)
    case ChassisOpenmv => w.(chassisOpenmv := v)
    case ChassisFetcher => w.(chassisFetcher := v)
    case ChassisHtdw => w.(chassisHtdw := v)
    case ChassisVibMotor => w.(chassisVibMotor := v)
    case ChassisReserve => w.(chassisReserve := v)
    case SeedlingM2006 => w.(seedlingM2006 := v)
    case SeedlingEncoder => w.(seedlingEncoder := v)
    case ShootVesc => w.(shootVesc := v)
    case ShootAs5047 => w.(shootAs5047 := v)
    case ShootBsqjn => w.(shootBsqjn := v)
    case ShootM2006Roller => w.(shootM2006Roller := v)
    case ShootEncoder => w.(shootEncoder := v)
    case ShootM3508Blade => w.(shootM3508Blade := v)
    case ShootM2006Clamp => w.(shootM2006Clamp := v)
    case ShootReserve => w.(shootReserve := v)
  }

  /** Every field fits its declared width. */
  predicate WarningsValid(w: Warnings)
  {
    forall f :: Get(w, f) < Pow2(Width(f))
  }

  const NoWarnings: Warnings := Warnings(0, 0, 0, 0, 0, 0, 0, 0, 0, 0, 0, 0, 0, 0, 0, 0, 0, 0, 0, 0)

  /** `NrfCommu_WatchValue_t`: the gyro float's 32-bit pattern and two OpenMV bytes. */
  datatype Watch = Watch(gyro: nat, openmvLeft: nat, openmvRight: nat)

  /** `NrfCommu_ReceivePackage_t`; the string is its 19 raw bytes. */
  datatype Package = Package(warnings: Warnings, watch: Watch, str: seq<nat>)

  predicate Valid(p: Package)
  {
    WarningsValid(p.warnings) && IsU32(p.watch.gyro) && IsU8(p.watch.openmvLeft) &&
    IsU8(p.watch.openmvRight) && |p.str| == STRING_SIZE && forall i :: 0 <= i < |p.str| ==> IsU8(p.str[i])
  }

  /**
   * One `width`-bit field after `v |= (1 << bit)` (on) or `v &= ~(1 << bit)`
   * (off), stored back into the field.  Bit `bit` becomes `on`; a bit at
   * or beyond the width is truncated away, so then nothing changes.
   */
  function UpdateBit(v: nat, width: nat, bit: nat, on: bool): (r: nat)
    requires v < Pow2(width)
    ensures r < Pow2(width)
    ensures bit < width ==> (MathBits.BitSet(r, bit) <==> on)
    ensures forall j :: j != bit ==> (MathBits.BitSet(r, j) <==> MathBits.BitSet(v, j))
    ensures bit >= width ==> r == v
  {
    if bit >= width then v
    else if on then
      if MathBits.BitSet(v, bit) then v
      else
        MathBits.BitAddBound(v, bit, width);
        AddBits(v, bit);
        v + Pow2(bit)
    else
      if MathBits.BitSet(v, bit) then
        SubBits(v, bit);
        v - Pow2(bit)
      else v
  }

  lemma AddBits(v: nat, bit: nat)
    requires !MathBits.BitSet(v, bit)
    ensures MathBits.BitSet(v + Pow2(bit), bit)
    ensures forall j :: j != bit ==> (MathBits.BitSet(v + Pow2(bit), j) <==> MathBits.BitSet(v, j))
  {
    MathBits.BitAdd(v, bit, bit);
    forall j | j != bit
      ensures MathBits.BitSet(v + Pow2(bit), j) <==> MathBits.BitSet(v, j)
    {
      MathBits.BitAdd(v, bit, j);
    }
  }

  lemma SubBits(v: nat, bit: nat)
    requires MathBits.BitSet(v, bit)
    ensures v >= Pow2(bit) && !MathBits.BitSet(v - Pow2(bit), bit)
    ensures forall j :: j != bit ==> (MathBits.BitSet(v - Pow2(bit), j) <==> MathBits.BitSet(v, j))
  {
    MathBits.BitSub(v, bit, bit);
    forall j | j != bit
      ensures MathBits.BitSet(v - Pow2(bit), j) <==> MathBits.BitSet(v, j)
    {
      MathBits.BitSub(v, bit, j);
    }
  }

  /**
   * `NRF_SET_<FIELD>_BIT(bit, val)`: bit `bit` of the field becomes set when
   * val is nonzero and clear when it is zero; every other bit of the field,
   * every other field, the watch values and the string are unchanged.  The
   * shift `1 << bit` is an `int`, so the bit must be below 31.
   */
  function SetWarningBit(p: Package, f: Field, bit: nat, val: int): (r: Package)
    requires Valid(p) && HasMacro(f) && bit < 31
    ensures Valid(r) && r.watch == p.watch && r.str == p.str
    ensures forall g :: g != f ==> Get(r.warnings, g) == Get(p.warnings, g)
    ensures bit < Width(f) ==> (MathBits.BitSet(Get(r.warnings, f), bit) <==> val != 0)
    ensures forall j :: j != bit ==>
      (MathBits.BitSet(Get(r.warnings, f), j) <==> MathBits.BitSet(Get(p.warnings, f), j))
    ensures bit >= Width(f) ==> r == p
  {
    var v := UpdateBit(Get(p.warnings, f), Width(f), bit, val != 0);
    if bit >= Width(f) then p
    else p.(warnings := Put(p.warnings, f, v))
  }

  /** Setting a bit to the value it already has changes nothing. */
  lemma SetWarningBitIdempotent(p: Package, f: Field, bit: nat, val: int)
    requires Valid(p) && HasMacro(f) && bit < 31
    ensures var r := SetWarningBit(p, f, bit, val);
            SetWarningBit(r, f, bit, val) == r
  {
  }

  /** `NRF_CLEAR_ALL_WARNINGS`: every warning field 0; watch values and string untouched. */
  function ClearAllWarnings(p: Package): (r: Package)
    requires Valid(p)
    ensures Valid(r) && r.watch == p.watch && r.str == p.str
    ensures forall f :: Get(r.warnings, f) == 0
  {
    assert WarningsValid(NoWarnings) by {
      forall f ensures Get(NoWarnings, f) < Pow2(Width(f)) { }
    }
    p.(warnings := NoWarnings)
  }

  /** `NRF_CLEAR_WATCH_VALUES`: the watch values 0; warnings and string untouched. */
  function ClearWatchValues(p: Package): (r: Package)
    requires Valid(p)
    ensures Valid(r) && r.warnings == p.warnings && r.str == p.str
    ensures r.watch.gyro == 0 && r.watch.openmvLeft == 0 && r.watch.openmvRight == 0
  {
    p.(watch := Watch(0, 0, 0))
  }

  /** `NRF_SET_GYRO`, `NRF_SET_OPENMV_LEFT`, `NRF_SET_OPENMV_RIGHT`: one watch value replaced. */
  function SetGyro(p: Package, bits: nat): (r: Package)
    requires Valid(p) && IsU32(bits)
    ensures Valid(r) && r.warnings == p.warnings && r.str == p.str
    ensures r.watch.gyro == bits && r.watch.openmvLeft == p.watch.openmvLeft && r.watch.openmvRight == p.watch.openmvRight
  {
    p.(watch := p.watch.(gyro := bits))
  }

  function SetOpenmvLeft(p: Package, v: nat): (r: Package)
    requires Valid(p) && IsU8(v)
    ensures Valid(r) && r.warnings == p.warnings && r.str == p.str
    ensures r.watch.openmvLeft == v && r.watch.gyro == p.watch.gyro && r.watch.openmvRight == p.watch.openmvRight
  {
    p.(watch := p.watch.(openmvLeft := v))
  }

  function SetOpenmvRight(p: Package, v: nat): (r: Package)
    requires Valid(p) && IsU8(v)
    ensures Valid(r) && r.warnings == p.warnings && r.str == p.str
    ensures r.watch.openmvRight == v && r.watch.gyro == p.watch.gyro && r.watch.openmvLeft == p.watch.openmvLeft
  {
    p.(watch := p.watch.(openmvRight := v))
  }

  /** Length of a C string: the bytes before the first NUL (or all of them). */
  function StrLen(s: seq<nat>): (n: nat)
    ensures n <= |s|
    ensures forall i :: 0 <= i < n ==> s[i] != 0
    ensures n < |s| ==> s[n] == 0
  {
    if |s| == 0 || s[0] == 0 then 0 else 1 + StrLen(s[1..])
  }

  /**
   * `strncpy(dst, src, n)`: the bytes of src up to its terminator, at most n
   * of them, then NUL padding up to n.
   */
  function StrNCopy(src: seq<nat>, n: nat): (r: seq<nat>)
    ensures |r| == n
  {
    seq(n, i requires 0 <= i < n => if i < StrLen(src) then src[i] else 0)
  }

  /**
   * `NRF_SET_STRING(str)`: copy at most 18 bytes and force the last byte to
   * NUL.  The stored string always ends in NUL, and reading it back gives
   * the source truncated to 18 bytes.
   */
  function SetString(p: Package, src: seq<nat>): (r: Package)
    requires Valid(p) && forall i :: 0 <= i < |src| ==> IsU8(src[i])
    ensures Valid(r) && r.warnings == p.warnings && r.watch == p.watch
    ensures r.str[STRING_SIZE - 1] == 0
    ensures StrLen(r.str) == Min(StrLen(src), STRING_SIZE - 1)
    ensures r.str[..StrLen(r.str)] == src[..StrLen(r.str)]
  {
    var s := StrNCopy(src, STRING_SIZE - 1) + [0];
    var n := Min(StrLen(src), STRING_SIZE - 1);
    StrLenExact(s, n);
    p.(str := s)
  }

  /** A sequence whose first n bytes are nonzero and whose byte n is NUL has length n. */
  lemma {:induction false} StrLenExact(s: seq<nat>, n: nat)
    requires n < |s| && s[n] == 0 && forall i :: 0 <= i < n ==> s[i] != 0
    ensures StrLen(s) == n
  {
    if n > 0 {
      StrLenExact(s[1..], n - 1);
    }
  }

  function Min(a: nat, b: nat): nat { if a <= b then a else b }

  /** The little-endian bytes of an n-byte unsigned value. */
  function LeBytes(v: nat, n: nat): (b: seq<nat>)
    ensures |b| == n && forall i :: 0 <= i < n ==> IsU8(b[i])
  {
    if n == 0 then [] else [v % 256] + LeBytes(v / 256, n - 1)
  }

  function LeValue(b: seq<nat>): nat
  {
    if |b| == 0 then 0 else b[0] + 256 * LeValue(b[1..])
  }

  lemma {:induction false} LeRoundTrip(v: nat, n: nat)
    requires v < Pow2(8 * n)
    ensures LeValue(LeBytes(v, n)) == v
  {
    if n > 0 {
      MathBits.Pow2Add(8, 8 * (n - 1));
      assert Pow2(8) == 256;
      LeRoundTrip(v / 256, n - 1);
    }
  }

  /** The seven warning bytes, each field at its bit offset. */
  function WarningBytes(w: Warnings): (b: seq<nat>)
  {
    [ w.chassisVesc,
      w.chassisAs5047,
      w.chassisAzimuth + 16 * w.chassisDt35 + 128 * w.chassisGyro,
      w.chassisOpenmv + 4 * w.chassisFetcher + 16 * w.chassisHtdw + 64 * w.chassisVibMotor + 128 * w.chassisReserve,
      w.seedlingM2006 + 16 * w.seedlingEncoder,
      w.shootVesc + 8 * w.shootAs5047 + 64 * w.shootBsqjn + 128 * w.shootM2006Roller,
      w.shootEncoder + 2 * w.shootM3508Blade + 8 * w.shootM2006Clamp + 128 * w.shootReserve ]
  }

  function WarningsOf(b: seq<nat>): Warnings
    requires |b| == WARNING_SIZE
  {
    Warnings(
      b[0], b[1], b[2] % 16, b[2] / 16 % 8, b[2] / 128,
      b[3] % 4, b[3] / 4 % 4, b[3] / 16 % 4, b[3] / 64 % 2, b[3] / 128,
      b[4] % 16, b[4] / 16,
      b[5] % 8, b[5] / 8 % 8, b[5] / 64 % 2, b[5] / 128,
      b[6] % 2, b[6] / 2 % 4, b[6] / 8 % 16, b[6] / 128)
  }

  /** The package as the 32 bytes the radio sends. */
  function Encode(p: Package): (b: seq<nat>)
    requires Valid(p)
    ensures |b| == PACKAGE_SIZE
  {
    WarningBytes(p.warnings) + LeBytes(p.watch.gyro, 4) + [p.watch.openmvLeft, p.watch.openmvRight] + p.str
  }

  function Decode(b: seq<nat>): (p: Package)
    requires |b| == PACKAGE_SIZE
  {
    Package(WarningsOf(b[..7]), Watch(LeValue(b[7..11]), b[11], b[12]), b[13..])
  }

  /** The warning bytes are bytes and decode to the fields they were packed from. */
  lemma WarningsRoundTrip(w: Warnings)
    requires WarningsValid(w)
    ensures var b := WarningBytes(w);
            |b| == WARNING_SIZE && (forall i :: 0 <= i < |b| ==> IsU8(b[i])) && WarningsOf(b) == w
  {
    forall f ensures Get(w, f) < Pow2(Width(f)) {
      assert Get(w, f) < Pow2(Width(f));
    }
    assert Pow2(4) == 16 && Pow2(3) == 8 && Pow2(2) == 4 && Pow2(8) == 256;
    assert w.chassisVesc < 256 && w.chassisAs5047 < 256 by {
      assert Get(w, ChassisVesc) < Pow2(8) && Get(w, ChassisAs5047) < Pow2(8);
    }
    assert w.chassisAzimuth < 16 && w.chassisDt35 < 8 && w.chassisGyro < 2 by {
      assert Get(w, ChassisAzimuth) < Pow2(4) && Get(w, ChassisDt35) < Pow2(3) && Get(w, ChassisGyro) < Pow2(1);
    }
    assert w.chassisOpenmv < 4 && w.chassisFetcher < 4 && w.chassisHtdw < 4 && w.chassisVibMotor < 2 && w.chassisReserve < 2 by {
      assert Get(w, ChassisOpenmv) < Pow2(2) && Get(w, ChassisFetcher) < Pow2(2) && Get(w, ChassisHtdw) < Pow2(2);
      assert Get(w, ChassisVibMotor) < Pow2(1) && Get(w, ChassisReserve) < Pow2(1);
    }
    assert w.seedlingM2006 < 16 && w.seedlingEncoder < 16 by {
      assert Get(w, SeedlingM2006) < Pow2(4) && Get(w, SeedlingEncoder) < Pow2(4);
    }
    assert w.shootVesc < 8 && w.shootAs5047 < 8 && w.shootBsqjn < 2 && w.shootM2006Roller < 2 by {
      assert Get(w, ShootVesc) < Pow2(3) && Get(w, ShootAs5047) < Pow2(3);
      assert Get(w, ShootBsqjn) < Pow2(1) && Get(w, ShootM2006Roller) < Pow2(1);
    }
    assert w.shootEncoder < 2 && w.shootM3508Blade < 4 && w.shootM2006Clamp < 16 && w.shootReserve < 2 by {
      assert Get(w, ShootEncoder) < Pow2(1) && Get(w, ShootM3508Blade) < Pow2(2);
      assert Get(w, ShootM2006Clamp) < Pow2(4) && Get(w, ShootReserve) < Pow2(1);
    }
    var b := WarningBytes(w);
    Unpack3(b[2], w.chassisAzimuth, w.chassisDt35, w.chassisGyro);
    Unpack5(b[3], w.chassisOpenmv, w.chassisFetcher, w.chassisHtdw, w.chassisVibMotor, w.chassisReserve);
    MathBits.ModUnique(b[4], 16, w.seedlingEncoder, w.seedlingM2006);
    Unpack4(b[5], w.shootVesc, w.shootAs5047, w.shootBsqjn, w.shootM2006Roller);
    Unpack4b(b[6], w.shootEncoder, w.shootM3508Blade, w.shootM2006Clamp, w.shootReserve);
  }

  lemma Unpack3(x: nat, a: nat, d: nat, g: nat)
    requires a < 16 && d < 8 && g < 2 && x == a + 16 * d + 128 * g
    ensures x < 256 && x % 16 == a && x / 16 % 8 == d && x / 128 == g
  {
    MathBits.ModUnique(x, 16, d + 8 * g, a);
    MathBits.ModUnique(d + 8 * g, 8, g, d);
    MathBits.ModUnique(x, 128, g, a + 16 * d);
  }

  lemma Unpack5(x: nat, o: nat, f: nat, h: nat, v: nat, r: nat)
    requires o < 4 && f < 4 && h < 4 && v < 2 && r < 2
    requires x == o + 4 * f + 16 * h + 64 * v + 128 * r
    ensures x < 256 && x % 4 == o && x / 4 % 4 == f && x / 16 % 4 == h && x / 64 % 2 == v && x / 128 == r
  {
    MathBits.ModUnique(x, 4, f + 4 * h + 16 * v + 32 * r, o);
    MathBits.ModUnique(f + 4 * h + 16 * v + 32 * r, 4, h + 4 * v + 8 * r, f);
    MathBits.ModUnique(x, 16, h + 4 * v + 8 * r, o + 4 * f);
    MathBits.ModUnique(h + 4 * v + 8 * r, 4, v + 2 * r, h);
    MathBits.ModUnique(x, 64, v + 2 * r, o + 4 * f + 16 * h);
    MathBits.ModUnique(v + 2 * r, 2, r, v);
    MathBits.ModUnique(x, 128, r, o + 4 * f + 16 * h + 64 * v);
  }

  lemma Unpack4(x: nat, a: nat, s: nat, b: nat, m: nat)
    requires a < 8 && s < 8 && b < 2 && m < 2 && x == a + 8 * s + 64 * b + 128 * m
    ensures x < 256 && x % 8 == a && x / 8 % 8 == s && x / 64 % 2 == b && x / 128 == m
  {
    MathBits.ModUnique(x, 8, s + 8 * b + 16 * m, a);
    MathBits.ModUnique(s + 8 * b + 16 * m, 8, b + 2 * m, s);
    MathBits.ModUnique(x, 64, b + 2 * m, a + 8 * s);
    MathBits.ModUnique(b + 2 * m, 2, m, b);
    MathBits.ModUnique(x, 128, m, a + 8 * s + 64 * b);
  }

  lemma Unpack4b(x: nat, e: nat, b: nat, c: nat, r: nat)
    requires e < 2 && b < 4 && c < 16 && r < 2 && x == e + 2 * b + 8 * c + 128 * r
    ensures x < 256 && x % 2 == e && x / 2 % 4 == b && x / 8 % 16 == c && x / 128 == r
  {
    MathBits.ModUnique(x, 2, b + 4 * c + 64 * r, e);
    MathBits.ModUnique(b + 4 * c + 64 * r, 4, c + 16 * r, b);
    MathBits.ModUnique(x, 8, c + 16 * r, e + 2 * b);
    MathBits.ModUnique(c + 16 * r, 16, r, c);
    MathBits.ModUnique(x, 128, r, e + 2 * b + 8 * c);
  }

  /** Decoding the 32 sent bytes gives back the package. */
  lemma PackageRoundTrip(p: Package)
    requires Valid(p)
    ensures Decode(Encode(p)) == p
  {
    var b := Encode(p);
    WarningsRoundTrip(p.warnings);
    assert b[..7] == WarningBytes(p.warnings);
    assert b[7..11] == LeBytes(p.watch.gyro, 4);
    assert b[13..] == p.str;
    MathBits.Pow2U32();
    LeRoundTrip(p.watch.gyro, 4);
  }
}

=== FILE: odometer.dfy ===
/**
 * The multi-frame odometer (`odometer.c`): up to 20 coordinate frames, each
 * a slot with a position, a heading in (-PI, PI] and a 64-bit id (0 marks a
 * free slot).  Adding a frame takes the first free slot and the next id;
 * deleting frees the slot; an update moves every frame by a body-frame
 * displacement.  Sine and cosine are parameters; the mutex is left out.
 */
module Odometer {
  import opened CTypes
  import opened Wrappers
  import opened MathConst
  import MathAngle

  const MAX_COORDINATE: nat := 20
  /** The "no slot" answer of the slot searches. */
  const NO_SLOT: nat := 0xFF

  datatype Coord = Coord(x: real, y: real, theta: real, id: nat)

  datatype Odometer = Odometer(slots: seq<Coord>, count: nat, nextId: nat)

  predicate Used(c: Coord) { c.id != 0 }

  /** The number of slots in use. */
  function CountUsed(slots: seq<Coord>): (n: nat)
    ensures n <= |slots|
  {
    if |slots| == 0 then 0 else CountUsed(slots[..|slots| - 1]) + (if Used(slots[|slots| - 1]) then 1 else 0)
  }

  /** Heading in the odometer's range (-PI, PI]. */
  predicate InRange(theta: real) { -PI < theta <= PI }

  /** The array shape and field widths of `odometer_t`. */
  predicate Shape(m: Odometer)
  {
    |m.slots| == MAX_COORDINATE && IsU8(m.count) && IsU64(m.nextId) &&
    forall i :: 0 <= i < |m.slots| ==> IsU64(m.slots[i].id)
  }

  /**
   * The odometer's invariant: the count is the number of slots in use, ids in
   * use are distinct, and headings in use are normalised.
   */
  predicate Valid(m: Odometer)
  {
    Shape(m) && m.count == CountUsed(m.slots) &&
    (forall i, j :: 0 <= i < j < |m.slots| && Used(m.slots[i]) ==> m.slots[i].id != m.slots[j].id) &&
    (forall i :: 0 <= i < |m.slots| && Used(m.slots[i]) ==> InRange(m.slots[i].theta))
  }

  /** Every id in use is below the next id to hand out, so the next id is fresh. */
  predicate Fresh(m: Odometer)
  {
    forall i :: 0 <= i < |m.slots| ==> m.slots[i].id < m.nextId
  }

  /** Headings at or below -PI go up by whole turns, staying at most PI. */
  function Up(theta: real): (r: real)
    requires theta <= PI
    ensures InRange(r) && Congruent(r, theta, TWO_PI)
    ensures theta > -PI ==> r == theta
    decreases (-theta).Floor
  {
    if theta <= -PI then
      var r := Up(theta + TWO_PI);
      MathAngle.TimesSucc(0, TWO_PI);
      assert (theta + TWO_PI) - theta == Times(1, TWO_PI);
      MathAngle.CongruentTrans(r, theta + TWO_PI, theta, TWO_PI);
      r
    else
      assert theta - theta == Times(0, TWO_PI);
      theta
  }

  /**
   * `__odometer_normalize_angle`: subtract whole turns while above PI, then
   * add whole turns while at or below -PI.  The result is in (-PI, PI],
   * differs from the input by whole turns, and in-range inputs are kept.
   */
  function NormalizeAngle(theta: real): (r: real)
    ensures InRange(r) && Congruent(r, theta, TWO_PI)
    ensures InRange(theta) ==> r == theta
  {
    var d := MathAngle.TurnsDown(theta);
    MathAngle.CongruentTrans(Up(d), d, theta, TWO_PI);
    Up(d)
  }

  /** Normalising is the unique representative: any in-range angle congruent to the input is the result. */
  lemma NormalizeUnique(theta: real, r: real)
    requires InRange(r) && Congruent(r, theta, TWO_PI)
    ensures NormalizeAngle(theta) == r
  {
    var n := NormalizeAngle(theta);
    MathAngle.CongruentSymm(r, theta, TWO_PI);
    MathAngle.CongruentTrans(n, theta, r, TWO_PI);
    // Negated, both lie in the half-open window [-PI, PI).
    var k :| n - r == Times(k, TWO_PI);
    NegTimes(k, TWO_PI);
    assert -n - -r == Times(-k, TWO_PI);
    MathAngle.CongruentUnique(-n, -r, -PI, TWO_PI);
  }

  /** `__find_free_slot`: the first free slot, or 0xFF when all are in use. */
  function FindFreeSlot(slots: seq<Coord>): (i: nat)
    requires |slots| < NO_SLOT
    ensures i == NO_SLOT || i < |slots|
    ensures i < |slots| ==> !Used(slots[i]) && forall j :: 0 <= j < i ==> Used(slots[j])
    ensures i == NO_SLOT <==> forall j :: 0 <= j < |slots| ==> Used(slots[j])
  {
    FreeFrom(slots, 0)
  }

  function FreeFrom(slots: seq<Coord>, k: nat): (i: nat)
    requires k <= |slots| < NO_SLOT
    requires forall j :: 0 <= j < k ==> Used(slots[j])
    ensures i == NO_SLOT || k <= i < |slots|
    ensures i < |slots| ==> !Used(slots[i]) && forall j :: 0 <= j < i ==> Used(slots[j])
    ensures i == NO_SLOT <==> forall j :: 0 <= j < |slots| ==> Used(slots[j])
    decreases |slots| - k
  {
    if k == |slots| then NO_SLOT
    else if !Used(slots[k]) then k
    else FreeFrom(slots, k + 1)
  }

  /** `__find_slot_by_id`: 0xFF for id 0 or an id not in use, otherwise the first slot with it. */
  function FindSlotById(slots: seq<Coord>, id: nat): (i: nat)
    requires |slots| < NO_SLOT
    ensures i == NO_SLOT || i < |slots|
    ensures i < |slots| ==> id != 0 && slots[i].id == id && forall j :: 0 <= j < i ==> slots[j].id != id
    ensures i == NO_SLOT <==> id == 0 || forall j :: 0 <= j < |slots| ==> slots[j].id != id
  {
    if id == 0 then NO_SLOT else IdFrom(slots, id, 0)
  }

  function IdFrom(slots: seq<Coord>, id: nat, k: nat): (i: nat)
    requires k <= |slots| < NO_SLOT
    requires forall j :: 0 <= j < k ==> slots[j].id != id
    ensures i == NO_SLOT || k <= i < |slots|
    ensures i < |slots| ==> slots[i].id == id && forall j :: 0 <= j < i ==> slots[j].id != id
    ensures i == NO_SLOT <==> forall j :: 0 <= j < |slots| ==> slots[j].id != id
    decreases |slots| - k
  {
    if k == |slots| then NO_SLOT
    else if slots[k].id == id then k
    else IdFrom(slots, id, k + 1)
  }

  /** `odometer_init`: every slot free, count 0, next id 1; other slot fields keep their values. */
  function Init(m: Odometer): (r: Odometer)
    requires |m.slots| == MAX_COORDINATE
    ensures Valid(r) && Fresh(r) && r.count == 0 && r.nextId == 1
    ensures forall i :: 0 <= i < MAX_COORDINATE ==> r.slots[i] == m.slots[i].(id := 0)
  {
    var slots := seq(MAX_COORDINATE, i requires 0 <= i < MAX_COORDINATE => m.slots[i].(id := 0));
    NoneUsed(slots);
    Odometer(slots, 0, 1)
  }

  lemma {:induction false} NoneUsed(slots: seq<Coord>)
    requires forall i :: 0 <= i < |slots| ==> !Used(slots[i])
    ensures CountUsed(slots) == 0
  {
    if |slots| > 0 {
      NoneUsed(slots[..|slots| - 1]);
    }
  }

  /** Changing one slot changes the count by the difference in use. */
  lemma {:induction false} CountUpdate(slots: seq<Coord>, i: nat, c: Coord)
    requires i < |slots|
    ensures CountUsed(slots[i := c]) ==
            CountUsed(slots) - (if Used(slots[i]) then 1 else 0) + (if Used(c) then 1 else 0)
  {
    var n := |slots|;
    if i < n - 1 {
      assert slots[i := c][..n - 1] == slots[..n - 1][i := c];
      CountUpdate(slots[..n - 1], i, c);
    } else {
      assert slots[i := c][..n - 1] == slots[..n - 1];
    }
  }

  /** With fewer slots in use than slots, a free one exists. */
  lemma {:induction false} FreeExists(slots: seq<Coord>)
    requires CountUsed(slots) < |slots|
    ensures exists j :: 0 <= j < |slots| && !Used(slots[j])
  {
    var n := |slots|;
    if Used(slots[n - 1]) {
      FreeExists(slots[..n - 1]);
      var j :| 0 <= j < n - 1 && !Used(slots[..n - 1][j]);
      assert !Used(slots[j]);
    }
  }

  /** The id after `id`: one more in 64 bits, skipping 0. */
  function NextId(id: nat): (r: nat)
    requires IsU64(id)
    ensures IsU64(r) && r != 0
    ensures id + 1 < U64 ==> r == id + 1
  {
    var n := Wrap64(id + 1);
    if n == 0 then 1 else n
  }

  /** Puts a new frame in slot i with the next id. */
  function Occupy(m: Odometer, i: nat, x: real, y: real, theta: real): (r: Odometer)
    requires Shape(m) && i < MAX_COORDINATE && m.count < MAX_COORDINATE
    ensures Shape(r)
  {
    Odometer(m.slots[i := Coord(x, y, theta, m.nextId)], m.count + 1, NextId(m.nextId))
  }

  /** Adding a frame to a free slot keeps the invariant, given a fresh, non-wrapping next id. */
  lemma OccupyValid(m: Odometer, i: nat, x: real, y: real, theta: real)
    requires Shape(m) && i < MAX_COORDINATE && !Used(m.slots[i]) && m.count < MAX_COORDINATE && InRange(theta)
    ensures Valid(m) && Fresh(m) && m.nextId != 0 && m.nextId + 1 < U64 ==>
      Valid(Occupy(m, i, x, y, theta)) && Fresh(Occupy(m, i, x, y, theta))
  {
    CountUpdate(m.slots, i, Coord(x, y, theta, m.nextId));
  }

  /** A valid odometer with room has a free slot. */
  lemma FreeSlotWhenRoom(m: Odometer)
    requires Shape(m)
    ensures Valid(m) && m.count < MAX_COORDINATE ==> FindFreeSlot(m.slots) != NO_SLOT
  {
    if Valid(m) && m.count < MAX_COORDINATE {
      FreeExists(m.slots);
    }
  }

  /** What an add reports: whether it succeeded and the id it gave out. */
  datatype Added = Added(odometer: Odometer, ok: bool, id: nat)

  /**
   * `odometer_add_coordinate_absolute`: fails when 20 frames exist or no slot
   * is free; otherwise the first free slot gets (x, y) as given, the heading
   * normalised, and the next id, which is returned.
   */
  function AddAbsolute(m: Odometer, x: real, y: real, theta: real): (r: Added)
    requires Shape(m)
    ensures Shape(r.odometer)
    ensures !r.ok ==> r.odometer == m
    ensures Valid(m) ==> (r.ok <==> m.count < MAX_COORDINATE)
    ensures r.ok ==>
      var i := FindFreeSlot(m.slots);
      i < MAX_COORDINATE && r.id == m.nextId &&
      r.odometer == Odometer(m.slots[i := Coord(x, y, NormalizeAngle(theta), m.nextId)], m.count + 1, NextId(m.nextId))
    ensures Valid(m) && Fresh(m) && m.nextId != 0 && m.nextId + 1 < U64 ==> Valid(r.odometer) && Fresh(r.odometer)
  {
    if m.count >= MAX_COORDINATE then Added(m, false, 0)
    else
      var i := FindFreeSlot(m.slots);
      if i == NO_SLOT then
        FreeSlotWhenRoom(m);
        Added(m, false, 0)
      else
        var r := Occupy(m, i, x, y, NormalizeAngle(theta));
        OccupyValid(m, i, x, y, NormalizeAngle(theta));
        Added(r, true, m.nextId)
  }

  /**
   * `odometer_add_coordinate_relative`: the given pose (x, y, theta) of the
   * new origin in the body frame is inverted to the body's pose in the new
   * frame, then stored as by the absolute add.  `sinT` and `cosT` are
   * `sinf(theta)` and `cosf(theta)`.
   */
  function AddRelative(m: Odometer, x: real, y: real, theta: real, sinT: real, cosT: real): (r: Added)
    requires Shape(m)
    ensures Shape(r.odometer)
    ensures !r.ok ==> r.odometer == m
    ensures Valid(m) ==> (r.ok <==> m.count < MAX_COORDINATE)
    ensures r.ok ==>
      var i := FindFreeSlot(m.slots);
      i < MAX_COORDINATE && r.id == m.nextId &&
      r.odometer == Odometer(m.slots[i := Coord(-x * cosT + y * sinT, x * sinT + y * cosT, NormalizeAngle(-theta), m.nextId)],
                             m.count + 1, NextId(m.nextId))
    ensures r == AddAbsolute(m, -x * cosT + y * sinT, x * sinT + y * cosT, -theta)
    ensures Valid(m) && Fresh(m) && m.nextId != 0 && m.nextId + 1 < U64 ==> Valid(r.odometer) && Fresh(r.odometer)
  {
    if m.count >= MAX_COORDINATE then Added(m, false, 0)
    else
      var i := FindFreeSlot(m.slots);
      if i == NO_SLOT then
        FreeSlotWhenRoom(m);
        Added(m, false, 0)
      else
        var nx, ny, nt := -x * cosT + y * sinT, x * sinT + y * cosT, NormalizeAngle(-theta);
        var r := Occupy(m, i, nx, ny, nt);
        OccupyValid(m, i, nx, ny, nt);
        Added(r, true, m.nextId)
  }

  /** What a delete reports: the odometer, the caller's id afterwards (None for a null pointer) and success. */
  datatype Deleted = Deleted(odometer: Odometer, id: Option<nat>, ok: bool)

  /**
   * `odometer_delete_coordinate`: a null pointer or id 0 fails; an id in use
   * frees its slot (position and heading zeroed), decrements the count and
   * zeroes the caller's id; an unknown id fails with nothing changed.
   */
  function Delete(m: Odometer, id: Option<nat>): (r: Deleted)
    requires Valid(m)
    ensures Valid(r.odometer) && (Fresh(m) ==> Fresh(r.odometer))
    ensures r.ok <==> id.Some? && id.value != 0 && exists j :: 0 <= j < MAX_COORDINATE && m.slots[j].id == id.value
    ensures !r.ok ==> r.odometer == m && r.id == id
    ensures r.ok ==>
      var i := FindSlotById(m.slots, id.value);
      r.id == Some(0) && r.odometer.count == m.count - 1 && r.odometer.nextId == m.nextId &&
      r.odometer.slots == m.slots[i := Coord(0.0, 0.0, 0.0, 0)] &&
      forall j :: 0 <= j < MAX_COORDINATE ==> r.odometer.slots[j].id != id.value
  {
    if id.None? || id.value == 0 then Deleted(m, id, false)
    else
      var i := FindSlotById(m.slots, id.value);
      if i == NO_SLOT then Deleted(m, id, false)
      else
        CountUpdate(m.slots, i, Coord(0.0, 0.0, 0.0, 0));
        Deleted(Odometer(m.slots[i := Coord(0.0, 0.0, 0.0, 0)], m.count - 1, m.nextId), Some(0), true)
  }

  /** A frame added and then deleted leaves the count and the ids in use as they were. */
  lemma AddThenDelete(m: Odometer, x: real, y: real, theta: real)
    requires Valid(m) && Fresh(m) && m.nextId != 0 && m.nextId + 1 < U64 && m.count < MAX_COORDINATE
    ensures var a := AddAbsolute(m, x, y, theta);
            var d := Delete(a.odometer, Some(a.id));
            a.ok && d.ok && d.id == Some(0) && d.odometer.count == m.count &&
            forall j :: 0 <= j < MAX_COORDINATE ==> d.odometer.slots[j].id == m.slots[j].id
  {
    var a := AddAbsolute(m, x, y, theta);
    var i := FindFreeSlot(m.slots);
    assert a.odometer.slots[i].id == a.id;
    var k := FindSlotById(a.odometer.slots, a.id);
  }

  /** Moves one frame by a body-frame displacement (dx, dy), rotated by the frame's heading. */
  function Move(c: Coord, dx: real, dy: real, sinf: real -> real, cosf: real -> real): (r: Coord)
    ensures r.id == c.id
    ensures r.x == c.x + (dx * cosf(c.theta) + dy * sinf(c.theta))
    ensures r.y == c.y + (-dx * sinf(c.theta) + dy * cosf(c.theta))
    ensures r.theta == c.theta
  {
    var s, co := sinf(c.theta), cosf(c.theta);
    c.(x := c.x + (dx * co + dy * s), y := c.y + (-dx * s + dy * co))
  }

  /**
   * `odometer_update`: every frame in use moves by the displacement and turns
   * by the normalised `dTheta`, its heading normalised again; free slots are
   * untouched.
   */
  function Update(m: Odometer, dx: real, dy: real, dTheta: real, sinf: real -> real, cosf: real -> real): (r: Odometer)
    requires Valid(m)
    ensures Valid(r) && r.count == m.count && r.nextId == m.nextId && |r.slots| == |m.slots|
    ensures forall i :: 0 <= i < MAX_COORDINATE ==> r.slots[i].id == m.slots[i].id
    ensures forall i :: 0 <= i < MAX_COORDINATE && !Used(m.slots[i]) ==> r.slots[i] == m.slots[i]
    ensures forall i :: 0 <= i < MAX_COORDINATE && Used(m.slots[i]) ==>
      r.slots[i] == Move(m.slots[i], dx, dy, sinf, cosf).(theta := NormalizeAngle(m.slots[i].theta + NormalizeAngle(dTheta)))
  {
    var dt := NormalizeAngle(dTheta);
    var slots := seq(MAX_COORDINATE, i requires 0 <= i < MAX_COORDINATE =>
      if Used(m.slots[i]) then Move(m.slots[i], dx, dy, sinf, cosf).(theta := NormalizeAngle(m.slots[i].theta + dt))
      else m.slots[i]);
    SameUse(m.slots, slots);
    Odometer(slots, m.count, m.nextId)
  }

  /** `odometer_update_absolute_theta`: as `Update`, but every frame in use takes the normalised heading. */
  function UpdateAbsoluteTheta(m: Odometer, dx: real, dy: real, theta: real, sinf: real -> real, cosf: real -> real): (r: Odometer)
    requires Valid(m)
    ensures Valid(r) && r.count == m.count && r.nextId == m.nextId && |r.slots| == |m.slots|
    ensures forall i :: 0 <= i < MAX_COORDINATE ==> r.slots[i].id == m.slots[i].id
    ensures forall i :: 0 <= i < MAX_COORDINATE && !Used(m.slots[i]) ==> r.slots[i] == m.slots[i]
    ensures forall i :: 0 <= i < MAX_COORDINATE && Used(m.slots[i]) ==>
      r.slots[i] == Move(m.slots[i], dx, dy, sinf, cosf).(theta := NormalizeAngle(theta))
  {
    var t := NormalizeAngle(theta);
    var slots := seq(MAX_COORDINATE, i requires 0 <= i < MAX_COORDINATE =>
      if Used(m.slots[i]) then Move(m.slots[i], dx, dy, sinf, cosf).(theta := t) else m.slots[i]);
    SameUse(m.slots, slots);
    Odometer(slots, m.count, m.nextId)
  }

  /** Slots with the same ids are used the same number of times. */
  lemma {:induction false} SameUse(a: seq<Coord>, b: seq<Coord>)
    requires |a| == |b| && forall i :: 0 <= i < |a| ==> a[i].id == b[i].id
    ensures CountUsed(a) == CountUsed(b)
  {
    if |a| > 0 {
      SameUse(a[..|a| - 1], b[..|b| - 1]);
    }
  }

  /** A pose seen from a frame: (x, y, heading). */
  datatype Pose = Pose(x: real, y: real, theta: real)

  /**
   * `odometer_transform_to_robot`: the point (x, y) relative to the frame's
   * current position, rotated by its heading, and the heading difference
   * normalised.  An unknown id leaves the outputs as they were.
   */
  function TransformToRobot(m: Odometer, id: nat, x: real, y: real, theta: real,
                            sinf: real -> real, cosf: real -> real, out: Pose): (r: Pose)
    requires Shape(m)
    ensures FindSlotById(m.slots, id) == NO_SLOT ==> r == out
    ensures FindSlotById(m.slots, id) != NO_SLOT ==>
      var c := m.slots[FindSlotById(m.slots, id)];
      InRange(r.theta) && Congruent(r.theta, theta - c.theta, TWO_PI) &&
      (x == c.x && y == c.y ==> r.x == 0.0 && r.y == 0.0) &&
      r.x == (x - c.x) * cosf(c.theta) + (y - c.y) * sinf(c.theta) &&
      r.y == -(x - c.x) * sinf(c.theta) + (y - c.y) * cosf(c.theta)
  {
    var i := FindSlotById(m.slots, id);
    if i == NO_SLOT then out
    else
      var c := m.slots[i];
      var dx, dy := x - c.x, y - c.y;
      var s, co := sinf(c.theta), cosf(c.theta);
      Pose(dx * co + dy * s, -dx * s + dy * co, NormalizeAngle(theta - c.theta))
  }

  /**
   * When the heading's sine and cosine lie on the unit circle, rotating the
   * transformed point back by the heading and adding the frame's position
   * recovers the original point.
   */
  lemma TransformToRobotInverts(m: Odometer, id: nat, x: real, y: real, theta: real,
                                sinf: real -> real, cosf: real -> real, out: Pose)
    requires Shape(m) && FindSlotById(m.slots, id) != NO_SLOT
    requires var c := m.slots[FindSlotById(m.slots, id)];
             sinf(c.theta) * sinf(c.theta) + cosf(c.theta) * cosf(c.theta) == 1.0
    ensures var c := m.slots[FindSlotById(m.slots, id)];
            var r := TransformToRobot(m, id, x, y, theta, sinf, cosf, out);
            c.x + r.x * cosf(c.theta) - r.y * sinf(c.theta) == x
            && c.y + r.x * sinf(c.theta) + r.y * cosf(c.theta) == y
  {
    var c := m.slots[FindSlotById(m.slots, id)];
    var r := TransformToRobot(m, id, x, y, theta, sinf, cosf, out);
    var s, co, dx, dy := sinf(c.theta), cosf(c.theta), x - c.x, y - c.y;
    assert r.x * co - r.y * s == dx * (co * co + s * s);
    assert r.x * s + r.y * co == dy * (co * co + s * s);
  }

  /** `odometer_get_position`: the frame's stored pose, or the outputs untouched for an unknown id. */
  function GetPosition(m: Odometer, id: nat, out: Pose): (r: Pose)
    requires Shape(m)
    ensures FindSlotById(m.slots, id) == NO_SLOT ==> r == out
    ensures FindSlotById(m.slots, id) != NO_SLOT ==>
      var c := m.slots[FindSlotById(m.slots, id)];
      r == Pose(c.x, c.y, c.theta) && c.id == id
  {
    var i := FindSlotById(m.slots, id);
    if i == NO_SLOT then out else Pose(m.slots[i].x, m.slots[i].y, m.slots[i].theta)
  }

  /** Reading back a frame just added gives its position and normalised heading. */
  lemma AddThenGet(m: Odometer, x: real, y: real, theta: real, out: Pose)
    requires Valid(m) && Fresh(m) && m.nextId != 0 && m.nextId + 1 < U64 && m.count < MAX_COORDINATE
    ensures var a := AddAbsolute(m, x, y, theta);
            GetPosition(a.odometer, a.id, out) == Pose(x, y, NormalizeAngle(theta))
  {
    var a := AddAbsolute(m, x, y, theta);
    var i := FindFreeSlot(m.slots);
    var k := FindSlotById(a.odometer.slots, a.id);
    assert a.odometer.slots[i].id == a.id;
  }
}

=== FILE: optical_flow.dfy ===
/**
 * What the two optical-flow drivers (`upt20x.cpp`, `up_t201.cpp`) share: the
 * 14-byte frame `FE 0A <10 payload bytes> <XOR of the payload> 55`, the
 * byte-at-a-time parser that reads it, the payload decode and the update
 * frequency.  The parser here returns to waiting for a header after every
 * footer byte, as `up_t201.cpp` does.
 */
module OpticalFlow {
  import opened CTypes

  const HEADER: bv8 := 0xFE
  const FOOTER: bv8 := 0x55
  const LENGTH: bv8 := 0x0A
  const PAYLOAD_SIZE: nat := 10
  const VALID_FLAG: bv8 := 0xF5

  /** `OpticalFlowData`. */
  datatype FlowData = FlowData(
    flowX: real,
    flowY: real,
    integrationTime: nat,
    distance: nat,
    valid: bool,
    confidence: nat)

  const NoData: FlowData := FlowData(0.0, 0.0, 0, 0, false, 0)

  /** `payload_[lo] | (payload_[lo + 1] << 8)`: a little-endian 16-bit field. */
  function Le16(payload: seq<bv8>, lo: nat): (v: nat)
    requires lo + 1 < |payload|
    ensures v < U16
  {
    payload[lo] as nat + (payload[lo + 1] as nat) * 0x100
  }

  /**
   * `parsePacket`'s decode: two signed 16-bit flow integrals scaled by
   * 1/10000, the integration time and distance as unsigned 16-bit values,
   * valid iff the ninth byte is 0xF5, and the confidence byte.
   */
  function Decode(payload: seq<bv8>): (d: FlowData)
    requires |payload| == PAYLOAD_SIZE
    ensures -32768.0 <= d.flowX * 10000.0 < 32768.0 && -32768.0 <= d.flowY * 10000.0 < 32768.0
    ensures d.integrationTime < U16 && d.distance < U16 && d.confidence < U8
    ensures d.valid <==> payload[8] == VALID_FLAG
    ensures d.confidence == payload[9] as nat
  {
    Pow2Values();
    var fx := SignExtend(Le16(payload, 0), 16);
    var fy := SignExtend(Le16(payload, 2), 16);
    assert fx as real / 10000.0 * 10000.0 == fx as real;
    assert fy as real / 10000.0 * 10000.0 == fy as real;
    FlowData(
      fx as real / 10000.0,
      fy as real / 10000.0,
      Le16(payload, 4),
      Le16(payload, 6),
      payload[8] == VALID_FLAG,
      payload[9] as nat)
  }

  /** The two bytes a sender writes for a 16-bit field, low byte first. */
  function Le16Bytes(v: int): (b: seq<bv8>)
    requires -0x8000 <= v < U16
    ensures |b| == 2
  {
    var u := if v < 0 then v + U16 else v;
    [(u % 0x100) as bv8, (u / 0x100) as bv8]
  }

  /** The payload a sensor sends for given raw integrals, time, distance, flag and confidence. */
  function Encode(fx: int, fy: int, time: nat, dist: nat, flag: bv8, conf: bv8): (p: seq<bv8>)
    requires -0x8000 <= fx < 0x8000 && -0x8000 <= fy < 0x8000 && time < U16 && dist < U16
    ensures |p| == PAYLOAD_SIZE
  {
    Le16Bytes(fx) + Le16Bytes(fy) + Le16Bytes(time) + Le16Bytes(dist) + [flag, conf]
  }

  /** The two bytes of a field read back as an unsigned value: v, or v + 2^16 when negative. */
  lemma Le16Raw(v: int)
    requires -0x8000 <= v < U16
    ensures Le16(Le16Bytes(v), 0) == if v < 0 then v + U16 else v
  {
    var u := if v < 0 then v + U16 else v;
    var lo, hi := u % 0x100, u / 0x100;
    assert lo + hi * 0x100 == u && hi < 0x100;
    ByteValue(lo);
    ByteValue(hi);
  }

  /** A value below 256 survives the trip through a byte. */
  lemma ByteValue(x: nat)
    requires x < 0x100
    ensures (x as bv8) as nat == x
  {
    var b := x as bv8;
    assert b == ToByte(x);
  }

  function ToByte(x: nat): (b: bv8)
    requires x < 0x100
    ensures b as nat == x
  {
    if x == 0 then 0 else ToByte(x - 1) + 1
  }

  /** Decoding what a sensor encoded gives back its readings. */
  lemma DecodeEncode(fx: int, fy: int, time: nat, dist: nat, flag: bv8, conf: bv8)
    requires -0x8000 <= fx < 0x8000 && -0x8000 <= fy < 0x8000 && time < U16 && dist < U16
    ensures Decode(Encode(fx, fy, time, dist, flag, conf)) ==
      FlowData(fx as real / 10000.0, fy as real / 10000.0, time, dist, flag == VALID_FLAG, conf as nat)
  {
    var p := Encode(fx, fy, time, dist, flag, conf);
    Pow2Values();
    Le16Raw(fx);
    Le16Raw(fy);
    Le16Raw(time);
    Le16Raw(dist);
    assert Le16(p, 0) == Le16(Le16Bytes(fx), 0) && Le16(p, 2) == Le16(Le16Bytes(fy), 0);
    assert Le16(p, 4) == Le16(Le16Bytes(time), 0) && Le16(p, 6) == Le16(Le16Bytes(dist), 0);
  }

  /** `getDisplacementX` / `getDisplacementY`: flow times height when valid, else 0. */
  function Displacement(d: FlowData, flow: real, heightMm: real): (r: real)
    ensures !d.valid ==> r == 0.0
    ensures d.valid && heightMm == 0.0 ==> r == 0.0
    ensures d.valid && heightMm > 0.0 ==> (r > 0.0 <==> flow > 0.0) && (r < 0.0 <==> flow < 0.0)
  {
    if d.valid then flow * heightMm else 0.0
  }

  /** The XOR of a run of bytes, folded in the order they arrive. */
  function XorAll(s: seq<bv8>): bv8
    decreases |s|
  {
    if |s| == 0 then 0 else XorAll(s[..|s| - 1]) ^ s[|s| - 1]
  }

  lemma XorSnoc(s: seq<bv8>, b: bv8)
    ensures XorAll(s + [b]) == XorAll(s) ^ b
  {
    assert (s + [b])[..|s|] == s;
  }

  datatype ParseState = WaitHeader | WaitLength | ReceivePayload | WaitChecksum | WaitFooter

  datatype Parser = Parser(
    state: ParseState,
    payload: seq<bv8>,
    index: nat,
    checksum: bv8,
    data: FlowData,
    packetCount: nat,
    errorCount: nat,
    lastUpdate: nat)

  /**
   * Between bytes: the index counts stored payload bytes, is below ten while
   * payload is expected and ten once it is complete, and the running
   * checksum is the XOR of the bytes stored so far.
   */
  predicate Valid(p: Parser)
  {
    |p.payload| == PAYLOAD_SIZE && p.index <= PAYLOAD_SIZE &&
    (p.state == ReceivePayload ==> p.index < PAYLOAD_SIZE) &&
    (p.state == WaitChecksum || p.state == WaitFooter ==> p.index == PAYLOAD_SIZE) &&
    (p.state != WaitHeader && p.state != WaitLength ==> p.checksum == XorAll(p.payload[..p.index])) &&
    IsU32(p.packetCount) && IsU32(p.errorCount) && IsU32(p.lastUpdate)
  }

  /** The constructors: waiting for a header, nothing counted, zeroed data. */
  function Create(): (p: Parser)
    ensures Valid(p) && p.state == WaitHeader && p.packetCount == 0 && p.errorCount == 0
  {
    Parser(WaitHeader, seq(PAYLOAD_SIZE, _ => 0), 0, 0, NoData, 0, 0, 0)
  }

  /**
   * The reset of `init` / `start`: back to waiting for a header with index,
   * checksum and both counters cleared and the clock read; data is kept.
   */
  function Reset(p: Parser, now: nat): (r: Parser)
    requires Valid(p) && IsU32(now)
    ensures Valid(r) && r.state == WaitHeader && r.index == 0 && r.checksum == 0
    ensures r.packetCount == 0 && r.errorCount == 0 && r.lastUpdate == now && r.data == p.data
  {
    p.(state := WaitHeader, index := 0, checksum := 0, packetCount := 0, errorCount := 0, lastUpdate := now)
  }

  /** The payload case: store the byte, fold it into the checksum, move on after the tenth. */
  function Store(p: Parser, b: bv8): (r: Parser)
    requires Valid(p) && p.state == ReceivePayload
    ensures Valid(r)
    ensures r == p.(payload := p.payload[p.index := b], checksum := p.checksum ^ b, index := p.index + 1,
                    state := if p.index + 1 == PAYLOAD_SIZE then WaitChecksum else ReceivePayload)
  {
    StoreKeepsChecksum(p, b);
    p.(payload := p.payload[p.index := b], checksum := p.checksum ^ b, index := p.index + 1,
       state := if p.index + 1 == PAYLOAD_SIZE then WaitChecksum else ReceivePayload)
  }

  /** Storing a byte keeps the running checksum equal to the XOR of the stored bytes. */
  lemma StoreKeepsChecksum(p: Parser, b: bv8)
    requires Valid(p) && p.state == ReceivePayload
    ensures var payload := p.payload[p.index := b];
            |payload| == PAYLOAD_SIZE && p.index + 1 <= PAYLOAD_SIZE &&
            p.checksum ^ b == XorAll(payload[..p.index + 1])
  {
    var payload := p.payload[p.index := b];
    assert payload[..p.index + 1] == p.payload[..p.index] + [b];
    XorSnoc(p.payload[..p.index], b);
  }

  /**
   * One pass of the parser switch.  `parseOk` is what `parsePacket` returned
   * and `now` the kernel tick it reads on success.  The answer is true
   * exactly when a footer completes a packet that parsed.
   */
  function Step(p: Parser, b: bv8, parseOk: bool, now: nat): (r: (Parser, bool))
    requires Valid(p) && IsU32(now)
    ensures Valid(r.0)
    ensures r.1 <==> p.state == WaitFooter && b == FOOTER && parseOk
    ensures p.state == WaitHeader ==> r.0 == p.(state := if b == HEADER then WaitLength else WaitHeader)
    ensures p.state == WaitLength && b == LENGTH ==>
      r.0 == p.(state := ReceivePayload, index := 0, checksum := 0)
    ensures p.state == ReceivePayload ==>
      r.0.payload == p.payload[p.index := b] && r.0.index == p.index + 1 &&
      r.0.state == (if p.index + 1 == PAYLOAD_SIZE then WaitChecksum else ReceivePayload)
    ensures p.state == WaitChecksum && b == p.checksum ==> r.0 == p.(state := WaitFooter)
    ensures p.state == WaitFooter ==> r.0.state == WaitHeader
    ensures r.1 ==> r.0.data == Decode(p.payload) && r.0.packetCount == Wrap32(p.packetCount + 1) &&
                    r.0.errorCount == p.errorCount && r.0.lastUpdate == now
    ensures (p.state == WaitLength && b != LENGTH) || (p.state == WaitChecksum && b != p.checksum) ||
            (p.state == WaitFooter && !r.1) ==>
      r.0 == p.(state := WaitHeader, errorCount := Wrap32(p.errorCount + 1))
  {
    match p.state
    case WaitHeader =>
      (if b == HEADER then p.(state := WaitLength) else p, false)
    case WaitLength =>
      if b == LENGTH then (p.(state := ReceivePayload, index := 0, checksum := 0), false)
      else (p.(state := WaitHeader, errorCount := Wrap32(p.errorCount + 1)), false)
    case ReceivePayload =>
      (Store(p, b), false)
    case WaitChecksum =>
      if b == p.checksum then (p.(state := WaitFooter), false)
      else (p.(state := WaitHeader, errorCount := Wrap32(p.errorCount + 1)), false)
    case WaitFooter =>
      if b == FOOTER && parseOk then
        (p.(data := Decode(p.payload), packetCount := Wrap32(p.packetCount + 1), lastUpdate := now,
            state := WaitHeader), true)
      else
        (p.(errorCount := Wrap32(p.errorCount + 1), state := WaitHeader), false)
  }

  /** Bytes fed one after another, every parse succeeding at the same tick; counts the `true` answers. */
  function Run(p: Parser, bytes: seq<bv8>, now: nat): (r: (Parser, nat))
    requires Valid(p) && IsU32(now)
    ensures Valid(r.0) && r.1 <= |bytes|
    decreases |bytes|
  {
    if |bytes| == 0 then (p, 0)
    else
      var step := Step(p, bytes[0], true, now);
      var rest := Run(step.0, bytes[1..], now);
      (rest.0, rest.1 + if step.1 then 1 else 0)
  }

  lemma {:induction false} RunSplit(p: Parser, a: seq<bv8>, b: seq<bv8>, now: nat)
    requires Valid(p) && IsU32(now)
    ensures var first := Run(p, a, now);
            var second := Run(first.0, b, now);
            Run(p, a + b, now) == (second.0, first.1 + second.1)
    decreases |a|
  {
    if |a| == 0 {
      assert a + b == b;
    } else {
      assert (a + b)[0] == a[0];
      assert (a + b)[1..] == a[1..] + b;
      RunSplit(Step(p, a[0], true, now).0, a[1..], b, now);
    }
  }

  /** A single byte: one parser step, counted when it completes a packet. */
  lemma RunOne(p: Parser, b: bv8, now: nat)
    requires Valid(p) && IsU32(now)
    ensures var step := Step(p, b, true, now);
            Run(p, [b], now) == (step.0, if step.1 then 1 else 0)
  {
    assert [b][1..] == [];
    var step := Step(p, b, true, now);
    assert Run(step.0, [], now) == (step.0, 0);
  }

  /** The frame a sensor sends for a payload. */
  function Frame(payload: seq<bv8>): (f: seq<bv8>)
    ensures |f| == |payload| + 4
  {
    [HEADER, LENGTH] + payload + [XorAll(payload), FOOTER]
  }

  /**
   * Payload bytes fed while payload is expected are stored in order after
   * those already held, the checksum becomes the XOR of everything stored,
   * and the parser then waits for the checksum; nothing is counted.
   */
  lemma {:induction false} PayloadFill(p: Parser, bytes: seq<bv8>, now: nat)
    requires Valid(p) && IsU32(now) && p.state == ReceivePayload
    requires |bytes| == PAYLOAD_SIZE - p.index
    ensures var r := Run(p, bytes, now);
            r.1 == 0 &&
            r.0 == p.(state := WaitChecksum, index := PAYLOAD_SIZE,
                      payload := p.payload[..p.index] + bytes,
                      checksum := XorAll(p.payload[..p.index] + bytes))
    decreases |bytes|
  {
    var q := Store(p, bytes[0]);
    RunOne(p, bytes[0], now);
    RunSplit(p, [bytes[0]], bytes[1..], now);
    assert [bytes[0]] + bytes[1..] == bytes;
    if |bytes| == 1 {
      LastByteStored(p, bytes);
      assert Run(q, [], now) == (q, 0);
    } else {
      PayloadFill(q, bytes[1..], now);
      NextByteStored(p, bytes);
    }
  }

  /** Storing the last expected byte is what filling the payload with it means. */
  lemma LastByteStored(p: Parser, bytes: seq<bv8>)
    requires Valid(p) && p.state == ReceivePayload && |bytes| == 1 && p.index == PAYLOAD_SIZE - 1
    ensures Store(p, bytes[0]) == p.(state := WaitChecksum, index := PAYLOAD_SIZE,
                                     payload := p.payload[..p.index] + bytes,
                                     checksum := XorAll(p.payload[..p.index] + bytes))
  {
    var q := Store(p, bytes[0]);
    assert q.payload == p.payload[..p.index] + bytes;
  }

  /** Filling the rest after storing one byte is filling everything. */
  lemma NextByteStored(p: Parser, bytes: seq<bv8>)
    requires Valid(p) && p.state == ReceivePayload && |bytes| == PAYLOAD_SIZE - p.index && |bytes| > 1
    ensures var q := Store(p, bytes[0]);
            q.payload[..q.index] + bytes[1..] == p.payload[..p.index] + bytes
  {
    var q := Store(p, bytes[0]);
    var a := p.payload[..p.index];
    assert q.payload[..q.index] == a + [bytes[0]];
    assert [bytes[0]] + bytes[1..] == bytes;
    assert a + [bytes[0]] + bytes[1..] == a + ([bytes[0]] + bytes[1..]);
  }

  /** The two leading bytes of a frame open a fresh payload. */
  lemma HeaderAccepted(p: Parser, now: nat)
    requires Valid(p) && IsU32(now) && p.state == WaitHeader
    ensures Run(p, [HEADER, LENGTH], now) == (p.(state := ReceivePayload, index := 0, checksum := 0), 0)
  {
    var p1 := p.(state := WaitLength);
    var p2 := p.(state := ReceivePayload, index := 0, checksum := 0);
    assert Step(p, HEADER, true, now) == (p1, false);
    assert Step(p1, LENGTH, true, now) == (p2, false);
    assert [HEADER, LENGTH][1..] == [LENGTH] && [LENGTH][1..] == [];
    assert Run(p2, [], now) == (p2, 0);
    assert Run(p1, [LENGTH], now) == (p2, 0);
  }

  /**
   * A well-formed frame fed from the header-hunting state yields exactly one
   * `true`, decodes its payload, counts one packet and no error, and leaves
   * the parser waiting for the next header.
   */
  lemma {:induction false} FrameRoundTrip(p: Parser, payload: seq<bv8>, now: nat)
    requires Valid(p) && IsU32(now) && p.state == WaitHeader && |payload| == PAYLOAD_SIZE
    ensures var r := Run(p, Frame(payload), now);
            r.1 == 1 && r.0.state == WaitHeader && r.0.data == Decode(payload) &&
            r.0.packetCount == Wrap32(p.packetCount + 1) && r.0.errorCount == p.errorCount
  {
    var prefix := [HEADER, LENGTH] + payload;
    var tail := [XorAll(payload), FOOTER];
    assert Frame(payload) == prefix + tail;
    RunSplit(p, prefix, tail, now);
    FramePrefix(p, payload, now);
    var p3 := p.(state := WaitChecksum, index := PAYLOAD_SIZE, payload := payload, checksum := XorAll(payload));
    assert tail == [p3.checksum, FOOTER];
    ChecksumAndFooter(p3, now);
    var fin := p3.(state := WaitHeader, data := Decode(payload), packetCount := Wrap32(p.packetCount + 1),
                   lastUpdate := now);
    assert Run(p3, tail, now) == (fin, 1);
    assert Run(p, Frame(payload), now) == (fin, 1);
  }

  /** Header, length and payload leave the parser waiting for the checksum, holding the payload. */
  lemma FramePrefix(p: Parser, payload: seq<bv8>, now: nat)
    requires Valid(p) && IsU32(now) && p.state == WaitHeader && |payload| == PAYLOAD_SIZE
    ensures Run(p, [HEADER, LENGTH] + payload, now) ==
            (p.(state := WaitChecksum, index := PAYLOAD_SIZE, payload := payload, checksum := XorAll(payload)), 0)
  {
    var head := [HEADER, LENGTH];
    HeaderAccepted(p, now);
    var p2 := p.(state := ReceivePayload, index := 0, checksum := 0);
    RunSplit(p, head, payload, now);
    PayloadFill(p2, payload, now);
    assert p2.payload[..0] + payload == payload;
  }

  /** The matching checksum and the footer complete one packet. */
  lemma ChecksumAndFooter(p: Parser, now: nat)
    requires Valid(p) && IsU32(now) && p.state == WaitChecksum
    ensures Run(p, [p.checksum, FOOTER], now) ==
            (p.(state := WaitHeader, data := Decode(p.payload), packetCount := Wrap32(p.packetCount + 1),
                lastUpdate := now), 1)
  {
    var p4 := p.(state := WaitFooter);
    RunSplit(p, [p.checksum], [FOOTER], now);
    assert [p.checksum] + [FOOTER] == [p.checksum, FOOTER];
    RunOne(p, p.checksum, now);
    RunOne(p4, FOOTER, now);
  }

  /** A frame whose checksum byte is not the XOR of its payload counts an error and no packet. */
  lemma {:induction false} BadChecksumRejected(p: Parser, payload: seq<bv8>, sum: bv8, now: nat)
    requires Valid(p) && IsU32(now) && p.state == WaitHeader && |payload| == PAYLOAD_SIZE
    requires sum != XorAll(payload)
    ensures var r := Run(p, [HEADER, LENGTH] + payload + [sum], now);
            r.1 == 0 && r.0.state == WaitHeader && r.0.packetCount == p.packetCount &&
            r.0.errorCount == Wrap32(p.errorCount + 1) && r.0.data == p.data
  {
    var prefix := [HEADER, LENGTH] + payload;
    RunSplit(p, prefix, [sum], now);
    FramePrefix(p, payload, now);
    var p3 := p.(state := WaitChecksum, index := PAYLOAD_SIZE, payload := payload, checksum := XorAll(payload));
    RunOne(p3, sum, now);
  }

  /**
   * `updateStatistics`: 1000 / elapsed ticks since the last packet, the
   * elapsed time taken modulo 2^32, and 0 Hz when no tick has passed.
   */
  function UpdateFrequency(now: nat, lastUpdate: nat): (hz: real)
    ensures hz >= 0.0
    ensures Wrap32(now - lastUpdate) == 0 ==> hz == 0.0
    ensures Wrap32(now - lastUpdate) > 0 ==> hz * (Wrap32(now - lastUpdate) as real) == 1000.0
  {
    var elapsed := Wrap32(now - lastUpdate);
    if elapsed > 0 then 1000.0 / (elapsed as real) else 0.0
  }
}

=== FILE: path.dfy ===
/**
 * The path follower `Path<N>` (`path_impl.h`): a fixed list of target
 * points visited in order.  Between two targets a single guide point walks
 * along the segment in steps of about `GUIDE_POINT_INTERVAL`; the guide must
 * be reached (a `Point` check) before it moves on.  `N` is the length of
 * `targets`; a target is `None` where the firmware holds a null pointer.
 */
module Path {
  import opened CTypes
  import opened Wrappers
  import opened MathConst
  import MathAngle
  import Point

  type Pose = Point.Pose

  /** Guide point spacing in metres (`path.h`). */
  const GUIDE_POINT_INTERVAL: real := 0.05

  datatype PathState = Idle | MovingToTarget | MovingBetweenTargets | Completed

  datatype Path = Path(
    targets: seq<Option<Point.Point>>,
    guide: Point.Point,
    guideErrR: real,
    guideErrYaw: real,
    guideThreshold: nat,
    index: nat,
    step: nat,
    totalSteps: nat,
    stepDistance: real,
    state: PathState,
    startPose: Pose,
    endPose: Pose)

  /** The fields hold what their C types can hold. */
  predicate Valid(p: Path) {
    |p.targets| < U32 && IsU32(p.guideThreshold) && IsU32(p.index) && IsU32(p.step)
    && IsU32(p.totalSteps) && Point.Valid(p.guide)
  }

  /** `isValidTargetPoints`: no null target pointer. */
  predicate AllPresent(targets: seq<Option<Point.Point>>) {
    forall i :: 0 <= i < |targets| ==> targets[i].Some?
  }

  /** The default constructor: all targets null, guide tolerance 0.02 m, 0.05 rad, 5 checks. */
  function Default(n: nat): (p: Path)
    requires n < U32
    ensures Valid(p) && p.state == Idle && |p.targets| == n
    ensures n > 0 ==> !AllPresent(p.targets)
  {
    var targets := seq(n, _ => None);
    assert n > 0 ==> targets[0].None?;
    Path(targets, Point.Default(), 0.02, 0.05, 5, 0, 0, 0, 0.0, Idle, Point.Origin, Point.Origin)
  }

  /** The parameter constructor: the targets and guide tolerance are taken, then the path is reset. */
  function New(points: seq<Option<Point.Point>>, errR: real, errYaw: real, threshold: nat): (p: Path)
    requires |points| < U32 && IsU32(threshold)
    ensures Valid(p) && Inv(p) && p.state == Idle && p.targets == points
    ensures p.guideErrR == errR && p.guideErrYaw == errYaw && p.guideThreshold == threshold
  {
    var d := Default(|points|);
    InitializePath(d.(guideErrR := errR, guideErrYaw := errYaw, guideThreshold := threshold), points)
  }

  /** `initializePath`: replaces the targets and resets the path. */
  function InitializePath(p: Path, points: seq<Option<Point.Point>>): (r: Path)
    requires Valid(p) && |points| == |p.targets|
    ensures Valid(r) && Inv(r) && r.state == Idle && r.targets == points
    ensures r.guideErrR == p.guideErrR && r.guideErrYaw == p.guideErrYaw && r.guideThreshold == p.guideThreshold
  {
    ResetPath(p.(targets := points))
  }

  /** `setGuideParameters`: the tolerance used for intermediate guide points. */
  function SetGuideParameters(p: Path, errR: real, errYaw: real, threshold: nat): (r: Path)
    ensures r == p.(guideErrR := errR, guideErrYaw := errYaw, guideThreshold := threshold)
  {
    p.(guideErrR := errR, guideErrYaw := errYaw, guideThreshold := threshold)
  }

  /** `resetPath`: back to idle with all counters cleared; targets and guide pose kept. */
  function ResetPath(p: Path): (r: Path)
    requires Valid(p)
    ensures Valid(r) && Inv(r)
    ensures r.state == Idle && r.index == 0 && r.step == 0 && r.totalSteps == 0 && r.stepDistance == 0.0
    ensures r.guide == p.guide.(counter := 0)
    ensures r.targets == p.targets && r.startPose == p.startPose && r.endPose == p.endPose
  {
    p.(index := 0, step := 0, totalSteps := 0, stepDistance := 0.0, state := Idle,
       guide := Point.ResetCounter(p.guide))
  }

  /**
   * `startPath` as written: the guide is put on the first target, but its
   * distance and yaw tolerances are set from that target's x and y
   * coordinates.
   */
  function StartPathAsWritten(p: Path): (r: Path)
    requires Valid(p)
    ensures Valid(r)
    ensures !AllPresent(p.targets) || |p.targets| == 0 ==> r == p
    ensures AllPresent(p.targets) && |p.targets| > 0 ==>
              var first := p.targets[0].value.target;
              r.state == MovingToTarget && r.index == 0 && r.step == 0 && r.guide.counter == 0
              && r.guide.target == first
              && r.guide.tolerance.errR == first.x && r.guide.tolerance.errYaw == first.y
    ensures r.targets == p.targets && r.totalSteps == p.totalSteps
    ensures r.guide.tolerance.threshold == p.guide.tolerance.threshold
    ensures Inv(p) ==> Inv(r)
  {
    if !AllPresent(p.targets) || |p.targets| == 0 then p
    else
      var first := p.targets[0].value.target;
      var g := Point.SetErrorTolerance(Point.SetTargetPose(p.guide, first), first.x, first.y);
      p.(index := 0, step := 0, state := MovingToTarget, guide := Point.ResetCounter(g))
  }

  /**
   * `startPath` with the tolerance the accompanying comment asks for: the
   * first target's own distance and yaw tolerances.  Otherwise identical
   * to `StartPathAsWritten`.
   */
  function StartPath(p: Path): (r: Path)
    requires Valid(p)
    ensures Valid(r)
    ensures !AllPresent(p.targets) || |p.targets| == 0 ==> r == p
    ensures AllPresent(p.targets) && |p.targets| > 0 ==>
              var first := p.targets[0].value;
              r.state == MovingToTarget && r.index == 0 && r.step == 0 && r.guide.counter == 0
              && r.guide.target == first.target
              && r.guide.tolerance.errR == first.tolerance.errR
              && r.guide.tolerance.errYaw == first.tolerance.errYaw
    ensures r.targets == p.targets && r.totalSteps == p.totalSteps
    ensures r.guide.tolerance.threshold == p.guide.tolerance.threshold
    ensures Inv(p) ==> Inv(r)
  {
    if !AllPresent(p.targets) || |p.targets| == 0 then p
    else
      var first := p.targets[0].value;
      var g := Point.SetErrorTolerance(Point.SetTargetPose(p.guide, first.target),
                                       first.tolerance.errR, first.tolerance.errYaw);
      p.(index := 0, step := 0, state := MovingToTarget, guide := Point.ResetCounter(g))
  }

  /**
   * Which `startPath` and `getProgress` a caller runs: the code as written,
   * or with the two faults in them corrected (the guide's first tolerance,
   * and the segment fraction counted only between targets).
   */
  datatype Version = AsWritten | Corrected

  /** `startPath` in the given version; both put the guide on the first target. */
  function Start(v: Version, p: Path): (r: Path)
    requires Valid(p)
    ensures Valid(r) && r.targets == p.targets && r.totalSteps == p.totalSteps
    ensures Inv(p) ==> Inv(r)
    ensures !AllPresent(p.targets) || |p.targets| == 0 ==> r == p
    ensures AllPresent(p.targets) && |p.targets| > 0 ==>
              r.state == MovingToTarget && r.index == 0 && r.step == 0 && r.guide.counter == 0
              && r.guide.target == p.targets[0].value.target
    ensures v == AsWritten ==> r == StartPathAsWritten(p)
    ensures v == Corrected ==> r == StartPath(p)
  {
    if v == AsWritten then StartPathAsWritten(p) else StartPath(p)
  }

  /**
   * With the first target's own tolerance, standing exactly on that target
   * satisfies the guide check (for non-negative tolerances and a square
   * root with `sqrtf(0) == 0`).
   */
  lemma StartPathGuideReachable(p: Path, sqrtf: real -> real)
    requires Valid(p) && AllPresent(p.targets) && |p.targets| > 0
    requires p.targets[0].value.tolerance.errR >= 0.0 && p.targets[0].value.tolerance.errYaw >= 0.0
    requires sqrtf(0.0) == 0.0
    ensures var g := StartPath(p).guide;
            Point.Within(g.tolerance, Point.Diff(p.targets[0].value.target, g.target, sqrtf))
  {
    var g := StartPath(p).guide;
    Point.AtTargetWithin(g.tolerance, g.target, sqrtf);
  }

  /**
   * As written, a first target with a negative x coordinate gives the guide
   * a negative distance tolerance, which no distance from a non-negative
   * square root meets: the guide can never be reached from any pose.
   */
  lemma StartPathAsWrittenNegativeX(p: Path, current: Pose, sqrtf: real -> real)
    requires Valid(p) && AllPresent(p.targets) && |p.targets| > 0
    requires p.targets[0].value.target.x < 0.0
    requires forall s: real :: sqrtf(s) >= 0.0
    ensures var g := StartPathAsWritten(p).guide;
            !Point.Within(g.tolerance, Point.Diff(current, g.target, sqrtf))
  {
    var g := StartPathAsWritten(p).guide;
    Point.NegativeToleranceNeverWithin(g.tolerance, current, g.target, sqrtf);
  }

  /**
   * The concrete case: a single target at (-1, 0, 0) with the default
   * tolerance.  Standing exactly on it meets the target's own tolerance,
   * yet the guide check started as written fails.
   */
  lemma StartPathAsWrittenStuck()
    ensures var target := Point.Point(Point.Pose(-1.0, 0.0, 0.0, 0.0), Point.DefaultTolerance, 0);
            var p := StartPathAsWritten(New([Some(target)], 0.02, 0.05, 5));
            p.state == MovingToTarget
            && !Point.IsReached(p.guide, target.target, None, ExampleSqrt).reached
            && Point.Within(target.tolerance, Point.Diff(target.target, target.target, ExampleSqrt))
  {
    var target := Point.Point(Point.Pose(-1.0, 0.0, 0.0, 0.0), Point.DefaultTolerance, 0);
    var p := StartPathAsWritten(New([Some(target)], 0.02, 0.05, 5));
    assert p.guide.tolerance.errR == -1.0;
    Point.NegativeToleranceNeverWithin(p.guide.tolerance, target.target, p.guide.target, ExampleSqrt);
    Point.AtTargetWithin(target.tolerance, target.target, ExampleSqrt);
  }

  /** The float-to-`uint32_t` step count conversion is defined for this segment. */
  predicate StepsDefined(start: Pose, end: Pose, sqrtf: real -> real) {
    var d := Point.Diff(start, end, sqrtf).distance;
    d < GUIDE_POINT_INTERVAL || Trunc(d / GUIDE_POINT_INTERVAL + 0.5) < U32
  }

  predicate SegmentDefined(targets: seq<Option<Point.Point>>, i: nat, sqrtf: real -> real)
    requires i + 1 < |targets|
  {
    targets[i].None? || targets[i + 1].None?
    || StepsDefined(targets[i].value.target, targets[i + 1].value.target, sqrtf)
  }

  /** Every consecutive pair of targets has a representable step count. */
  predicate SegmentsDefined(targets: seq<Option<Point.Point>>, sqrtf: real -> real) {
    forall i: nat :: i + 1 < |targets| ==> SegmentDefined(targets, i, sqrtf)
  }

  /** What `calculateInterpolationParams` computes for one segment. */
  datatype Steps = Steps(total: nat, distance: real)

  /**
   * `calculateInterpolationParams`: a segment shorter than one interval is
   * a single step; otherwise the step count is the distance in intervals
   * rounded half up, and the steps together cover the distance.
   */
  function InterpolationSteps(start: Pose, end: Pose, sqrtf: real -> real): (r: Steps)
    requires StepsDefined(start, end, sqrtf)
    ensures r.total >= 1 && IsU32(r.total)
    ensures var d := Point.Diff(start, end, sqrtf).distance;
            Mul(r.distance, r.total as real) == d
            && (d >= GUIDE_POINT_INTERVAL ==>
                  r.total as real - 0.5 <= d / GUIDE_POINT_INTERVAL < r.total as real + 0.5)
  {
    var d := Point.Diff(start, end, sqrtf).distance;
    if d < GUIDE_POINT_INTERVAL then Steps(1, d)
    else
      var n := Trunc(d / GUIDE_POINT_INTERVAL + 0.5);
      Steps(n, d / n as real)
  }

  /**
   * `interpolatePose`: position linear in `ratio`; yaw moves from the start
   * along the shorter way round and is normalised to [-PI, PI).
   */
  function InterpolatePose(start: Pose, end: Pose, ratio: real): (r: Pose)
    ensures -PI <= r.yaw < PI
    ensures ratio == 0.0 ==>
              r.x == start.x && r.y == start.y && r.z == start.z
              && r.yaw == MathAngle.NormalizeRadianPi(start.yaw)
  {
    var yawDiff := MathAngle.NormalizeRadianPi(end.yaw - start.yaw);
    Point.Pose(start.x + (end.x - start.x) * ratio,
               start.y + (end.y - start.y) * ratio,
               start.z + (end.z - start.z) * ratio,
               MathAngle.NormalizeRadianPi(start.yaw + yawDiff * ratio))
  }

  /** At ratio 1 the interpolation lands on the end pose, its yaw normalised. */
  lemma InterpolateEnd(start: Pose, end: Pose)
    ensures var r := InterpolatePose(start, end, 1.0);
            r.x == end.x && r.y == end.y && r.z == end.z
            && r.yaw == MathAngle.NormalizeRadianPi(end.yaw)
  {
    var d := MathAngle.NormalizeRadianPi(end.yaw - start.yaw);
    var r := InterpolatePose(start, end, 1.0);
    var k :| d - (end.yaw - start.yaw) == Times(k, TWO_PI);
    assert (start.yaw + d * 1.0) - end.yaw == Times(k, TWO_PI);
    MathAngle.CongruentTrans(r.yaw, start.yaw + d * 1.0, end.yaw, TWO_PI);
    MathAngle.NormalizeRadianPiUnique(end.yaw, r.yaw);
  }

  /**
   * `updateGuidePoint`: one step further along the segment.  Past the last
   * step the guide jumps to the next target (or the path completes);
   * otherwise it is placed at the interpolated pose.  Either way the
   * guide's counter restarts.
   */
  function UpdateGuidePoint(p: Path): (r: Path)
    requires Valid(p) && AllPresent(p.targets)
    ensures Valid(r) && r.targets == p.targets && r.guide.tolerance == p.guide.tolerance
    ensures r.step == Wrap32(p.step + 1) && r.totalSteps == p.totalSteps
    ensures r.startPose == p.startPose && r.endPose == p.endPose
    ensures r.step < p.totalSteps ==>
              r.index == p.index && r.state == p.state && r.guide.counter == 0
              && r.guide.target == InterpolatePose(p.startPose, p.endPose, r.step as real / p.totalSteps as real)
    ensures r.step >= p.totalSteps ==>
              r.index == Wrap32(p.index + 1)
              && (r.index >= |p.targets| ==> r.state == Completed)
              && (r.index < |p.targets| ==>
                    r.state == MovingToTarget && r.guide.counter == 0
                    && r.guide.target == p.targets[r.index].value.target)
  {
    var step := Wrap32(p.step + 1);
    if step >= p.totalSteps then
      var index := Wrap32(p.index + 1);
      if index >= |p.targets| then p.(step := step, index := index, state := Completed)
      else
        var g := Point.ResetCounter(Point.SetTargetPose(p.guide, p.targets[index].value.target));
        p.(step := step, index := index, state := MovingToTarget, guide := g)
    else
      var ratio := step as real / p.totalSteps as real;
      var g := Point.ResetCounter(Point.SetTargetPose(p.guide, InterpolatePose(p.startPose, p.endPose, ratio)));
      p.(step := step, guide := g)
  }

  /**
   * `moveToNextSegment`: from the last target the path completes; otherwise
   * the segment to the next target is measured, the guide takes the guide
   * tolerance, and the first step along the segment is taken.
   */
  function MoveToNextSegment(p: Path, sqrtf: real -> real): (r: Path)
    requires Valid(p) && AllPresent(p.targets) && SegmentsDefined(p.targets, sqrtf)
    requires p.index < |p.targets|
    ensures Valid(r) && r.targets == p.targets
    ensures p.index + 1 >= |p.targets| ==> r == p.(state := Completed)
    ensures p.index + 1 < |p.targets| ==>
              SegmentDefined(p.targets, p.index, sqrtf) &&
              var steps := InterpolationSteps(p.targets[p.index].value.target, p.targets[p.index + 1].value.target, sqrtf);
              r == UpdateGuidePoint(EnterSegment(p, steps))
  {
    if Wrap32(p.index + 1) >= |p.targets| then p.(state := Completed)
    else
      assert SegmentDefined(p.targets, p.index, sqrtf);
      var start := p.targets[p.index].value.target;
      var end := p.targets[p.index + 1].value.target;
      UpdateGuidePoint(EnterSegment(p, InterpolationSteps(start, end, sqrtf)))
  }

  /** The state `moveToNextSegment` sets up before its first guide step. */
  function EnterSegment(p: Path, steps: Steps): (r: Path)
    requires Valid(p) && AllPresent(p.targets) && p.index + 1 < |p.targets| && IsU32(steps.total)
    ensures Valid(r) && r.targets == p.targets && r.index == p.index
    ensures r.state == MovingBetweenTargets && r.step == 0 && r.totalSteps == steps.total
    ensures r.startPose == p.targets[p.index].value.target && r.endPose == p.targets[p.index + 1].value.target
    ensures r.guide.tolerance == Point.Tolerance(p.guideErrR, p.guideErrYaw, p.guideThreshold)
    ensures r.guide.target == p.guide.target
  {
    var g := Point.SetThreshold(Point.SetErrorTolerance(p.guide, p.guideErrR, p.guideErrYaw), p.guideThreshold);
    p.(startPose := p.targets[p.index].value.target, endPose := p.targets[p.index + 1].value.target,
       totalSteps := steps.total, stepDistance := steps.distance, step := 0,
       guide := g, state := MovingBetweenTargets)
  }

  /** What `isReached` produces: the path, the answer, and the caller's diff output. */
  datatype Check = Check(path: Path, reached: bool, out: Option<Point.PoseDiff>)

  /**
   * `isReached`: idle or with a null target it answers false and changes
   * nothing; completed it answers true; otherwise the guide is checked, and
   * a reached guide advances the path.  The answer is whether the path is
   * now complete.
   */
  function IsReached(p: Path, current: Pose, out: Option<Point.PoseDiff>, sqrtf: real -> real): (r: Check)
    requires Valid(p) && SegmentsDefined(p.targets, sqrtf)
    requires p.state == MovingToTarget ==> p.index < |p.targets|
    ensures Valid(r.path) && r.path.targets == p.targets
    ensures p.state == Idle || !AllPresent(p.targets) ==> r == Check(p, false, out)
    ensures p.state == Completed && AllPresent(p.targets) ==> r == Check(p, true, out)
    ensures p.state in {MovingToTarget, MovingBetweenTargets} && AllPresent(p.targets) ==>
              var c := Point.IsReached(p.guide, current, out, sqrtf);
              (r.reached <==> r.path.state == Completed) && r.out == c.out
              && (!c.reached ==> r.path == p.(guide := c.point))
              && (c.reached && p.state == MovingToTarget ==> r.path == MoveToNextSegment(p.(guide := c.point), sqrtf))
              && (c.reached && p.state == MovingBetweenTargets ==> r.path == UpdateGuidePoint(p.(guide := c.point)))
  {
    if p.state == Idle || !AllPresent(p.targets) then Check(p, false, out)
    else if p.state == Completed then Check(p, true, out)
    else
      var c := Point.IsReached(p.guide, current, out, sqrtf);
      var q := p.(guide := c.point);
      var next :=
        if !c.reached then q
        else if p.state == MovingToTarget then MoveToNextSegment(q, sqrtf)
        else UpdateGuidePoint(q);
      Check(next, next.state == Completed, c.out)
  }

  /**
   * The path invariant kept by every operation: idle paths are cleared;
   * any other path has all its targets; heading to a target the guide sits
   * on it; between targets the guide sits on the segment at the current
   * step, which is short of the last.
   */
  ghost predicate Inv(p: Path) {
    Valid(p)
    && (p.state == Idle ==> p.index == 0 && p.step == 0)
    && (p.state != Idle ==> AllPresent(p.targets) && |p.targets| > 0)
    && (p.state == MovingToTarget ==>
          p.index < |p.targets| && p.step <= p.totalSteps
          && p.guide.target == p.targets[p.index].value.target)
    && (p.state == MovingBetweenTargets ==>
          p.index + 1 < |p.targets| && p.step < p.totalSteps
          && p.startPose == p.targets[p.index].value.target
          && p.endPose == p.targets[p.index + 1].value.target
          && p.guide.target == InterpolatePose(p.startPose, p.endPose, p.step as real / p.totalSteps as real))
  }

  lemma MoveToNextSegmentInv(p: Path, sqrtf: real -> real)
    requires Inv(p) && p.state == MovingToTarget && SegmentsDefined(p.targets, sqrtf)
    ensures Inv(MoveToNextSegment(p, sqrtf))
  {
  }

  lemma UpdateGuidePointInv(p: Path)
    requires Inv(p) && p.state == MovingBetweenTargets
    ensures Inv(UpdateGuidePoint(p))
  {
  }

  /** `isReached` keeps the path invariant. */
  lemma IsReachedInv(p: Path, current: Pose, out: Option<Point.PoseDiff>, sqrtf: real -> real)
    requires Inv(p) && SegmentsDefined(p.targets, sqrtf)
    ensures Inv(IsReached(p, current, out, sqrtf).path)
  {
    if p.state in {MovingToTarget, MovingBetweenTargets} {
      var c := Point.IsReached(p.guide, current, out, sqrtf);
      var q := p.(guide := c.point);
      assert Inv(q);
      if c.reached && p.state == MovingToTarget {
        MoveToNextSegmentInv(q, sqrtf);
      } else if c.reached {
        UpdateGuidePointInv(q);
      }
    }
  }

  /**
   * `getProgress` as written: the fraction of targets passed plus the
   * fraction of steps along the current segment, counted even while the
   * path is heading for a target, where the step count is left over from
   * the segment just finished.
   */
  function GetProgressAsWritten(p: Path): (r: real)
    requires Inv(p)
    ensures 0.0 <= r <= 1.0
    ensures |p.targets| == 0 || p.state == Idle ==> r == 0.0
    ensures p.state == Completed ==> r == 1.0
  {
    var n := |p.targets|;
    if n == 0 || p.state == Idle then 0.0
    else if p.state == Completed then 1.0
    else
      var segment := if p.totalSteps > 0 then Ratio(p.step, p.totalSteps) else 0.0;
      Fraction(p.index, segment, n)
  }

  /**
   * `getProgress` counting the segment fraction only while the guide is
   * between targets.
   */
  function GetProgress(p: Path): (r: real)
    requires Inv(p)
    ensures 0.0 <= r <= 1.0
    ensures |p.targets| == 0 || p.state == Idle ==> r == 0.0
    ensures p.state == Completed ==> r == 1.0
    ensures p.state == MovingToTarget ==> r == Fraction(p.index, 0.0, |p.targets|)
    ensures p.state == MovingBetweenTargets ==> r == Fraction(p.index, Ratio(p.step, p.totalSteps), |p.targets|)
  {
    var n := |p.targets|;
    if n == 0 || p.state == Idle then 0.0
    else if p.state == Completed then 1.0
    else
      var segment := if p.state == MovingBetweenTargets then Ratio(p.step, p.totalSteps) else 0.0;
      Fraction(p.index, segment, n)
  }

  /** `getProgress` in the given version. */
  function Progress(v: Version, p: Path): (r: real)
    requires Inv(p)
    ensures 0.0 <= r <= 1.0
    ensures |p.targets| == 0 || p.state == Idle ==> r == 0.0
    ensures p.state == Completed ==> r == 1.0
    ensures v == AsWritten ==> r == GetProgressAsWritten(p)
    ensures v == Corrected ==> r == GetProgress(p)
  {
    if v == AsWritten then GetProgressAsWritten(p) else GetProgress(p)
  }

  /** `(float)a / (float)b` for a step count within the segment. */
  function Ratio(a: nat, b: nat): (r: real)
    requires a <= b && b > 0
    ensures 0.0 <= r <= 1.0 && (a < b ==> r < 1.0)
  {
    DivMono(a as real, b as real, b as real);
    if a < b then
      assert a as real / b as real < b as real / b as real by {
        assert b as real / b as real - a as real / b as real == (b - a) as real / b as real;
      }
      a as real / b as real
    else a as real / b as real
  }

  /** `index / n + segment / n`, between `index / n` and `(index + 1) / n`. */
  function Fraction(index: nat, segment: real, n: nat): (r: real)
    requires index < n && 0.0 <= segment <= 1.0
    ensures index as real / n as real <= r <= (index + 1) as real / n as real
    ensures 0.0 <= r <= 1.0
    ensures segment < 1.0 ==> r < (index + 1) as real / n as real
  {
    var r := index as real / n as real + segment / n as real;
    assert r == (index as real + segment) / n as real;
    DivMono(index as real, index as real + segment, n as real);
    DivMono(index as real + segment, (index + 1) as real, n as real);
    DivMono((index + 1) as real, n as real, n as real);
    assert (index + 1) as real / n as real - r == (1.0 - segment) / n as real;
    r
  }

  /** `a / n <= b / n` for `a <= b`. */
  lemma DivMono(a: real, b: real, n: real)
    requires a <= b && n > 0.0
    ensures a / n <= b / n
  {
    assert b / n - a / n == (b - a) / n;
  }

  /** `Fraction` grows with the segment and past a segment's end at the next index. */
  lemma FractionMono(i: nat, s: real, j: nat, t: real, n: nat)
    requires i < n && j < n && 0.0 <= s <= 1.0 && 0.0 <= t <= 1.0
    requires i < j || (i == j && s <= t)
    ensures Fraction(i, s, n) <= Fraction(j, t, n)
  {
    if i < j {
      DivMono((i + 1) as real, j as real, n as real);
    } else {
      DivMono(i as real + s, i as real + t, n as real);
    }
  }

  lemma MoveToNextSegmentProgress(p: Path, sqrtf: real -> real)
    requires Inv(p) && p.state == MovingToTarget && SegmentsDefined(p.targets, sqrtf)
    ensures Inv(MoveToNextSegment(p, sqrtf))
    ensures GetProgress(p) <= GetProgress(MoveToNextSegment(p, sqrtf))
  {
    MoveToNextSegmentInv(p, sqrtf);
    var r := MoveToNextSegment(p, sqrtf);
    if r.state == MovingToTarget {
      FractionMono(p.index, 0.0, r.index, 0.0, |p.targets|);
    } else if r.state == MovingBetweenTargets {
      FractionMono(p.index, 0.0, r.index, Ratio(r.step, r.totalSteps), |p.targets|);
    }
  }

  lemma UpdateGuidePointProgress(p: Path)
    requires Inv(p) && p.state == MovingBetweenTargets
    ensures Inv(UpdateGuidePoint(p))
    ensures GetProgress(p) <= GetProgress(UpdateGuidePoint(p))
  {
    UpdateGuidePointInv(p);
    var r := UpdateGuidePoint(p);
    var s := Ratio(p.step, p.totalSteps);
    if r.state == MovingToTarget {
      FractionMono(p.index, s, r.index, 0.0, |p.targets|);
    } else if r.state == MovingBetweenTargets {
      assert p.step < r.step;
      DivMono(p.step as real, r.step as real, p.totalSteps as real);
      FractionMono(p.index, s, r.index, Ratio(r.step, r.totalSteps), |p.targets|);
    }
  }

  /**
   * With the corrected progress, a check never moves the progress
   * backwards.
   */
  lemma ProgressMonotone(p: Path, current: Pose, out: Option<Point.PoseDiff>, sqrtf: real -> real)
    requires Inv(p) && SegmentsDefined(p.targets, sqrtf)
    ensures Inv(IsReached(p, current, out, sqrtf).path)
            && GetProgress(p) <= GetProgress(IsReached(p, current, out, sqrtf).path)
  {
    IsReachedInv(p, current, out, sqrtf);
    if p.state in {MovingToTarget, MovingBetweenTargets} {
      var c := Point.IsReached(p.guide, current, out, sqrtf);
      var q := p.(guide := c.point);
      assert Inv(q);
      if c.reached && p.state == MovingToTarget {
        MoveToNextSegmentProgress(q, sqrtf);
      } else if c.reached {
        UpdateGuidePointProgress(q);
      }
    }
  }

  /**
   * As written, progress can fall: targets at x = 0, 0.01 and 1 with guide
   * threshold 0, so the first segment is one step and the second twenty.
   * Once the first target is reached the path waits on the middle target
   * and reports 2/3; the next reached check starts the second segment and
   * reports 1/3 + 1/60.  (The targets are a parameter equal to `EXAMPLE`.)
   */
  lemma ProgressRegressesAsWritten(ts: seq<Option<Point.Point>>)
    requires ts == EXAMPLE
    ensures SegmentsDefined(ts, ExampleSqrt)
    ensures var p := MoveToNextSegment(StartPathAsWritten(New(ts, 0.02, 0.05, 0)), ExampleSqrt);
            p.state == MovingToTarget && p.index == 1 && Inv(p)
            && var q := IsReached(p, ts[1].value.target, None, ExampleSqrt).path;
               Inv(q) && q.state == MovingBetweenTargets && q.index == 1
               && GetProgressAsWritten(p) == 2.0 / 3.0
               && GetProgressAsWritten(q) == 1.0 / 3.0 + 1.0 / 60.0
               && GetProgressAsWritten(q) < GetProgressAsWritten(p)
  {
    ExampleSegments(ts);
    var p := ExampleAtMiddle(AsWritten, ts);
    var q := ExampleSecondSegment(ts, p);
    ExampleProgress(p);
    ExampleProgress(q);
  }

  /** The example's progress values, from the index and step counts alone. */
  lemma ExampleProgress(p: Path)
    requires Inv(p) && |p.targets| == 3 && p.state in {MovingToTarget, MovingBetweenTargets}
    requires p.index == 1 && p.step == 1 && p.totalSteps in {1, 20}
    ensures p.totalSteps == 1 ==> GetProgressAsWritten(p) == 2.0 / 3.0
    ensures p.totalSteps == 20 ==> GetProgressAsWritten(p) == 1.0 / 3.0 + 1.0 / 60.0
  {
    assert Ratio(1, 1) == 1.0;
    assert Fraction(1, 1.0, 3) == 2.0 / 3.0;
    assert Ratio(1, 20) == 1.0 / 20.0;
    assert Fraction(1, 1.0 / 20.0, 3) == 1.0 / 3.0 + 1.0 / 60.0;
  }

  /** Three targets on the x axis, at 0, 0.01 and 1, each with the default tolerance. */
  const EXAMPLE := [Some(Point.Point(Point.Pose(0.0, 0.0, 0.0, 0.0), Point.DefaultTolerance, 0)),
                    Some(Point.Point(Point.Pose(0.01, 0.0, 0.0, 0.0), Point.DefaultTolerance, 0)),
                    Some(Point.Point(Point.Pose(1.0, 0.0, 0.0, 0.0), Point.DefaultTolerance, 0))]

  /** The square roots the example needs: 0, 0.01 and 0.99. */
  function ExampleSqrt(s: real): (r: real)
    ensures r >= 0.0
    ensures s == 0.0 || s == 0.0001 || s == 0.99 * 0.99 ==> Mul(r, r) == s
  {
    if s == 0.0001 then 0.01 else if s == 0.99 * 0.99 then 0.99 else 0.0
  }

  /** The first segment, 0.01 long, is a single step. */
  lemma ExampleShortSegment(a: Pose, b: Pose)
    requires a == Point.Pose(0.0, 0.0, 0.0, 0.0) && b == Point.Pose(0.01, 0.0, 0.0, 0.0)
    ensures StepsDefined(a, b, ExampleSqrt) && InterpolationSteps(a, b, ExampleSqrt).total == 1
  {
    assert Point.SquaredDistance(Point.Diff(a, b, ExampleSqrt)) == 0.0001;
  }

  /** The second segment, 0.99 long, is twenty steps. */
  lemma ExampleLongSegment(a: Pose, b: Pose)
    requires a == Point.Pose(0.01, 0.0, 0.0, 0.0) && b == Point.Pose(1.0, 0.0, 0.0, 0.0)
    ensures StepsDefined(a, b, ExampleSqrt) && InterpolationSteps(a, b, ExampleSqrt).total == 20
  {
    var d := Point.Diff(a, b, ExampleSqrt);
    assert Point.SquaredDistance(d) == 0.99 * 0.99;
    assert d.distance == 0.99;
    assert Trunc(0.99 / GUIDE_POINT_INTERVAL + 0.5) == 20;
  }

  lemma ExampleFirstSteps(ts: seq<Option<Point.Point>>)
    requires ts == EXAMPLE
    ensures StepsDefined(ts[0].value.target, ts[1].value.target, ExampleSqrt)
            && InterpolationSteps(ts[0].value.target, ts[1].value.target, ExampleSqrt).total == 1
  {
    ExampleShortSegment(ts[0].value.target, ts[1].value.target);
  }

  lemma ExampleSecondSteps(ts: seq<Option<Point.Point>>)
    requires ts == EXAMPLE
    ensures StepsDefined(ts[1].value.target, ts[2].value.target, ExampleSqrt)
            && InterpolationSteps(ts[1].value.target, ts[2].value.target, ExampleSqrt).total == 20
  {
    ExampleLongSegment(ts[1].value.target, ts[2].value.target);
  }

  lemma ExampleSegments(ts: seq<Option<Point.Point>>)
    requires ts == EXAMPLE
    ensures SegmentsDefined(ts, ExampleSqrt) && AllPresent(ts)
  {
    forall i | 0 <= i < |ts|
      ensures ts[i].Some?
    {
      if i == 0 {
      } else if i == 1 {
      } else {
        assert i == 2;
      }
    }
    forall i: nat | i + 1 < |ts|
      ensures SegmentDefined(ts, i, ExampleSqrt)
    {
      if i == 0 {
        ExampleFirstSteps(ts);
      } else {
        ExampleSecondSteps(ts);
      }
    }
  }

  /** After the first target is reached the path waits on the middle one. */
  lemma ExampleAtMiddle(v: Version, ts: seq<Option<Point.Point>>) returns (p: Path)
    requires ts == EXAMPLE
    ensures SegmentsDefined(ts, ExampleSqrt)
    ensures p == MoveToNextSegment(Start(v, New(ts, 0.02, 0.05, 0)), ExampleSqrt)
    ensures Inv(p) && p.targets == ts && p.state == MovingToTarget
    ensures p.index == 1 && p.step == 1 && p.totalSteps == 1
    ensures p.guide == Point.Point(ts[1].value.target, Point.Tolerance(0.02, 0.05, 0), 0)
  {
    ExampleSegments(ts);
    ExampleFirstSteps(ts);
    var n := New(ts, 0.02, 0.05, 0);
    assert Inv(n);
    var p0 := Start(v, n);
    assert Inv(p0);
    assert p0.index == 0 && p0.state == MovingToTarget && p0.targets == ts;
    var e := EnterSegment(p0, InterpolationSteps(ts[0].value.target, ts[1].value.target, ExampleSqrt));
    assert e.step == 0 && e.totalSteps == 1 && e.index == 0;
    p := UpdateGuidePoint(e);
    MoveToNextSegmentInv(p0, ExampleSqrt);
  }

  /** A guide with threshold 0 is reached by one check exactly on it. */
  lemma ExampleGuideReached(g: Point.Point, here: Pose)
    requires g == Point.Point(here, Point.Tolerance(0.02, 0.05, 0), 0)
    ensures Point.IsReached(g, here, None, ExampleSqrt).reached
  {
    Point.AtTargetWithin(g.tolerance, here, ExampleSqrt);
  }

  /** The next reached check on the middle target starts the twenty-step segment. */
  lemma ExampleSecondSegment(ts: seq<Option<Point.Point>>, p: Path) returns (q: Path)
    requires ts == EXAMPLE && SegmentsDefined(ts, ExampleSqrt)
    requires Inv(p) && p.targets == ts && p.state == MovingToTarget && p.index == 1
    requires p.guide == Point.Point(ts[1].value.target, Point.Tolerance(0.02, 0.05, 0), 0)
    ensures q == IsReached(p, ts[1].value.target, None, ExampleSqrt).path
    ensures Inv(q) && q.state == MovingBetweenTargets && q.index == 1 && q.step == 1 && q.totalSteps == 20
  {
    ExampleSecondSteps(ts);
    var here := ts[1].value.target;
    ExampleGuideReached(p.guide, here);
    var c := Point.IsReached(p.guide, here, None, ExampleSqrt);
    var g := p.(guide := c.point);
    var e := EnterSegment(g, InterpolationSteps(here, ts[2].value.target, ExampleSqrt));
    assert e.step == 0 && e.totalSteps == 20 && e.index == 1;
    q := UpdateGuidePoint(e);
    assert q == MoveToNextSegment(g, ExampleSqrt);
    IsReachedInv(p, here, None, ExampleSqrt);
  }
}

=== FILE: pid.dfy ===
/**
 * The PID controller (`pid.cpp`): position and incremental forms, P/PI/PD/PID
 * variants, an error deadband for the integral, integral separation,
 * anti-windup and an integral limit, an optional biquad low-pass on the
 * differential, and an output limit.  Floats are reals.  The biquad
 * coefficient design uses sine and cosine and is a parameter (`designed`).
 */
module Pid {
  import opened CTypes
  import opened Wrappers

  datatype Mode = Position | Incremental
  datatype Kind = KindP | KindPI | KindPD | KindPID

  predicate UsesIntegral(k: Kind) { k == KindPI || k == KindPID }
  predicate UsesDifferential(k: Kind) { k == KindPD || k == KindPID }

  /** Direct-form biquad coefficients, already divided by a0. */
  datatype Biquad = Biquad(b0: real, b1: real, b2: real, a1: real, a2: real)

  /** The coefficients that pass the input through unchanged. */
  const Passthrough := Biquad(1.0, 0.0, 0.0, 0.0, 0.0)

  datatype Config = Config(
    kp: real, ki: real, kd: real,
    maxOutput: real, maxIntegral: real,
    separation: real, deadband: real,
    antiSaturation: bool, filterEnabled: bool,
    samplingFreq: real, cutoffFreq: real, q: real)

  datatype Status = Status(
    target: real, actual: real,
    error: real, lastError: real, prevError: real,
    integral: real, differential: real, output: real,
    coeffs: Biquad, d1: real, d2: real)

  datatype Pid = Pid(config: Config, status: Status)

  /**
   * `PID_UpdateDifferentialFilterCoefficients`: the designed low-pass when the
   * cutoff is below the Nyquist frequency, the pass-through otherwise.
   */
  function Coefficients(c: Config, designed: Biquad): (r: Biquad)
    ensures c.cutoffFreq < c.samplingFreq / 2.0 ==> r == designed
    ensures !(c.cutoffFreq < c.samplingFreq / 2.0) ==> r == Passthrough
  {
    if c.cutoffFreq < c.samplingFreq / 2.0 then designed else Passthrough
  }

  /**
   * `PID_Init` (and the C++ constructor): every status value and the filter
   * state are 0, and the filter coefficients are the pass-through unless the
   * filter is enabled.
   */
  function Init(c: Config, designed: Biquad): (p: Pid)
    ensures p.config == c
    ensures p.status.target == 0.0 && p.status.actual == 0.0
    ensures p.status.output == 0.0 && p.status.integral == 0.0 && p.status.differential == 0.0
    ensures p.status.error == 0.0 && p.status.lastError == 0.0 && p.status.prevError == 0.0
    ensures p.status.d1 == 0.0 && p.status.d2 == 0.0
    ensures p.status.coeffs ==
              if c.filterEnabled && c.cutoffFreq < c.samplingFreq / 2.0 then designed else Passthrough
  {
    Pid(c, Status(0.0, 0.0, 0.0, 0.0, 0.0, 0.0, 0.0, 0.0,
                  if c.filterEnabled then Coefficients(c, designed) else Passthrough, 0.0, 0.0))
  }

  /** `PID_SetTarget`: only the target changes. */
  function SetTarget(p: Pid, target: real): (r: Pid)
    ensures r.config == p.config && r.status == p.status.(target := r.status.target)
    ensures r.status.target == target
  {
    p.(status := p.status.(target := target))
  }

  /** One step of `PID_BiquadLPFilter`: the filtered value and the new filter state. */
  function BiquadStep(s: Status, x: real): (r: (real, Status))
    ensures r.1 == s.(d1 := r.1.d1, d2 := r.1.d2)
    ensures s.coeffs == Passthrough && s.d1 == 0.0 && s.d2 == 0.0 ==> r.0 == x && r.1 == s
  {
    var c := s.coeffs;
    var y := c.b0 * x + s.d1;
    (y, s.(d1 := c.b1 * x - c.a1 * y + s.d2, d2 := c.b2 * x - c.a2 * y))
  }

  /** The error the integral accumulates: 0 inside the deadband. */
  function IntegralError(c: Config, error: real): (e: real)
    ensures Abs(error) <= c.deadband ==> e == 0.0
    ensures Abs(error) > c.deadband ==> e == error
  {
    if Abs(error) <= c.deadband then 0.0 else error
  }

  /** Whether integral separation lets the integral change at this error. */
  predicate SeparationPasses(c: Config, error: real)
  {
    c.separation <= 0.0 || Abs(error) < c.separation
  }

  /**
   * The integral after one update: for PI/PID with `ki != 0` and separation
   * passed, the deadbanded error is added unless anti-windup holds it back
   * at a saturated output, and then `ki * integral` is limited to
   * `[-maxIntegral, maxIntegral]`.  Otherwise it is unchanged.
   */
  function NextIntegral(c: Config, kind: Kind, integral: real, output: real, error: real): (r: real)
    ensures !(UsesIntegral(kind) && c.ki != 0.0 && SeparationPasses(c, error)) ==> r == integral
    ensures UsesIntegral(kind) && c.ki != 0.0 && SeparationPasses(c, error) && c.maxIntegral >= 0.0 ==>
      -c.maxIntegral <= r * c.ki <= c.maxIntegral
    ensures Abs(error) <= c.deadband ==>
      r == integral || r * c.ki == c.maxIntegral || r * c.ki == -c.maxIntegral
  {
    if UsesIntegral(kind) && c.ki != 0.0 && SeparationPasses(c, error) then
      var held := c.antiSaturation && !(output < c.maxOutput && output > -c.maxOutput);
      LimitIntegral(if held then integral else integral + IntegralError(c, error), c.ki, c.maxIntegral)
    else integral
  }

  /** The integral limit: `ki * acc` is kept within `[-maxIntegral, maxIntegral]`. */
  function LimitIntegral(acc: real, ki: real, maxIntegral: real): (r: real)
    requires ki != 0.0
    ensures maxIntegral >= 0.0 ==> -maxIntegral <= r * ki <= maxIntegral
    ensures r == acc || r * ki == maxIntegral || r * ki == -maxIntegral
  {
    if acc * ki > maxIntegral then maxIntegral / ki
    else if acc * ki < -maxIntegral then -maxIntegral / ki
    else acc
  }

  /** The integral depends on the integral settings only, not on `kp` or `kd`. */
  lemma NextIntegralSettings(c: Config, d: Config, kind: Kind, integral: real, output: real, error: real)
    requires c.ki == d.ki && c.maxOutput == d.maxOutput && c.maxIntegral == d.maxIntegral
    requires c.separation == d.separation && c.deadband == d.deadband && c.antiSaturation == d.antiSaturation
    ensures NextIntegral(c, kind, integral, output, error) == NextIntegral(d, kind, integral, output, error)
  {
    assert IntegralError(c, error) == IntegralError(d, error);
    assert SeparationPasses(c, error) == SeparationPasses(d, error);
  }

  /** The output limit: above `maxOutput` gives `maxOutput`, below `-maxOutput` gives `-maxOutput`. */
  function Limit(c: Config, v: real): (r: real)
    ensures c.maxOutput >= 0.0 ==> -c.maxOutput <= r <= c.maxOutput
    ensures c.maxOutput >= 0.0 && -c.maxOutput <= v <= c.maxOutput ==> r == v
    ensures c.maxOutput >= 0.0 && v > c.maxOutput ==> r == c.maxOutput
    ensures c.maxOutput >= 0.0 && v < -c.maxOutput ==> r == -c.maxOutput
  {
    if v > c.maxOutput then c.maxOutput
    else if v < -c.maxOutput then -c.maxOutput
    else v
  }

  /**
   * The differential for PD/PID: the raw error change, low-pass filtered when
   * the filter is on and `kd != 0`.  P and PI set it to 0.
   */
  function Differentiate(c: Config, s: Status, kind: Kind, raw: real): (r: Status)
    ensures r == s.(differential := r.differential, d1 := r.d1, d2 := r.d2)
    ensures !UsesDifferential(kind) ==> r == s.(differential := 0.0)
    ensures UsesDifferential(kind) && !(c.filterEnabled && c.kd != 0.0) ==> r == s.(differential := raw)
  {
    if UsesDifferential(kind) then
      if c.filterEnabled && c.kd != 0.0 then
        var f := BiquadStep(s, raw);
        f.1.(differential := f.0)
      else s.(differential := raw)
    else s.(differential := 0.0)
  }

  /** The output before the limit. */
  function RawOutput(c: Config, s: Status, mode: Mode, kind: Kind, error: real): real
  {
    match mode
    case Position =>
      c.kp * error
      + (if UsesIntegral(kind) then c.ki * s.integral else 0.0)
      + (if UsesDifferential(kind) then c.kd * s.differential else 0.0)
    case Incremental =>
      s.output + c.kp * (error - s.lastError)
      + (if UsesIntegral(kind) then c.ki * IntegralError(c, error) else 0.0)
      + (if UsesDifferential(kind) then c.kd * (error - 2.0 * s.lastError + s.prevError) else 0.0)
  }

  /**
   * `PID_Update`: records the measurement and the error, updates the integral
   * and the (possibly filtered) differential, computes the output for the
   * mode, limits it, and shifts the error history.  The answer is the new
   * output.
   */
  function Update(p: Pid, actual: real, mode: Mode, kind: Kind): (r: (Pid, real))
    ensures var s := r.0.status;
            r.0.config == p.config && r.1 == s.output && s.target == p.status.target &&
            s.actual == actual && s.error == p.status.target - actual &&
            s.prevError == p.status.lastError && s.lastError == s.error
    ensures p.config.maxOutput >= 0.0 ==> -p.config.maxOutput <= r.1 <= p.config.maxOutput
    ensures !UsesDifferential(kind) ==> r.0.status.differential == 0.0 && r.0.status.coeffs == p.status.coeffs &&
                                         r.0.status.d1 == p.status.d1 && r.0.status.d2 == p.status.d2
    ensures UsesDifferential(kind) && !(p.config.filterEnabled && p.config.kd != 0.0) ==>
      r.0.status.differential == r.0.status.error - p.status.lastError
    ensures r.0.status.integral == NextIntegral(p.config, kind, p.status.integral, p.status.output, r.0.status.error)
  {
    var c := p.config;
    var error := p.status.target - actual;
    var s1 := p.status.(actual := actual, error := error,
                        integral := NextIntegral(c, kind, p.status.integral, p.status.output, error));
    var s2 := Differentiate(c, s1, kind, error - p.status.lastError);
    var out := Limit(c, RawOutput(c, s2, mode, kind, error));
    var s3 := s2.(output := out, prevError := p.status.lastError, lastError := error);
    (Pid(c, s3), out)
  }

  /** A P controller in position form outputs `kp * (target - actual)`, limited. */
  lemma ProportionalOnly(p: Pid, actual: real)
    requires p.config.maxOutput >= 0.0
    ensures var out := Update(p, actual, Position, KindP).1;
            var v := p.config.kp * (p.status.target - actual);
            (-p.config.maxOutput <= v <= p.config.maxOutput ==> out == v) &&
            (v > p.config.maxOutput ==> out == p.config.maxOutput) &&
            (v < -p.config.maxOutput ==> out == -p.config.maxOutput)
  {
  }

  /** P and PI controllers ignore `kd`: changing it changes nothing in the update. */
  lemma NoDifferentialTerm(p: Pid, actual: real, mode: Mode, kind: Kind, kd: real)
    requires !UsesDifferential(kind)
    ensures var q := p.(config := p.config.(kd := kd));
            Update(q, actual, mode, kind).1 == Update(p, actual, mode, kind).1 &&
            Update(q, actual, mode, kind).0.status == Update(p, actual, mode, kind).0.status
  {
    var q := p.(config := p.config.(kd := kd));
    var error := p.status.target - actual;
    var s1 := p.status.(actual := actual, error := error,
                        integral := NextIntegral(p.config, kind, p.status.integral, p.status.output, error));
    NextIntegralSettings(q.config, p.config, kind, p.status.integral, p.status.output, error);
    var s2 := s1.(differential := 0.0);
    RawOutputGains(q.config, p.config, s2, mode, kind, error);
    UpdateSteps(p, actual, mode, kind, s2);
    UpdateSteps(q, actual, mode, kind, s2);
  }

  /** A P or PD controller ignores `ki` and keeps its integral. */
  lemma NoIntegralTerm(p: Pid, actual: real, mode: Mode, kind: Kind, ki: real)
    requires !UsesIntegral(kind)
    ensures var q := p.(config := p.config.(ki := ki));
            Update(q, actual, mode, kind).1 == Update(p, actual, mode, kind).1 &&
            Update(p, actual, mode, kind).0.status.integral == p.status.integral
  {
    var q := p.(config := p.config.(ki := ki));
    var error := p.status.target - actual;
    var s1 := p.status.(actual := actual, error := error);
    var s2 := Differentiate(p.config, s1, kind, error - p.status.lastError);
    assert Differentiate(q.config, s1, kind, error - p.status.lastError) == s2;
    RawOutputGains(q.config, p.config, s2, mode, kind, error);
    UpdateSteps(p, actual, mode, kind, s2);
    UpdateSteps(q, actual, mode, kind, s2);
  }

  /** Gains whose term the kind leaves out do not affect the output. */
  lemma RawOutputGains(c: Config, d: Config, s: Status, mode: Mode, kind: Kind, error: real)
    requires c.kp == d.kp && c.deadband == d.deadband
    requires UsesIntegral(kind) ==> c.ki == d.ki
    requires UsesDifferential(kind) ==> c.kd == d.kd
    ensures RawOutput(c, s, mode, kind, error) == RawOutput(d, s, mode, kind, error)
  {
  }

  /** `Update` split into its steps, given the status after the integral and differential steps. */
  lemma UpdateSteps(p: Pid, actual: real, mode: Mode, kind: Kind, s2: Status)
    requires var error := p.status.target - actual;
             s2 == Differentiate(p.config,
                     p.status.(actual := actual, error := error,
                               integral := NextIntegral(p.config, kind, p.status.integral, p.status.output, error)),
                     kind, error - p.status.lastError)
    ensures var error := p.status.target - actual;
            var out := Limit(p.config, RawOutput(p.config, s2, mode, kind, error));
            Update(p, actual, mode, kind) ==
              (Pid(p.config, s2.(output := out, prevError := p.status.lastError, lastError := error)), out)
  {
  }

  /**
   * The incremental P controller: when neither update hits the limit, the
   * output after two steps is the start output plus `kp` times the change in
   * error across both, the increments telescoping.
   */
  lemma IncrementalTelescopes(p: Pid, a1: real, a2: real)
    requires p.config.maxOutput >= 0.0
    requires var o := RawOutput(p.config, p.status, Incremental, KindP, p.status.target - a1);
             -p.config.maxOutput <= o <= p.config.maxOutput
    requires var p1 := Update(p, a1, Incremental, KindP).0;
             var o := RawOutput(p1.config, p1.status, Incremental, KindP, p1.status.target - a2);
             -p.config.maxOutput <= o <= p.config.maxOutput
    ensures var p1 := Update(p, a1, Incremental, KindP).0;
            Update(p1, a2, Incremental, KindP).1 ==
              p.status.output + p.config.kp * ((p.status.target - a2) - p.status.lastError)
  {
    var c := p.config;
    var e1, e2 := p.status.target - a1, p.status.target - a2;
    IncrementalStep(p, a1);
    var p1 := Update(p, a1, Incremental, KindP).0;
    IncrementalStep(p1, a2);
    assert c.kp * (e1 - p.status.lastError) + c.kp * (e2 - e1) == c.kp * (e2 - p.status.lastError);
  }

  /** One unsaturated step of the incremental P controller adds `kp` times the error change. */
  lemma IncrementalStep(p: Pid, actual: real)
    requires p.config.maxOutput >= 0.0
    requires var o := RawOutput(p.config, p.status, Incremental, KindP, p.status.target - actual);
             -p.config.maxOutput <= o <= p.config.maxOutput
    ensures var r := Update(p, actual, Incremental, KindP);
            var e := p.status.target - actual;
            r.1 == p.status.output + p.config.kp * (e - p.status.lastError) && r.0.status.output == r.1
            && r.0.config == p.config && r.0.status.target == p.status.target && r.0.status.lastError == e
  {
    var c := p.config;
    var error := p.status.target - actual;
    var s1 := p.status.(actual := actual, error := error);
    assert NextIntegral(c, KindP, p.status.integral, p.status.output, error) == p.status.integral;
    assert s1 == p.status.(actual := actual, error := error,
                           integral := NextIntegral(c, KindP, p.status.integral, p.status.output, error));
    var s2 := s1.(differential := 0.0);
    assert Differentiate(c, s1, KindP, error - p.status.lastError) == s2;
    UpdateSteps(p, actual, Incremental, KindP, s2);
    assert RawOutput(c, s2, Incremental, KindP, error) == RawOutput(c, p.status, Incremental, KindP, error);
  }

  /**
   * `PID_Reset`: errors, integral, differential, output and filter state are
   * zeroed; the target, the measurement, the filter coefficients and the
   * configuration are kept.
   */
  function Reset(p: Pid): (r: Pid)
    ensures r.config == p.config
    ensures r.status == p.status.(error := 0.0, lastError := 0.0, prevError := 0.0, integral := 0.0,
                                  differential := 0.0, output := 0.0, d1 := 0.0, d2 := 0.0)
  {
    var s := p.status;
    Pid(p.config, Status(s.target, s.actual, 0.0, 0.0, 0.0, 0.0, 0.0, 0.0, s.coeffs, 0.0, 0.0))
  }

  /** After a reset, a position-form controller of any kind at its target outputs 0. */
  lemma ResetAtTarget(p: Pid, kind: Kind)
    requires p.config.maxOutput >= 0.0 && p.config.maxIntegral >= 0.0
    ensures Update(Reset(p), p.status.target, Position, kind).1 == 0.0
  {
    var r := Reset(p);
    var q := Update(r, p.status.target, Position, kind).0;
    assert q.status.error == 0.0;
  }

  /** Resetting twice is resetting once. */
  lemma ResetIdempotent(p: Pid)
    ensures Reset(Reset(p)) == Reset(p)
  {
  }

  /** `PID_ClearIntegral`: only the integral changes, to 0. */
  function ClearIntegral(p: Pid): (r: Pid)
    ensures r.config == p.config && r.status == p.status.(integral := 0.0)
  {
    p.(status := p.status.(integral := 0.0))
  }

  /** `PID_SetLimits`: a non-positive argument leaves its limit unchanged; nothing else changes. */
  function SetLimits(p: Pid, maxOutput: real, maxIntegral: real): (r: Pid)
    ensures r.status == p.status
    ensures r.config == p.config.(maxOutput := r.config.maxOutput, maxIntegral := r.config.maxIntegral)
    ensures maxOutput > 0.0 ==> r.config.maxOutput == maxOutput
    ensures maxOutput <= 0.0 ==> r.config.maxOutput == p.config.maxOutput
    ensures maxIntegral > 0.0 ==> r.config.maxIntegral == maxIntegral
    ensures maxIntegral <= 0.0 ==> r.config.maxIntegral == p.config.maxIntegral
    ensures p.config.maxOutput > 0.0 ==> r.config.maxOutput > 0.0
    ensures p.config.maxIntegral > 0.0 ==> r.config.maxIntegral > 0.0
  {
    var c := p.config;
    p.(config := c.(maxOutput := if maxOutput > 0.0 then maxOutput else c.maxOutput,
                    maxIntegral := if maxIntegral > 0.0 then maxIntegral else c.maxIntegral))
  }

  /** `PID_SetErrorDeadband`: negative values become 0. */
  function SetErrorDeadband(p: Pid, deadband: real): (r: Pid)
    ensures r.status == p.status && r.config == p.config.(deadband := r.config.deadband)
    ensures r.config.deadband >= 0.0
    ensures deadband >= 0.0 <==> r.config.deadband == deadband
    ensures deadband < 0.0 ==> r.config.deadband == 0.0
  {
    p.(config := p.config.(deadband := if deadband >= 0.0 then deadband else 0.0))
  }

  /** `PID_SetIntegralSeparation`: negative values become 0, which switches separation off. */
  function SetIntegralSeparation(p: Pid, threshold: real): (r: Pid)
    ensures r.status == p.status && r.config == p.config.(separation := r.config.separation)
    ensures r.config.separation >= 0.0
    ensures threshold >= 0.0 <==> r.config.separation == threshold
    ensures threshold <= 0.0 ==> forall e :: SeparationPasses(r.config, e)
  {
    p.(config := p.config.(separation := if threshold >= 0.0 then threshold else 0.0))
  }

  /** `PID_SetAntiSaturation` and `PID_SetParams`: only the named settings change. */
  function SetAntiSaturation(p: Pid, enabled: bool): (r: Pid)
    ensures r.status == p.status && r.config == p.config.(antiSaturation := enabled)
  {
    p.(config := p.config.(antiSaturation := enabled))
  }

  function SetParams(p: Pid, kp: real, ki: real, kd: real): (r: Pid)
    ensures r.status == p.status && r.config == p.config.(kp := kp, ki := ki, kd := kd)
  {
    p.(config := p.config.(kp := kp, ki := ki, kd := kd))
  }

  /**
   * `PID_InitDifferentialFilter`: stores the filter settings, recomputes the
   * coefficients, clears the filter state and enables the filter.
   */
  function InitDifferentialFilter(p: Pid, samplingFreq: real, cutoffFreq: real, q: real, designed: Biquad): (r: Pid)
    ensures r.config == p.config.(samplingFreq := samplingFreq, cutoffFreq := cutoffFreq, q := q, filterEnabled := true)
    ensures r.status == p.status.(coeffs := r.status.coeffs, d1 := 0.0, d2 := 0.0)
    ensures cutoffFreq < samplingFreq / 2.0 ==> r.status.coeffs == designed
    ensures !(cutoffFreq < samplingFreq / 2.0) ==> r.status.coeffs == Passthrough
  {
    var c := p.config.(samplingFreq := samplingFreq, cutoffFreq := cutoffFreq, q := q);
    Pid(c.(filterEnabled := true), p.status.(coeffs := Coefficients(c, designed), d1 := 0.0, d2 := 0.0))
  }

  /**
   * `PID_SetDifferentialFilter`: sets the enable flag; when enabling with a
   * positive cutoff, stores it and recomputes the coefficients.
   */
  function SetDifferentialFilter(p: Pid, enabled: bool, cutoffFreq: real, designed: Biquad): (r: Pid)
    ensures r.config.filterEnabled == enabled
    ensures !(enabled && cutoffFreq > 0.0) ==> r == p.(config := p.config.(filterEnabled := enabled))
    ensures enabled && cutoffFreq > 0.0 ==>
      r.config == p.config.(filterEnabled := true, cutoffFreq := cutoffFreq) &&
      r.status == p.status.(coeffs := Coefficients(r.config, designed))
  {
    var c := p.config.(filterEnabled := enabled);
    if enabled && cutoffFreq > 0.0 then
      var c2 := c.(cutoffFreq := cutoffFreq);
      Pid(c2, p.status.(coeffs := Coefficients(c2, designed)))
    else Pid(c, p.status)
  }

  /** `PID_Update` on a possibly NULL controller: NULL answers 0 and stays NULL. */
  function UpdateNullable(h: Option<Pid>, actual: real, mode: Mode, kind: Kind): (r: (Option<Pid>, real))
    ensures h.None? ==> r == (None, 0.0)
    ensures h.Some? ==> r.0.Some? && r.0.value.status.actual == actual && r.1 == r.0.value.status.output
  {
    match h
    case None => (None, 0.0)
    case Some(p) => var u := Update(p, actual, mode, kind); (Some(u.0), u.1)
  }
  /**
   * `PidController::update(target, actual)` with its default arguments: set
   * the target, then run a position-form PID update.
   */
  function ControllerUpdate(p: Pid, target: real, actual: real): (r: (Pid, real))
    ensures r.0.config == p.config && r.1 == r.0.status.output
    ensures r.0.status.target == target && r.0.status.actual == actual && r.0.status.error == target - actual
    ensures p.config.maxOutput >= 0.0 ==> -p.config.maxOutput <= r.1 <= p.config.maxOutput
  {
    Update(SetTarget(p, target), actual, Position, KindPID)
  }
}

=== FILE: point.dfy ===
/**
 * A target point with a settling counter (`point.cpp`): a pose counts as
 * reached once it has stayed within a distance and yaw tolerance for more
 * than `threshold` consecutive checks.  The square root is a parameter.
 */
module Point {
  import opened CTypes
  import opened Wrappers
  import opened MathConst
  import MathAngle

  datatype Pose = Pose(x: real, y: real, z: real, yaw: real)

  datatype PoseDiff = PoseDiff(dx: real, dy: real, dz: real, dyaw: real, distance: real)

  datatype Tolerance = Tolerance(errR: real, errYaw: real, threshold: nat)

  datatype Point = Point(target: Pose, tolerance: Tolerance, counter: nat)

  const Origin := Pose(0.0, 0.0, 0.0, 0.0)

  /** `ToleranceParams()`: 0.1 m, 0.1 rad, 10 checks. */
  const DefaultTolerance := Tolerance(0.1, 0.1, 10)

  predicate Valid(p: Point) {
    IsU32(p.tolerance.threshold) && IsU32(p.counter)
  }

  /** The default constructor. */
  function Default(): (p: Point)
    ensures Valid(p) && p.counter == 0 && p.target == Origin
  {
    Point(Origin, DefaultTolerance, 0)
  }

  /** The parameter constructor: the counter starts at 0. */
  function New(target: Pose, tolerance: Tolerance): (p: Point)
    requires IsU32(tolerance.threshold)
    ensures Valid(p) && p.counter == 0 && p.target == target && p.tolerance == tolerance
  {
    Point(target, tolerance, 0)
  }

  /** `setTargetPose`: a new target restarts the settling count. */
  function SetTargetPose(p: Point, target: Pose): (r: Point)
    ensures r.target == target && r.counter == 0 && r.tolerance == p.tolerance
  {
    p.(target := target, counter := 0)
  }

  /** `setErrorTolerance`: distance and yaw tolerances, threshold kept. */
  function SetErrorTolerance(p: Point, errR: real, errYaw: real): (r: Point)
    ensures r == p.(tolerance := Tolerance(errR, errYaw, p.tolerance.threshold))
  {
    p.(tolerance := p.tolerance.(errR := errR, errYaw := errYaw))
  }

  function SetToleranceParams(p: Point, tolerance: Tolerance): (r: Point)
    ensures r == p.(tolerance := tolerance)
  {
    p.(tolerance := tolerance)
  }

  function SetThreshold(p: Point, threshold: nat): (r: Point)
    ensures r == p.(tolerance := p.tolerance.(threshold := threshold))
  {
    p.(tolerance := p.tolerance.(threshold := threshold))
  }

  function ResetCounter(p: Point): (r: Point)
    ensures r == p.(counter := 0)
  {
    p.(counter := 0)
  }

  function SquaredDistance(d: PoseDiff): real {
    d.dx * d.dx + d.dy * d.dy + d.dz * d.dz
  }

  /**
   * `calculatePoseDiff`: target minus current per axis, the yaw difference
   * normalised to [-PI, PI), and the Euclidean distance.
   */
  function Diff(current: Pose, target: Pose, sqrtf: real -> real): (d: PoseDiff)
    ensures d.dx == target.x - current.x && d.dy == target.y - current.y && d.dz == target.z - current.z
    ensures -PI <= d.dyaw < PI && Congruent(d.dyaw, target.yaw - current.yaw, TWO_PI)
    ensures d.distance == sqrtf(SquaredDistance(d))
  {
    var dx := target.x - current.x;
    var dy := target.y - current.y;
    var dz := target.z - current.z;
    var dyaw := MathAngle.NormalizeRadianPi(target.yaw - current.yaw);
    var squared := dx * dx + dy * dy + dz * dz;
    var d := PoseDiff(dx, dy, dz, dyaw, sqrtf(squared));
    assert SquaredDistance(d) == squared;
    d
  }

  /** `isWithinTolerance`: distance within `errR` and |dyaw| within `errYaw`. */
  predicate Within(t: Tolerance, d: PoseDiff) {
    d.distance <= t.errR && Abs(d.dyaw) <= t.errYaw
  }

  /**
   * Without the square root: with a non-negative distance tolerance and a
   * square root that is exact at this point, the check is on the squared
   * distance.
   */
  lemma WithinSquared(t: Tolerance, current: Pose, target: Pose, sqrtf: real -> real)
    requires t.errR >= 0.0
    requires var s := SquaredDistance(Diff(current, target, sqrtf));
             sqrtf(s) >= 0.0 && sqrtf(s) * sqrtf(s) == s
    ensures var d := Diff(current, target, sqrtf);
            Within(t, d) <==> SquaredDistance(d) <= t.errR * t.errR && Abs(d.dyaw) <= t.errYaw
  {
    var d := Diff(current, target, sqrtf);
    var q := sqrtf(SquaredDistance(d));
    SquareMonotone(q, t.errR);
    SquareMonotone(t.errR, q);
  }

  lemma SquareMonotone(a: real, b: real)
    requires 0.0 <= a && 0.0 <= b
    ensures a <= b <==> a * a <= b * b
  {
    if a <= b {
      assert (b - a) * (a + b) >= 0.0;
    } else {
      var d, e := a - b, a + b;
      assert d > 0.0 && e > 0.0;
      assert d * e > 0.0;
      assert d * e == a * a - b * b;
    }
  }

  /** Standing exactly on the target is within any non-negative tolerance. */
  lemma AtTargetWithin(t: Tolerance, target: Pose, sqrtf: real -> real)
    requires t.errR >= 0.0 && t.errYaw >= 0.0 && sqrtf(0.0) == 0.0
    ensures Within(t, Diff(target, target, sqrtf))
  {
    assert target.yaw - target.yaw == 0.0;
    assert 0.0 - 0.0 == Times(0, TWO_PI);
    MathAngle.NormalizeRadianPiUnique(0.0, 0.0);
    assert target.x - target.x == 0.0 && target.y - target.y == 0.0 && target.z - target.z == 0.0;
  }

  /** A negative distance tolerance can never be met by a non-negative square root. */
  lemma NegativeToleranceNeverWithin(t: Tolerance, current: Pose, target: Pose, sqrtf: real -> real)
    requires t.errR < 0.0
    requires sqrtf(SquaredDistance(Diff(current, target, sqrtf))) >= 0.0
    ensures !Within(t, Diff(current, target, sqrtf))
  {
  }

  /** What `isReached` produces: the point, the answer, and the caller's diff output. */
  datatype Check = Check(point: Point, reached: bool, out: Option<PoseDiff>)

  /**
   * `isReached`: the diff goes to a non-null output; within tolerance the
   * counter steps (32-bit) and the answer is whether it passed the
   * threshold, otherwise the counter is cleared and the answer is false.
   */
  function IsReached(p: Point, current: Pose, out: Option<PoseDiff>, sqrtf: real -> real): (r: Check)
    requires Valid(p)
    ensures Valid(r.point) && r.point.target == p.target && r.point.tolerance == p.tolerance
    ensures out.None? ==> r.out.None?
    ensures out.Some? ==> r.out == Some(Diff(current, p.target, sqrtf))
    ensures Within(p.tolerance, Diff(current, p.target, sqrtf)) ==>
              r.point.counter == Wrap32(p.counter + 1) && (r.reached <==> r.point.counter > p.tolerance.threshold)
    ensures !Within(p.tolerance, Diff(current, p.target, sqrtf)) ==> r.point.counter == 0 && !r.reached
  {
    var d := Diff(current, p.target, sqrtf);
    var o := if out.Some? then Some(d) else None;
    if Within(p.tolerance, d) then
      var c := Wrap32(p.counter + 1);
      Check(p.(counter := c), c > p.tolerance.threshold, o)
    else Check(p.(counter := 0), false, o)
  }

  /** Feeds a sequence of poses to `isReached`; the answer is that of the last call. */
  function Run(p: Point, poses: seq<Pose>, sqrtf: real -> real): (r: (Point, bool))
    requires Valid(p)
    ensures Valid(r.0)
    ensures r.0.target == p.target && r.0.tolerance == p.tolerance
    decreases |poses|
  {
    if |poses| == 0 then (p, false)
    else
      var c := IsReached(p, poses[0], None, sqrtf);
      if |poses| == 1 then (c.point, c.reached) else Run(c.point, poses[1..], sqrtf)
  }

  /** The number of poses at the end of `poses` that are within tolerance of `target`. */
  function TrailingWithin(t: Tolerance, target: Pose, poses: seq<Pose>, sqrtf: real -> real): (n: nat)
    ensures n <= |poses|
    decreases |poses|
  {
    if |poses| == 0 then 0
    else if Within(t, Diff(poses[|poses| - 1], target, sqrtf)) then
      TrailingWithin(t, target, poses[..|poses| - 1], sqrtf) + 1
    else 0
  }

  lemma {:induction false} RunSplit(p: Point, poses: seq<Pose>, sqrtf: real -> real)
    requires Valid(p) && |poses| >= 1
    ensures var last := IsReached(Run(p, poses[..|poses| - 1], sqrtf).0, poses[|poses| - 1], None, sqrtf);
            Run(p, poses, sqrtf) == (last.point, last.reached)
    decreases |poses|
  {
    if |poses| > 1 {
      var c := IsReached(p, poses[0], None, sqrtf);
      assert poses[1..][..|poses[1..]| - 1] == poses[..|poses| - 1][1..];
      RunSplit(c.point, poses[1..], sqrtf);
    }
  }

  /**
   * From a cleared counter, the counter after a run is the number of
   * trailing within-tolerance poses, so the last call reports the target
   * reached exactly when more than `threshold` consecutive poses at the end
   * were within tolerance.
   */
  lemma {:induction false} RunCountsConsecutive(p: Point, poses: seq<Pose>, sqrtf: real -> real)
    requires Valid(p) && p.counter == 0 && |poses| < U32
    ensures Run(p, poses, sqrtf).0.counter == TrailingWithin(p.tolerance, p.target, poses, sqrtf)
    ensures Run(p, poses, sqrtf).1 <==> TrailingWithin(p.tolerance, p.target, poses, sqrtf) > p.tolerance.threshold
    decreases |poses|
  {
    if |poses| >= 1 {
      var prefix := poses[..|poses| - 1];
      RunSplit(p, poses, sqrtf);
      if |prefix| >= 1 {
        RunCountsConsecutive(p, prefix, sqrtf);
      }
      var before := Run(p, prefix, sqrtf).0;
      assert before.counter == TrailingWithin(p.tolerance, p.target, prefix, sqrtf);
    }
  }
}

=== FILE: scheduler.dfy ===
/**
 * The timer-interrupt task scheduler (`scheduler.cpp`, `scheduler.h`).  Tasks
 * live in a singly linked list, modelled as a sequence from the head.  Adding,
 * removing and clearing tasks go through a request queue that the timer
 * callback drains before it advances every task's microsecond counter.
 * Operating-system calls (queue creation, queue puts, node allocation, timer
 * configuration) are parameters that say whether they succeeded; task
 * functions are represented by the task id, and a tick reports which tasks
 * ran.
 */
module Scheduler {
  import opened CTypes
  import opened Wrappers

  type TaskId = nat

  datatype Mode = Independent | Obstructed

  /** `TaskInfo`: id, period and accumulated microseconds (both `uint64_t`). */
  datatype Task = Task(id: TaskId, period: nat, currentUs: nat)

  /** A request message; an add carries the node, which may be null. */
  datatype Request = Add(node: Option<Task>) | Remove(id: TaskId) | Clear

  datatype Scheduler = Scheduler(
    hasTimer: bool, mode: Mode, intPeriod: nat, initialized: bool,
    tasks: seq<Task>, count: nat, nextId: TaskId,
    queues: bool, requests: seq<Request>)

  /** The task count is the list length in `uint32_t`, and an initialised scheduler has its queues. */
  predicate Valid(s: Scheduler)
  {
    IsU32(s.intPeriod) && IsU32(s.nextId) && s.count == |s.tasks| % U32 &&
    (s.initialized ==> s.queues)
  }

  /** The constructor: obstructed mode, not initialised, empty list, next id 1, no queues. */
  function Create(hasTimer: bool, intPeriod: nat): (s: Scheduler)
    requires IsU32(intPeriod)
    ensures Valid(s) && !s.initialized && s.tasks == [] && s.nextId == 1 && s.mode == Obstructed
  {
    Scheduler(hasTimer, Obstructed, intPeriod, false, [], 0, 1, false, [])
  }

  /**
   * `init`: fails without a timer or with a zero period; creates the missing
   * queues (`queuesOk` says whether that succeeded); configures the timer
   * (`timerOk`); and only then marks the scheduler initialised with an empty
   * list and a zero count.  A failure leaves `initialized` as it was.
   */
  function Init(s: Scheduler, queuesOk: bool, timerOk: bool): (r: Scheduler)
    requires Valid(s)
    ensures Valid(r)
    ensures r.initialized <==> s.initialized || (s.hasTimer && s.intPeriod != 0 && (s.queues || queuesOk) && timerOk)
    ensures s.hasTimer && s.intPeriod != 0 && (s.queues || queuesOk) && timerOk ==>
      r.tasks == [] && r.count == 0 && r.nextId == s.nextId && r.requests == s.requests
    ensures !(s.hasTimer && s.intPeriod != 0 && (s.queues || queuesOk) && timerOk) ==>
      r.tasks == s.tasks && r.count == s.count
  {
    if !s.hasTimer || s.intPeriod == 0 then s
    else if !s.queues && !queuesOk then s
    else if !timerOk then s.(queues := true)
    else s.(queues := true, initialized := true, tasks := [], count := 0)
  }

  /**
   * `generateTaskId`: 0 when not initialised; otherwise the counter, with 0
   * skipped, and the counter moves on by one in 32 bits.
   */
  function GenerateTaskId(s: Scheduler): (r: (Scheduler, TaskId))
    requires Valid(s)
    ensures Valid(r.0) && r.0 == s.(nextId := r.0.nextId)
    ensures !s.initialized <==> r.1 == 0
    ensures !s.initialized ==> r.0 == s
    ensures s.initialized ==> IsU32(r.1) && r.1 == (if s.nextId == 0 then 1 else s.nextId) &&
                              r.0.nextId == (r.1 + 1) % U32
  {
    if !s.initialized then (s, 0)
    else
      var id := if s.nextId == 0 then 1 else s.nextId;
      (s.(nextId := Wrap32(id + 1)), id)
  }

  /** Consecutive ids differ: the id after `id` is never `id` itself. */
  lemma IdsAdvance(s: Scheduler)
    requires Valid(s) && s.initialized
    ensures var g1 := GenerateTaskId(s);
            var g2 := GenerateTaskId(g1.0);
            g1.1 != 0 && g2.1 != 0 && g1.1 != g2.1
  {
  }

  /**
   * `addTask`: 0 when no id can be generated, the node cannot be allocated or
   * the add request cannot be queued; otherwise the new task (period 0 meaning
   * the scheduler's period, counter 0) is queued and its id returned.  An id
   * is used up once generated, even when a later step fails.
   */
  function AddTask(s: Scheduler, period: nat, allocOk: bool, putOk: bool): (r: (Scheduler, TaskId))
    requires Valid(s) && IsU64(period)
    ensures Valid(r.0) && r.0.tasks == s.tasks && r.0.count == s.count
    ensures r.1 != 0 <==> s.initialized && allocOk && putOk
    ensures r.1 != 0 ==>
      r.1 == GenerateTaskId(s).1 &&
      r.0.requests == s.requests + [Add(Some(Task(r.1, if period == 0 then s.intPeriod else period, 0)))]
    ensures r.1 == 0 ==> r.0.requests == s.requests
  {
    var g := GenerateTaskId(s);
    var s1, id := g.0, g.1;
    if id == 0 || !allocOk || !putOk then (s1, 0)
    else
      var task := Task(id, if period == 0 then s.intPeriod else period, 0);
      (s1.(requests := s1.requests + [Add(Some(task))]), id)
  }

  /** `removeTask`: rejects id 0 and an uninitialised scheduler; otherwise queues the request. */
  function RemoveTask(s: Scheduler, id: TaskId, putOk: bool): (r: (Scheduler, bool))
    requires Valid(s)
    ensures Valid(r.0)
    ensures r.1 <==> id != 0 && s.initialized && putOk
    ensures r.1 ==> r.0 == s.(requests := s.requests + [Remove(id)])
    ensures !r.1 ==> r.0 == s
  {
    if id == 0 || !s.initialized || !s.queues || !putOk then (s, false)
    else (s.(requests := s.requests + [Remove(id)]), true)
  }

  /** `clearAllTasks`: queues a clear request when initialised. */
  function ClearAllTasks(s: Scheduler, putOk: bool): (r: (Scheduler, bool))
    requires Valid(s)
    ensures Valid(r.0)
    ensures r.1 <==> s.initialized && putOk
    ensures r.1 ==> r.0 == s.(requests := s.requests + [Clear])
    ensures !r.1 ==> r.0 == s
  {
    if !s.initialized || !s.queues || !putOk then (s, false)
    else (s.(requests := s.requests + [Clear]), true)
  }

  /** Where the first task with this id sits, or the list length when there is none. */
  function IndexOf(tasks: seq<Task>, id: TaskId): (i: nat)
    ensures i <= |tasks|
    ensures forall j :: 0 <= j < i ==> tasks[j].id != id
    ensures i < |tasks| ==> tasks[i].id == id
  {
    if |tasks| == 0 then 0
    else if tasks[0].id == id then 0
    else 1 + IndexOf(tasks[1..], id)
  }

  /**
   * The list walk of a remove request: unlink the first node with the id.
   * The answer says whether one was found; the other nodes keep their order.
   */
  method Unlink(tasks: seq<Task>, id: TaskId) returns (r: seq<Task>, removed: bool)
    ensures removed <==> exists k :: 0 <= k < |tasks| && tasks[k].id == id
    ensures var i := IndexOf(tasks, id);
            r == if removed then tasks[..i] + tasks[i + 1..] else tasks
  {
    var prev: seq<Task> := [];
    var k := 0;
    while k < |tasks|
      invariant 0 <= k <= |tasks| && prev == tasks[..k]
      invariant forall j :: 0 <= j < k ==> tasks[j].id != id
    {
      if tasks[k].id == id {
        IndexOfFirst(tasks, id, k);
        return prev + tasks[k + 1..], true;
      }
      prev := prev + [tasks[k]];
      k := k + 1;
    }
    assert prev == tasks;
    return tasks, false;
  }

  /** The first index with the id is what `IndexOf` finds. */
  lemma IndexOfFirst(tasks: seq<Task>, id: TaskId, k: nat)
    requires k < |tasks| && tasks[k].id == id
    requires forall j :: 0 <= j < k ==> tasks[j].id != id
    ensures IndexOf(tasks, id) == k
  {
  }

  /** The effect of one remove request on the list, as a function. */
  function RemoveFirst(tasks: seq<Task>, id: TaskId): (r: seq<Task>)
    ensures var i := IndexOf(tasks, id);
            r == if i < |tasks| then tasks[..i] + tasks[i + 1..] else tasks
  {
    var i := IndexOf(tasks, id);
    if i < |tasks| then tasks[..i] + tasks[i + 1..] else tasks
  }

  /**
   * One request applied to the list and the count: an add puts a non-null
   * node at the head; a remove with a nonzero id unlinks the first match and
   * decrements the count only then; a clear empties the list.
   */
  function Apply(tasks: seq<Task>, count: nat, req: Request): (r: (seq<Task>, nat))
    requires count == |tasks| % U32
    ensures r.1 == |r.0| % U32
    ensures req.Add? && req.node.Some? ==> r.0 == [req.node.value] + tasks
    ensures req.Add? && req.node.None? ==> r == (tasks, count)
    ensures req.Remove? && req.id == 0 ==> r == (tasks, count)
    ensures req.Remove? && req.id != 0 ==>
      r.0 == RemoveFirst(tasks, req.id) &&
      ((exists k :: 0 <= k < |tasks| && tasks[k].id == req.id) <==> |r.0| == |tasks| - 1)
    ensures req.Clear? ==> r == ([], 0)
  {
    match req
    case Add(node) =>
      if node.Some? then ([node.value] + tasks, Wrap32(count + 1)) else (tasks, count)
    case Remove(id) =>
      if id == 0 then (tasks, count)
      else
        var i := IndexOf(tasks, id);
        if i < |tasks| then (tasks[..i] + tasks[i + 1..], Wrap32(count - 1)) else (tasks, count)
    case Clear => ([], 0)
  }

  /** The requests applied in queue order. */
  function ApplyAll(tasks: seq<Task>, count: nat, reqs: seq<Request>): (r: (seq<Task>, nat))
    requires count == |tasks| % U32
    ensures r.1 == |r.0| % U32
    decreases |reqs|
  {
    if |reqs| == 0 then (tasks, count)
    else
      var r1 := Apply(tasks, count, reqs[0]);
      ApplyAll(r1.0, r1.1, reqs[1..])
  }

  /** `processRequestQueue`: drains the request queue into the list when initialised. */
  function ProcessRequestQueue(s: Scheduler): (r: Scheduler)
    requires Valid(s)
    ensures Valid(r) && r.count == |r.tasks| % U32
    ensures !s.initialized ==> r == s
    ensures s.initialized ==> r.requests == [] && (r.tasks, r.count) == ApplyAll(s.tasks, s.count, s.requests)
  {
    if !s.initialized || !s.queues then s
    else
      var r := ApplyAll(s.tasks, s.count, s.requests);
      s.(tasks := r.0, count := r.1, requests := [])
  }

  /** A queued add followed by a queued remove of that id leaves the list as it was. */
  lemma AddThenRemove(tasks: seq<Task>, t: Task)
    requires t.id != 0 && forall k :: 0 <= k < |tasks| ==> tasks[k].id != t.id
    ensures var count := |tasks| % U32;
            var added := Apply(tasks, count, Add(Some(t)));
            Apply(added.0, added.1, Remove(t.id)) == (tasks, count)
  {
    var added := [t] + tasks;
    assert IndexOf(added, t.id) == 0;
    assert added[..0] + added[1..] == tasks;
    assert RemoveFirst(added, t.id) == tasks;
  }

  /**
   * One task's share of a tick: the counter grows by the scheduler period in
   * 64 bits; when it reaches the task period the task runs and the counter
   * restarts at 0.
   */
  function TaskTick(t: Task, intPeriod: nat): (r: (Task, bool))
    ensures r.0.id == t.id && r.0.period == t.period
    ensures r.1 <==> Wrap64(t.currentUs + intPeriod) >= t.period
    ensures r.0.currentUs == if r.1 then 0 else Wrap64(t.currentUs + intPeriod)
  {
    var us := Wrap64(t.currentUs + intPeriod);
    if us >= t.period then (t.(currentUs := 0), true) else (t.(currentUs := us), false)
  }

  /** The ids of the tasks that run on this tick, in list order. */
  function Ran(tasks: seq<Task>, intPeriod: nat): (ids: seq<TaskId>)
    ensures |ids| <= |tasks|
    ensures forall x :: x in ids ==> exists k :: 0 <= k < |tasks| && tasks[k].id == x
  {
    if |tasks| == 0 then []
    else (if TaskTick(tasks[0], intPeriod).1 then [tasks[0].id] else []) + Ran(tasks[1..], intPeriod)
  }

  /**
   * `timerCallback`: ignored when not initialised or raised by another timer.
   * Otherwise the request queue is drained and every task takes its share of
   * the tick.  Both modes do the same to the list; they differ only in when
   * the hardware timer restarts.
   */
  function TimerCallback(s: Scheduler, ourTimer: bool): (r: (Scheduler, seq<TaskId>))
    requires Valid(s)
    ensures Valid(r.0)
    ensures !s.initialized || !ourTimer ==> r == (s, [])
    ensures s.initialized && ourTimer ==>
      var p := ProcessRequestQueue(s);
      r.0 == p.(tasks := r.0.tasks) && |r.0.tasks| == |p.tasks| &&
      (forall k :: 0 <= k < |p.tasks| ==> r.0.tasks[k] == TaskTick(p.tasks[k], s.intPeriod).0) &&
      r.1 == Ran(p.tasks, s.intPeriod)
  {
    if !s.initialized || !ourTimer then (s, [])
    else
      var p := ProcessRequestQueue(s);
      var ticked := seq(|p.tasks|, k requires 0 <= k < |p.tasks| => TaskTick(p.tasks[k], s.intPeriod).0);
      (p.(tasks := ticked), Ran(p.tasks, s.intPeriod))
  }

  /** A task alone, ticked k times from the given state, with the number of runs. */
  function Ticks(t: Task, intPeriod: nat, k: nat): (Task, nat)
  {
    if k == 0 then (t, 0)
    else
      var before := Ticks(t, intPeriod, k - 1);
      var step := TaskTick(before.0, intPeriod);
      (step.0, before.1 + if step.1 then 1 else 0)
  }

  /** Ticks compose. */
  lemma {:induction false} TicksSplit(t: Task, ip: nat, a: nat, b: nat)
    ensures var first := Ticks(t, ip, a);
            Ticks(t, ip, a + b) == (Ticks(first.0, ip, b).0, first.1 + Ticks(first.0, ip, b).1)
    decreases b
  {
    if b > 0 {
      TicksSplit(t, ip, a, b - 1);
    }
  }

  /** The ticks a task of period p waits for each run: the ceiling of p over the scheduler period. */
  function Interval(period: nat, intPeriod: nat): (n: nat)
    requires period > 0 && intPeriod > 0
    ensures n >= 1 && (n - 1) * intPeriod < period <= n * intPeriod
  {
    var n := (period + intPeriod - 1) / intPeriod;
    assert period + intPeriod - 1 == n * intPeriod + (period + intPeriod - 1) % intPeriod;
    n
  }

  /** Before the counter reaches the period, a fresh task has not run and has counted k periods. */
  lemma {:induction false} NoEarlyRun(t: Task, ip: nat, k: nat)
    requires t.currentUs == 0 && ip > 0 && IsU64(t.period) && k * ip < t.period
    ensures Ticks(t, ip, k) == (t.(currentUs := k * ip), 0)
  {
    if k > 0 {
      assert (k - 1) * ip < t.period;
      NoEarlyRun(t, ip, k - 1);
      assert (k - 1) * ip + ip == k * ip;
    }
  }

  /** A fresh task first runs on tick `Interval`, and is then fresh again. */
  lemma FirstRun(t: Task, ip: nat)
    requires t.currentUs == 0 && t.period > 0 && ip > 0 && t.period + ip <= U64
    ensures Ticks(t, ip, Interval(t.period, ip)) == (t, 1)
  {
    var n := Interval(t.period, ip);
    NoEarlyRun(t, ip, n - 1);
    assert (n - 1) * ip + ip == n * ip;
  }

  /** Over m intervals a fresh task runs exactly m times and ends fresh. */
  lemma {:induction false} Periodic(t: Task, ip: nat, m: nat)
    requires t.currentUs == 0 && t.period > 0 && ip > 0 && t.period + ip <= U64
    ensures Ticks(t, ip, m * Interval(t.period, ip)) == (t, m)
  {
    if m > 0 {
      var n := Interval(t.period, ip);
      Periodic(t, ip, m - 1);
      assert m * n == (m - 1) * n + n;
      TicksSplit(t, ip, (m - 1) * n, n);
      FirstRun(t, ip);
    }
  }

  /** `setMode`: only the mode changes. */
  function SetMode(s: Scheduler, mode: Mode): (r: Scheduler)
    requires Valid(s)
    ensures Valid(r) && r == s.(mode := mode)
  {
    s.(mode := mode)
  }

  /** `setPeriod`: a zero period is refused; otherwise it is stored and the scheduler re-initialised. */
  function SetPeriod(s: Scheduler, period: nat, queuesOk: bool, timerOk: bool): (r: Scheduler)
    requires Valid(s) && IsU32(period)
    ensures Valid(r)
    ensures period == 0 ==> r == s
    ensures period != 0 ==> r.intPeriod == period && r == Init(s.(intPeriod := period), queuesOk, timerOk)
  {
    if period == 0 then s else Init(s.(intPeriod := period), queuesOk, timerOk)
  }
}

=== FILE: sdc_dual.dfy ===
/**
 * The dual-direction ESC driver (`sdc_dual.cpp`): a throttle in [-100, 100]
 * becomes an RC pulse of 1000..2000 µs around a 1500 µs neutral, and the
 * pulse becomes a PWM compare value for a 2000 µs timer period.
 *
 * The timer handle is a presence flag and its auto-reload register (ARR) a
 * parameter of `Init`; writing the compare register and starting the PWM
 * are not modelled beyond the stored compare value.
 */
module SdcDual {
  import opened CTypes
  import Chassis
  import Motor

  const BASE_PULSE_US: real := 1500.0
  const CONTROL_RANGE_US: real := 500.0
  const MIN_PULSE_US: real := BASE_PULSE_US - CONTROL_RANGE_US
  const MAX_PULSE_US: real := BASE_PULSE_US + CONTROL_RANGE_US
  const PWM_PERIOD_US: real := 2000.0

  /** The header's default throttle limit factor. */
  const DEFAULT_LIMIT_FACTOR: real := 0.5

  datatype Esc = Esc(motor: Motor.Motor, hasTimer: bool, arr: nat, factor: real, compare: nat)

  /**
   * The constructor: timer handle, direction and limit factor stored, the
   * throttle, ARR and compare value 0.
   */
  function New(hasTimer: bool, reversed: bool, factor: real): (e: Esc)
    ensures e.motor == Motor.New(reversed) && e.hasTimer == hasTimer && e.factor == factor
    ensures e.arr == 0 && e.compare == 0
  {
    Esc(Motor.New(reversed), hasTimer, 0, factor, 0)
  }

  /**
   * The compare value for a pulse: the pulse's fraction of the period times
   * ARR + 1, truncated.  For a legal pulse it lies between half and all of
   * ARR + 1.
   */
  function Compare(pulse: real, arr: nat): (r: nat)
    requires MIN_PULSE_US <= pulse <= MAX_PULSE_US
    ensures r as real <= pulse / PWM_PERIOD_US * (arr + 1) as real < r as real + 1.0
    ensures r <= arr + 1 && (arr + 1) / 2 <= r
  {
    var f := pulse / PWM_PERIOD_US;
    var a := (arr + 1) as real;
    MulLe(f, 1.0, a);
    MulLe(0.5, f, a);
    assert Mul(f, a) == f * a;
    var r := Trunc(f * a);
    assert Mul(0.5, a) <= r as real + 1.0;
    r
  }

  /**
   * `init`: without a timer nothing changes; otherwise ARR is read and, if
   * it is not 0, the compare value is set for a half-period pulse.
   */
  function Init(e: Esc, timerArr: nat): (r: Esc)
    requires IsU32(timerArr)
    ensures !e.hasTimer ==> r == e
    ensures e.hasTimer && timerArr == 0 ==> r == e.(arr := 0)
    ensures e.hasTimer && timerArr != 0 ==>
              r == e.(arr := timerArr, compare := r.compare) && r.compare == (timerArr + 1) / 2
  {
    if !e.hasTimer then e
    else if timerArr == 0 then e.(arr := 0)
    else
      var half := PWM_PERIOD_US / 2.0;
      var c := Trunc(half / PWM_PERIOD_US * (timerArr + 1) as real);
      assert c == (timerArr + 1) / 2 by {
        var a := timerArr + 1;
        assert half / PWM_PERIOD_US * a as real == a as real / 2.0;
        if a % 2 == 0 {
          assert a as real / 2.0 == (a / 2) as real;
        } else {
          assert a as real / 2.0 == (a / 2) as real + 0.5;
        }
      }
      e.(arr := timerArr, compare := c)
  }

  /**
   * The effective throttle: direction-adjusted, then limited to
   * ±100·factor with the max/min idiom.
   */
  function Effective(m: Motor.Motor, factor: real, t: real): (r: real)
    ensures 0.0 <= factor ==> -100.0 * factor <= r <= 100.0 * factor
    ensures 0.0 <= factor && -100.0 * factor <= Motor.Adjust(m, t) <= 100.0 * factor ==> r == Motor.Adjust(m, t)
  {
    var limit := 100.0 * factor;
    Chassis.Constrain(Motor.Adjust(m, t), -limit, limit)
  }

  /** The pulse width: 1500 µs plus 5 µs per throttle percent, limited to [1000, 2000]. */
  function Pulse(effective: real): (r: real)
    ensures MIN_PULSE_US <= r <= MAX_PULSE_US
    ensures -100.0 <= effective <= 100.0 ==> r == BASE_PULSE_US + effective * (CONTROL_RANGE_US / 100.0)
  {
    Chassis.Constrain(BASE_PULSE_US + effective * (CONTROL_RANGE_US / 100.0), MIN_PULSE_US, MAX_PULSE_US)
  }

  /** Decoding a pulse back to the effective throttle it carries. */
  function ThrottleOf(pulse: real): real {
    (pulse - BASE_PULSE_US) / (CONTROL_RANGE_US / 100.0)
  }

  /** Within ±100 the pulse mapping is invertible. */
  lemma PulseInverse(effective: real)
    requires -100.0 <= effective <= 100.0
    ensures ThrottleOf(Pulse(effective)) == effective
  {
  }

  /**
   * `setThrottle`: a no-op without a timer or with ARR 0.  Otherwise the raw
   * request is stored, and the compare value encodes the pulse of the
   * adjusted, limited throttle.
   */
  function SetThrottle(e: Esc, t: real): (r: Esc)
    ensures !e.hasTimer || e.arr == 0 ==> r == e
    ensures e.hasTimer && e.arr != 0 ==>
              r == e.(motor := e.motor.(throttle := t), compare := r.compare) &&
              Motor.GetThrottle(r.motor) == t &&
              r.compare == Compare(Pulse(Effective(e.motor, e.factor, t)), e.arr) &&
              (e.arr + 1) / 2 <= r.compare <= e.arr + 1
  {
    if !e.hasTimer || e.arr == 0 then e
    else
      var pulse := Pulse(Effective(e.motor, e.factor, t));
      e.(motor := e.motor.(throttle := t), compare := Compare(pulse, e.arr))
  }

  /** Throttle 0 gives the neutral 1500 µs pulse, three quarters of the period register. */
  lemma ZeroThrottleNeutral(e: Esc)
    requires 0.0 <= e.factor
    ensures Pulse(Effective(e.motor, e.factor, 0.0)) == BASE_PULSE_US
    ensures e.hasTimer && e.arr != 0 ==> SetThrottle(e, 0.0).compare == 3 * (e.arr + 1) / 4
  {
    var a := e.arr + 1;
    assert Pulse(Effective(e.motor, e.factor, 0.0)) == BASE_PULSE_US;
    assert BASE_PULSE_US / PWM_PERIOD_US * a as real == (3 * a) as real / 4.0;
    var q := (3 * a) / 4;
    assert (3 * a) as real / 4.0 == q as real + ((3 * a) % 4) as real / 4.0;
  }

  /**
   * For a forward motor with a sane limit factor the pulse grows with the
   * requested throttle, and a reversed motor mirrors it about 1500 µs.
   */
  lemma PulseMonotone(m: Motor.Motor, factor: real, t1: real, t2: real)
    requires 0.0 <= factor <= 1.0 && t1 <= t2
    ensures !m.reversed ==> Pulse(Effective(m, factor, t1)) <= Pulse(Effective(m, factor, t2))
    ensures m.reversed ==> Pulse(Effective(m, factor, t1)) >= Pulse(Effective(m, factor, t2))
    ensures Pulse(Effective(m.(reversed := !m.reversed), factor, t1)) - BASE_PULSE_US ==
            BASE_PULSE_US - Pulse(Effective(m, factor, t1))
  {
  }

  /** `setThrottleLimitFactor`: stored clamped to [0, 1]. */
  function SetThrottleLimitFactor(e: Esc, factor: real): (r: Esc)
    ensures r == e.(factor := r.factor)
    ensures 0.0 <= r.factor <= 1.0
    ensures 0.0 <= factor <= 1.0 ==> r.factor == factor
    ensures factor < 0.0 ==> r.factor == 0.0
    ensures factor > 1.0 ==> r.factor == 1.0
  {
    e.(factor := Chassis.Constrain(factor, 0.0, 1.0))
  }

  /** With a zero limit factor every request yields the neutral pulse. */
  lemma ZeroFactorHolds(m: Motor.Motor, t: real)
    ensures Pulse(Effective(m, 0.0, t)) == BASE_PULSE_US
  {
  }
}

=== FILE: slope_smoother.dfy ===
/**
 * The slope (rate) limiter (`slope_smoother.cpp`): the output follows a
 * target but moves at most `rate` per millisecond.  The current tick `now`
 * and the core clock `clk` are parameters; floats are reals.
 */
module SlopeSmoother {
  import opened CTypes
  import TimeStamp

  datatype Smoother = Smoother(value: real, rate: real, timeout: real, last: nat)

  /** The constructor: the time base starts at `now`. */
  function New(rate: real, timeout: real, initial: real, now: nat): (s: Smoother)
    ensures s.value == initial && s.rate == rate && s.timeout == timeout && s.last == now
  {
    Smoother(initial, rate, timeout, now)
  }

  /**
   * One limiting step with the largest allowed change `maxChange`: a target
   * within reach is taken, otherwise the value moves by `maxChange` in the
   * target's direction.
   */
  function Limit(value: real, target: real, maxChange: real): (r: real)
    ensures Abs(target - value) <= maxChange ==> r == target
    ensures Abs(target - value) > maxChange && target > value ==> r == value + maxChange
    ensures Abs(target - value) > maxChange && target <= value ==> r == value - maxChange
  {
    var diff := target - value;
    if Abs(diff) <= maxChange then target
    else if diff > 0.0 then value + maxChange
    else value - maxChange
  }

  /** With a non-negative allowance the step is bounded by it and never passes the target. */
  lemma LimitBounded(value: real, target: real, maxChange: real)
    requires maxChange >= 0.0
    ensures Abs(Limit(value, target, maxChange) - value) <= maxChange
    ensures value <= target ==> value <= Limit(value, target, maxChange) <= target
    ensures target <= value ==> target <= Limit(value, target, maxChange) <= value
  {
  }

  /** Each step brings the value `maxChange` closer to the target, or onto it. */
  lemma LimitCloses(value: real, target: real, maxChange: real)
    requires maxChange >= 0.0
    ensures Abs(target - Limit(value, target, maxChange)) ==
            if Abs(target - value) <= maxChange then 0.0 else Abs(target - value) - maxChange
  {
  }

  /** `n` steps of the limiter towards a fixed target. */
  function Iterate(value: real, target: real, maxChange: real, n: nat): (r: real)
    decreases n
  {
    if n == 0 then value else Iterate(Limit(value, target, maxChange), target, maxChange, n - 1)
  }

  /** A fixed target is reached within `n` steps once `n` allowances cover the distance. */
  lemma {:induction false} IterateReaches(value: real, target: real, maxChange: real, n: nat)
    requires maxChange >= 0.0 && Abs(target - value) <= Times(n, maxChange)
    ensures Iterate(value, target, maxChange, n) == target
    decreases n
  {
    if n > 0 {
      var next := Limit(value, target, maxChange);
      LimitCloses(value, target, maxChange);
      assert Times(n, maxChange) == Times(n - 1, maxChange) + maxChange;
      if Abs(target - value) <= maxChange {
        assert next == target;
        IterateAtTarget(target, maxChange, n - 1);
      } else {
        IterateReaches(next, target, maxChange, n - 1);
      }
    }
  }

  /** At the target, further steps stay there. */
  lemma {:induction false} IterateAtTarget(target: real, maxChange: real, n: nat)
    requires maxChange >= 0.0
    ensures Iterate(target, target, maxChange, n) == target
    decreases n
  {
    if n > 0 {
      assert Limit(target, target, maxChange) == target;
      IterateAtTarget(target, maxChange, n - 1);
    }
  }

  /** The milliseconds since the last update: ticks to whole microseconds, then over 1000. */
  function ElapsedMilliseconds(last: nat, now: nat, clk: nat): (dt: real)
    requires clk > 0
    ensures dt >= 0.0
    ensures dt * 1000.0 == TimeStamp.ToMicroseconds(TimeStamp.Diff(now, last), clk) as real
  {
    TimeStamp.ToMicroseconds(TimeStamp.Diff(now, last), clk) as real / 1000.0
  }

  /**
   * `update`: the time base moves to `now`; past the timeout the value is
   * kept, otherwise it is limited to `rate` times the elapsed milliseconds.
   */
  function Update(s: Smoother, target: real, now: nat, clk: nat): (r: Smoother)
    requires clk > 0
    ensures r.last == now && r.rate == s.rate && r.timeout == s.timeout
    ensures var dt := ElapsedMilliseconds(s.last, now, clk);
            (dt > s.timeout ==> r.value == s.value)
            && (dt <= s.timeout ==> r.value == Limit(s.value, target, Mul(s.rate, dt)))
  {
    var dt := ElapsedMilliseconds(s.last, now, clk);
    var r := s.(last := now);
    if dt > s.timeout || dt < 0.0 then r
    else r.(value := Limit(s.value, target, Mul(s.rate, dt)))
  }

  /** With a non-negative rate an update moves the value by at most rate times the elapsed time. */
  lemma UpdateRateBounded(s: Smoother, target: real, now: nat, clk: nat)
    requires clk > 0 && s.rate >= 0.0
    ensures var dt := ElapsedMilliseconds(s.last, now, clk);
            Abs(Update(s, target, now, clk).value - s.value) <= Mul(s.rate, dt)
  {
    var dt := ElapsedMilliseconds(s.last, now, clk);
    assert Mul(s.rate, dt) >= 0.0;
    LimitBounded(s.value, target, Mul(s.rate, dt));
  }

  /** `setCurrentValue`: the value is set exactly and the time base restarts at `now`. */
  function SetCurrentValue(s: Smoother, value: real, now: nat): (r: Smoother)
    ensures r.value == value && r.last == now && r.rate == s.rate && r.timeout == s.timeout
  {
    s.(value := value, last := now)
  }

  /** An update at the same tick as `setCurrentValue` leaves the set value in place. */
  lemma SetThenUpdate(s: Smoother, value: real, target: real, now: nat, clk: nat)
    requires clk > 0
    ensures Update(SetCurrentValue(s, value, now), target, now, clk).value == value
  {
    var t := SetCurrentValue(s, value, now);
    assert TimeStamp.Diff(now, now) == 0;
    assert ElapsedMilliseconds(now, now, clk) == 0.0;
    assert Mul(s.rate, 0.0) == 0.0;
  }
}

=== FILE: sort_basic.dfy ===
/**
 * The quadratic sorts of `math_sort.cpp` (bubble with early exit, insertion
 * by shifting, selection by swapping in the minimum) and array reversal.
 * Arrays are value sequences; a routine returns the array as it leaves it.
 * The null-pointer guard has no counterpart, since a sequence is never null.
 */
module SortBasic {
  import opened SortSpec

  /** `swap_float(&arr[i], &arr[j])`. */
  function Swap(s: seq<int>, i: int, j: int): (r: seq<int>)
    requires 0 <= i < |s| && 0 <= j < |s|
    ensures |r| == |s| && r[i] == s[j] && r[j] == s[i]
    ensures forall k :: 0 <= k < |s| && k != i && k != j ==> r[k] == s[k]
    ensures multiset(r) == multiset(s)
  {
    s[i := s[j]][j := s[i]]
  }

  /** Equal outside [lo, hi) and a permutation of the whole: a permutation of the slice. */
  lemma SlicePermutation(a: seq<int>, b: seq<int>, lo: int, hi: int)
    requires 0 <= lo <= hi <= |a| == |b|
    requires a[..lo] == b[..lo] && a[hi..] == b[hi..]
    requires multiset(a) == multiset(b)
    ensures multiset(a[lo..hi]) == multiset(b[lo..hi])
  {
    assert a == a[..lo] + a[lo..hi] + a[hi..];
    assert b == b[..lo] + b[lo..hi] + b[hi..];
    assert multiset(a[lo..hi]) == multiset(a) - multiset(a[..lo]) - multiset(a[hi..]);
    assert multiset(b[lo..hi]) == multiset(b) - multiset(b[..lo]) - multiset(b[hi..]);
  }

  /** Pointwise equality outside [lo, hi) as equality of the outer slices. */
  lemma UnchangedOutside(a: seq<int>, b: seq<int>, lo: int, hi: int)
    requires 0 <= lo <= hi <= |a| == |b|
    requires forall k :: 0 <= k < lo || hi <= k < |a| ==> a[k] == b[k]
    ensures a[..lo] == b[..lo] && a[hi..] == b[hi..]
  {
    assert forall k :: 0 <= k < |a| - hi ==> a[hi..][k] == a[hi + k];
  }

  /** `math_sort_bubble`: adjacent swaps, stopping after a pass with no swap. */
  method BubbleSort(a0: seq<int>) returns (a: seq<int>)
    ensures Sorted(a) && multiset(a) == multiset(a0) && |a| == |a0|
  {
    a := a0;
    var n := |a|;
    if n <= 1 {
      return;
    }
    var i := 0;
    while i < n - 1
      invariant 0 <= i <= n - 1 && |a| == n
      invariant multiset(a) == multiset(a0)
      invariant SortedRange(a, n - i, n)
      invariant forall x, y :: 0 <= x < n - i <= y < n ==> a[x] <= a[y]
    {
      var swapped := false;
      var j := 0;
      while j < n - i - 1
        invariant 0 <= j <= n - i - 1 && |a| == n
        invariant multiset(a) == multiset(a0)
        invariant SortedRange(a, n - i, n)
        invariant forall x, y :: 0 <= x < n - i <= y < n ==> a[x] <= a[y]
        invariant forall k :: 0 <= k <= j ==> a[k] <= a[j]
        invariant !swapped ==> SortedRange(a, 0, j + 1)
      {
        if a[j] > a[j + 1] {
          a := Swap(a, j, j + 1);
          swapped := true;
        }
        j := j + 1;
      }
      if !swapped {
        break;
      }
      i := i + 1;
    }
  }

  /**
   * The insertion pass used by `math_sort_insertion` and by the small-range
   * branches of the quick sort: sorts a[lo..hi) by shifting larger elements
   * one place right and dropping the key into the gap.
   */
  method InsertionSortRange(a0: seq<int>, lo: int, hi: int) returns (a: seq<int>)
    requires 0 <= lo <= hi <= |a0|
    ensures |a| == |a0| && multiset(a) == multiset(a0)
    ensures forall k :: 0 <= k < lo || hi <= k < |a| ==> a[k] == a0[k]
    ensures SortedRange(a, lo, hi)
  {
    a := a0;
    if lo == hi {
      return;
    }
    var i := lo + 1;
    while i < hi
      invariant lo + 1 <= i <= hi && |a| == |a0|
      invariant multiset(a) == multiset(a0)
      invariant forall k :: 0 <= k < lo || hi <= k < |a| ==> a[k] == a0[k]
      invariant SortedRange(a, lo, i)
    {
      a := InsertOne(a, lo, i);
      i := i + 1;
    }
  }

  /** One outer step: a[lo..i) is sorted; afterwards a[lo..i+1) is. */
  method InsertOne(b: seq<int>, lo: int, i: int) returns (a: seq<int>)
    requires 0 <= lo <= i < |b| && SortedRange(b, lo, i)
    ensures |a| == |b| && multiset(a) == multiset(b)
    ensures forall k :: 0 <= k < lo || i < k < |a| ==> a[k] == b[k]
    ensures SortedRange(a, lo, i + 1)
  {
    a := b;
    var key := b[i];
    var j := i - 1;
    while j >= lo && a[j] > key
      invariant lo - 1 <= j <= i - 1 && |a| == |b|
      invariant forall k :: 0 <= k <= j + 1 ==> a[k] == b[k]
      invariant forall k :: j + 2 <= k <= i ==> a[k] == b[k - 1] && a[k] > key
      invariant forall k :: i < k < |a| ==> a[k] == b[k]
    {
      a := a[j + 1 := a[j]];
      j := j - 1;
    }
    a := a[j + 1 := key];
    InsertedShape(b, a, lo, i, j, key);
    InsertedSorted(b, a, lo, i, j, key);
  }

  /** The array after dropping the key into the gap at j + 1 is b with b[i] moved to j + 1. */
  lemma InsertedShape(b: seq<int>, a: seq<int>, lo: int, i: int, j: int, key: int)
    requires 0 <= lo <= i < |b| == |a| && lo - 1 <= j <= i - 1 && key == b[i]
    requires forall k :: 0 <= k <= j ==> a[k] == b[k]
    requires a[j + 1] == key
    requires forall k :: j + 2 <= k <= i ==> a[k] == b[k - 1]
    requires forall k :: i < k < |a| ==> a[k] == b[k]
    ensures multiset(a) == multiset(b)
  {
    var p, m, s := b[..j + 1], b[j + 1..i], b[i + 1..];
    var shaped := p + [key] + m + s;
    assert |shaped| == |a|;
    forall k | 0 <= k < |a|
      ensures a[k] == shaped[k]
    {
      if k <= j {
      } else if k == j + 1 {
      } else if k <= i {
        assert shaped[k] == m[k - j - 2];
      } else {
        assert shaped[k] == s[k - i - 1];
      }
    }
    assert a == shaped;
    assert b == p + m + [key] + s;
    assert multiset(a) == multiset(p) + multiset{key} + multiset(m) + multiset(s);
  }

  lemma InsertedSorted(b: seq<int>, a: seq<int>, lo: int, i: int, j: int, key: int)
    requires 0 <= lo <= i < |b| == |a| && lo - 1 <= j <= i - 1
    requires SortedRange(b, lo, i)
    requires forall k :: 0 <= k <= j ==> a[k] == b[k]
    requires a[j + 1] == key
    requires forall k :: j + 2 <= k <= i ==> a[k] == b[k - 1] && a[k] > key
    requires j < lo || b[j] <= key
    ensures SortedRange(a, lo, i + 1)
  {
  }

  /** `math_sort_insertion`: the insertion pass over the whole array. */
  method InsertionSort(a0: seq<int>) returns (a: seq<int>)
    ensures Sorted(a) && multiset(a) == multiset(a0) && |a| == |a0|
  {
    if |a0| <= 1 {
      return a0;
    }
    a := InsertionSortRange(a0, 0, |a0|);
  }

  /** `math_sort_selection`: swap the minimum of the unsorted tail into place. */
  method SelectionSort(a0: seq<int>) returns (a: seq<int>)
    ensures Sorted(a) && multiset(a) == multiset(a0) && |a| == |a0|
  {
    a := a0;
    var n := |a|;
    if n <= 1 {
      return;
    }
    var i := 0;
    while i < n - 1
      invariant 0 <= i <= n - 1 && |a| == n
      invariant multiset(a) == multiset(a0)
      invariant SortedRange(a, 0, i)
      invariant forall x, y :: 0 <= x < i <= y < n ==> a[x] <= a[y]
    {
      var minIdx := i;
      var j := i + 1;
      while j < n
        invariant i <= minIdx < j <= n
        invariant forall k :: i <= k < j ==> a[minIdx] <= a[k]
      {
        if a[j] < a[minIdx] {
          minIdx := j;
        }
        j := j + 1;
      }
      if minIdx != i {
        a := Swap(a, minIdx, i);
      }
      i := i + 1;
    }
  }

  /** Reference definition of reversal. */
  function Reversed(s: seq<int>): (r: seq<int>)
    ensures |r| == |s|
  {
    if |s| == 0 then [] else [s[|s| - 1]] + Reversed(s[..|s| - 1])
  }

  lemma {:induction false} ReversedIndex(s: seq<int>, i: int)
    requires 0 <= i < |s|
    ensures Reversed(s)[i] == s[|s| - 1 - i]
    decreases |s|
  {
    if i > 0 {
      ReversedIndex(s[..|s| - 1], i - 1);
    }
  }

  /** Reversing twice gives back the original. */
  lemma ReversedInvolution(s: seq<int>)
    ensures Reversed(Reversed(s)) == s
  {
    forall i | 0 <= i < |s|
      ensures Reversed(Reversed(s))[i] == s[i]
    {
      ReversedIndex(Reversed(s), i);
      ReversedIndex(s, |s| - 1 - i);
    }
  }

  /** `math_sort_reverse`: swap a[i] with a[n-1-i] for i < n/2. */
  method Reverse(a0: seq<int>) returns (a: seq<int>)
    ensures |a| == |a0|
    ensures forall i :: 0 <= i < |a| ==> a[i] == a0[|a0| - 1 - i]
    ensures a == Reversed(a0)
  {
    a := a0;
    var n := |a|;
    if n <= 1 {
      return;
    }
    var i := 0;
    while i < n / 2
      invariant 0 <= i <= n / 2 && |a| == n
      invariant forall k :: 0 <= k < i ==> a[k] == a0[n - 1 - k] && a[n - 1 - k] == a0[k]
      invariant forall k :: i <= k < n - i ==> a[k] == a0[k]
    {
      a := Swap(a, i, n - 1 - i);
      i := i + 1;
    }
    forall k | 0 <= k < n
      ensures Reversed(a0)[k] == a[k]
    {
      ReversedIndex(a0, k);
    }
  }
}

=== FILE: sort_counting.dfy ===
/**
 * The integer sorts of `math_sort.cpp`: counting sort over a declared value
 * range, and least-significant-digit radix sort in base 10, whose passes
 * distribute the array stably into ten buckets by one decimal digit.
 */
module SortCounting {
  import opened SortSpec
  import opened MathBits

  /** `math_sort_counting`: tally each value of [minV, maxV], then write the values back in order. */
  method CountingSort(a0: seq<int>, minV: int, maxV: int, allocOk: bool) returns (a: seq<int>)
    requires |a0| > 1 && minV <= maxV && allocOk ==> forall k :: 0 <= k < |a0| ==> minV <= a0[k] <= maxV
    ensures |a| == |a0| && multiset(a) == multiset(a0)
    ensures |a0| <= 1 || minV > maxV || !allocOk ==> a == a0
    ensures Sorted(a)  || minV > maxV || !allocOk
  {
    if |a0| <= 1 || minV > maxV || !allocOk {
      return a0;
    }
    var range := maxV - minV + 1;
    var count := seq(range, _ => 0);
    var i := 0;
    while i < |a0|
      invariant 0 <= i <= |a0| && |count| == range
      invariant forall v :: 0 <= v < range ==> count[v] == multiset(a0[..i])[v + minV]
    {
      assert a0[..i + 1] == a0[..i] + [a0[i]];
      count := count[a0[i] - minV := count[a0[i] - minV] + 1];
      i := i + 1;
    }
    assert a0[..i] == a0;
    var out: seq<int> := [];
    var v := 0;
    while v < range
      invariant 0 <= v <= range
      invariant Sorted(out)
      invariant forall k :: 0 <= k < |out| ==> out[k] < v + minV
      invariant forall x :: multiset(out)[x] == if x < v + minV then multiset(a0)[x] else 0
    {
      var c := count[v];
      while c > 0
        invariant 0 <= c <= count[v]
        invariant Sorted(out)
        invariant forall k :: 0 <= k < |out| ==> out[k] <= v + minV
        invariant forall x :: multiset(out)[x] == (if x < v + minV then multiset(a0)[x] else if x == v + minV then count[v] - c else 0)
      {
        out := out + [v + minV];
        c := c - 1;
      }
      v := v + 1;
    }
    OutsideRangeAbsent(a0, minV, maxV);
    assert multiset(out) == multiset(a0);
    a := out;
    assert |a| == |multiset(a)|;
  }

  /** No value outside [minV, maxV] occurs in an array whose elements all lie inside. */
  lemma OutsideRangeAbsent(s: seq<int>, minV: int, maxV: int)
    requires forall k :: 0 <= k < |s| ==> minV <= s[k] <= maxV
    ensures forall x :: x < minV || maxV < x ==> multiset(s)[x] == 0
  {
    forall x | x < minV || maxV < x
      ensures multiset(s)[x] == 0
    {
      assert x !in s;
    }
  }

  // ---------------------------------------------------------------------------
  // Radix sort
  // ---------------------------------------------------------------------------

  /** The decimal digit `(x / e) % 10` that a pass sorts on (x is non-negative there). */
  function Digit(x: int, e: int): (d: int)
    requires e >= 1
    ensures 0 <= d < 10
  {
    (x / e) % 10
  }

  /** The elements of s with digit d, in their order in s. */
  function Bucket(s: seq<int>, e: int, d: int): (r: seq<int>)
    requires e >= 1
    ensures |r| <= |s|
  {
    if |s| == 0 then []
    else (if Digit(s[0], e) == d then [s[0]] else []) + Bucket(s[1..], e, d)
  }

  /**
   * Reference definition of one digit pass: the buckets d, d + 1, ..., 9
   * laid out one after the other, each in input order (a stable distribution).
   */
  function Buckets(s: seq<int>, e: int, d: int): seq<int>
    requires e >= 1 && 0 <= d <= 10
    decreases 10 - d
  {
    if d == 10 then [] else Bucket(s, e, d) + Buckets(s, e, d + 1)
  }

  /** Where bucket d starts: the number of elements with a digit below d. */
  function Start(s: seq<int>, e: int, d: int): (n: nat)
    requires e >= 1 && 0 <= d <= 10
  {
    if d == 0 then 0 else Start(s, e, d - 1) + |Bucket(s, e, d - 1)|
  }

  lemma {:induction false} BucketAppend(a: seq<int>, b: seq<int>, e: int, d: int)
    requires e >= 1
    ensures Bucket(a + b, e, d) == Bucket(a, e, d) + Bucket(b, e, d)
    decreases |a|
  {
    if |a| == 0 {
      assert a + b == b;
    } else {
      var h := if Digit(a[0], e) == d then [a[0]] else [];
      assert (a + b)[0] == a[0];
      assert (a + b)[1..] == a[1..] + b;
      BucketAppend(a[1..], b, e, d);
      calc {
        Bucket(a + b, e, d);
        h + Bucket(a[1..] + b, e, d);
        h + (Bucket(a[1..], e, d) + Bucket(b, e, d));
        (h + Bucket(a[1..], e, d)) + Bucket(b, e, d);
      }
    }
  }

  /** Bucket d holds exactly the occurrences of the values whose digit is d. */
  lemma {:induction false} BucketCount(s: seq<int>, e: int, d: int)
    requires e >= 1
    ensures forall y :: multiset(Bucket(s, e, d))[y] == if Digit(y, e) == d then multiset(s)[y] else 0
    decreases |s|
  {
    if |s| > 0 {
      BucketCount(s[1..], e, d);
      assert s == [s[0]] + s[1..];
    }
  }

  lemma {:induction false} BucketsCount(s: seq<int>, e: int, d: int)
    requires e >= 1 && 0 <= d <= 10
    ensures forall y :: multiset(Buckets(s, e, d))[y] == if Digit(y, e) >= d then multiset(s)[y] else 0
    ensures |Buckets(s, e, d)| + Start(s, e, d) == Start(s, e, 10)
    decreases 10 - d
  {
    if d < 10 {
      BucketsCount(s, e, d + 1);
      BucketCount(s, e, d);
      StartStep(s, e, d, 10);
    }
  }

  lemma {:induction false} StartStep(s: seq<int>, e: int, d: int, d': int)
    requires e >= 1 && 0 <= d < d' <= 10
    ensures Start(s, e, d') >= Start(s, e, d + 1) == Start(s, e, d) + |Bucket(s, e, d)|
    decreases d' - d
  {
    if d' > d + 1 {
      StartStep(s, e, d, d' - 1);
    }
  }

  /** A digit pass permutes the array, and the last bucket ends at the end of the array. */
  lemma BucketsPermutation(s: seq<int>, e: int)
    requires e >= 1
    ensures multiset(Buckets(s, e, 0)) == multiset(s)
    ensures Start(s, e, 10) == |s| == |Buckets(s, e, 0)|
  {
    BucketsCount(s, e, 0);
    forall y
      ensures multiset(Buckets(s, e, 0))[y] == multiset(s)[y]
    {
      assert Digit(y, e) >= 0;
    }
    assert multiset(Buckets(s, e, 0)) == multiset(s);
    assert |Buckets(s, e, 0)| == |multiset(Buckets(s, e, 0))|;
  }

  /**
   * With bucket d to occupy st[d] .. st[d + 1] - 1 and to hold bk[d], the
   * slots count[d] .. st[d + 1] - 1 already hold its tail, each element at
   * its final place.
   */
  ghost predicate Placed(out: seq<int>, count: seq<int>, st: seq<int>, bk: seq<seq<int>>)
    requires |count| == 10 && |st| == 11 && |bk| == 10
  {
    forall d, k :: 0 <= d < 10 && count[d] <= k < st[d + 1] && 0 <= st[d] <= k < |out| && k - st[d] < |bk[d]| ==>
      out[k] == bk[d][k - st[d]]
  }

  /** The buckets bk[d..] one after the other. */
  function Concat(bk: seq<seq<int>>, d: int): seq<int>
    requires 0 <= d <= |bk|
    decreases |bk| - d
  {
    if d == |bk| then [] else bk[d] + Concat(bk, d + 1)
  }

  /** An array laid out bucket by bucket, bucket d from st[d] on, is their concatenation. */
  lemma {:induction false} LaidOut(out: seq<int>, st: seq<int>, bk: seq<seq<int>>, d: int)
    requires |st| == |bk| + 1 && 0 <= d <= |bk| && st[|bk|] == |out|
    requires forall d' :: 0 <= d' <= |bk| ==> 0 <= st[d'] <= |out|
    requires forall d' :: 0 <= d' < |bk| ==> st[d' + 1] == st[d'] + |bk[d']|
    requires forall d', k :: d <= d' < |bk| && st[d'] <= k < st[d' + 1] ==> out[k] == bk[d'][k - st[d']]
    ensures out[st[d]..] == Concat(bk, d)
    decreases |bk| - d
  {
    if d < |bk| {
      LaidOut(out, st, bk, d + 1);
      assert out[st[d]..st[d + 1]] == bk[d];
      assert out[st[d]..] == out[st[d]..st[d + 1]] + out[st[d + 1]..];
    }
  }

  lemma {:induction false} BucketsConcat(s: seq<int>, e: int, bk: seq<seq<int>>, d: int)
    requires e >= 1 && |bk| == 10 && 0 <= d <= 10
    requires forall d' :: 0 <= d' < 10 ==> bk[d'] == Bucket(s, e, d')
    ensures Buckets(s, e, d) == Concat(bk, d)
    decreases 10 - d
  {
    if d < 10 {
      BucketsConcat(s, e, bk, d + 1);
    }
  }

  /**
   * `counting_sort_by_digit(arr, size, exp)`: tally the digits, turn the
   * tallies into bucket ends, and place the elements from the back into a
   * scratch buffer that is copied over the array.  A failed allocation leaves
   * the array as it was.
   */
  method DigitPass(s: seq<int>, e: int, allocOk: bool) returns (a: seq<int>)
    requires e >= 1
    ensures allocOk ==> a == Buckets(s, e, 0)
    ensures !allocOk ==> a == s
  {
    if !allocOk {
      return s;
    }
    var n := |s|;
    var count := seq(10, _ => 0);
    var i := 0;
    while i < n
      invariant 0 <= i <= n && |count| == 10
      invariant forall d :: 0 <= d < 10 ==> count[d] == |Bucket(s[..i], e, d)|
    {
      assert s[..i + 1] == s[..i] + [s[i]];
      BucketAppend(s[..i], [s[i]], e, Digit(s[i], e));
      forall d | 0 <= d < 10
        ensures |Bucket(s[..i + 1], e, d)| == |Bucket(s[..i], e, d)| + (if d == Digit(s[i], e) then 1 else 0)
      {
        BucketAppend(s[..i], [s[i]], e, d);
      }
      count := count[Digit(s[i], e) := count[Digit(s[i], e)] + 1];
      i := i + 1;
    }
    assert s[..n] == s;
    var j := 1;
    while j < 10
      invariant 1 <= j <= 10 && |count| == 10
      invariant forall d :: 0 <= d < j ==> count[d] == Start(s, e, d + 1)
      invariant forall d :: j <= d < 10 ==> count[d] == |Bucket(s, e, d)|
    {
      count := count[j := count[j] + count[j - 1]];
      j := j + 1;
    }
    BucketsPermutation(s, e);
    a := PlaceBackward(s, e, count);
  }

  /** The backward placement loop of `counting_sort_by_digit`, given the bucket ends. */
  method PlaceBackward(s: seq<int>, e: int, ends: seq<int>) returns (out: seq<int>)
    requires e >= 1 && |ends| == 10 && Start(s, e, 10) == |s|
    requires forall d :: 0 <= d < 10 ==> ends[d] == Start(s, e, d + 1)
    ensures out == Buckets(s, e, 0)
  {
    var n := |s|;
    ghost var st := seq(11, d requires 0 <= d <= 10 => Start(s, e, d));
    ghost var bk := seq(10, d requires 0 <= d < 10 => Bucket(s, e, d));
    out := seq(n, _ => 0);
    var count := ends;
    var i := n - 1;
    assert s[..n] == s;
    while i >= 0
      invariant -1 <= i < n && |out| == n && |count| == 10
      invariant forall d :: 0 <= d < 10 ==> count[d] == Start(s, e, d) + |Bucket(s[..i + 1], e, d)|
      invariant Placed(out, count, st, bk)
    {
      out, count := PlaceOne(s, e, i, out, count, st, bk);
      i := i - 1;
    }
    assert s[..0] == [];
    PlacedAll(out, count, s, e, st, bk);
  }

  /** When every bucket is placed in full, the array is the reference pass. */
  lemma PlacedAll(out: seq<int>, count: seq<int>, s: seq<int>, e: int, st: seq<int>, bk: seq<seq<int>>)
    requires e >= 1 && |count| == 10 && |st| == 11 && |bk| == 10 && Start(s, e, 10) == |out|
    requires forall d :: 0 <= d <= 10 ==> st[d] == Start(s, e, d)
    requires forall d :: 0 <= d < 10 ==> bk[d] == Bucket(s, e, d)
    requires forall d :: 0 <= d < 10 ==> count[d] == Start(s, e, d) + |Bucket([], e, d)|
    requires Placed(out, count, st, bk)
    ensures out == Buckets(s, e, 0)
  {
    forall d | 0 <= d <= 10
      ensures 0 <= st[d] <= |out|
    {
      if d < 10 {
        StartStep(s, e, d, 10);
      }
    }
    LaidOut(out, st, bk, 0);
    BucketsConcat(s, e, bk, 0);
  }

  /** Splitting the array at i for the buckets. */
  lemma BucketsAround(s: seq<int>, e: int, i: int, d: int)
    requires e >= 1 && 0 <= i < |s|
    ensures Bucket(s[..i + 1], e, d) == Bucket(s[..i], e, d) + (if Digit(s[i], e) == d then [s[i]] else [])
    ensures Bucket(s, e, d) == Bucket(s[..i + 1], e, d) + Bucket(s[i + 1..], e, d)
  {
    assert s[..i + 1] == s[..i] + [s[i]];
    assert s == s[..i + 1] + s[i + 1..];
    BucketAppend(s[..i], [s[i]], e, d);
    BucketAppend(s[..i + 1], s[i + 1..], e, d);
    assert Bucket([s[i]], e, d) == (if Digit(s[i], e) == d then [s[i]] else []) + Bucket([], e, d);
  }

  /** One step of the placement: s[i] goes to the slot just below its bucket's end. */
  method PlaceOne(s: seq<int>, e: int, i: int, out0: seq<int>, count0: seq<int>, ghost st: seq<int>, ghost bk: seq<seq<int>>)
    returns (out: seq<int>, count: seq<int>)
    requires e >= 1 && 0 <= i < |s| == |out0| && |count0| == 10 && Start(s, e, 10) == |s|
    requires |st| == 11 && |bk| == 10
    requires forall d :: 0 <= d <= 10 ==> st[d] == Start(s, e, d)
    requires forall d :: 0 <= d < 10 ==> bk[d] == Bucket(s, e, d)
    requires forall d :: 0 <= d < 10 ==> count0[d] == Start(s, e, d) + |Bucket(s[..i + 1], e, d)|
    requires Placed(out0, count0, st, bk)
    ensures |out| == |s| && |count| == 10
    ensures forall d :: 0 <= d < 10 ==> count[d] == Start(s, e, d) + |Bucket(s[..i], e, d)|
    ensures Placed(out, count, st, bk)
  {
    var x := s[i];
    var dx := Digit(x, e);
    var slot := count0[dx] - 1;
    PlaceFacts(s, e, i, count0, st, bk, dx, slot);
    out := out0[slot := x];
    count := count0[dx := slot];
    PlacedStep(out0, count0, out, count, st, bk, dx, slot);
  }

  /** Where s[i] goes: the last free slot of its bucket, clear of every other bucket. */
  lemma PlaceFacts(s: seq<int>, e: int, i: int, count0: seq<int>, st: seq<int>, bk: seq<seq<int>>, dx: int, slot: int)
    requires e >= 1 && 0 <= i < |s| && |count0| == 10 && Start(s, e, 10) == |s|
    requires |st| == 11 && |bk| == 10
    requires forall d :: 0 <= d <= 10 ==> st[d] == Start(s, e, d)
    requires forall d :: 0 <= d < 10 ==> bk[d] == Bucket(s, e, d)
    requires forall d :: 0 <= d < 10 ==> count0[d] == Start(s, e, d) + |Bucket(s[..i + 1], e, d)|
    requires dx == Digit(s[i], e) && slot == count0[dx] - 1
    ensures forall d :: 0 <= d < 10 ==> count0[dx := slot][d] == Start(s, e, d) + |Bucket(s[..i], e, d)|
    ensures st[dx] <= slot < |s| && slot - st[dx] < |bk[dx]| && bk[dx][slot - st[dx]] == s[i]
    ensures forall d :: 0 <= d < 10 && d != dx ==> slot < st[d] || st[d + 1] <= slot
  {
    var x := s[i];
    forall d | 0 <= d < 10
      ensures count0[dx := slot][d] == Start(s, e, d) + |Bucket(s[..i], e, d)|
    {
      BucketsAround(s, e, i, d);
    }
    BucketsAround(s, e, i, dx);
    StartStep(s, e, dx, 10);
    var pre, upto := Bucket(s[..i], e, dx), Bucket(s[..i + 1], e, dx);
    assert upto == pre + [x];
    assert slot - Start(s, e, dx) == |pre|;
    assert Bucket(s, e, dx) == upto + Bucket(s[i + 1..], e, dx);
    assert Bucket(s, e, dx)[|pre|] == upto[|pre|] == x;
    forall d | 0 <= d < 10 && d != dx
      ensures slot < st[d] || st[d + 1] <= slot
    {
      BucketsAround(s, e, i, d);
      if d < dx {
        StartStep(s, e, d, dx);
      } else {
        StartStep(s, e, dx, d);
      }
    }
  }

  lemma PlacedStep(out0: seq<int>, count0: seq<int>, out: seq<int>, count: seq<int>,
                   st: seq<int>, bk: seq<seq<int>>, dx: int, slot: int)
    requires |count0| == 10 && |st| == 11 && |bk| == 10 && 0 <= dx < 10 && |out| == |out0|
    requires st[dx] <= slot == count0[dx] - 1 && 0 <= slot < |out0| && slot - st[dx] < |bk[dx]|
    requires bk[dx][slot - st[dx]] == out[slot]
    requires forall d :: 0 <= d < 10 && d != dx ==> slot < st[d] || st[d + 1] <= slot
    requires Placed(out0, count0, st, bk)
    requires out == out0[slot := out[slot]] && count == count0[dx := slot]
    ensures Placed(out, count, st, bk)
  {
    forall d, k | 0 <= d < 10 && count[d] <= k < st[d + 1] && 0 <= st[d] <= k < |out| && k - st[d] < |bk[d]|
      ensures out[k] == bk[d][k - st[d]]
    {
      if k == slot {
        assert d == dx;
      } else {
        assert out[k] == out0[k];
        assert count0[d] <= k;
      }
    }
  }

  // ---------------------------------------------------------------------------
  // Ordering by the low digits
  // ---------------------------------------------------------------------------

  /** s is ordered by the value of its elements modulo m. */
  predicate SortedMod(s: seq<int>, m: int)
    requires m >= 1
  {
    forall i, j :: 0 <= i < j < |s| ==> s[i] % m <= s[j] % m
  }

  predicate NonNeg(s: seq<int>)
  {
    forall k :: 0 <= k < |s| ==> s[k] >= 0
  }

  lemma MulMono(a: nat, b: nat, e: nat)
    ensures a <= b ==> a * e <= b * e
  {
    if a < b {
      var k: nat := b - a;
      assert b * e == a * e + k * e;
    }
  }

  /** x mod 10e is the digit of x times e plus x mod e. */
  lemma DigitSplit(x: int, e: int)
    requires x >= 0 && e >= 1
    ensures x % (10 * e) == Digit(x, e) * e + x % e
    ensures x % e < e
  {
    var q: nat, r: nat := x / e, x % e;
    var hi: nat, d: nat := q / 10, q % 10;
    assert x == q * e + r;
    assert q == hi * 10 + d;
    assert q * e == hi * 10 * e + d * e by {
      assert (hi * 10 + d) * e == hi * 10 * e + d * e;
    }
    assert hi * 10 * e == hi * (10 * e);
    MulStep(10, d, e);
    ModUnique(x, 10 * e, hi, d * e + r);
  }

  /** The elements of a bucket come from the array and carry the bucket's digit. */
  lemma BucketMembers(s: seq<int>, e: int, d: int)
    requires e >= 1
    ensures forall k :: 0 <= k < |Bucket(s, e, d)| ==> Bucket(s, e, d)[k] in s && Digit(Bucket(s, e, d)[k], e) == d
  {
    BucketCount(s, e, d);
    forall k | 0 <= k < |Bucket(s, e, d)|
      ensures Bucket(s, e, d)[k] in s && Digit(Bucket(s, e, d)[k], e) == d
    {
      var y := Bucket(s, e, d)[k];
      assert y in multiset(Bucket(s, e, d));
    }
  }

  /** A bucket of an array ordered mod e is itself ordered mod e. */
  lemma {:induction false} BucketSortedMod(s: seq<int>, e: int, d: int)
    requires e >= 1 && SortedMod(s, e)
    ensures SortedMod(Bucket(s, e, d), e)
    decreases |s|
  {
    if |s| > 0 {
      var t := s[1..];
      assert SortedMod(t, e);
      BucketSortedMod(t, e, d);
      BucketMembers(t, e, d);
      forall k | 0 <= k < |Bucket(t, e, d)|
        ensures s[0] % e <= Bucket(t, e, d)[k] % e
      {
        var y := Bucket(t, e, d)[k];
        var j :| 0 <= j < |t| && t[j] == y;
        assert s[j + 1] == y;
      }
    }
  }

  /**
   * The induction step of radix sort: a pass on digit e over an array ordered
   * mod e leaves it ordered mod 10e, and buckets d.. all lie at or above d*e mod 10e.
   */
  lemma {:induction false} BucketsSortedMod(s: seq<int>, e: int, d: int)
    requires e >= 1 && 0 <= d <= 10 && NonNeg(s) && SortedMod(s, e)
    ensures SortedMod(Buckets(s, e, d), 10 * e)
    ensures forall k :: 0 <= k < |Buckets(s, e, d)| ==> d * e <= Buckets(s, e, d)[k] % (10 * e)
    decreases 10 - d
  {
    if d < 10 {
      BucketsSortedMod(s, e, d + 1);
      var b, rest := Bucket(s, e, d), Buckets(s, e, d + 1);
      BucketSortedMod(s, e, d);
      BucketMembers(s, e, d);
      forall k | 0 <= k < |b|
        ensures b[k] % (10 * e) == d * e + b[k] % e && b[k] % (10 * e) < (d + 1) * e
      {
        assert b[k] in s;
        DigitSplit(b[k], e);
      }
      MulMono(d, d + 1, e);
      var r := b + rest;
      forall i, j | 0 <= i < j < |r|
        ensures r[i] % (10 * e) <= r[j] % (10 * e)
      {
        if j < |b| {
          assert r[i] == b[i] && r[j] == b[j];
        } else if i >= |b| {
          assert r[i] == rest[i - |b|] && r[j] == rest[j - |b|];
        } else {
          assert r[i] == b[i] && r[j] == rest[j - |b|];
        }
      }
      forall k | 0 <= k < |r|
        ensures d * e <= r[k] % (10 * e)
      {
        if k >= |b| {
          assert r[k] == rest[k - |b|];
        }
      }
    }
  }

  /** Adding c to every element. */
  function Shift(s: seq<int>, c: int): (r: seq<int>)
  {
    seq(|s|, k requires 0 <= k < |s| => s[k] + c)
  }

  lemma {:induction false} ShiftCount(s: seq<int>, c: int, y: int, z: int)
    requires z == y + c
    ensures multiset(Shift(s, c))[z] == multiset(s)[y]
    decreases |s|
  {
    if |s| > 0 {
      var t := s[1..];
      ShiftCount(t, c, y, z);
      assert s == [s[0]] + t;
      assert Shift(s, c) == [s[0] + c] + Shift(t, c);
      assert multiset(Shift(s, c)) == multiset{s[0] + c} + multiset(Shift(t, c));
    }
  }

  /** A shifted permutation of a shifted array is a permutation of the array. */
  lemma ShiftBack(a0: seq<int>, b: seq<int>, m: int)
    requires multiset(b) == multiset(Shift(a0, -m))
    ensures multiset(Shift(b, m)) == multiset(a0)
  {
    var sb, sa := multiset(Shift(b, m)), multiset(a0);
    forall y
      ensures sb[y] == sa[y]
    {
      var x := y - m;
      ShiftCount(b, m, x, y);
      ShiftCount(a0, -m, y, x);
    }
    assert sb == sa;
  }

  /**
   * What `math_sort_radix` needs to avoid 32-bit overflow: after the shift by
   * the minimum (when it is negative) every value stays below 10^9, so the
   * digit weight `exp` never passes 10^9.
   */
  predicate RadixFits(s: seq<int>)
  {
    forall i, j :: 0 <= i < |s| && 0 <= j < |s| ==> s[i] < 1_000_000_000 && s[i] - s[j] < 1_000_000_000
  }

  /**
   * `math_sort_radix`: shift by the minimum if it is negative, run a digit
   * pass for each decimal weight up to the maximum, and shift back.  A failed
   * buffer allocation makes each pass a no-op, so the array comes back as it was.
   */
  method RadixSort(a0: seq<int>, allocOk: bool) returns (a: seq<int>)
    requires RadixFits(a0)
    ensures |a| == |a0| && multiset(a) == multiset(a0)
    ensures allocOk ==> Sorted(a)
    ensures !allocOk ==> a == a0
  {
    var n := |a0|;
    if n <= 1 {
      return a0;
    }
    var minV, maxV := Extremes(a0);
    var m := if minV < 0 then minV else 0;
    var b0 := Shift(a0, -m);
    var top := maxV - m;
    assert NonNeg(b0) && forall k :: 0 <= k < n ==> b0[k] <= top;
    var b := DigitPasses(b0, top, allocOk);
    a := Shift(b, m);
    ShiftBack(a0, b, m);
    if !allocOk {
      assert b == b0;
      assert a == a0;
    }
  }

  /** The first loop of `math_sort_radix`: the largest and the smallest element. */
  method Extremes(a0: seq<int>) returns (minV: int, maxV: int)
    requires |a0| >= 1
    ensures forall k :: 0 <= k < |a0| ==> minV <= a0[k] <= maxV
    ensures minV in a0 && maxV in a0
  {
    minV, maxV := a0[0], a0[0];
    var i := 1;
    while i < |a0|
      invariant 1 <= i <= |a0|
      invariant forall k :: 0 <= k < i ==> minV <= a0[k] <= maxV
      invariant minV in a0 && maxV in a0
    {
      if a0[i] > maxV {
        maxV := a0[i];
      }
      if a0[i] < minV {
        minV := a0[i];
      }
      i := i + 1;
    }
  }

  /**
   * The digit loop of `math_sort_radix` on non-negative values up to `top`:
   * one pass per decimal weight while `top / exp > 0`.
   */
  method DigitPasses(b0: seq<int>, top: int, allocOk: bool) returns (b: seq<int>)
    requires NonNeg(b0) && 0 <= top < 1_000_000_000 && forall k :: 0 <= k < |b0| ==> b0[k] <= top
    ensures |b| == |b0| && multiset(b) == multiset(b0)
    ensures allocOk ==> Sorted(b)
    ensures !allocOk ==> b == b0
  {
    b := b0;
    var exp := 1;
    ghost var p := 0;
    while top / exp > 0
      invariant 0 <= p <= 9 && exp == Pow10(p)
      invariant NonNeg(b) && |b| == |b0| && forall k :: 0 <= k < |b| ==> b[k] <= top
      invariant multiset(b) == multiset(b0)
      invariant allocOk ==> SortedMod(b, exp)
      invariant !allocOk ==> b == b0
      decreases top - exp
    {
      WeightBelowTop(top, p);
      b := RadixPass(b, exp, allocOk, top);
      exp, p := exp * 10, p + 1;
    }
    if allocOk {
      SortedBelowWeight(b, exp, top);
    }
  }

  /** 10^p. */
  function Pow10(p: nat): (r: nat)
    ensures r >= 1
  {
    if p == 0 then 1 else 10 * Pow10(p - 1)
  }

  /** A decimal weight at most top < 10^9 is at most 10^8, so the next one still fits. */
  lemma {:induction false} WeightBelowTop(top: int, p: nat)
    requires top < 1_000_000_000 && top / Pow10(p) > 0
    ensures Pow10(p) <= top && p < 9
  {
    var e := Pow10(p);
    assert top == (top / e) * e + top % e;
    MulStep(top / e, 0, e);
    if p >= 9 {
      Pow10Grows(9, p);
    }
  }

  lemma {:induction false} Pow10Grows(p: nat, q: nat)
    requires p <= q
    ensures Pow10(p) <= Pow10(q)
    decreases q - p
  {
    if p < q {
      Pow10Grows(p, q - 1);
    }
  }

  /** One iteration of the digit loop of `math_sort_radix`. */
  method RadixPass(b0: seq<int>, e: int, allocOk: bool, ghost top: int) returns (b: seq<int>)
    requires e >= 1 && NonNeg(b0) && forall k :: 0 <= k < |b0| ==> b0[k] <= top
    requires allocOk ==> SortedMod(b0, e)
    ensures NonNeg(b) && |b| == |b0| && multiset(b) == multiset(b0)
    ensures forall k :: 0 <= k < |b| ==> b[k] <= top
    ensures allocOk ==> SortedMod(b, 10 * e)
    ensures !allocOk ==> b == b0
  {
    b := DigitPass(b0, e, allocOk);
    if allocOk {
      BucketsPermutation(b0, e);
      BucketsSortedMod(b0, e, 0);
      forall k | 0 <= k < |b|
        ensures b[k] in multiset(b0)
      {
        assert b[k] in multiset(b);
      }
    }
  }

  /** Once the weight passes every element, ordered modulo it means ordered. */
  lemma SortedBelowWeight(b: seq<int>, e: int, top: int)
    requires e >= 1 && NonNeg(b) && SortedMod(b, e) && top / e == 0
    requires forall k :: 0 <= k < |b| ==> b[k] <= top
    ensures Sorted(b)
  {
    assert top == (top / e) * e + top % e;
    forall k | 0 <= k < |b|
      ensures b[k] % e == b[k]
    {
      ModUnique(b[k], e, 0, b[k]);
    }
  }
}

=== FILE: sort_heap.dfy ===
/**
 * Heap sort of `math_sort.cpp`: `heapify` sifts a[i] down a max-heap laid
 * out in a[0..size) with the children of k at 2k + 1 and 2k + 2; the sort
 * builds the heap bottom-up and then swaps the root behind the shrinking
 * heap.
 */
module SortHeap {
  import opened SortSpec
  import opened SortBasic

  function Parent(k: int): int
  {
    (k - 1) / 2
  }

  /** Every node of a[0..size) whose parent index is at least lo is at most its parent. */
  ghost predicate HeapAbove(a: seq<int>, size: int, lo: int)
    requires 0 <= size <= |a|
  {
    forall k :: 0 < k < size && lo <= Parent(k) ==> a[k] <= a[Parent(k)]
  }

  /** k lies in the subtree rooted at i. */
  predicate Desc(k: int, i: int)
    decreases k
  {
    k == i || (k > i && k > 0 && Desc(Parent(k), i))
  }

  /** The subtree of a child lies inside the subtree of its parent. */
  lemma {:induction false} DescBelow(k: int, c: int, i: int)
    requires c > 0 && Parent(c) == i
    ensures Desc(k, c) ==> Desc(k, i) && k >= c
    decreases k
  {
    if k > c {
      DescBelow(Parent(k), c, i);
    }
  }

  /** The index `heapify` picks: i, unless a child inside the heap is strictly larger. */
  function Largest(a: seq<int>, size: int, i: int): (m: int)
    requires 0 <= i < size <= |a|
    ensures m == i || (m == 2 * i + 1 && m < size) || (m == 2 * i + 2 && m < size)
    ensures 0 <= m < size
    ensures a[m] >= a[i]
    ensures 2 * i + 1 < size ==> a[m] >= a[2 * i + 1]
    ensures 2 * i + 2 < size ==> a[m] >= a[2 * i + 2]
  {
    var l := if 2 * i + 1 < size && a[2 * i + 1] > a[i] then 2 * i + 1 else i;
    if 2 * i + 2 < size && a[2 * i + 2] > a[l] then 2 * i + 2 else l
  }

  /**
   * `heapify(arr, size, i)`: with the heap property holding below i, swap
   * a[i] with its largest child and continue there.  Only the subtree of i
   * inside the heap changes, and the new root is the largest of the family.
   */
  method Heapify(a0: seq<int>, size: int, i: int) returns (a: seq<int>)
    requires 0 <= i < size <= |a0|
    requires HeapAbove(a0, size, i + 1)
    ensures |a| == |a0| && multiset(a) == multiset(a0)
    ensures forall k :: 0 <= k < |a| && (k >= size || !Desc(k, i)) ==> a[k] == a0[k]
    ensures HeapAbove(a, size, i)
    ensures a[i] == a0[Largest(a0, size, i)]
    decreases size - i
  {
    var largest := Largest(a0, size, i);
    if largest == i {
      return a0;
    }
    var a1 := Swap(a0, i, largest);
    assert Parent(largest) == i;
    a := Heapify(a1, size, largest);
    HeapifyFrame(a0, a1, a, size, i, largest);
    HeapifyOrder(a0, a1, a, size, i, largest);
  }

  lemma HeapifyFrame(a0: seq<int>, a1: seq<int>, a: seq<int>, size: int, i: int, c: int)
    requires 0 <= i < c < size <= |a0| == |a1| == |a| && Parent(c) == i
    requires a1 == Swap(a0, i, c)
    requires forall k :: 0 <= k < |a| && (k >= size || !Desc(k, c)) ==> a[k] == a1[k]
    ensures forall k :: 0 <= k < |a| && (k >= size || !Desc(k, i)) ==> a[k] == a0[k]
  {
    forall k | 0 <= k < |a| && (k >= size || !Desc(k, i))
      ensures a[k] == a0[k]
    {
      DescBelow(k, c, i);
      assert k != c && k != i;
    }
  }

  lemma HeapifyOrder(a0: seq<int>, a1: seq<int>, a: seq<int>, size: int, i: int, c: int)
    requires 0 <= i < c < size <= |a0| == |a1| == |a| && Parent(c) == i
    requires HeapAbove(a0, size, i + 1)
    requires c == Largest(a0, size, i) && a1 == Swap(a0, i, c)
    requires forall k :: 0 <= k < |a| && (k >= size || !Desc(k, c)) ==> a[k] == a1[k]
    requires HeapAbove(a, size, c)
    requires a[c] == a1[Largest(a1, size, c)]
    ensures HeapAbove(a, size, i)
    ensures a[i] == a0[c]
  {
    assert a[i] == a1[i] by {
      DescBelow(i, c, i);
    }
    assert a[c] <= a0[c] by {
      var m := Largest(a1, size, c);
      if m != c {
        assert Parent(m) == c;
      }
    }
    forall k | 0 < k < size && i <= Parent(k)
      ensures a[k] <= a[Parent(k)]
    {
      var p := Parent(k);
      if p >= c {
      } else if p == i {
        DescBelow(i, c, i);
        assert k != c ==> !Desc(k, c);
      } else {
        DescBelow(p, c, i);
        DescBelow(k, c, i);
      }
    }
  }

  /** In a heap the root is the largest element. */
  lemma {:induction false} HeapRootMax(a: seq<int>, size: int, k: int)
    requires 0 <= k < size <= |a| && HeapAbove(a, size, 0)
    ensures a[k] <= a[0]
    decreases k
  {
    if k > 0 {
      HeapRootMax(a, size, Parent(k));
    }
  }

  /** `math_sort_heap`: heapify from n/2 - 1 down to 0, then move the root behind the heap. */
  method HeapSort(a0: seq<int>) returns (a: seq<int>)
    ensures Sorted(a) && multiset(a) == multiset(a0) && |a| == |a0|
  {
    a := a0;
    var n := |a|;
    if n <= 1 {
      return;
    }
    var i := n / 2 - 1;
    while i >= 0
      invariant -1 <= i <= n / 2 - 1 && |a| == n
      invariant multiset(a) == multiset(a0)
      invariant HeapAbove(a, n, i + 1)
    {
      a := Heapify(a, n, i);
      i := i - 1;
    }
    i := n - 1;
    while i > 0
      invariant 0 <= i <= n - 1 && |a| == n
      invariant multiset(a) == multiset(a0)
      invariant HeapAbove(a, i + 1, 0)
      invariant SortedRange(a, i + 1, n)
      invariant forall x, y :: 0 <= x <= i < y < n ==> a[x] <= a[y]
    {
      a := ExtractRoot(a, i, n);
      i := i - 1;
    }
  }

  /** One extraction step: swap the root to position i and restore the heap on a[0..i). */
  method ExtractRoot(b: seq<int>, i: int, n: int) returns (a: seq<int>)
    requires 0 < i < n == |b|
    requires HeapAbove(b, i + 1, 0) && SortedRange(b, i + 1, n)
    requires forall x, y :: 0 <= x <= i < y < n ==> b[x] <= b[y]
    ensures |a| == n && multiset(a) == multiset(b)
    ensures HeapAbove(a, i, 0) && SortedRange(a, i, n)
    ensures forall x, y :: 0 <= x < i <= y < n ==> a[x] <= a[y]
  {
    forall k | 0 <= k <= i
      ensures b[k] <= b[0]
    {
      HeapRootMax(b, i + 1, k);
    }
    var c := Swap(b, 0, i);
    assert AllLe(c, 0, i, c[i]);
    a := Heapify(c, i, 0);
    PermutedPrefixBound(c, a, i, c[i]);
  }

  /** Re-heaping a[0..i) permutes it, so a bound on it survives. */
  lemma PermutedPrefixBound(c: seq<int>, a: seq<int>, i: int, v: int)
    requires 0 <= i <= |c| == |a| && multiset(a) == multiset(c)
    requires forall k :: i <= k < |a| ==> a[k] == c[k]
    ensures AllLe(c, 0, i, v) ==> AllLe(a, 0, i, v)
  {
    UnchangedOutside(a, c, 0, i);
    SlicePermutation(c, a, 0, i);
    BoundsOfPermutation(c, 0, i, a, 0, i, v);
  }
}

=== FILE: sort_merge.dfy ===
/**
 * Merge sort of `math_sort.cpp`: top-down recursion on inclusive ranges,
 * merging two adjacent sorted runs through a scratch buffer that is copied
 * back.  The merge is specified by the functional, left-biased `Merge`.
 */
module SortMerge {
  import opened SortSpec
  import opened SortBasic

  /** Merge two runs, taking from the left run on ties. */
  function Merge(xs: seq<int>, ys: seq<int>): (r: seq<int>)
    ensures |r| == |xs| + |ys|
    decreases |xs| + |ys|
  {
    if |xs| == 0 then ys
    else if |ys| == 0 then xs
    else if xs[0] <= ys[0] then [xs[0]] + Merge(xs[1..], ys)
    else [ys[0]] + Merge(xs, ys[1..])
  }

  lemma {:induction false} MergePermutation(xs: seq<int>, ys: seq<int>)
    ensures multiset(Merge(xs, ys)) == multiset(xs) + multiset(ys)
    decreases |xs| + |ys|
  {
    if |xs| == 0 || |ys| == 0 {
    } else if xs[0] <= ys[0] {
      MergePermutation(xs[1..], ys);
      assert xs == [xs[0]] + xs[1..];
    } else {
      MergePermutation(xs, ys[1..]);
      assert ys == [ys[0]] + ys[1..];
    }
  }

  /** Merging two sorted runs gives a sorted run. */
  lemma {:induction false} MergeSorted(xs: seq<int>, ys: seq<int>)
    requires Sorted(xs) && Sorted(ys)
    ensures Sorted(Merge(xs, ys))
    decreases |xs| + |ys|
  {
    if |xs| == 0 || |ys| == 0 {
    } else if xs[0] <= ys[0] {
      MergeSorted(xs[1..], ys);
      HeadBelowMerge(xs[0], xs[1..], ys);
    } else {
      MergeSorted(xs, ys[1..]);
      HeadBelowMerge(ys[0], xs, ys[1..]);
    }
  }

  /** A value below every element of both runs is below every element of their merge. */
  lemma HeadBelowMerge(v: int, xs: seq<int>, ys: seq<int>)
    requires forall k :: 0 <= k < |xs| ==> v <= xs[k]
    requires forall k :: 0 <= k < |ys| ==> v <= ys[k]
    ensures forall k :: 0 <= k < |Merge(xs, ys)| ==> v <= Merge(xs, ys)[k]
  {
    var r := Merge(xs, ys);
    MergePermutation(xs, ys);
    forall k | 0 <= k < |r|
      ensures v <= r[k]
    {
      assert r[k] in multiset(r);
      assert r[k] in xs || r[k] in ys;
    }
  }

  /**
   * `merge(arr, left, mid, right, temp)`: merge a[left..mid] and
   * a[mid+1..right] into the scratch buffer, then copy it back over
   * a[left..right].
   */
  method MergeRuns(a0: seq<int>, left: int, mid: int, right: int) returns (a: seq<int>)
    requires 0 <= left <= mid < right < |a0|
    ensures |a| == |a0|
    ensures a == a0[..left] + Merge(a0[left..mid + 1], a0[mid + 1..right + 1]) + a0[right + 1..]
  {
    var xs, ys := a0[left..mid + 1], a0[mid + 1..right + 1];
    var temp := MergeInto(xs, ys);
    a := a0[..left] + temp + a0[right + 1..];
  }

  /**
   * The loops of `merge` that fill the scratch buffer: the smaller head goes
   * first, the left one on ties; then what is left of either run follows.
   */
  method MergeInto(xs: seq<int>, ys: seq<int>) returns (temp: seq<int>)
    ensures temp == Merge(xs, ys)
  {
    temp := [];
    var i, j := 0, 0;
    while i < |xs| && j < |ys|
      invariant 0 <= i <= |xs| && 0 <= j <= |ys|
      invariant temp + Merge(xs[i..], ys[j..]) == Merge(xs, ys)
    {
      MergeStep(xs, ys, i, j);
      if xs[i] <= ys[j] {
        temp := temp + [xs[i]];
        i := i + 1;
      } else {
        temp := temp + [ys[j]];
        j := j + 1;
      }
    }
    MergeRest(xs, ys, i, j);
    temp := temp + xs[i..] + ys[j..];
  }

  /** One step of the main loop of `merge`. */
  lemma MergeStep(xs: seq<int>, ys: seq<int>, i: int, j: int)
    requires 0 <= i < |xs| && 0 <= j < |ys|
    ensures xs[i] <= ys[j] ==> Merge(xs[i..], ys[j..]) == [xs[i]] + Merge(xs[i + 1..], ys[j..])
    ensures xs[i] > ys[j] ==> Merge(xs[i..], ys[j..]) == [ys[j]] + Merge(xs[i..], ys[j + 1..])
  {
    assert xs[i..][1..] == xs[i + 1..];
    assert ys[j..][1..] == ys[j + 1..];
  }

  /** Once one run is used up, `merge` copies the rest of the other. */
  lemma MergeRest(xs: seq<int>, ys: seq<int>, i: int, j: int)
    requires 0 <= i <= |xs| && 0 <= j <= |ys| && (i == |xs| || j == |ys|)
    ensures Merge(xs[i..], ys[j..]) == xs[i..] + ys[j..]
  {
  }

  /** `merge_sort_recursive(arr, left, right, temp)`. */
  method MergeSortRange(a0: seq<int>, left: int, right: int) returns (a: seq<int>)
    requires 0 <= left && right < |a0|
    ensures |a| == |a0| && multiset(a) == multiset(a0)
    ensures forall k :: 0 <= k < |a| && (k < left || right < k) ==> a[k] == a0[k]
    ensures left <= right + 1 ==> SortedRange(a, left, right + 1)
    decreases right - left
  {
    if left >= right {
      return a0;
    }
    var mid := left + (right - left) / 2;
    var b := MergeSortRange(a0, left, mid);
    var c := MergeSortRange(b, mid + 1, right);
    a := MergeRuns(c, left, mid, right);
    MergeRunsEffect(a0, c, a, left, mid, right);
  }

  lemma MergeRunsEffect(a0: seq<int>, c: seq<int>, a: seq<int>, left: int, mid: int, right: int)
    requires 0 <= left <= mid < right < |a0| == |c|
    requires multiset(c) == multiset(a0)
    requires SortedRange(c, left, mid + 1) && SortedRange(c, mid + 1, right + 1)
    requires a == c[..left] + Merge(c[left..mid + 1], c[mid + 1..right + 1]) + c[right + 1..]
    ensures |a| == |a0| && multiset(a) == multiset(a0)
    ensures forall k :: 0 <= k < |a| && (k < left || right < k) ==> a[k] == c[k]
    ensures SortedRange(a, left, right + 1)
  {
    var xs, ys := c[left..mid + 1], c[mid + 1..right + 1];
    SortedRangeSlice(c, left, mid + 1);
    SortedRangeSlice(c, mid + 1, right + 1);
    MergeSorted(xs, ys);
    MergePermutation(xs, ys);
    assert c[left..right + 1] == xs + ys;
    Splice(c, a, left, right + 1, Merge(xs, ys));
    SortedRangeSlice(a, left, right + 1);
  }

  /** Replacing the slice c[lo..hi) by m. */
  lemma Splice(c: seq<int>, a: seq<int>, lo: int, hi: int, m: seq<int>)
    requires 0 <= lo <= hi <= |c| && |m| == hi - lo
    requires a == c[..lo] + m + c[hi..]
    ensures |a| == |c| && a[lo..hi] == m
    ensures forall k :: 0 <= k < |a| && (k < lo || hi <= k) ==> a[k] == c[k]
    ensures multiset(m) == multiset(c[lo..hi]) ==> multiset(a) == multiset(c)
  {
    assert c == c[..lo] + c[lo..hi] + c[hi..];
    forall k | 0 <= k < |a| && (k < lo || hi <= k)
      ensures a[k] == c[k]
    {
      if hi <= k {
        assert a[k] == c[hi..][k - hi];
      }
    }
  }

  /**
   * `math_sort_merge`: the insertion sort up to ten elements; above that a
   * failed scratch allocation leaves the array as it was.
   */
  method MergeSort(a0: seq<int>, allocOk: bool) returns (a: seq<int>)
    ensures |a| == |a0| && multiset(a) == multiset(a0)
    ensures |a0| <= 10 || allocOk ==> Sorted(a)
    ensures |a0| > 10 && !allocOk ==> a == a0
  {
    if |a0| <= 1 {
      return a0;
    }
    if |a0| <= 10 {
      a := InsertionSort(a0);
      return;
    }
    if !allocOk {
      return a0;
    }
    a := MergeSortRange(a0, 0, |a0| - 1);
  }
}

=== FILE: sort_quick.dfy ===
/**
 * Lomuto partition, the hybrid quick sort (insertion pass below ten
 * elements) and quick-select with the median built on it, from
 * `math_sort.cpp`.  Ranges are inclusive `[lo, hi]` as in the C code.
 */
module SortQuick {
  import opened Wrappers
  import opened SortSpec
  import opened SortBasic

  /**
   * `partition(arr, low, high)`: the pivot is arr[high]; elements not above
   * it are swapped to the front; finally the pivot is swapped to i + 1.
   */
  method Partition(a0: seq<int>, lo: int, hi: int) returns (a: seq<int>, p: int)
    requires 0 <= lo <= hi < |a0|
    ensures |a| == |a0| && lo <= p <= hi
    ensures a[..lo] == a0[..lo] && a[hi + 1..] == a0[hi + 1..]
    ensures multiset(a) == multiset(a0)
    ensures a[p] == a0[hi]
    ensures AllLe(a, lo, p + 1, a[p]) && AllGe(a, p + 1, hi + 1, a[p] + 1)
  {
    var b, i := PartitionScan(a0, lo, hi);
    a := Swap(b, i + 1, hi);
    p := i + 1;
    assert forall k :: lo <= k < p ==> a[k] == b[k];
    assert forall k :: p < k < hi ==> a[k] == b[k];
    UnchangedOutside(a, a0, lo, hi + 1);
  }

  /** The scan of `partition`: a[lo..i] is at most the pivot, a(i..hi) above it. */
  method PartitionScan(a0: seq<int>, lo: int, hi: int) returns (a: seq<int>, i: int)
    requires 0 <= lo <= hi < |a0|
    ensures |a| == |a0| && lo - 1 <= i < hi
    ensures forall k :: 0 <= k < lo || hi <= k < |a| ==> a[k] == a0[k]
    ensures multiset(a) == multiset(a0)
    ensures forall k :: lo <= k <= i ==> a[k] <= a0[hi]
    ensures forall k :: i < k < hi ==> a[k] > a0[hi]
  {
    a := a0;
    var pivot := a[hi];
    i := lo - 1;
    var j := lo;
    while j < hi
      invariant lo - 1 <= i < j <= hi && |a| == |a0|
      invariant forall k :: 0 <= k < lo || hi <= k < |a| ==> a[k] == a0[k]
      invariant multiset(a) == multiset(a0)
      invariant forall k :: lo <= k <= i ==> a[k] <= pivot
      invariant forall k :: i < k < j ==> a[k] > pivot
    {
      if a[j] <= pivot {
        i := i + 1;
        a := Swap(a, i, j);
      }
      j := j + 1;
    }
  }

  /**
   * `quick_sort_recursive(arr, low, high)`: partition, then each side is
   * finished by the insertion pass when it spans fewer than ten places and
   * by recursion otherwise.
   */
  method QuickSortRange(a0: seq<int>, lo: int, hi: int) returns (a: seq<int>)
    requires 0 <= lo <= hi + 1 && hi < |a0|
    ensures |a| == |a0| && multiset(a) == multiset(a0)
    ensures forall k :: 0 <= k < lo || hi < k < |a| ==> a[k] == a0[k]
    ensures SortedRange(a, lo, hi + 1)
    decreases hi - lo, 1
  {
    a := a0;
    if lo >= hi {
      return;
    }
    var b, p := Partition(a0, lo, hi);
    var c := SortLeftOfPivot(b, lo, p, hi);
    assert AllGe(c, p + 1, hi + 1, b[p] + 1);
    a := SortRightOfPivot(c, lo, p, hi);
    PermutedBound(c, a, p + 1, hi + 1, b[p] + 1);
    JoinSorted(a, lo, p, hi, b[p]);
  }

  /**
   * The left side of `quick_sort_recursive`: fewer than ten places before the
   * pivot are sorted together with the pivot by insertion; otherwise the
   * recursion sorts [lo, p - 1] and the pivot stays put.
   */
  method SortLeftOfPivot(b: seq<int>, lo: int, p: int, ghost hi: int) returns (c: seq<int>)
    requires 0 <= lo <= p <= hi < |b| && AllLe(b, lo, p + 1, b[p])
    ensures |c| == |b| && multiset(c) == multiset(b)
    ensures forall k :: 0 <= k < lo || p < k < |c| ==> c[k] == b[k]
    ensures SortedRange(c, lo, p + 1) && AllLe(c, lo, p + 1, b[p])
    decreases hi - lo, 0
  {
    if p - lo < 10 {
      c := InsertionSortRange(b, lo, p + 1);
    } else {
      c := QuickSortRange(b, lo, p - 1);
      PermutedBound(b, c, lo, p, b[p]);
      PivotExtends(c, lo, p, b[p]);
    }
    PermutedBound(b, c, lo, p + 1, b[p]);
  }

  /** The right side: insertion below ten places, else recursion on [p + 1, hi]. */
  method SortRightOfPivot(c: seq<int>, ghost lo: int, p: int, hi: int) returns (a: seq<int>)
    requires 0 <= lo <= p <= hi < |c|
    ensures |a| == |c| && multiset(a) == multiset(c)
    ensures forall k :: 0 <= k <= p || hi < k < |a| ==> a[k] == c[k]
    ensures SortedRange(a, p + 1, hi + 1)
    decreases hi - lo, 0
  {
    if hi - p < 10 {
      a := InsertionSortRange(c, p + 1, hi + 1);
    } else {
      a := QuickSortRange(c, p + 1, hi);
    }
  }

  /**
   * A sort of a[lo..hi) that keeps everything outside in place permutes the
   * slice, so bounds on the slice survive it.
   */
  lemma PermutedBound(b: seq<int>, c: seq<int>, lo: int, hi: int, v: int)
    requires 0 <= lo <= hi <= |b| == |c|
    requires multiset(b) == multiset(c)
    requires forall k :: 0 <= k < lo || hi <= k < |c| ==> c[k] == b[k]
    ensures AllLe(b, lo, hi, v) ==> AllLe(c, lo, hi, v)
    ensures AllGe(b, lo, hi, v) ==> AllGe(c, lo, hi, v)
  {
    UnchangedOutside(c, b, lo, hi);
    SlicePermutation(b, c, lo, hi);
    BoundsOfPermutation(b, lo, hi, c, lo, hi, v);
  }

  /** A sorted run below the pivot, followed by the pivot, is a sorted run. */
  lemma PivotExtends(c: seq<int>, lo: int, p: int, v: int)
    requires 0 <= lo <= p < |c| && c[p] == v
    requires SortedRange(c, lo, p) && AllLe(c, lo, p, v)
    ensures SortedRange(c, lo, p + 1)
  {
  }

  /** Sorted [lo, p] at most v, then sorted (p, hi] above v: sorted [lo, hi]. */
  lemma JoinSorted(a: seq<int>, lo: int, p: int, hi: int, v: int)
    requires 0 <= lo <= p <= hi < |a|
    requires SortedRange(a, lo, p + 1) && AllLe(a, lo, p + 1, v)
    requires SortedRange(a, p + 1, hi + 1) && AllGe(a, p + 1, hi + 1, v + 1)
    ensures SortedRange(a, lo, hi + 1)
  {
  }

  /** `math_sort_quick`: the insertion sort up to ten elements, else the recursion on [0, n-1]. */
  method QuickSort(a0: seq<int>) returns (a: seq<int>)
    ensures Sorted(a) && multiset(a) == multiset(a0) && |a| == |a0|
  {
    if |a0| <= 1 {
      return a0;
    }
    if |a0| <= 10 {
      a := InsertionSort(a0);
      return;
    }
    a := QuickSortRange(a0, 0, |a0| - 1);
  }

  /**
   * Everything left of `left` is at most everything from `left` on, and
   * everything up to `right` is at most everything after it: the state
   * quick-select keeps around its window [left, right].
   */
  ghost predicate Split(a: seq<int>, left: int, right: int)
  {
    (forall x, y :: 0 <= x < left <= y < |a| ==> a[x] <= a[y]) &&
    (forall x, y :: 0 <= x <= right < y < |a| ==> a[x] <= a[y])
  }

  /** Permuting the window keeps the elements outside it separated from it. */
  lemma PermutedWindowKeepsSplit(b: seq<int>, c: seq<int>, left: int, right: int)
    requires 0 <= left <= right < |b| == |c|
    requires Split(b, left, right) && multiset(b) == multiset(c)
    requires forall k :: 0 <= k < left || right < k < |c| ==> c[k] == b[k]
    ensures Split(c, left, right)
  {
    UnchangedOutside(c, b, left, right + 1);
    SlicePermutation(b, c, left, right + 1);
    forall x | 0 <= x < left
      ensures AllGe(c, left, right + 1, c[x])
    {
      assert AllGe(b, left, right + 1, b[x]);
      BoundsOfPermutation(b, left, right + 1, c, left, right + 1, b[x]);
    }
    forall y | right < y < |c|
      ensures AllLe(c, left, right + 1, c[y])
    {
      assert AllLe(b, left, right + 1, b[y]);
      BoundsOfPermutation(b, left, right + 1, c, left, right + 1, b[y]);
    }
  }

  /** After partitioning the window at p, the split also holds around p. */
  lemma PartitionedSplit(c: seq<int>, left: int, right: int, p: int)
    requires 0 <= left <= p <= right < |c| && Split(c, left, right)
    requires AllLe(c, left, p + 1, c[p]) && AllGe(c, p + 1, right + 1, c[p] + 1)
    ensures Split(c, p, p) && Split(c, p + 1, right) && Split(c, left, p - 1)
  {
  }

  /** An element with nothing larger before it and nothing smaller after it has its index as rank. */
  lemma SplitRank(c: seq<int>, k: int)
    requires 0 <= k < |c| && Split(c, k, k)
    ensures IsRank(c, k, c[k])
  {
    CountAtMost(c, k, c[k]);
    CountAtLeast(c, k + 1, c[k] + 1);
  }

  /**
   * `math_sort_kth_element`: 0 when k is out of range; otherwise quick-select
   * with `partition`, narrowing [left, right] until the pivot lands on k.
   * The array is left partially reordered, as in place in the C code.
   */
  method KthElement(a0: seq<int>, k: nat) returns (v: int, a: seq<int>)
    ensures k >= |a0| ==> v == 0 && a == a0
    ensures k < |a0| ==> IsRank(a0, k, v) && v == SortedOf(a0)[k]
    ensures k < |a0| ==> |a| == |a0| && multiset(a) == multiset(a0) && a[k] == v
  {
    a, v := a0, 0;
    if k >= |a0| {
      return;
    }
    var left, right := 0, |a| - 1;
    while left <= right
      invariant 0 <= left <= k <= right < |a| == |a0|
      invariant multiset(a) == multiset(a0)
      invariant Split(a, left, right)
      decreases right - left
    {
      var b := a;
      var p;
      a, p := Partition(b, left, right);
      PermutedWindowKeepsSplit(b, a, left, right);
      PartitionedSplit(a, left, right, p);
      if p == k {
        v := a[p];
        SplitRank(a, k);
        CountPermutation(a0, a, v);
        CountPermutation(a0, a, v + 1);
        RankIsSortedOf(a0, k, v);
        return;
      } else if p > k {
        right := p - 1;
      } else {
        left := p + 1;
      }
    }
  }

  /**
   * `math_sort_median`: 0 for a null or empty array, the only element of a
   * one-element array, the first element when the scratch copy cannot be
   * allocated; otherwise quick-select on the copy, averaging the two middle
   * ranks for an even size.  The caller's sequence is a value and is not
   * changed.
   */
  method Median(arr: Option<seq<int>>, allocOk: bool) returns (m: real)
    ensures arr.None? || |arr.value| == 0 ==> m == 0.0
    ensures arr.Some? && |arr.value| == 1 ==> m == arr.value[0] as real
    ensures arr.Some? && |arr.value| > 1 && !allocOk ==> m == arr.value[0] as real
    ensures arr.Some? && |arr.value| > 1 && allocOk && |arr.value| % 2 == 1 ==>
      m == SortedOf(arr.value)[|arr.value| / 2] as real
    ensures arr.Some? && |arr.value| > 1 && allocOk && |arr.value| % 2 == 0 ==>
      m == (SortedOf(arr.value)[|arr.value| / 2] + SortedOf(arr.value)[|arr.value| / 2 - 1]) as real / 2.0
  {
    if arr.None? || |arr.value| == 0 {
      return 0.0;
    }
    var s := arr.value;
    if |s| == 1 {
      return s[0] as real;
    }
    if !allocOk {
      return s[0] as real;
    }
    var temp := s;
    var mid := |s| / 2;
    if |s| % 2 == 0 {
      var val1, val2;
      val1, temp := KthElement(temp, mid);
      var temp1 := temp;
      val2, temp := KthElement(temp, mid - 1);
      SortedUnique(temp1, SortedOf(s));
      m := (val1 + val2) as real / 2.0;
    } else {
      var val;
      val, temp := KthElement(temp, mid);
      m := val as real;
    }
  }
}

=== FILE: sort_search.dfy ===
/**
 * The three binary searches of `math_sort.cpp` over an ascending array.
 * Indices are the C code's `int32_t`, so arrays are shorter than 2^31, and
 * -1 means "no such position".
 */
module SortSearch {
  import opened SortSpec

  const INT32_LIMIT: int := 0x8000_0000

  /**
   * `math_sort_binary_search`: some position holding the value, or -1.  A
   * found position is genuine on any array; on a sorted one -1 means absent.
   */
  method BinarySearch(a: seq<int>, value: int) returns (r: int)
    requires |a| < INT32_LIMIT
    ensures -1 <= r < |a|
    ensures r >= 0 ==> a[r] == value
    ensures Sorted(a) ==> (r == -1 <==> value !in a)
  {
    if |a| == 0 {
      return -1;
    }
    var left, right := 0, |a| - 1;
    while left <= right
      invariant 0 <= left <= |a| && -1 <= right < |a|
      invariant Sorted(a) ==> forall k :: 0 <= k < left ==> a[k] < value
      invariant Sorted(a) ==> forall k :: right < k < |a| ==> a[k] > value
      decreases right - left
    {
      var mid := left + (right - left) / 2;
      if a[mid] == value {
        return mid;
      } else if a[mid] < value {
        left := mid + 1;
      } else {
        right := mid - 1;
      }
    }
    return -1;
  }

  /**
   * `math_sort_binary_search_left`: on a sorted array, the first position
   * whose element is at least the value, or -1 when every element is below it.
   */
  method BinarySearchLeft(a: seq<int>, value: int) returns (r: int)
    requires |a| < INT32_LIMIT
    ensures -1 <= r < |a|
    ensures r >= 0 ==> a[r] >= value
    ensures Sorted(a) && r >= 0 ==> forall k :: 0 <= k < r ==> a[k] < value
    ensures Sorted(a) ==> (r == -1 <==> forall k :: 0 <= k < |a| ==> a[k] < value)
  {
    if |a| == 0 {
      return -1;
    }
    var left, right := 0, |a| - 1;
    r := -1;
    while left <= right
      invariant 0 <= left <= |a| && -1 <= right < |a| && right - left >= -1
      invariant -1 <= r < |a|
      invariant r >= 0 ==> a[r] >= value && r == right + 1
      invariant r == -1 ==> right == |a| - 1
      invariant Sorted(a) ==> forall k :: 0 <= k < left ==> a[k] < value
      invariant Sorted(a) ==> forall k :: right < k < |a| ==> a[k] >= value
      decreases right - left
    {
      var mid := left + (right - left) / 2;
      if a[mid] >= value {
        r := mid;
        right := mid - 1;
      } else {
        left := mid + 1;
      }
    }
  }

  /**
   * `math_sort_binary_search_right`: on a sorted array, the last position
   * whose element is at most the value, or -1 when every element is above it.
   */
  method BinarySearchRight(a: seq<int>, value: int) returns (r: int)
    requires |a| < INT32_LIMIT
    ensures -1 <= r < |a|
    ensures r >= 0 ==> a[r] <= value
    ensures Sorted(a) && r >= 0 ==> forall k :: r < k < |a| ==> a[k] > value
    ensures Sorted(a) ==> (r == -1 <==> forall k :: 0 <= k < |a| ==> a[k] > value)
  {
    if |a| == 0 {
      return -1;
    }
    var left, right := 0, |a| - 1;
    r := -1;
    while left <= right
      invariant 0 <= left <= |a| && -1 <= right < |a| && right - left >= -1
      invariant -1 <= r < |a|
      invariant r >= 0 ==> a[r] <= value && r == left - 1
      invariant r == -1 ==> left == 0
      invariant Sorted(a) ==> forall k :: 0 <= k < left ==> a[k] <= value
      invariant Sorted(a) ==> forall k :: right < k < |a| ==> a[k] > value
      decreases right - left
    {
      var mid := left + (right - left) / 2;
      if a[mid] <= value {
        r := mid;
        left := mid + 1;
      } else {
        right := mid - 1;
      }
    }
  }
}

=== FILE: sort_spec.dfy ===
/**
 * Shared vocabulary for the routines of `math_sort.cpp`: ordering of a
 * sequence or of a slice of it, element bounds of a slice, and the rank of
 * a value inside a multiset of samples.  The float arrays of the C code are
 * only ever compared, so elements are modelled as integers throughout.
 */
module SortSpec {

  /** s[lo..hi) is in ascending order. */
  predicate SortedRange(s: seq<int>, lo: int, hi: int)
    requires 0 <= lo <= hi <= |s|
  {
    forall i, j :: lo <= i < j < hi ==> s[i] <= s[j]
  }

  predicate Sorted(s: seq<int>)
  {
    forall i, j :: 0 <= i < j < |s| ==> s[i] <= s[j]
  }

  /** A sorted range is a sorted slice. */
  lemma SortedRangeSlice(s: seq<int>, lo: int, hi: int)
    requires 0 <= lo <= hi <= |s|
    ensures SortedRange(s, lo, hi) <==> Sorted(s[lo..hi])
  {
    assert forall i :: 0 <= i < hi - lo ==> s[lo..hi][i] == s[lo + i];
  }

  /** Every element of s[lo..hi) is at most v. */
  predicate AllLe(s: seq<int>, lo: int, hi: int, v: int)
    requires 0 <= lo <= hi <= |s|
  {
    forall k :: lo <= k < hi ==> s[k] <= v
  }

  /** Every element of s[lo..hi) is at least v. */
  predicate AllGe(s: seq<int>, lo: int, hi: int, v: int)
    requires 0 <= lo <= hi <= |s|
  {
    forall k :: lo <= k < hi ==> v <= s[k]
  }

  /** A bound on the elements of a slice carries over to any slice with the same multiset. */
  lemma BoundsOfPermutation(s: seq<int>, lo: int, hi: int, t: seq<int>, lo': int, hi': int, v: int)
    requires 0 <= lo <= hi <= |s| && 0 <= lo' <= hi' <= |t|
    requires multiset(s[lo..hi]) == multiset(t[lo'..hi'])
    ensures AllLe(s, lo, hi, v) ==> AllLe(t, lo', hi', v)
    ensures AllGe(s, lo, hi, v) ==> AllGe(t, lo', hi', v)
  {
    forall k | lo' <= k < hi'
      ensures exists m :: lo <= m < hi && s[m] == t[k]
    {
      assert t[k] == t[lo'..hi'][k - lo'];
      assert t[k] in multiset(t[lo'..hi']);
      assert t[k] in s[lo..hi];
      var m :| 0 <= m < hi - lo && s[lo..hi][m] == t[k];
      assert s[lo + m] == t[k];
    }
  }

  /** Number of elements of s strictly below v. */
  function CountLess(s: seq<int>, v: int): (n: nat)
    ensures n <= |s|
  {
    if |s| == 0 then 0 else CountLess(s[..|s| - 1], v) + (if s[|s| - 1] < v then 1 else 0)
  }

  /**
   * v is the element of rank k (0-based) of the samples s: at most k samples
   * lie strictly below v and more than k lie at or below it.
   */
  predicate IsRank(s: seq<int>, k: int, v: int)
  {
    CountLess(s, v) <= k < CountLess(s, v + 1)
  }

  lemma {:induction false} CountAppend(a: seq<int>, b: seq<int>, v: int)
    ensures CountLess(a + b, v) == CountLess(a, v) + CountLess(b, v)
    decreases |b|
  {
    if |b| > 0 {
      assert (a + b)[..|a + b| - 1] == a + b[..|b| - 1];
      CountAppend(a, b[..|b| - 1], v);
    } else {
      assert a + b == a;
    }
  }

  lemma {:induction false} CountAllBelow(s: seq<int>, v: int)
    ensures (forall i :: 0 <= i < |s| ==> s[i] < v) ==> CountLess(s, v) == |s|
    ensures (forall i :: 0 <= i < |s| ==> s[i] >= v) ==> CountLess(s, v) == 0
  {
    if |s| > 0 {
      CountAllBelow(s[..|s| - 1], v);
    }
  }

  /** The count of elements below v depends only on the multiset of s. */
  lemma {:induction false} CountPermutation(s: seq<int>, t: seq<int>, v: int)
    requires multiset(s) == multiset(t)
    ensures CountLess(s, v) == CountLess(t, v)
    decreases |s|
  {
    if |s| == 0 {
      assert |t| == |multiset(t)| == 0;
    } else {
      var x := s[|s| - 1];
      var s' := s[..|s| - 1];
      assert s == s' + [x];
      assert x in multiset(t);
      var i :| 0 <= i < |t| && t[i] == x;
      var t' := t[..i] + t[i + 1..];
      assert t == t[..i] + [x] + t[i + 1..];
      assert multiset(t') == multiset(t) - multiset{x};
      assert multiset(s') == multiset(s) - multiset{x};
      CountPermutation(s', t', v);
      CountAppend(t[..i] + [x], t[i + 1..], v);
      CountAppend(t[..i], [x], v);
      CountAppend(t[..i], t[i + 1..], v);
    }
  }

  /** If s[m..] lies at or above v, at most m elements are below v. */
  lemma CountAtMost(s: seq<int>, m: int, v: int)
    requires 0 <= m <= |s|
    requires forall i :: m <= i < |s| ==> s[i] >= v
    ensures CountLess(s, v) <= m
  {
    assert s == s[..m] + s[m..];
    CountAppend(s[..m], s[m..], v);
    CountAllBelow(s[m..], v);
  }

  /** If s[..m] lies below v, at least m elements are below v. */
  lemma CountAtLeast(s: seq<int>, m: int, v: int)
    requires 0 <= m <= |s|
    requires forall i :: 0 <= i < m ==> s[i] < v
    ensures CountLess(s, v) >= m
  {
    assert s == s[..m] + s[m..];
    CountAppend(s[..m], s[m..], v);
    CountAllBelow(s[..m], v);
  }

  /** In a sorted sequence the element of rank k is exactly s[k]. */
  lemma RankOfSorted(s: seq<int>, k: int, v: int)
    requires Sorted(s) && 0 <= k < |s|
    ensures IsRank(s, k, v) <==> v == s[k]
  {
    if v <= s[k] {
      CountAtMost(s, k, v);
    }
    if v < s[k] {
      CountAtMost(s, k, v + 1);
    }
    if v >= s[k] {
      CountAtLeast(s, k + 1, v + 1);
    }
    if v > s[k] {
      CountAtLeast(s, k + 1, v);
    }
  }

  /** Insert x into a sorted sequence before the first element not below it. */
  function InsertSorted(x: int, t: seq<int>): (r: seq<int>)
    requires Sorted(t)
    ensures Sorted(r) && |r| == |t| + 1
    ensures multiset(r) == multiset(t) + multiset{x}
    ensures forall i :: 0 <= i < |r| ==> r[i] == x || r[i] in t
  {
    if |t| == 0 then [x]
    else if x <= t[0] then [x] + t
    else
      var rest := InsertSorted(x, t[1..]);
      assert t == [t[0]] + t[1..];
      assert forall i :: 0 <= i < |rest| ==> t[0] <= rest[i];
      [t[0]] + rest
  }

  /**
   * Reference definition of the sorted arrangement of a multiset of samples,
   * by functional insertion sort.
   */
  function SortedOf(s: seq<int>): (r: seq<int>)
    ensures Sorted(r) && multiset(r) == multiset(s) && |r| == |s|
  {
    if |s| == 0 then []
    else
      assert s == s[..|s| - 1] + [s[|s| - 1]];
      InsertSorted(s[|s| - 1], SortedOf(s[..|s| - 1]))
  }

  /** The rank-k sample is the k-th element of the sorted arrangement. */
  lemma RankIsSortedOf(s: seq<int>, k: int, v: int)
    requires 0 <= k < |s|
    ensures IsRank(s, k, v) <==> v == SortedOf(s)[k]
  {
    var t := SortedOf(s);
    CountPermutation(s, t, v);
    CountPermutation(s, t, v + 1);
    RankOfSorted(t, k, v);
  }

  /** A sorted permutation is unique: every correct sort returns SortedOf. */
  lemma SortedUnique(s: seq<int>, t: seq<int>)
    requires Sorted(t) && multiset(t) == multiset(s)
    ensures t == SortedOf(s)
  {
    assert |t| == |multiset(t)| == |multiset(s)| == |s|;
    forall k | 0 <= k < |t|
      ensures t[k] == SortedOf(s)[k]
    {
      RankOfSorted(t, k, t[k]);
      CountPermutation(s, t, t[k]);
      CountPermutation(s, t, t[k] + 1);
      RankIsSortedOf(s, k, t[k]);
    }
  }
}

=== FILE: spl06.dfy ===
/**
 * The decoding and filtering logic of the SPL06 barometer driver
 * (`spl06.cpp`): 24-bit raw readings, the 18-byte calibration block, the
 * oversampling scale factors and the glitch-rejecting 3-slot median filter.
 * Bus transfers are left out; the bytes they return are parameters.
 */
module Spl06 {
  import opened CTypes
  import opened MathBits

  // ---------------------------------------------------------------------------
  // Median of three
  // ---------------------------------------------------------------------------

  function Count(b: bool): nat
  {
    if b then 1 else 0
  }

  /** m is a median of a, b, c: at least two of them are <= m and at least two are >= m. */
  predicate IsMedian3(a: int, b: int, c: int, m: int)
  {
    (m == a || m == b || m == c) &&
    Count(a <= m) + Count(b <= m) + Count(c <= m) >= 2 &&
    Count(a >= m) + Count(b >= m) + Count(c >= m) >= 2
  }

  /** `QuickMedian3_INT32S`: b if it lies between a and c, else a if it lies between b and c, else c. */
  function Median3(a: int, b: int, c: int): (m: int)
    ensures IsMedian3(a, b, c, m)
  {
    if (a <= b && b <= c) || (c <= b && b <= a) then b
    else if (b <= a && a <= c) || (c <= a && a <= b) then a
    else c
  }

  /** The median does not depend on the order of the three slots. */
  lemma Median3Symmetric(a: int, b: int, c: int)
    ensures Median3(a, b, c) == Median3(b, a, c) == Median3(a, c, b) == Median3(c, b, a)
  {
  }

  /** The median is unique: any value with the median property is the one computed. */
  lemma MedianUnique(a: int, b: int, c: int, m: int)
    requires IsMedian3(a, b, c, m)
    ensures m == Median3(a, b, c)
  {
  }

  // ---------------------------------------------------------------------------
  // Median filter
  // ---------------------------------------------------------------------------

  const MEDIAN_FILTER_LEN: nat := 3

  /** `MAX_DELTA_ERROR` of `spl06.cpp`, in units of 0.1 Pa. */
  const MAX_DELTA_ERROR: int := 10000

  /** `filterBuff_`, `filterIndex_`, `filterIsReady_`. */
  datatype Filter = Filter(buf: seq<int>, index: nat, ready: bool)

  predicate ValidFilter(f: Filter)
  {
    |f.buf| == MEDIAN_FILTER_LEN && f.index < MEDIAN_FILTER_LEN
  }

  /** The constructor's state: a zeroed buffer, index 0, not ready. */
  const InitialFilter: Filter := Filter([0, 0, 0], 0, false)

  /** The slot written before `index`. */
  function LastIndex(index: nat): (l: nat)
    requires index < MEDIAN_FILTER_LEN
    ensures l < MEDIAN_FILTER_LEN && (l + 1) % MEDIAN_FILTER_LEN == index
  {
    if index == 0 then MEDIAN_FILTER_LEN - 1 else index - 1
  }

  /**
   * One filter step with glitch threshold `maxDelta`.  The ready flag is set
   * as soon as the index wraps, before the glitch test of the same call.
   * Unready: store, advance, return the input.  Ready and close to the last
   * stored value: store, advance, return the median of the buffer.  Ready
   * and a glitch: return the last stored value and keep buffer and index.
   */
  function FilterStep(f: Filter, v: int, maxDelta: int): (r: (Filter, int))
    requires ValidFilter(f)
    ensures ValidFilter(r.0)
    ensures r.0.ready == (f.ready || f.index == MEDIAN_FILTER_LEN - 1)
    ensures !r.0.ready ==> r.1 == v && r.0.buf == f.buf[f.index := v]
    ensures r.0.index == f.index || r.0.index == (f.index + 1) % MEDIAN_FILTER_LEN
    ensures r.0.index == f.index ==> r.0.buf == f.buf && r.1 == f.buf[LastIndex(f.index)]
    ensures r.0.index != f.index ==> r.0.buf == f.buf[f.index := v]
    ensures r.0.ready && r.0.index != f.index ==> IsMedian3(r.0.buf[0], r.0.buf[1], r.0.buf[2], r.1)
    ensures r.0.ready ==> (r.0.index != f.index <==> AbsInt(f.buf[LastIndex(f.index)] - v) < maxDelta)
  {
    var next := if f.index + 1 >= MEDIAN_FILTER_LEN then 0 else f.index + 1;
    var ready := f.ready || f.index + 1 >= MEDIAN_FILTER_LEN;
    var last := f.buf[LastIndex(f.index)];
    if ready then
      if AbsInt(last - v) < maxDelta then
        var buf := f.buf[f.index := v];
        (Filter(buf, next, true), Median3(buf[0], buf[1], buf[2]))
      else
        (f.(ready := true), last)
    else
      (Filter(f.buf[f.index := v], next, false), v)
  }

  /** `SPL06::medianFilter`. */
  function MedianFilter(f: Filter, v: int): (r: (Filter, int))
    requires ValidFilter(f)
    ensures ValidFilter(r.0)
  {
    FilterStep(f, v, MAX_DELTA_ERROR)
  }

  /** Once ready, the filter stays ready. */
  lemma ReadyStays(f: Filter, v: int, maxDelta: int)
    requires ValidFilter(f) && f.ready
    ensures FilterStep(f, v, maxDelta).0.ready
  {
  }

  /**
   * From the constructor's state the first two readings pass through
   * unchanged, and the third call finds the filter ready.
   */
  lemma WarmUp(v1: int, v2: int, v3: int, maxDelta: int)
    ensures var s1 := FilterStep(InitialFilter, v1, maxDelta);
            var s2 := FilterStep(s1.0, v2, maxDelta);
            s1.1 == v1 && s2.1 == v2 && !s2.0.ready && s2.0.index == 2 && FilterStep(s2.0, v3, maxDelta).0.ready
  {
  }

  /** Accepted readings walk the index round 0, 1, 2, 0, ... */
  lemma IndexCycles(f: Filter, v: int, maxDelta: int)
    requires ValidFilter(f)
    requires AbsInt(f.buf[LastIndex(f.index)] - v) < maxDelta
    ensures FilterStep(f, v, maxDelta).0.index == (f.index + 1) % MEDIAN_FILTER_LEN
  {
  }

  // ---------------------------------------------------------------------------
  // Raw readings and calibration coefficients
  // ---------------------------------------------------------------------------

  predicate Bytes(s: seq<int>)
  {
    forall i :: 0 <= i < |s| ==> IsU8(s[i])
  }

  /**
   * `readRawPressure` / `readRawTemperature`: three big-endian bytes read as
   * a 24-bit two's-complement number.  The shifted bytes occupy disjoint
   * bits, so the C code's `|` is the sum written here (see `OrIsPlus24`).
   */
  function Raw24(b0: nat, b1: nat, b2: nat): (v: int)
    requires IsU8(b0) && IsU8(b1) && IsU8(b2)
    ensures -0x80_0000 <= v < 0x80_0000
    ensures v >= 0 <==> b0 < 0x80
    ensures v % 0x100_0000 == (b0 * 0x1_0000 + b1 * 0x100 + b2) % 0x100_0000
  {
    var p := b0 * 0x1_0000 + b1 * 0x100 + b2;
    Pow2Values();
    SignExtend(p, 24)
  }

  /**
   * At the bit level, OR-ing the shifted bytes equals adding them, and the
   * sign extension `0xFF000000 | p` equals adding 0xFF000000, for any bytes.
   */
  lemma OrIsPlus24(b0: bv8, b1: bv8, b2: bv8)
    ensures var p: bv32 := ((b0 as bv32) << 16) | ((b1 as bv32) << 8) | (b2 as bv32);
            p == (b0 as bv32) * 0x1_0000 + (b1 as bv32) * 0x100 + (b2 as bv32) &&
            (0xFF00_0000 | p) == p + 0xFF00_0000
  {
  }

  /** The calibration coefficients C0, C1, C00, C10, C01, C11, C20, C21, C30. */
  datatype Calib = Calib(c0: int, c1: int, c00: int, c10: int, c01: int, c11: int, c20: int, c21: int, c30: int)

  /** The ranges the decoder guarantees: 12-, 20- and 16-bit signed values. */
  predicate CalibInRange(c: Calib)
  {
    -0x800 <= c.c0 < 0x800 && -0x800 <= c.c1 < 0x800 &&
    -0x8_0000 <= c.c00 < 0x8_0000 && -0x8_0000 <= c.c10 < 0x8_0000 &&
    -0x8000 <= c.c01 < 0x8000 && -0x8000 <= c.c11 < 0x8000 && -0x8000 <= c.c20 < 0x8000 &&
    -0x8000 <= c.c21 < 0x8000 && -0x8000 <= c.c30 < 0x8000
  }

  /**
   * The coefficient decode of `SPL06::init`: C0 is coef[0] and the high
   * nibble of coef[1], C1 the low nibble of coef[1] and coef[2] (both 12-bit
   * signed); C00 is coef[3], coef[4] and the high nibble of coef[5], C10 the
   * low nibble of coef[5], coef[6] and coef[7] (both 20-bit signed); the
   * rest are big-endian pairs stored into `int16_t`.
   */
  function DecodeCalib(coef: seq<int>): (c: Calib)
    requires |coef| == 18 && Bytes(coef)
    ensures CalibInRange(c)
  {
    Pow2Values();
    Calib(
      SignExtend(coef[0] * 16 + coef[1] / 16, 12),
      SignExtend((coef[1] % 16) * 0x100 + coef[2], 12),
      SignExtend(coef[3] * 0x1000 + coef[4] * 16 + coef[5] / 16, 20),
      SignExtend((coef[5] % 16) * 0x1_0000 + coef[6] * 0x100 + coef[7], 20),
      SignExtend(coef[8] * 0x100 + coef[9], 16),
      SignExtend(coef[10] * 0x100 + coef[11], 16),
      SignExtend(coef[12] * 0x100 + coef[13], 16),
      SignExtend(coef[14] * 0x100 + coef[15], 16),
      SignExtend(coef[16] * 0x100 + coef[17], 16))
  }

  /** The two's-complement pattern of a value in [-2^(bits-1), 2^(bits-1)). */
  function Pattern(v: int, m: nat): (p: nat)
    requires m > 0 && -(m / 2) <= v < m / 2
    ensures p < m
  {
    if v >= 0 then v else v + m
  }

  /** The 18-byte block whose decode gives c: the inverse of `DecodeCalib`. */
  function EncodeCalib(c: Calib): (coef: seq<int>)
    requires CalibInRange(c)
    ensures |coef| == 18 && Bytes(coef)
  {
    var u0, u1 := Pattern(c.c0, 0x1000), Pattern(c.c1, 0x1000);
    var u00, u10 := Pattern(c.c00, 0x10_0000), Pattern(c.c10, 0x10_0000);
    var u01, u11, u20 := Pattern(c.c01, 0x1_0000), Pattern(c.c11, 0x1_0000), Pattern(c.c20, 0x1_0000);
    var u21, u30 := Pattern(c.c21, 0x1_0000), Pattern(c.c30, 0x1_0000);
    [u0 / 16, (u0 % 16) * 16 + u1 / 0x100, u1 % 0x100,
     u00 / 0x1000, (u00 / 16) % 0x100, (u00 % 16) * 16 + u10 / 0x1_0000, (u10 / 0x100) % 0x100, u10 % 0x100,
     u01 / 0x100, u01 % 0x100, u11 / 0x100, u11 % 0x100, u20 / 0x100, u20 % 0x100,
     u21 / 0x100, u21 % 0x100, u30 / 0x100, u30 % 0x100]
  }

  lemma SignExtendPattern(v: int, bits: nat, m: nat)
    requires 1 <= bits && m == Pow2(bits) && m == 2 * Pow2(bits - 1) && -(m / 2) <= v < m / 2
    ensures SignExtend(Pattern(v, m), bits) == v
  {
  }

  /** Splitting a value into a high part and a low part of w values and joining them back. */
  lemma SplitJoin(u: nat, w: nat)
    requires w > 0
    ensures (u / w) * w + u % w == u
  {
  }

  /** Decoding the encoded block gives back every coefficient. */
  lemma {:induction false} DecodeEncode(c: Calib)
    requires CalibInRange(c)
    ensures DecodeCalib(EncodeCalib(c)) == c
  {
    var coef := EncodeCalib(c);
    var d := DecodeCalib(coef);
    DecodeTwelveBit(c);
    DecodeTwentyBit(c);
    DecodeSixteenBit(c.c01);
    DecodeSixteenBit(c.c11);
    DecodeSixteenBit(c.c20);
    DecodeSixteenBit(c.c21);
    DecodeSixteenBit(c.c30);
    assert d.c0 == c.c0 && d.c1 == c.c1 && d.c00 == c.c00 && d.c10 == c.c10;
    assert d.c01 == c.c01 && d.c11 == c.c11 && d.c20 == c.c20 && d.c21 == c.c21 && d.c30 == c.c30;
  }

  /** C0 and C1 come back from the first three bytes. */
  lemma DecodeTwelveBit(c: Calib)
    requires CalibInRange(c)
    ensures var coef := EncodeCalib(c);
            Pow2(12) == 0x1000 &&
            SignExtend(coef[0] * 16 + coef[1] / 16, 12) == c.c0 &&
            SignExtend((coef[1] % 16) * 0x100 + coef[2], 12) == c.c1
  {
    var coef := EncodeCalib(c);
    Pow2Values();
    var u0, u1 := Pattern(c.c0, 0x1000), Pattern(c.c1, 0x1000);
    assert coef[0] == u0 / 16 && coef[1] == (u0 % 16) * 16 + u1 / 0x100 && coef[2] == u1 % 0x100;
    ModUnique(coef[1], 16, u0 % 16, u1 / 0x100);
    assert coef[0] * 16 + coef[1] / 16 == u0;
    assert (coef[1] % 16) * 0x100 + coef[2] == u1;
    SignExtendPattern(c.c0, 12, 0x1000);
    SignExtendPattern(c.c1, 12, 0x1000);
  }

  /** C00 and C10 come back from bytes 3 to 7. */
  lemma DecodeTwentyBit(c: Calib)
    requires CalibInRange(c)
    ensures var coef := EncodeCalib(c);
            Pow2(20) == 0x10_0000 &&
            SignExtend(coef[3] * 0x1000 + coef[4] * 16 + coef[5] / 16, 20) == c.c00 &&
            SignExtend((coef[5] % 16) * 0x1_0000 + coef[6] * 0x100 + coef[7], 20) == c.c10
  {
    var coef := EncodeCalib(c);
    Pow2Values();
    var u00, u10 := Pattern(c.c00, 0x10_0000), Pattern(c.c10, 0x10_0000);
    assert coef[3] == u00 / 0x1000 && coef[4] == (u00 / 16) % 0x100;
    assert coef[5] == (u00 % 16) * 16 + u10 / 0x1_0000;
    assert coef[6] == (u10 / 0x100) % 0x100 && coef[7] == u10 % 0x100;
    ModUnique(coef[5], 16, u00 % 16, u10 / 0x1_0000);
    JoinHigh(u00);
    JoinLow(u10);
    SignExtendPattern(c.c00, 20, 0x10_0000);
    SignExtendPattern(c.c10, 20, 0x10_0000);
  }

  /** A 20-bit value split as 8 + 8 + 4 bits joins back. */
  lemma JoinHigh(u: nat)
    ensures (u / 0x1000) * 0x1000 + ((u / 16) % 0x100) * 16 + u % 16 == u
  {
    var h := u / 16;
    var a, m, low := h / 0x100, h % 0x100, u % 16;
    assert u == h * 16 + low && h == a * 0x100 + m;
    assert u == a * 0x1000 + (m * 16 + low);
    ModUnique(u, 0x1000, a, m * 16 + low);
  }

  /** A 20-bit value split as 4 + 8 + 8 bits joins back. */
  lemma JoinLow(u: nat)
    ensures (u / 0x1_0000) * 0x1_0000 + ((u / 0x100) % 0x100) * 0x100 + u % 0x100 == u
  {
    var g := u / 0x100;
    var top, mid, lo := g / 0x100, g % 0x100, u % 0x100;
    assert u == g * 0x100 + lo && g == top * 0x100 + mid;
    assert u == top * 0x1_0000 + (mid * 0x100 + lo);
    ModUnique(u, 0x1_0000, top, mid * 0x100 + lo);
  }

  /** A 16-bit coefficient comes back from its big-endian pair. */
  lemma DecodeSixteenBit(v: int)
    requires -0x8000 <= v < 0x8000
    ensures var u := Pattern(v, 0x1_0000);
            Pow2(16) == 0x1_0000 && SignExtend((u / 0x100) * 0x100 + u % 0x100, 16) == v
  {
    Pow2Values();
    var u := Pattern(v, 0x1_0000);
    SplitJoin(u, 0x100);
    SignExtendPattern(v, 16, 0x1_0000);
  }

  // ---------------------------------------------------------------------------
  // Oversampling configuration
  // ---------------------------------------------------------------------------

  /** The PM_PRC_n / TMP_PRC_n codes 0..7 stand for 1, 2, 4, ..., 128 samples. */
  const PRC_8: nat := 3

  /** The datasheet scale factors for the eight oversampling codes. */
  const ScaleTable: seq<real> := [524288.0, 1572864.0, 3670016.0, 7864320.0, 253952.0, 516096.0, 1040384.0, 2088960.0]

  /** kP as selected in `SPL06::init`: the table entry, 516096 for an unknown code. */
  function PressureScale(code: nat): (k: real)
    ensures code < 8 ==> k == ScaleTable[code]
    ensures code >= 8 ==> k == ScaleTable[5]
  {
    if code < 8 then ScaleTable[code] else 516096.0
  }

  /** kT as selected in `SPL06::init`: the table entry, 1572864 for an unknown code. */
  function TemperatureScale(code: nat): (k: real)
    ensures code < 8 ==> k == ScaleTable[code]
    ensures code >= 8 ==> k == ScaleTable[1]
  {
    if code < 8 then ScaleTable[code] else 1572864.0
  }

  const CFG_T_SHIFT: nat := 0x08
  const CFG_P_SHIFT: nat := 0x04

  /** The CFG_REG value `init` writes: the P and T shift bits, each iff its oversampling exceeds 8x. */
  function CfgReg(pressureCode: nat, temperatureCode: nat): (v: nat)
    ensures v < 0x100
    ensures (v / CFG_P_SHIFT) % 2 == 1 <==> pressureCode > PRC_8
    ensures (v / CFG_T_SHIFT) % 2 == 1 <==> temperatureCode > PRC_8
    ensures v % CFG_P_SHIFT == 0 && v / (2 * CFG_T_SHIFT) == 0
  {
    (if pressureCode > PRC_8 then CFG_P_SHIFT else 0) + (if temperatureCode > PRC_8 then CFG_T_SHIFT else 0)
  }

  /** The configuration `init` programs: pressure code 5 (32x) and temperature code 1 (2x). */
  lemma InitConfiguration()
    ensures PressureScale(5) == 516096.0 && TemperatureScale(1) == 1572864.0
    ensures CfgReg(5, 1) == CFG_P_SHIFT
  {
  }

  /**
   * `pressureToAltitude`: 0 for a non-positive pressure; otherwise the
   * fixed-temperature barometric formula, whose `powf` is a parameter.
   */
  function PressureToAltitude(pressure: real, powf: (real, real) -> real): (h: real)
    ensures pressure <= 0.0 ==> h == 0.0
  {
    if pressure <= 0.0 then 0.0
    else (powf(101325.0 / pressure, 0.1902630958) - 1.0) * (20.0 + 273.15) / 0.0065
  }

  /**
   * With a `powf` that grows with its base, a higher pressure never reads as
   * a higher altitude, and the sea-level reference pressure reads as 0 m
   * when `powf` maps a base of 1 to 1.
   */
  lemma AltitudeFallsWithPressure(p1: real, p2: real, powf: (real, real) -> real)
    requires 0.0 < p1 <= p2
    requires powf(101325.0 / p2, 0.1902630958) <= powf(101325.0 / p1, 0.1902630958)
    ensures PressureToAltitude(p2, powf) <= PressureToAltitude(p1, powf)
    ensures powf(1.0, 0.1902630958) == 1.0 ==> PressureToAltitude(101325.0, powf) == 0.0
  {
  }
}

=== FILE: spl06_old.dfy ===
/**
 * The earlier C driver for the same barometer (`spl06_old.c`): the same
 * decoding written with `+` in place of `|`, a median filter with a glitch
 * threshold of 1000, and oversampling setters without a default case.
 */
module Spl06Old {
  import opened CTypes
  import Spl06

  /** `MAX_DELTA_ERROR` of `spl06_old.c`. */
  const MAX_DELTA_ERROR: int := 1000

  /**
   * `BaroMedianFilter` as written, over the same state as the newer filter:
   * the index wraps when it reaches MEDIAN_FILTER_LEN, the previous slot is
   * index - 1 taken round to the end, and a glitch returns that slot.
   */
  function BaroMedianFilter(f: Spl06.Filter, v: int): (r: (Spl06.Filter, int))
    requires Spl06.ValidFilter(f)
    ensures r == Spl06.FilterStep(f, v, MAX_DELTA_ERROR)
  {
    var next0 := f.index + 1;
    var wraps := next0 == Spl06.MEDIAN_FILTER_LEN;
    var next := if wraps then 0 else next0;
    var ready := f.ready || wraps;
    var last0 := f.index - 1;
    var last := if last0 < 0 then Spl06.MEDIAN_FILTER_LEN - 1 else last0;
    if ready then
      if AbsInt(f.buf[last] - v) < MAX_DELTA_ERROR then
        var buf := f.buf[f.index := v];
        (Spl06.Filter(buf, next, true), Spl06.Median3(buf[0], buf[1], buf[2]))
      else
        (f.(ready := true), f.buf[last])
    else
      (Spl06.Filter(f.buf[f.index := v], next, false), v)
  }

  /**
   * On a glitch the old filter returns the previous slot and leaves buffer
   * and index alone; before the buffer has filled it returns its input.
   */
  lemma GlitchKeepsState(f: Spl06.Filter, v: int)
    requires Spl06.ValidFilter(f) && (f.ready || f.index == Spl06.MEDIAN_FILTER_LEN - 1)
    requires AbsInt(f.buf[Spl06.LastIndex(f.index)] - v) >= MAX_DELTA_ERROR
    ensures BaroMedianFilter(f, v).0.buf == f.buf && BaroMedianFilter(f, v).0.index == f.index
    ensures BaroMedianFilter(f, v).1 == f.buf[Spl06.LastIndex(f.index)]
  {
  }

  /**
   * `SPLGetPressure` / `SPLGetTemper`: the three bytes added after shifting,
   * then `0xFF000000 | p` when bit 23 is set, read back as an `INT32S`.
   */
  function GetRaw24(b0: nat, b1: nat, b2: nat): (v: int)
    requires IsU8(b0) && IsU8(b1) && IsU8(b2)
    ensures v == Spl06.Raw24(b0, b1, b2)
  {
    var p := b0 * 0x1_0000 + b1 * 0x100 + b2;
    Pow2Values();
    assert Spl06.Raw24(b0, b1, b2) == SignExtend(p, 24);
    if p >= 0x80_0000 then (0xFF00_0000 + p) - 0x1_0000_0000 else p
  }

  /** `(x & sign) ? (fill | x) : x` for an unsigned x of `bits` bits read back as a signed value. */
  function ExtendAsWritten(x: nat, sign: nat, width: nat): int
  {
    if x >= sign then x - width else x
  }

  /** The coefficient decode of `SPL06Init`, with `+` joining the fields. */
  function DecodeCalib(coef: seq<int>): (c: Spl06.Calib)
    requires |coef| == 18 && Spl06.Bytes(coef)
    ensures c == Spl06.DecodeCalib(coef)
    ensures Spl06.CalibInRange(c)
  {
    Pow2Values();
    Spl06.Calib(
      ExtendAsWritten(coef[0] * 16 + coef[1] / 16, 0x800, 0x1000),
      ExtendAsWritten((coef[1] % 16) * 0x100 + coef[2], 0x800, 0x1000),
      ExtendAsWritten(coef[3] * 0x1000 + coef[4] * 16 + coef[5] / 16, 0x8_0000, 0x10_0000),
      ExtendAsWritten((coef[5] % 16) * 0x1_0000 + coef[6] * 0x100 + coef[7], 0x8_0000, 0x10_0000),
      ExtendAsWritten(coef[8] * 0x100 + coef[9], 0x8000, 0x1_0000),
      ExtendAsWritten(coef[10] * 0x100 + coef[11], 0x8000, 0x1_0000),
      ExtendAsWritten(coef[12] * 0x100 + coef[13], 0x8000, 0x1_0000),
      ExtendAsWritten(coef[14] * 0x100 + coef[15], 0x8000, 0x1_0000),
      ExtendAsWritten(coef[16] * 0x100 + coef[17], 0x8000, 0x1_0000))
  }

  /**
   * `SPLCfgPressure` / `SPLCfgTemper`: the scale factor for a known code,
   * otherwise the previous factor (there is no default case); the shift bit
   * is OR-ed into CFG_REG iff the oversampling exceeds 8x.
   */
  function CfgOversampling(code: nat, prevK: real, prevCfg: bv8, shiftBit: bv8): (r: (real, bv8))
    requires shiftBit == 0x04 || shiftBit == 0x08
    ensures code < 8 ==> r.0 == Spl06.ScaleTable[code]
    ensures code >= 8 ==> r.0 == prevK
    ensures r.1 & !shiftBit == prevCfg & !shiftBit
    ensures (r.1 & shiftBit != 0) <==> (code > Spl06.PRC_8 || prevCfg & shiftBit != 0)
  {
    var k := if code < 8 then Spl06.ScaleTable[code] else prevK;
    var cfg := if code > Spl06.PRC_8 then prevCfg | shiftBit else prevCfg;
    (k, cfg)
  }

  /** For every code the table knows, old and new drivers pick the same factors. */
  lemma ScalesAgree(code: nat, prevK: real, prevCfg: bv8)
    requires code < 8
    ensures CfgOversampling(code, prevK, prevCfg, 0x04).0 == Spl06.PressureScale(code)
    ensures CfgOversampling(code, prevK, prevCfg, 0x08).0 == Spl06.TemperatureScale(code)
  {
  }

  /** `PressureToAltitude`: 0 unless the pressure is positive; `pow` is a parameter. */
  function PressureToAltitude(pressure: real, pow: (real, real) -> real): (h: real)
    ensures pressure <= 0.0 ==> h == 0.0
  {
    if pressure > 0.0 then (pow(101570.0 / pressure, 0.1902630958) - 1.0) * (20.0 + 273.15) / 0.0065
    else 0.0
  }
}

=== FILE: tim_drv.dfy ===
/**
 * The timer prescaler/auto-reload search of the timer driver (`tim_drv.c`,
 * `TimDrv_CalcPscAndAtr`): for a wanted overflow frequency it finds a
 * prescaler `i` in 1..65536 and a period `j` that fits the auto-reload
 * register (ARR) so that `i * j` comes as close as possible to the target
 * count `clk / freq` from below.
 *
 * The timer clock and the timer's width (or the failure to look it up) are
 * parameters, tied together as `TimDrv_GetPeriphCLKFreq` ties them: both
 * come from the same `TIM_GetClockInfo` lookup.  The double-precision
 * division is modelled as exact real division; float rounding is not
 * modelled.
 */
module TimDrv {
  import opened CTypes
  import opened Wrappers
  import MathBits

  /** The prescaler register is 16 bits wide: prescalers 1..65536. */
  const PSC_LIMIT: nat := 65536
  const MAX_ARR_16: nat := 0xFFFF
  const MAX_ARR_32: nat := 0xFFFF_FFFF

  const OK: nat := 0
  const ERR_CLOCK_INFO: nat := 1
  const ERR_NO_FIT: nat := 2
  const ERR_FREQ: nat := 3
  const ERR_TIMER_CLOCK: nat := 4
  const ERR_TOO_FAST: nat := 5

  /** The best candidate so far: the count it reaches, its prescaler and its period. */
  datatype Best = Best(product: nat, prescaler: nat, period: nat)

  /** The candidate before any is found. */
  const NoBest := Best(0, 1, 1)

  /**
   * Prescaler `i` is not skipped: it is at most the target count and leaves
   * a period `n / i` of at least 1 whose ARR value `n / i - 1` fits.
   */
  predicate Fits(n: nat, i: nat, maxArr: nat) {
    1 <= i && !(n < i) && !(n / i == 0 || n / i - 1 > maxArr)
  }

  /** The count reached with prescaler `i` and the largest period not exceeding `n`. */
  function Yield(n: nat, i: nat): (r: nat)
    requires i >= 1
    ensures r <= n
    ensures n / i >= 1 ==> r >= 1
    ensures n % i == 0 ==> r == n
  {
    var q := n / i;
    assert n == q * i + n % i;
    MulMono(q, 1, i);
    q * i
  }

  /**
   * A candidate the search may report: none yet, or a fitting prescaler
   * with its largest period, reaching the prescaler's yield.
   */
  predicate Sound(b: Best, n: nat, maxArr: nat) {
    b.product == 0 ||
    (1 <= b.prescaler <= PSC_LIMIT && Fits(n, b.prescaler, maxArr) &&
     b.period == n / b.prescaler && b.product == Yield(n, b.prescaler))
  }

  lemma MulMono(i: nat, a: nat, b: nat)
    requires a <= b
    ensures i * a <= i * b
  {
  }

  /**
   * The product `i * j` the loop forms for a fitting prescaler: with the
   * period at full width it is the prescaler's yield; narrowed to 32 bits
   * (`truncate`, the code as written) a period of exactly 2^32 becomes 0.
   */
  function Candidate(n: nat, maxArr: nat, i: nat, truncate: bool): (r: nat)
    requires 1 <= i && maxArr <= MAX_ARR_32 && Fits(n, i, maxArr)
    ensures !truncate ==> r == Yield(n, i)
    ensures r == Yield(n, i) || r == 0
  {
    var j64 := n / i;
    var j := if truncate then j64 % U32 else j64;
    assert j != j64 ==> j == 0;
    i * j
  }

  /** A candidate replaces the best one only when it reaches further. */
  function Consider(n: nat, maxArr: nat, i: nat, b: Best, truncate: bool): (r: Best)
    requires 1 <= i <= PSC_LIMIT && maxArr <= MAX_ARR_32 && Fits(n, i, maxArr) && Sound(b, n, maxArr)
    ensures Sound(r, n, maxArr)
    ensures r.product >= b.product && r.product >= Candidate(n, maxArr, i, truncate)
    ensures r == b || (r.prescaler == i && r.product == Candidate(n, maxArr, i, truncate))
  {
    var product := Candidate(n, maxArr, i, truncate);
    if product > b.product then Best(product, i, n / i) else b
  }

  /**
   * The loop from prescaler `i` on.  `truncate` selects the code as written,
   * which narrows the period to 32 bits before multiplying; without it the
   * period keeps its full value.  An exact hit ends the search.
   */
  function Scan(n: nat, maxArr: nat, i: nat, b: Best, truncate: bool): (r: Best)
    requires 1 <= i <= PSC_LIMIT + 1
    requires maxArr <= MAX_ARR_32
    requires Sound(b, n, maxArr)
    ensures Sound(r, n, maxArr)
    ensures r.product >= b.product
    ensures !truncate && (forall k :: 1 <= k < i && Fits(n, k, maxArr) ==> Yield(n, k) <= b.product) ==>
              forall k :: 1 <= k <= PSC_LIMIT && Fits(n, k, maxArr) ==> Yield(n, k) <= r.product
    decreases PSC_LIMIT + 1 - i
  {
    if i > PSC_LIMIT then b
    else if !Fits(n, i, maxArr) then Scan(n, maxArr, i + 1, b, truncate)
    else
      var b1 := Consider(n, maxArr, i, b, truncate);
      CoverExtends(n, maxArr, i, b, b1, truncate);
      if Candidate(n, maxArr, i, truncate) == n then b1
      else Scan(n, maxArr, i + 1, b1, truncate)
  }

  /**
   * One loop step keeps the full-width search covering every fitting
   * prescaler so far; an exact hit covers them all, since no yield passes
   * the target count.
   */
  lemma CoverExtends(n: nat, maxArr: nat, i: nat, b: Best, b1: Best, truncate: bool)
    requires 1 <= i <= PSC_LIMIT && maxArr <= MAX_ARR_32 && Fits(n, i, maxArr) && Sound(b, n, maxArr)
    requires b1 == Consider(n, maxArr, i, b, truncate)
    ensures !truncate && (forall k :: 1 <= k < i && Fits(n, k, maxArr) ==> Yield(n, k) <= b.product) ==>
              forall k :: 1 <= k < i + 1 && Fits(n, k, maxArr) ==> Yield(n, k) <= b1.product
    ensures !truncate && Candidate(n, maxArr, i, truncate) == n ==>
              forall k :: 1 <= k <= PSC_LIMIT && Fits(n, k, maxArr) ==> Yield(n, k) <= b1.product
  {
  }

  /** A prescaler that does not fit is passed over. */
  lemma ScanStep(n: nat, maxArr: nat, i: nat, b: Best, truncate: bool)
    requires 1 <= i <= PSC_LIMIT && maxArr <= MAX_ARR_32 && Sound(b, n, maxArr)
    requires !Fits(n, i, maxArr)
    ensures Scan(n, maxArr, i, b, truncate) == Scan(n, maxArr, i + 1, b, truncate)
  {
  }

  /** A search started past the last fitting prescaler below 65536 jumps straight to 65536. */
  lemma {:induction false} ScanSkips(n: nat, maxArr: nat, i: nat, b: Best, truncate: bool)
    requires 1 <= i <= PSC_LIMIT && maxArr <= MAX_ARR_32 && Sound(b, n, maxArr)
    requires forall k :: i <= k < PSC_LIMIT ==> !Fits(n, k, maxArr)
    ensures Scan(n, maxArr, i, b, truncate) == Scan(n, maxArr, PSC_LIMIT, b, truncate)
    decreases PSC_LIMIT - i
  {
    if i < PSC_LIMIT {
      ScanStep(n, maxArr, i, b, truncate);
      ScanSkips(n, maxArr, i + 1, b, truncate);
    }
  }

  /** What the function reports: a return code and the (possibly untouched) PSC and ARR outputs. */
  datatype Outcome = Outcome(code: nat, psc: nat, atr: nat)

  /** The overflow count of a PSC/ARR pair: (PSC + 1) * (ARR + 1). */
  function Count(o: Outcome): nat {
    (o.psc + 1) * (o.atr + 1)
  }

  /** `(uint64_t)((double)timer_clk / freq)`: the target count, truncated. */
  function TargetCount(clk: nat, freq: real): (n: nat)
    requires freq > 0.0
    ensures n as real <= clk as real / freq < n as real + 1.0
  {
    (clk as real / freq).Floor
  }

  /** The conversion to `uint64_t` is defined: the target count fits 64 bits. */
  predicate CountDefined(clk: nat, freq: real) {
    freq > 0.0 && clk != 0 ==> (clk as real / freq).Floor < U64
  }

  /**
   * The clock `TimDrv_GetPeriphCLKFreq` can hand over: a `uint32_t`, and 0
   * whenever the `TIM_GetClockInfo` lookup fails (`clockInfo` is `None`),
   * since it runs the same lookup first.
   */
  predicate ClockFromLookup(clk: nat, clockInfo: Option<bool>) {
    IsU32(clk) && (clockInfo.None? ==> clk == 0)
  }

  function MaxArr(is16: bool): (m: nat)
    ensures m <= MAX_ARR_32
  {
    if is16 then MAX_ARR_16 else MAX_ARR_32
  }

  /**
   * The function with the search as a parameter: `truncate` selects the code
   * as written.  The input checks come first and leave `psc`/`atr` untouched.
   */
  function Calc(freq: real, clk: nat, clockInfo: Option<bool>, psc: nat, atr: nat, truncate: bool): (r: Outcome)
    requires ClockFromLookup(clk, clockInfo) && CountDefined(clk, freq)
    ensures r.code != OK ==> r.psc == psc && r.atr == atr
    ensures freq <= 0.0 ==> r.code == ERR_FREQ
    ensures freq > 0.0 && clk == 0 ==> r.code == ERR_TIMER_CLOCK
    ensures freq > 0.0 && clockInfo.None? ==> r.code == ERR_TIMER_CLOCK
    ensures freq > 0.0 && clk != 0 && TargetCount(clk, freq) == 0 ==> r.code == ERR_TOO_FAST
    ensures r.code != ERR_CLOCK_INFO
    ensures r.code == OK ==>
              freq > 0.0 && clk != 0 && clockInfo.Some? &&
              var n := TargetCount(clk, freq);
              Count(r) <= n && 1 <= Count(r) &&
              r.psc < PSC_LIMIT && r.atr <= MaxArr(clockInfo.value)
    ensures freq > 0.0 && clk != 0 && TargetCount(clk, freq) != 0 && clockInfo.Some? ==>
              var b := Scan(TargetCount(clk, freq), MaxArr(clockInfo.value), 1, NoBest, truncate);
              (b.product == 0 ==> r.code == ERR_NO_FIT) &&
              (b.product != 0 ==> r.code == OK && Count(r) == b.product && r.psc + 1 == b.prescaler)
  {
    if freq <= 0.0 then Outcome(ERR_FREQ, psc, atr)
    else if clk == 0 then Outcome(ERR_TIMER_CLOCK, psc, atr)
    else
      var n := TargetCount(clk, freq);
      if n == 0 then Outcome(ERR_TOO_FAST, psc, atr)
      else if clockInfo.None? then Outcome(ERR_CLOCK_INFO, psc, atr)
      else Search(n, MaxArr(clockInfo.value), psc, atr, truncate)
  }

  /**
   * The search and its report: code 2 with the outputs untouched when no
   * candidate was found, otherwise the best candidate as PSC and ARR values.
   */
  function Search(n: nat, maxArr: nat, psc: nat, atr: nat, truncate: bool): (r: Outcome)
    requires maxArr <= MAX_ARR_32
    ensures var b := Scan(n, maxArr, 1, NoBest, truncate);
            (b.product == 0 ==> r == Outcome(ERR_NO_FIT, psc, atr)) &&
            (b.product != 0 ==> r.code == OK && Count(r) == b.product && r.psc + 1 == b.prescaler &&
                                Count(r) <= n && 1 <= Count(r) && r.psc < PSC_LIMIT && r.atr <= maxArr)
  {
    var b := Scan(n, maxArr, 1, NoBest, truncate);
    if b.product == 0 then Outcome(ERR_NO_FIT, psc, atr)
    else
      var i, j := b.prescaler, b.period;
      assert Fits(n, i, maxArr) && j == n / i && b.product == Yield(n, i);
      assert 1 <= j <= maxArr + 1;
      assert b.product == j * i;
      CountOf(i, j);
      Outcome(OK, i - 1, j - 1)
  }

  /** The count of a report with prescaler `i` and period `j`. */
  lemma CountOf(i: nat, j: nat)
    requires i >= 1 && j >= 1
    ensures Count(Outcome(OK, i - 1, j - 1)) == j * i
  {
  }

  /** `TimDrv_CalcPscAndAtr` as written: the period is narrowed to 32 bits. */
  function CalcPscAndAtrAsWritten(freq: real, clk: nat, clockInfo: Option<bool>, psc: nat, atr: nat): (r: Outcome)
    requires ClockFromLookup(clk, clockInfo) && CountDefined(clk, freq)
    ensures r.code != OK ==> r.psc == psc && r.atr == atr
    ensures r.code != ERR_CLOCK_INFO
    ensures r.code == OK ==>
              freq > 0.0 && clk != 0 && clockInfo.Some? &&
              Count(r) <= TargetCount(clk, freq) &&
              r.psc < PSC_LIMIT && r.atr <= MaxArr(clockInfo.value)
  {
    Calc(freq, clk, clockInfo, psc, atr, true)
  }

  /**
   * `TimDrv_CalcPscAndAtr` with the period kept at full width.  On success
   * the timer overflows after at most the target count, as close to it as
   * any prescaler allows; the answer is exact whenever some prescaler
   * divides the target count with a period that fits; failure with code 2
   * happens exactly when no prescaler fits.
   */
  function CalcPscAndAtr(freq: real, clk: nat, clockInfo: Option<bool>, psc: nat, atr: nat): (r: Outcome)
    requires ClockFromLookup(clk, clockInfo) && CountDefined(clk, freq)
    ensures r.code != OK ==> r.psc == psc && r.atr == atr
    ensures r.code != ERR_CLOCK_INFO
    ensures freq > 0.0 && clk != 0 && TargetCount(clk, freq) != 0 && clockInfo.Some? ==>
              var n := TargetCount(clk, freq);
              var maxArr := MaxArr(clockInfo.value);
              (r.code == ERR_NO_FIT <==> forall k :: 1 <= k <= PSC_LIMIT ==> !Fits(n, k, maxArr)) &&
              (r.code != ERR_NO_FIT ==> r.code == OK)
    ensures r.code == OK ==>
              freq > 0.0 && clk != 0 && clockInfo.Some? &&
              var n := TargetCount(clk, freq);
              var maxArr := MaxArr(clockInfo.value);
              Count(r) <= n && r.psc < PSC_LIMIT && r.atr <= maxArr &&
              (forall k :: 1 <= k <= PSC_LIMIT && Fits(n, k, maxArr) ==> Yield(n, k) <= Count(r)) &&
              ((exists k :: 1 <= k <= PSC_LIMIT && Fits(n, k, maxArr) && n % k == 0) ==> Count(r) == n)
  {
    var r := Calc(freq, clk, clockInfo, psc, atr, false);
    if freq > 0.0 && clk != 0 && TargetCount(clk, freq) != 0 && clockInfo.Some? then
      SearchBest(TargetCount(clk, freq), MaxArr(clockInfo.value));
      r
    else r
  }

  /**
   * The full-width search from prescaler 1: nothing is found exactly when no
   * prescaler fits; otherwise the result reaches at least every fitting
   * prescaler's yield, hence the target itself when some fitting prescaler
   * divides it.
   */
  lemma SearchBest(n: nat, maxArr: nat)
    requires maxArr <= MAX_ARR_32
    ensures var b := Scan(n, maxArr, 1, NoBest, false);
            (b.product == 0 <==> forall k :: 1 <= k <= PSC_LIMIT ==> !Fits(n, k, maxArr)) &&
            (forall k :: 1 <= k <= PSC_LIMIT && Fits(n, k, maxArr) ==> Yield(n, k) <= b.product) &&
            ((exists k :: 1 <= k <= PSC_LIMIT && Fits(n, k, maxArr) && n % k == 0) ==> b.product == n)
  {
    var b := Scan(n, maxArr, 1, NoBest, false);
    SearchCovers(n, maxArr, b);
    SearchEmpty(n, maxArr, b);
    SearchExact(n, maxArr, b);
  }

  /** Every fitting prescaler's yield is covered by the search from prescaler 1. */
  lemma SearchCovers(n: nat, maxArr: nat, b: Best)
    requires maxArr <= MAX_ARR_32 && b == Scan(n, maxArr, 1, NoBest, false)
    ensures forall k :: 1 <= k <= PSC_LIMIT && Fits(n, k, maxArr) ==> Yield(n, k) <= b.product
  {
  }

  /** A covering, sound search finds nothing exactly when no prescaler fits. */
  lemma SearchEmpty(n: nat, maxArr: nat, b: Best)
    requires Sound(b, n, maxArr)
    requires forall k :: 1 <= k <= PSC_LIMIT && Fits(n, k, maxArr) ==> Yield(n, k) <= b.product
    ensures b.product == 0 <==> forall k :: 1 <= k <= PSC_LIMIT ==> !Fits(n, k, maxArr)
  {
    forall k | 1 <= k <= PSC_LIMIT && Fits(n, k, maxArr)
      ensures b.product >= 1
    {
      assert Yield(n, k) >= 1;
    }
  }

  /** A covering, sound search reaches the target when a fitting prescaler divides it. */
  lemma SearchExact(n: nat, maxArr: nat, b: Best)
    requires Sound(b, n, maxArr)
    requires forall k :: 1 <= k <= PSC_LIMIT && Fits(n, k, maxArr) ==> Yield(n, k) <= b.product
    ensures (exists k :: 1 <= k <= PSC_LIMIT && Fits(n, k, maxArr) && n % k == 0) ==> b.product == n
  {
    if exists k :: 1 <= k <= PSC_LIMIT && Fits(n, k, maxArr) && n % k == 0 {
      var k :| 1 <= k <= PSC_LIMIT && Fits(n, k, maxArr) && n % k == 0;
      assert Yield(n, k) == n;
      assert b.product != 0;
    }
  }

  /**
   * When the whole target count fits the ARR, prescaler 1 hits it exactly:
   * PSC 0 and ARR = count - 1.
   */
  lemma DirectFit(freq: real, clk: nat, is16: bool, psc: nat, atr: nat)
    requires IsU32(clk) && CountDefined(clk, freq) && freq > 0.0 && clk != 0
    requires 1 <= TargetCount(clk, freq) && TargetCount(clk, freq) - 1 <= MaxArr(is16)
    ensures CalcPscAndAtr(freq, clk, Some(is16), psc, atr) == Outcome(OK, 0, TargetCount(clk, freq) - 1)
  {
    var n := TargetCount(clk, freq);
    assert n / 1 == n;
    assert Scan(n, MaxArr(is16), 1, NoBest, false) == Best(n, 1, n);
  }

  /** 2^48: the target count of the counterexample. */
  const WIDE_COUNT: nat := 0x1_0000_0000_0000

  /** Below prescaler 65536 every period for 2^48 exceeds 32 bits. */
  lemma WideCountNeedsLastPrescaler(k: nat)
    requires 1 <= k < PSC_LIMIT
    ensures !Fits(WIDE_COUNT, k, MAX_ARR_32)
  {
    var q := WIDE_COUNT / k;
    assert WIDE_COUNT == q * k + WIDE_COUNT % k;
  }

  /** The largest clock a `uint32_t` holds. */
  const MAX_CLOCK: nat := 0xFFFF_FFFF

  /** The frequency 0xFFFFFFFF / 2^48 Hz, exact as a double, whose target count at `MAX_CLOCK` is 2^48. */
  const WIDE_FREQ: real := MAX_CLOCK as real / WIDE_COUNT as real

  lemma WideTargetCount()
    ensures WIDE_FREQ > 0.0 && CountDefined(MAX_CLOCK, WIDE_FREQ)
    ensures TargetCount(MAX_CLOCK, WIDE_FREQ) == WIDE_COUNT
  {
    assert MAX_CLOCK as real / WIDE_FREQ == WIDE_COUNT as real;
  }

  /**
   * The counterexample: a 32-bit timer on a 4294967295 Hz clock asked for
   * 4294967295 / 2^48 Hz (about 1.5e-5 Hz), so the target count is 2^48.
   * Only prescaler 65536 fits, with period 2^32; narrowed to 32 bits that
   * period is 0, so the code as written reports code 2 although PSC 65535
   * and ARR 0xFFFFFFFF hit the count exactly, which the full-width search
   * reports.
   */
  lemma NarrowedPeriodLosesExactFit()
    ensures WIDE_FREQ > 0.0 && CountDefined(MAX_CLOCK, WIDE_FREQ)
    ensures CalcPscAndAtrAsWritten(WIDE_FREQ, MAX_CLOCK, Some(false), 7, 7) == Outcome(ERR_NO_FIT, 7, 7)
    ensures CalcPscAndAtr(WIDE_FREQ, MAX_CLOCK, Some(false), 7, 7) == Outcome(OK, PSC_LIMIT - 1, MAX_ARR_32)
  {
    var n := WIDE_COUNT;
    WideTargetCount();
    forall k | 1 <= k < PSC_LIMIT ensures !Fits(n, k, MAX_ARR_32) {
      WideCountNeedsLastPrescaler(k);
    }
    ScanSkips(n, MAX_ARR_32, 1, NoBest, true);
    ScanSkips(n, MAX_ARR_32, 1, NoBest, false);
    assert n / PSC_LIMIT == U32;
    assert Scan(n, MAX_ARR_32, PSC_LIMIT, NoBest, true) == NoBest;
    assert Scan(n, MAX_ARR_32, PSC_LIMIT, NoBest, false) == Best(n, PSC_LIMIT, U32);
  }
}

=== FILE: time_timeout_checker.dfy ===
/**
 * The timeout checker (`time_timeoutChecker.cpp`): a start tick and a
 * timeout length; it has timed out once the 64-bit difference from the
 * start reaches the length.  The global tick `now` and the core clock `clk`
 * are parameters; a null C pointer is `None`, and the C++
 * `TimeoutChecker` class behaves as the non-null case.
 */
module TimeoutChecker {
  import opened CTypes
  import opened Wrappers
  import TimeStamp

  datatype Checker = Checker(start: nat, timeout: nat)

  /** `TimeoutChecker_Init`: the count starts at `now`. */
  function Init(c: Option<Checker>, timeout: nat, now: nat): (r: Option<Checker>)
    ensures c.None? ==> r.None?
    ensures c.Some? ==> r == Some(Checker(now, timeout))
  {
    if c.None? then None else Some(Checker(now, timeout))
  }

  /** `TimeoutChecker_SetTimeout`: only the length changes. */
  function SetTimeout(c: Option<Checker>, timeout: nat): (r: Option<Checker>)
    ensures c.None? ==> r.None?
    ensures c.Some? ==> r == Some(c.value.(timeout := timeout))
  {
    if c.None? then None else Some(c.value.(timeout := timeout))
  }

  /** `TimeoutChecker_SetTimeoutMicroseconds`. */
  function SetTimeoutMicroseconds(c: Option<Checker>, us: nat, clk: nat): (r: Option<Checker>)
    ensures c.None? ==> r.None?
    ensures c.Some? ==> r == Some(c.value.(timeout := TimeStamp.FromMicroseconds(us, clk)))
  {
    SetTimeout(c, TimeStamp.FromMicroseconds(us, clk))
  }

  /** `TimeoutChecker_SetTimeoutMilliseconds`. */
  function SetTimeoutMilliseconds(c: Option<Checker>, ms: nat, clk: nat): (r: Option<Checker>)
    ensures c.None? ==> r.None?
    ensures c.Some? ==> r == Some(c.value.(timeout := TimeStamp.FromMilliseconds(ms, clk)))
  {
    SetTimeout(c, TimeStamp.FromMilliseconds(ms, clk))
  }

  /** `TimeoutChecker_SetTimeoutSeconds`. */
  function SetTimeoutSeconds(c: Option<Checker>, s: nat, clk: nat): (r: Option<Checker>)
    ensures c.None? ==> r.None?
    ensures c.Some? ==> r == Some(c.value.(timeout := TimeStamp.FromSeconds(s, clk)))
  {
    SetTimeout(c, TimeStamp.FromSeconds(s, clk))
  }

  /** `TimeoutChecker_SetTimeoutSecondsFloat`; the float-to-integer conversion must be defined. */
  function SetTimeoutSecondsFloat(c: Option<Checker>, s: real, clk: nat): (r: Option<Checker>)
    requires 0.0 <= s * clk as real < U64 as real
    ensures c.None? ==> r.None?
    ensures c.Some? ==> r == Some(c.value.(timeout := TimeStamp.FromSecondsFloat(s, clk)))
  {
    SetTimeout(c, TimeStamp.FromSecondsFloat(s, clk))
  }

  /** `TimeoutChecker_Reset`: only the start changes. */
  function Reset(c: Option<Checker>, now: nat): (r: Option<Checker>)
    ensures c.None? ==> r.None?
    ensures c.Some? ==> r == Some(c.value.(start := now))
  {
    if c.None? then None else Some(c.value.(start := now))
  }

  /** `TimeoutChecker_IsTimeout`: false for a null checker. */
  function IsTimeout(c: Option<Checker>, now: nat): (r: bool)
    ensures c.None? ==> !r
    ensures c.Some? && c.value.start <= now < U64 ==> (r <==> now - c.value.start >= c.value.timeout)
  {
    c.Some? && Wrap64(now - c.value.start) >= c.value.timeout
  }

  /** A zero timeout has always expired. */
  lemma ZeroTimeoutExpired(c: Checker, now: nat)
    requires c.timeout == 0
    ensures IsTimeout(Some(c), now)
  {
  }

  /** Once timed out, a checker stays timed out as time goes on (before the tick wraps). */
  lemma TimeoutStays(c: Option<Checker>, now1: nat, now2: nat)
    requires c.Some? ==> c.value.start <= now1 <= now2 < U64
    requires IsTimeout(c, now1)
    ensures IsTimeout(c, now2)
  {
  }

  /** Right after a reset the checker has timed out only if its length is zero. */
  lemma ResetRestarts(c: Checker, now: nat)
    requires IsU64(now)
    ensures IsTimeout(Reset(Some(c), now), now) <==> c.timeout == 0
  {
  }

  /**
   * A checker initialised at `start` with `timeout` ticks expires exactly
   * `timeout` ticks later and not one tick earlier.
   */
  lemma ExpiresOnTime(c: Option<Checker>, timeout: nat, start: nat)
    requires c.Some? && timeout > 0 && start + timeout < U64
    ensures !IsTimeout(Init(c, timeout, start), start + timeout - 1)
    ensures IsTimeout(Init(c, timeout, start), start + timeout)
  {
  }
}

=== FILE: time_timestamp.dfy ===
/**
 * Timestamps (`time_timestamp.cpp`): 64-bit tick counts of the core clock
 * and their conversions to and from micro-, milli- and whole seconds.  The
 * core clock frequency `clk` (`SystemCoreClock`) is a parameter; every
 * product is stored in a `uint64_t` and wraps.
 */
module TimeStamp {
  import opened CTypes

  /** `TimeStamp_ToMicroseconds`: the ticks scaled by 10^6 (wrapping), divided by the clock. */
  function ToMicroseconds(t: nat, clk: nat): (r: nat)
    requires clk > 0
    ensures r * clk <= Wrap64(t * 1000000) < (r + 1) * clk
  {
    Wrap64(t * 1000000) / clk
  }

  /** `TimeStamp_ToMilliseconds`: the ticks scaled by 1000 (wrapping), divided by the clock. */
  function ToMilliseconds(t: nat, clk: nat): (r: nat)
    requires clk > 0
    ensures r * clk <= Wrap64(t * 1000) < (r + 1) * clk
  {
    Wrap64(t * 1000) / clk
  }

  /** `TimeStamp_FromMicroseconds`: the microseconds times the clock (wrapping), over 10^6. */
  function FromMicroseconds(us: nat, clk: nat): (r: nat)
    ensures IsU64(r)
    ensures r * 1000000 <= Wrap64(us * clk) < (r + 1) * 1000000
  {
    Wrap64(us * clk) / 1000000
  }

  /** `TimeStamp_FromMilliseconds`: the milliseconds times the clock (wrapping), over 1000. */
  function FromMilliseconds(ms: nat, clk: nat): (r: nat)
    ensures IsU64(r)
    ensures r * 1000 <= Wrap64(ms * clk) < (r + 1) * 1000
  {
    Wrap64(ms * clk) / 1000
  }

  /** `TimeStamp_FromSeconds`: one second is `clk` ticks. */
  function FromSeconds(s: nat, clk: nat): (r: nat)
    ensures IsU64(r)
    ensures IsU64(s * clk) ==> r == s * clk
  {
    Wrap64(s * clk)
  }

  /** `TimeStamp_ToSecondsFloat`: ticks over the clock, as a real (float rounding not modelled). */
  function ToSecondsFloat(t: nat, clk: nat): (r: real)
    requires clk > 0
    ensures r >= 0.0 && Mul(r, clk as real) == t as real
  {
    t as real / clk as real
  }

  /**
   * `TimeStamp_FromSecondsFloat`: seconds times the clock, truncated into a
   * `uint64_t`; a product outside that range is undefined in C and excluded.
   */
  function FromSecondsFloat(s: real, clk: nat): (r: nat)
    requires 0.0 <= s * clk as real < U64 as real
    ensures IsU64(r) && r as real <= s * clk as real < r as real + 1.0
  {
    Trunc(s * clk as real)
  }

  /** `TimeStamp_Diff`: the ticks from `start` to `end`, clamped at 0 when `end` is earlier. */
  function Diff(end: nat, start: nat): (r: nat)
    ensures end >= start ==> start + r == end
    ensures end < start ==> r == 0
  {
    if end >= start then end - start else 0
  }

  /** A timestamp is zero ticks from itself. */
  lemma DiffSelf(t: nat)
    ensures Diff(t, t) == 0
  {
  }

  /** Measured from a common start, a later end gives the longer difference. */
  lemma DiffMonotone(start: nat, end1: nat, end2: nat)
    requires end1 <= end2
    ensures Diff(end1, start) <= Diff(end2, start)
  {
  }

  /**
   * Scaling `x` up by `c`, down by `k`, then back up by `k` and down by `c`
   * loses at most the rounding, and nothing when `k` divides `c`.
   */
  lemma ScaleRoundTrip(x: nat, c: nat, k: nat)
    requires c > 0 && k > 0
    ensures ((x * c) / k * k) / c <= x
    ensures c % k == 0 ==> ((x * c) / k * k) / c == x
  {
    var f := (x * c) / k;
    assert f * k <= x * c;
    var g := (f * k) / c;
    assert g * c <= f * k;
    MulCancelLe(g, x, c);
    if c % k == 0 {
      var m := c / k;
      assert c == m * k;
      assert x * c == (x * m) * k;
      DivUnique(x * c, k, x * m);
      assert f * k == x * c;
      DivUnique(x * c, c, x);
    }
  }

  lemma MulCancelLe(g: int, x: int, c: int)
    requires c > 0 && g * c <= x * c
    ensures g <= x
  {
  }

  /** Integer division is the unique quotient bracketing the dividend. */
  lemma DivUnique(a: nat, c: nat, q: nat)
    requires c > 0 && q * c <= a < (q + 1) * c
    ensures a / c == q
  {
    var p := a / c;
    assert p * c <= a < (p + 1) * c;
    if p < q {
      MulCancelLe(p + 1, q, c);
    } else if p > q {
      MulCancelLe(q + 1, p, c);
    }
  }

  /**
   * Milliseconds to ticks and back never gain time, and are exact when the
   * clock is a whole number of kilohertz; the products must fit 64 bits.
   */
  lemma MillisecondsRoundTrip(ms: nat, clk: nat)
    requires clk > 0 && ms * clk < U64
    ensures ToMilliseconds(FromMilliseconds(ms, clk), clk) <= ms
    ensures clk % 1000 == 0 ==> ToMilliseconds(FromMilliseconds(ms, clk), clk) == ms
  {
    var f := FromMilliseconds(ms, clk);
    assert f == (ms * clk) / 1000;
    assert f * 1000 <= ms * clk;
    assert ToMilliseconds(f, clk) == (f * 1000) / clk;
    ScaleRoundTrip(ms, clk, 1000);
  }

  /** The microsecond pair behaves the same with 10^6 in place of 1000. */
  lemma MicrosecondsRoundTrip(us: nat, clk: nat)
    requires clk > 0 && us * clk < U64
    ensures ToMicroseconds(FromMicroseconds(us, clk), clk) <= us
    ensures clk % 1000000 == 0 ==> ToMicroseconds(FromMicroseconds(us, clk), clk) == us
  {
    var f := FromMicroseconds(us, clk);
    assert f == (us * clk) / 1000000;
    assert f * 1000000 <= us * clk;
    assert ToMicroseconds(f, clk) == (f * 1000000) / clk;
    ScaleRoundTrip(us, clk, 1000000);
  }

  /** Whole seconds convert to exactly a thousand milliseconds each. */
  lemma SecondsToMilliseconds(s: nat, clk: nat)
    requires clk > 0 && s * clk * 1000 < U64
    ensures ToMilliseconds(FromSeconds(s, clk), clk) == 1000 * s
  {
    var t := s * clk;
    assert t <= t * 1000;
    assert FromSeconds(s, clk) == t;
    assert t * 1000 == (1000 * s) * clk;
    DivUnique(t * 1000, clk, 1000 * s);
  }

  /** Without float rounding, seconds and ticks convert back exactly. */
  lemma SecondsFloatRoundTrip(t: nat, clk: nat)
    requires clk > 0 && t < U64
    ensures FromSecondsFloat(ToSecondsFloat(t, clk), clk) == t
  {
    var s := ToSecondsFloat(t, clk);
    assert s * clk as real == t as real;
  }
}

=== FILE: time_watch.dfy ===
/**
 * The stopwatch (`time_watch.cpp`): accumulated ticks plus, while running,
 * the ticks since the last start.  The global tick `now` is a parameter.
 * The C functions take a pointer that may be null, modelled as `None`; the
 * C++ `StopWatch` class behaves as the non-null case.
 */
module TimeWatch {
  import opened CTypes
  import opened Wrappers

  datatype Watch = Watch(start: nat, elapsed: nat, running: bool)

  predicate Valid(w: Watch) {
    IsU64(w.start) && IsU64(w.elapsed)
  }

  /** `TimeWatch_Init`: zero start, zero elapsed, stopped. */
  function Init(w: Option<Watch>): (r: Option<Watch>)
    ensures w.None? ==> r.None?
    ensures w.Some? ==> r == Some(Watch(0, 0, false))
  {
    if w.None? then None else Some(Watch(0, 0, false))
  }

  /** The `StopWatch` constructor, started at `now` when asked to. */
  function New(autoStart: bool, now: nat): (r: Watch)
    requires IsU64(now)
    ensures Valid(r) && r.elapsed == 0 && r.running == autoStart
    ensures autoStart ==> r.start == now
  {
    var w := Watch(0, 0, false);
    if autoStart then Start(Some(w), now).value else w
  }

  /** `TimeWatch_Start`: a running watch is left alone; otherwise it runs from `now`. */
  function Start(w: Option<Watch>, now: nat): (r: Option<Watch>)
    ensures w.None? || w.value.running ==> r == w
    ensures w.Some? && !w.value.running ==> r == Some(w.value.(start := now, running := true))
  {
    if w.None? || w.value.running then w else Some(w.value.(start := now, running := true))
  }

  /** `TimeWatch_Stop`: a running watch adds the ticks since its start (64-bit) and stops. */
  function Stop(w: Option<Watch>, now: nat): (r: Option<Watch>)
    ensures w.None? || !w.value.running ==> r == w
    ensures w.Some? && w.value.running ==>
              r.Some? && !r.value.running && r.value.start == w.value.start
              && r.value.elapsed == Wrap64(w.value.elapsed + Wrap64(now - w.value.start))
  {
    if w.None? || !w.value.running then w
    else
      var x := w.value;
      Some(x.(elapsed := Wrap64(x.elapsed + Wrap64(now - x.start)), running := false))
  }

  /** `TimeWatch_Reset`: elapsed cleared; a running watch restarts from `now`. */
  function Reset(w: Option<Watch>, now: nat): (r: Option<Watch>)
    ensures w.None? ==> r.None?
    ensures w.Some? ==>
              r.Some? && r.value.elapsed == 0 && r.value.running == w.value.running
              && r.value.start == (if w.value.running then now else w.value.start)
  {
    if w.None? then None
    else
      var x := w.value;
      Some(x.(elapsed := 0, start := if x.running then now else x.start))
  }

  /** `TimeWatch_Restart`: elapsed cleared and running from `now`. */
  function Restart(w: Option<Watch>, now: nat): (r: Option<Watch>)
    ensures w.None? ==> r.None?
    ensures w.Some? ==> r == Some(Watch(now, 0, true))
  {
    if w.None? then None else Some(Watch(now, 0, true))
  }

  /** `TimeWatch_IsRunning`: false for a null watch. */
  function IsRunning(w: Option<Watch>): (r: bool)
    ensures r <==> w.Some? && w.value.running
  {
    w.Some? && w.value.running
  }

  /** `TimeWatch_GetElapsedTicks`: 0 for a null watch. */
  function ElapsedTicks(w: Option<Watch>, now: nat): (r: nat)
    ensures IsU64(r)
    ensures w.None? ==> r == 0
    ensures w.Some? && !w.value.running && Valid(w.value) ==> r == w.value.elapsed
    ensures w.Some? && w.value.running && w.value.start <= now && w.value.elapsed + (now - w.value.start) < U64 ==>
              r == w.value.elapsed + (now - w.value.start)
  {
    if w.None? then 0
    else
      var x := w.value;
      if x.running then Wrap64(x.elapsed + Wrap64(now - x.start)) else Wrap64(x.elapsed)
  }

  /** A stopped watch reads the same at any time. */
  lemma StoppedIsFrozen(w: Watch, now1: nat, now2: nat)
    requires !w.running
    ensures ElapsedTicks(Some(w), now1) == ElapsedTicks(Some(w), now2)
  {
  }

  /** Without a 64-bit overflow, a running watch reads more as time goes on. */
  lemma ElapsedMonotone(w: Option<Watch>, now1: nat, now2: nat)
    requires w.Some? ==> Valid(w.value)
    requires w.Some? && w.value.running ==>
               w.value.start <= now1 <= now2 && w.value.elapsed + (now2 - w.value.start) < U64
    ensures ElapsedTicks(w, now1) <= ElapsedTicks(w, now2)
  {
  }

  /** Stopping freezes the reading at the value it had at that moment. */
  lemma StopKeepsReading(w: Option<Watch>, now: nat, later: nat)
    ensures ElapsedTicks(Stop(w, now), later) == ElapsedTicks(w, now)
  {
  }

  /** Starting a stopped watch does not change its reading at the start time. */
  lemma StartKeepsReading(w: Option<Watch>, now: nat)
    requires w.Some? ==> Valid(w.value)
    ensures ElapsedTicks(Start(w, now), now) == ElapsedTicks(w, now)
  {
  }

  /** After a reset or restart at `now`, the watch reads 0 at `now`. */
  lemma ResetReadsZero(w: Option<Watch>, now: nat)
    ensures ElapsedTicks(Reset(w, now), now) == 0
    ensures ElapsedTicks(Restart(w, now), now) == 0
  {
  }

  /**
   * Stop-and-start intervals accumulate: a watch started at `a`, stopped at
   * `b`, started at `c` and read at `d` shows the two intervals' sum.
   */
  lemma {:induction false} IntervalsAdd(w: Watch, a: nat, b: nat, c: nat, d: nat)
    requires Valid(w) && !w.running && a <= b <= c <= d && w.elapsed + (b - a) + (d - c) < U64
    ensures ElapsedTicks(Start(Stop(Start(Some(w), a), b), c), d) == w.elapsed + (b - a) + (d - c)
  {
    var s1 := Start(Some(w), a);
    assert s1 == Some(w.(start := a, running := true));
    var s2 := Stop(s1, b);
    assert s2.value.elapsed == w.elapsed + (b - a);
    var s3 := Start(s2, c);
    assert s3.value == s2.value.(start := c, running := true);
  }
}

=== FILE: track.dfy ===
/**
 * The track (`track.cpp`): up to `MAX_PATHS` path stages executed one after
 * another, with an optional completion callback per stage.
 *
 * A stage's path is `None` for a null pointer.  Each stage owns its path
 * value; the callback is represented only by whether it is set, and
 * `Process` reports the stage index it would be called with.
 *
 * The operations that start a path or read its progress take a
 * `Path.Version`: `AsWritten` runs `startPath` and `getProgress` as the
 * path code has them, which is what `track.cpp` calls; `Corrected` runs the
 * fixed ones, and the progress lemmas at the end hold for that version.
 */
module Track {
  import opened CTypes
  import opened Wrappers
  import Point
  import Path

  /** `MAX_PATHS` (`track.h`). */
  const MAX_PATHS: nat := 8

  datatype TrackState = Idle | Executing | Completed | Paused

  datatype Stage = Stage(path: Option<Path.Path>, hasCallback: bool)

  const EmptyStage := Stage(None, false)

  datatype Track = Track(stages: seq<Stage>, count: nat, index: nat, state: TrackState)

  /** The stage array has its fixed size and every path in it is in a reachable state. */
  ghost predicate Shape(t: Track) {
    |t.stages| == MAX_PATHS && t.count <= MAX_PATHS && IsU32(t.index)
    && (forall i :: 0 <= i < |t.stages| && t.stages[i].path.Some? ==> Path.Inv(t.stages[i].path.value))
  }

  /** The track invariant: an executing or paused track points at one of its stages. */
  ghost predicate Inv(t: Track) {
    Shape(t) && (t.state == Executing || t.state == Paused ==> t.index < t.count)
  }

  /** `isValidStages`: at least one stage, and none of them null. */
  predicate ValidStages(t: Track)
    requires t.count <= |t.stages|
  {
    t.count > 0 && forall i :: 0 <= i < t.count ==> t.stages[i].path.Some?
  }

  /** The constructor: eight empty stages. */
  function New(): (t: Track)
    ensures Inv(t) && t.count == 0 && t.index == 0 && t.state == Idle
    ensures forall i :: 0 <= i < |t.stages| ==> t.stages[i] == EmptyStage
  {
    Track(seq(MAX_PATHS, _ => EmptyStage), 0, 0, Idle)
  }

  /**
   * `addStage`: a null path or a full track is refused; otherwise the stage
   * is placed after the existing ones.
   */
  function AddStage(t: Track, path: Option<Path.Path>, hasCallback: bool): (r: (Track, bool))
    requires Inv(t)
    requires path.Some? ==> Path.Inv(path.value)
    ensures Inv(r.0)
    ensures r.1 <==> path.Some? && t.count < MAX_PATHS
    ensures !r.1 ==> r.0 == t
    ensures r.1 ==>
              r.0.count == t.count + 1 && r.0.stages[t.count] == Stage(path, hasCallback)
              && r.0.index == t.index && r.0.state == t.state
              && (forall i :: 0 <= i < |t.stages| && i != t.count ==> r.0.stages[i] == t.stages[i])
  {
    if path.None? || t.count >= MAX_PATHS then (t, false)
    else (t.(stages := t.stages[t.count := Stage(path, hasCallback)], count := t.count + 1), true)
  }

  /** `clearStages`: every stage emptied, then the track reset. */
  function ClearStages(t: Track): (r: Track)
    requires Inv(t)
    ensures Inv(r) && r.count == 0 && r.index == 0 && r.state == Idle
    ensures forall i :: 0 <= i < |r.stages| ==> r.stages[i] == EmptyStage
  {
    ResetTrack(t.(stages := seq(MAX_PATHS, _ => EmptyStage), count := 0))
  }

  /** Stage `i` with its path replaced, callback kept. */
  function SetPath(t: Track, i: nat, p: Path.Path): (r: Track)
    requires i < |t.stages|
    ensures |r.stages| == |t.stages| && r.count == t.count && r.index == t.index && r.state == t.state
    ensures r.stages[i] == t.stages[i].(path := Some(p))
    ensures forall j :: 0 <= j < |t.stages| && j != i ==> r.stages[j] == t.stages[j]
  {
    t.(stages := t.stages[i := t.stages[i].(path := Some(p))])
  }

  /** `resetTrack`: back to the first stage, idle, with every path among the first `count` reset. */
  function ResetTrack(t: Track): (r: Track)
    requires Shape(t)
    ensures Inv(r) && r.index == 0 && r.state == Idle && r.count == t.count
    ensures forall i :: 0 <= i < |t.stages| ==>
              r.stages[i].hasCallback == t.stages[i].hasCallback
              && (r.stages[i].path.Some? <==> t.stages[i].path.Some?)
              && (i < t.count && t.stages[i].path.Some? ==>
                    r.stages[i].path.value == Path.ResetPath(t.stages[i].path.value))
              && (i >= t.count ==> r.stages[i] == t.stages[i])
  {
    var stages := seq(|t.stages|, i requires 0 <= i < |t.stages| =>
      var s := t.stages[i];
      if i < t.count && s.path.Some? then s.(path := Some(Path.ResetPath(s.path.value))) else s);
    t.(stages := stages, index := 0, state := Idle)
  }

  /**
   * `switchToStage`: an index past the stages or at a null stage is refused;
   * otherwise that path is reset, becomes current, and is started at once
   * if the track is executing.
   */
  function SwitchToStage(v: Path.Version, t: Track, i: nat): (r: (Track, bool))
    requires Inv(t) && IsU32(i)
    ensures Inv(r.0)
    ensures r.1 <==> i < t.count && t.stages[i].path.Some?
    ensures !r.1 ==> r.0 == t
    ensures r.1 ==>
              var p := Path.ResetPath(t.stages[i].path.value);
              r.0.index == i && r.0.state == t.state && r.0.count == t.count
              && r.0.stages[i].path == Some(if t.state == Executing then Path.Start(v, p) else p)
              && (forall j :: 0 <= j < |t.stages| && j != i ==> r.0.stages[j] == t.stages[j])
  {
    if i >= t.count || t.stages[i].path.None? then (t, false)
    else
      var p := Path.ResetPath(t.stages[i].path.value);
      var q := if t.state == Executing then Path.Start(v, p) else p;
      (SetPath(t, i, q).(index := i), true)
  }

  /** `startTrack`: with valid stages, the first path is started and the track executes. */
  function StartTrack(v: Path.Version, t: Track): (r: Track)
    requires Inv(t)
    ensures Inv(r)
    ensures !ValidStages(t) ==> r == t
    ensures ValidStages(t) ==>
              r.index == 0 && r.state == Executing && r.count == t.count
              && r.stages[0].path == Some(Path.Start(v, t.stages[0].path.value))
              && (forall j :: 0 <= j < |t.stages| && j != 0 ==> r.stages[j] == t.stages[j])
  {
    if !ValidStages(t) then t
    else SetPath(t, 0, Path.Start(v, t.stages[0].path.value)).(index := 0, state := Executing)
  }

  /** `pauseTrack`: only an executing track pauses. */
  function PauseTrack(t: Track): (r: Track)
    ensures t.state == Executing ==> r == t.(state := Paused)
    ensures t.state != Executing ==> r == t
  {
    if t.state == Executing then t.(state := Paused) else t
  }

  /** `resumeTrack`: only a paused track resumes. */
  function ResumeTrack(t: Track): (r: Track)
    ensures t.state == Paused ==> r == t.(state := Executing)
    ensures t.state != Paused ==> r == t
  {
    if t.state == Paused then t.(state := Executing) else t
  }

  /** Pausing then resuming an executing track restores it. */
  lemma PauseResume(t: Track)
    requires t.state == Executing
    ensures ResumeTrack(PauseTrack(t)) == t
  {
  }

  lemma PauseResumeInv(t: Track)
    requires Inv(t)
    ensures Inv(PauseTrack(t)) && Inv(ResumeTrack(t))
  {
  }

  /**
   * `getTotalProgress`: 0 when empty or idle, 1 when completed, otherwise
   * the fraction of stages done plus the current path's progress within
   * its share.
   */
  function GetTotalProgress(v: Path.Version, t: Track): (r: real)
    requires Inv(t)
    ensures 0.0 <= r <= 1.0
    ensures t.count == 0 || t.state == Idle ==> r == 0.0
    ensures t.state == Completed && t.count > 0 ==> r == 1.0
    ensures (t.state == Executing || t.state == Paused) && t.count > 0 ==>
              t.index as real / t.count as real <= r <= (t.index + 1) as real / t.count as real
    ensures (t.state == Executing || t.state == Paused) && t.stages[t.index].path.Some? ==>
              r == Path.Fraction(t.index, Path.Progress(v, t.stages[t.index].path.value), t.count)
  {
    if t.count == 0 || t.state == Idle then 0.0
    else if t.state == Completed then 1.0
    else
      var stage := if t.index < t.count && t.stages[t.index].path.Some?
                   then Path.Progress(v, t.stages[t.index].path.value) else 0.0;
      Path.Fraction(t.index, stage, t.count)
  }

  /** The square root keeps every stage's segment step counts representable. */
  predicate StagesDefined(t: Track, sqrtf: real -> real)
    requires t.count <= |t.stages|
  {
    forall i :: 0 <= i < t.count && t.stages[i].path.Some? ==>
      Path.SegmentsDefined(t.stages[i].path.value.targets, sqrtf)
  }

  /** What `process` produces; `callback` is the stage index a completion callback receives. */
  datatype Step = Step(track: Track, done: bool, out: Option<Point.PoseDiff>, callback: Option<nat>)

  /** A path check on stage `i`: the stage's path advances and the diff output is written. */
  function CheckStage(t: Track, i: nat, current: Point.Pose, out: Option<Point.PoseDiff>, sqrtf: real -> real): (r: (Track, Path.Check))
    requires Inv(t) && i < t.count && t.stages[i].path.Some? && StagesDefined(t, sqrtf)
    ensures Inv(r.0) && StagesDefined(r.0, sqrtf)
    ensures r.1 == Path.IsReached(t.stages[i].path.value, current, out, sqrtf)
    ensures r.0 == SetPath(t, i, r.1.path)
  {
    var p := t.stages[i].path.value;
    var c := Path.IsReached(p, current, out, sqrtf);
    Path.IsReachedInv(p, current, out, sqrtf);
    (SetPath(t, i, c.path), c)
  }

  /**
   * `process`.  Idle, paused or with a null stage it answers false and only
   * refreshes the diff output (from the first stage when idle, else from the
   * current one); completed it answers true, refreshing the output from the
   * last stage; executing it checks the current path, and a completed path
   * fires that stage's callback and moves the track on.
   */
  function Process(v: Path.Version, t: Track, current: Point.Pose, out: Option<Point.PoseDiff>, sqrtf: real -> real): (r: Step)
    requires Inv(t) && StagesDefined(t, sqrtf)
    ensures Inv(r.track) && StagesDefined(r.track, sqrtf) && r.track.count == t.count
    ensures t.state == Idle || t.state == Paused || !ValidStages(t) ==>
              !r.done && r.track.state == t.state && r.track.index == t.index && r.callback.None?
    ensures ValidStages(t) && t.state == Completed ==> r.done && r.track.state == Completed && r.callback.None?
    ensures out.None? && t.state != Executing ==> r.track == t && r.out == out
    ensures ValidStages(t) && t.state == Executing ==> r == Advance(v, t, current, out, sqrtf)
    ensures out.Some? && t.state == Idle && t.count > 0 && t.stages[0].path.Some? ==>
              r == Refresh(t, 0, current, out, sqrtf, false)
    ensures out.Some? && (t.state == Idle || t.state == Paused || !ValidStages(t))
            && !(t.state == Idle && t.count > 0 && t.stages[0].path.Some?)
            && t.index < t.count && t.stages[t.index].path.Some? ==>
              r == Refresh(t, t.index, current, out, sqrtf, false)
    ensures out.Some? && ValidStages(t) && t.state == Completed ==>
              r == Refresh(t, t.count - 1, current, out, sqrtf, true)
  {
    if t.state == Idle || t.state == Paused || !ValidStages(t) then
      if out.Some? && t.count > 0 && t.state == Idle && t.stages[0].path.Some? then
        Refresh(t, 0, current, out, sqrtf, false)
      else if out.Some? && t.count > 0 && t.index < t.count && t.stages[t.index].path.Some? then
        Refresh(t, t.index, current, out, sqrtf, false)
      else Step(t, false, out, None)
    else if t.state == Completed then
      if out.Some? && t.count > 0 && t.stages[t.count - 1].path.Some? then
        Refresh(t, t.count - 1, current, out, sqrtf, true)
      else Step(t, true, out, None)
    else Advance(v, t, current, out, sqrtf)
  }

  /**
   * A check of stage `i` made for its diff output: the track's state and
   * index stay and no callback fires, but stage `i`'s path still takes its
   * `isReached` step.
   */
  function Refresh(t: Track, i: nat, current: Point.Pose, out: Option<Point.PoseDiff>, sqrtf: real -> real, done: bool): (r: Step)
    requires Inv(t) && i < t.count && t.stages[i].path.Some? && StagesDefined(t, sqrtf)
    ensures Inv(r.track) && StagesDefined(r.track, sqrtf)
    ensures r.track.count == t.count && r.track.state == t.state && r.track.index == t.index
    ensures r.done == done && r.callback.None?
    ensures r.out == Path.IsReached(t.stages[i].path.value, current, out, sqrtf).out
    ensures r.track == SetPath(t, i, Path.IsReached(t.stages[i].path.value, current, out, sqrtf).path)
  {
    var c := CheckStage(t, i, current, out, sqrtf);
    Step(c.0, done, c.1.out, None)
  }

  /**
   * `process` on an executing track: the current path is checked; when it
   * completes, the stage's callback receives the stage index and the track
   * moves on, completing after the last stage.
   */
  function Advance(v: Path.Version, t: Track, current: Point.Pose, out: Option<Point.PoseDiff>, sqrtf: real -> real): (r: Step)
    requires Inv(t) && StagesDefined(t, sqrtf) && ValidStages(t) && t.state == Executing
    ensures Inv(r.track) && StagesDefined(r.track, sqrtf) && r.track.count == t.count
    ensures var c := Path.IsReached(t.stages[t.index].path.value, current, out, sqrtf);
            r.out == c.out
            && (!c.reached ==>
                  r.track == SetPath(t, t.index, c.path) && r.callback.None? && !r.done)
            && (c.reached ==> r.callback == (if t.stages[t.index].hasCallback then Some(t.index) else None))
            && (c.reached && t.index + 1 >= t.count ==> r.track.state == Completed && r.done)
            && (c.reached && t.index + 1 < t.count ==>
                  r.track.state == Executing && r.track.index == t.index + 1 && !r.done
                  && r.track.stages[t.index + 1].path == Some(Path.Start(v, t.stages[t.index + 1].path.value)))
  {
    var c := CheckStage(t, t.index, current, out, sqrtf);
    if c.1.reached then
      var callback := if t.stages[t.index].hasCallback then Some(t.index) else None;
      var next := MoveToNextStage(v, c.0);
      Step(next, next.state == Completed, c.1.out, callback)
    else Step(c.0, false, c.1.out, None)
  }

  /** `moveToNextStage`: past the last stage the track completes; otherwise the next path starts. */
  function MoveToNextStage(v: Path.Version, t: Track): (r: Track)
    requires Inv(t) && t.state == Executing
    ensures Inv(r) && r.count == t.count && r.index == Wrap32(t.index + 1)
    ensures t.index + 1 >= t.count ==> r == t.(index := t.index + 1, state := Completed)
    ensures t.index + 1 < t.count ==>
              r.state == Executing && t.index + 1 < |t.stages|
              && (t.stages[t.index + 1].path.None? ==> r == t.(index := t.index + 1))
              && (t.stages[t.index + 1].path.Some? ==>
                    r == SetPath(t, t.index + 1, Path.Start(v, t.stages[t.index + 1].path.value)).(index := t.index + 1))
  {
    var index := Wrap32(t.index + 1);
    if index >= t.count then t.(index := index, state := Completed)
    else if t.stages[index].path.None? then t.(index := index)
    else SetPath(t, index, Path.Start(v, t.stages[index].path.value)).(index := index)
  }

  /** Clearing a track leaves it exactly as constructed. */
  lemma ClearStagesIsNew(t: Track)
    requires Inv(t)
    ensures ClearStages(t) == New()
  {
    var r := ClearStages(t);
    assert r.stages == New().stages;
  }

  /** Resetting twice is resetting once. */
  lemma ResetTrackIdempotent(t: Track)
    requires Shape(t)
    ensures ResetTrack(ResetTrack(t)) == ResetTrack(t)
  {
    var r := ResetTrack(t);
    assert ResetTrack(r).stages == r.stages;
  }

  /**
   * With the corrected path progress, checking the current stage of a track
   * does not lower its total progress.
   */
  lemma RefreshProgress(t: Track, current: Point.Pose, out: Option<Point.PoseDiff>, sqrtf: real -> real)
    requires Inv(t) && t.index < t.count && t.stages[t.index].path.Some? && StagesDefined(t, sqrtf)
    ensures Inv(CheckStage(t, t.index, current, out, sqrtf).0)
            && GetTotalProgress(Path.Corrected, t)
               <= GetTotalProgress(Path.Corrected, CheckStage(t, t.index, current, out, sqrtf).0)
  {
    var p := t.stages[t.index].path.value;
    var r := CheckStage(t, t.index, current, out, sqrtf).0;
    Path.ProgressMonotone(p, current, out, sqrtf);
    if t.state != Idle && t.state != Completed {
      Path.FractionMono(t.index, Path.GetProgress(p), t.index, Path.GetProgress(r.stages[t.index].path.value), t.count);
    }
  }

  /**
   * In either version, moving past a completed stage does not lower the
   * total progress: the old stage's share is at most (i+1)/n and the new
   * one's at least that.
   */
  lemma MoveToNextStageProgress(v: Path.Version, t: Track)
    requires Inv(t) && t.state == Executing
    ensures Inv(MoveToNextStage(v, t)) && GetTotalProgress(v, t) <= GetTotalProgress(v, MoveToNextStage(v, t))
  {
    var r := MoveToNextStage(v, t);
    if r.state == Executing {
      var s := if t.stages[t.index].path.Some? then Path.Progress(v, t.stages[t.index].path.value) else 0.0;
      var s' := if r.stages[r.index].path.Some? then Path.Progress(v, r.stages[r.index].path.value) else 0.0;
      Path.FractionMono(t.index, s, r.index, s', t.count);
    }
  }

  /** With the corrected path progress, `process` never lowers the total progress of a track. */
  lemma ProcessProgressMonotone(t: Track, current: Point.Pose, out: Option<Point.PoseDiff>, sqrtf: real -> real)
    requires Inv(t) && StagesDefined(t, sqrtf)
    ensures GetTotalProgress(Path.Corrected, t)
            <= GetTotalProgress(Path.Corrected, Process(Path.Corrected, t, current, out, sqrtf).track)
  {
    var r := Process(Path.Corrected, t, current, out, sqrtf);
    if t.state == Idle || t.state == Completed || t.count == 0 {
    } else if t.state == Executing && ValidStages(t) {
      var c := CheckStage(t, t.index, current, out, sqrtf);
      RefreshProgress(t, current, out, sqrtf);
      if c.1.reached {
        MoveToNextStageProgress(Path.Corrected, c.0);
      }
    } else if out.Some? && t.stages[t.index].path.Some? {
      RefreshProgress(t, current, out, sqrtf);
    }
  }

  /** A track of one executing stage holding `p`, as `startTrack` leaves it. */
  function OneStage(p: Path.Path): (t: Track)
    requires Path.Inv(p)
    ensures Inv(t) && ValidStages(t) && t.count == 1 && t.index == 0 && t.state == Executing
    ensures t.stages[0] == Stage(Some(p), false)
  {
    Track(seq(MAX_PATHS, i => if i == 0 then Stage(Some(p), false) else EmptyStage), 1, 0, Executing)
  }

  /** A one-stage track's total progress is its path's own progress. */
  lemma OneStageProgress(v: Path.Version, p: Path.Path)
    requires Path.Inv(p)
    ensures GetTotalProgress(v, OneStage(p)) == Path.Progress(v, p)
  {
    assert Path.Fraction(0, Path.Progress(v, p), 1) == Path.Progress(v, p);
  }

  /**
   * On a one-stage track, a `process` whose path check does not complete
   * the path leaves a one-stage track holding the checked path.
   */
  lemma OneStageProcess(v: Path.Version, p: Path.Path, here: Point.Pose, sqrtf: real -> real)
    requires Path.Inv(p) && Path.SegmentsDefined(p.targets, sqrtf)
    requires !Path.IsReached(p, here, None, sqrtf).reached
    ensures StagesDefined(OneStage(p), sqrtf)
    ensures Process(v, OneStage(p), here, None, sqrtf).track == OneStage(Path.IsReached(p, here, None, sqrtf).path)
  {
    var t := OneStage(p);
    var c := Path.IsReached(p, here, None, sqrtf);
    Path.IsReachedInv(p, here, None, sqrtf);
    assert SetPath(t, 0, c.path).stages == OneStage(c.path).stages;
  }

  /**
   * As written, the total progress of a track can fall: a one-stage track
   * whose path holds the targets x = 0, 0.01 and 1 and has passed the first
   * reports 2/3; one `process` call standing on the middle target drops it
   * to 1/3 + 1/60, while the track keeps executing the same stage.
   */
  lemma ProgressRegressesAsWritten(ts: seq<Option<Point.Point>>) returns (p: Path.Path, t: Track)
    requires ts == Path.EXAMPLE
    ensures Path.SegmentsDefined(ts, Path.ExampleSqrt)
    ensures p == Path.MoveToNextSegment(Path.StartPathAsWritten(Path.New(ts, 0.02, 0.05, 0)), Path.ExampleSqrt)
    ensures Path.Inv(p) && t == OneStage(p) && StagesDefined(t, Path.ExampleSqrt)
    ensures var r := Process(Path.AsWritten, t, ts[1].value.target, None, Path.ExampleSqrt);
            !r.done && r.track.state == Executing && r.track.index == 0
            && GetTotalProgress(Path.AsWritten, t) == 2.0 / 3.0
            && GetTotalProgress(Path.AsWritten, r.track) == 1.0 / 3.0 + 1.0 / 60.0
  {
    p := Path.ExampleAtMiddle(Path.AsWritten, ts);
    var q := Path.ExampleSecondSegment(ts, p);
    Path.ExampleProgress(p);
    Path.ExampleProgress(q);
    OneStageProgress(Path.AsWritten, p);
    OneStageProgress(Path.AsWritten, q);
    OneStageProcess(Path.AsWritten, p, ts[1].value.target, Path.ExampleSqrt);
    t := OneStage(p);
  }
}

=== FILE: transform_demo.dfy ===
/**
 * The coordinate transform demo (`coordinate_transform_demo.py`): a
 * ground-to-body transform of a target point, and the keyboard and slider
 * input that moves the robot and the target.  `cos` and `sin` are
 * parameters; the plot is not modelled.
 */
module TransformDemo {
  import opened MathConst
  import opened CTypes

  /** The demo's editable values. */
  datatype State = State(robotX: real, robotY: real, robotYaw: real, targetX: real, targetY: real)

  /** The slider (or field) each handler writes. */
  datatype Field = RobotX | RobotY | RobotYaw | TargetX | TargetY

  /** The values the demo opens with. */
  const Initial := State(2.0, 1.5, 0.3, 4.0, 3.0)

  /** `key_step` and `yaw_step`. */
  const KEY_STEP: real := 0.1
  const YAW_STEP: real := 0.05

  /** The keys `process_keyboard_input` reacts to. */
  const Recognised: set<string> := {"w", "s", "a", "d", "q", "e", "up", "down", "left", "right"}

  function Get(s: State, f: Field): real {
    match f
    case RobotX => s.robotX
    case RobotY => s.robotY
    case RobotYaw => s.robotYaw
    case TargetX => s.targetX
    case TargetY => s.targetY
  }

  function Min(a: real, b: real): (r: real)
    ensures r <= a && r <= b && (r == a || r == b)
  {
    if a <= b then a else b
  }

  function Max(a: real, b: real): (r: real)
    ensures r >= a && r >= b && (r == a || r == b)
  {
    if a >= b then a else b
  }

  /**
   * `ground_to_body_transform`: the robot-to-target displacement rotated by
   * minus the yaw, with `cos` and `sin` evaluated at `-yaw`.  When those lie
   * on the unit circle the rotation keeps the displacement's squared length.
   */
  function GroundToBody(xGround: real, yGround: real, robotX: real, robotY: real, robotYaw: real,
                        cos: real -> real, sin: real -> real): (r: (real, real))
    ensures var dx, dy, c, s := xGround - robotX, yGround - robotY, cos(-robotYaw), sin(-robotYaw);
            r.0 == dx * c - dy * s && r.1 == dx * s + dy * c
    ensures var dx, dy, c, s := xGround - robotX, yGround - robotY, cos(-robotYaw), sin(-robotYaw);
            c * c + s * s == 1.0 ==> Mul(r.0, r.0) + Mul(r.1, r.1) == Mul(dx, dx) + Mul(dy, dy)
  {
    var dx := xGround - robotX;
    var dy := yGround - robotY;
    var c := cos(-robotYaw);
    var s := sin(-robotYaw);
    assert c * c + s * s == 1.0 ==>
             Mul(dx * c - dy * s, dx * c - dy * s) + Mul(dx * s + dy * c, dx * s + dy * c) == Mul(dx, dx) + Mul(dy, dy) by {
      if c * c + s * s == 1.0 {
        RotationKeepsSquares(dx, dy, c, s);
      }
    }
    (dx * c - dy * s, dx * s + dy * c)
  }

  /** With zero yaw the body frame is the ground frame shifted to the robot. */
  lemma ZeroYawIsTranslation(xGround: real, yGround: real, robotX: real, robotY: real,
                             cos: real -> real, sin: real -> real)
    requires cos(0.0) == 1.0 && sin(0.0) == 0.0
    ensures GroundToBody(xGround, yGround, robotX, robotY, 0.0, cos, sin) == (xGround - robotX, yGround - robotY)
  {
    assert -0.0 == 0.0;
  }

  /** The "Distance" the demo shows for a body-frame point. */
  function Distance(x: real, y: real, sqrt: real -> real): real {
    sqrt(Mul(x, x) + Mul(y, y))
  }

  /**
   * Given cos² + sin² = 1 at `-yaw`, the body-frame distance is the
   * ground-frame distance from the robot to the target.
   */
  lemma DistancePreserved(xGround: real, yGround: real, robotX: real, robotY: real, robotYaw: real,
                          cos: real -> real, sin: real -> real, sqrt: real -> real)
    requires cos(-robotYaw) * cos(-robotYaw) + sin(-robotYaw) * sin(-robotYaw) == 1.0
    ensures var dx, dy := xGround - robotX, yGround - robotY;
            var b := GroundToBody(xGround, yGround, robotX, robotY, robotYaw, cos, sin);
            Distance(b.0, b.1, sqrt) == Distance(dx, dy, sqrt)
  {
    var dx, dy := xGround - robotX, yGround - robotY;
    var c, s := cos(-robotYaw), sin(-robotYaw);
    var b := GroundToBody(xGround, yGround, robotX, robotY, robotYaw, cos, sin);
    assert b.0 == dx * c - dy * s;
    assert b.1 == dx * s + dy * c;
    RotationKeepsSquares(dx, dy, c, s);
    assert Mul(b.0, b.0) + Mul(b.1, b.1) == Mul(dx, dx) + Mul(dy, dy);
  }

  lemma RotationKeepsSquares(dx: real, dy: real, c: real, s: real)
    requires c * c + s * s == 1.0
    ensures var x, y := dx * c - dy * s, dx * s + dy * c;
            Mul(x, x) + Mul(y, y) == Mul(dx, dx) + Mul(dy, dy)
  {
    calc {
      (dx * c - dy * s) * (dx * c - dy * s) + (dx * s + dy * c) * (dx * s + dy * c);
      (dx * dx) * (c * c + s * s) + (dy * dy) * (c * c + s * s);
    }
  }

  /** The inverse map: rotate forward by the yaw (`cos`, `sin` at `yaw`) and shift by the robot. */
  function BodyToGround(body: (real, real), robotX: real, robotY: real, robotYaw: real,
                        cos: real -> real, sin: real -> real): (r: (real, real))
  {
    var c, s := cos(robotYaw), sin(robotYaw);
    (body.0 * c - body.1 * s + robotX, body.0 * s + body.1 * c + robotY)
  }

  /**
   * With cos even, sin odd and cos² + sin² = 1, rotating the body-frame
   * point forward by the yaw and adding the robot position gives back the
   * ground-frame target.
   */
  lemma BodyToGroundInverts(xGround: real, yGround: real, robotX: real, robotY: real, robotYaw: real,
                            cos: real -> real, sin: real -> real)
    requires cos(robotYaw) == cos(-robotYaw) && sin(robotYaw) == -sin(-robotYaw)
    requires cos(robotYaw) * cos(robotYaw) + sin(robotYaw) * sin(robotYaw) == 1.0
    ensures BodyToGround(GroundToBody(xGround, yGround, robotX, robotY, robotYaw, cos, sin),
                         robotX, robotY, robotYaw, cos, sin) == (xGround, yGround)
  {
    var dx, dy := xGround - robotX, yGround - robotY;
    var c, s := cos(robotYaw), sin(robotYaw);
    var b := GroundToBody(xGround, yGround, robotX, robotY, robotYaw, cos, sin);
    assert b == (dx * c + dy * s, -dx * s + dy * c);
    var k := c * c + s * s;
    assert k == 1.0;
    assert b.0 * c - b.1 * s == dx * k by {
      assert (dx * c + dy * s) * c == dx * (c * c) + dy * (s * c);
      assert (-dx * s + dy * c) * s == -(dx * (s * s)) + dy * (c * s);
      assert s * c == c * s;
      assert dx * (c * c) + dx * (s * s) == dx * k;
    }
    assert b.0 * s + b.1 * c == dy * k by {
      assert (dx * c + dy * s) * s == dx * (c * s) + dy * (s * s);
      assert (-dx * s + dy * c) * c == -(dx * (s * c)) + dy * (c * c);
      assert s * c == c * s;
      assert dy * (s * s) + dy * (c * c) == dy * k;
    }
    assert BodyToGround(b, robotX, robotY, robotYaw, cos, sin)
        == (b.0 * c - b.1 * s + robotX, b.0 * s + b.1 * c + robotY);
  }

  /** The bounds the keyboard clamps to. */
  predicate InRange(s: State) {
    -1.0 <= s.robotX <= 6.0 && -1.0 <= s.robotY <= 5.0 && -PI <= s.robotYaw <= PI
    && -1.0 <= s.targetX <= 6.0 && -1.0 <= s.targetY <= 5.0
  }

  /** A field's keyboard pair: `up` raises it to at most `hi`, then `down` lowers it to at least `lo`. */
  function Nudge(v: real, keys: set<string>, up: string, down: string, step: real, lo: real, hi: real): (r: real)
    requires step >= 0.0 && lo <= hi
    ensures up !in keys && down !in keys ==> r == v
    ensures up in keys && down !in keys ==> r == Min(hi, v + step)
    ensures up !in keys && down in keys ==> r == Max(lo, v - step)
    ensures lo <= v <= hi && (up in keys || down in keys) ==> lo <= r <= hi
  {
    var raised := if up in keys then Min(hi, v + step) else v;
    if down in keys then Max(lo, raised - step) else raised
  }

  /** What one keyboard poll produces: the new values and whether any was touched. */
  datatype Tick = Tick(state: State, changed: bool)

  /**
   * `process_keyboard_input`: every held key moves its own field by one
   * step, clamped to the field's bounds; `changed` records that some
   * recognised key was held.
   */
  function ProcessKeyboardInput(s: State, keys: set<string>): (r: Tick)
    ensures InRange(s) ==> InRange(r.state)
    ensures r.changed <==> exists k :: k in keys && k in Recognised
    ensures !r.changed ==> r.state == s
  {
    var robotY := Nudge(s.robotY, keys, "w", "s", KEY_STEP, -1.0, 5.0);
    var robotX := Nudge(s.robotX, keys, "a", "d", KEY_STEP, -1.0, 6.0);
    var robotYaw := Nudge(s.robotYaw, keys, "q", "e", YAW_STEP, -PI, PI);
    var targetY := Nudge(s.targetY, keys, "up", "down", KEY_STEP, -1.0, 5.0);
    var targetX := Nudge(s.targetX, keys, "left", "right", KEY_STEP, -1.0, 6.0);
    var changed := "w" in keys || "s" in keys || "a" in keys || "d" in keys || "q" in keys || "e" in keys
                   || "up" in keys || "down" in keys || "left" in keys || "right" in keys;
    Tick(State(robotX, robotY, robotYaw, targetX, targetY), changed)
  }

  /** Each field answers only to its own pair of keys. */
  lemma KeysAreIndependent(s: State, keys: set<string>)
    ensures var t := ProcessKeyboardInput(s, keys).state;
            ("w" !in keys && "s" !in keys ==> t.robotY == s.robotY)
            && ("a" !in keys && "d" !in keys ==> t.robotX == s.robotX)
            && ("q" !in keys && "e" !in keys ==> t.robotYaw == s.robotYaw)
            && ("up" !in keys && "down" !in keys ==> t.targetY == s.targetY)
            && ("left" !in keys && "right" !in keys ==> t.targetX == s.targetX)
  {
  }

  /** A single held key moves its field one step in its direction, up to the bound. */
  lemma SingleKeySteps(s: State)
    ensures ProcessKeyboardInput(s, {"w"}).state == s.(robotY := Min(5.0, s.robotY + KEY_STEP))
    ensures ProcessKeyboardInput(s, {"d"}).state == s.(robotX := Max(-1.0, s.robotX - KEY_STEP))
    ensures ProcessKeyboardInput(s, {"q"}).state == s.(robotYaw := Min(PI, s.robotYaw + YAW_STEP))
    ensures ProcessKeyboardInput(s, {"down"}).state == s.(targetY := Max(-1.0, s.targetY - KEY_STEP))
    ensures ProcessKeyboardInput(s, {"left"}).state == s.(targetX := Min(6.0, s.targetX + KEY_STEP))
  {
  }

  /** Holding `w` and `s` together cancels out when the raise is not clamped. */
  lemma OpposingKeysCancel(s: State, keys: set<string>)
    requires "w" in keys && "s" in keys && -1.0 <= s.robotY <= 4.9
    ensures ProcessKeyboardInput(s, keys).state.robotY == s.robotY
  {
  }

  /** A recognised key held at its bound still counts as a change. */
  lemma ClampedKeyStillChanges(s: State)
    requires s.robotY == 5.0
    ensures ProcessKeyboardInput(s, {"w"}) == Tick(s, true)
  {
  }

  /** `on_key_press`: a key event with a key adds it; an empty one does nothing. */
  function KeyPress(keys: set<string>, key: string): (r: set<string>)
    ensures key != "" ==> r == keys + {key}
    ensures key == "" ==> r == keys
  {
    if key != "" then keys + {key} else keys
  }

  /** `on_key_release`: the key is removed if held; releasing an unheld key does nothing. */
  function KeyRelease(keys: set<string>, key: string): (r: set<string>)
    ensures key !in r && r <= keys && keys - r <= {key}
    ensures key !in keys ==> r == keys
  {
    if key in keys then keys - {key} else keys
  }

  /** Pressing and releasing a key that was not held leaves the held set as it was. */
  lemma PressReleaseRestores(keys: set<string>, key: string)
    requires key !in keys
    ensures KeyRelease(KeyPress(keys, key), key) == keys
  {
  }

  /** Pressing an already held key is harmless. */
  lemma PressIdempotent(keys: set<string>, key: string)
    ensures KeyPress(KeyPress(keys, key), key) == KeyPress(keys, key)
  {
  }

  /** `update_robot_x` … `update_target_y`: the slider writes its value verbatim into its field. */
  function SetSlider(s: State, f: Field, value: real): (r: State)
    ensures Get(r, f) == value
    ensures forall g :: g != f ==> Get(r, g) == Get(s, g)
  {
    match f
    case RobotX => s.(robotX := value)
    case RobotY => s.(robotY := value)
    case RobotYaw => s.(robotYaw := value)
    case TargetX => s.(targetX := value)
    case TargetY => s.(targetY := value)
  }

  /** The opening values are within the keyboard bounds. */
  lemma InitialInRange()
    ensures InRange(Initial)
  {
  }
}

=== FILE: up_t201.dfy ===
/**
 * The threaded optical-flow driver (`up_t201.cpp`): its reader thread runs
 * the shared frame parser one byte at a time; `parsePacket` succeeds only
 * when it gets the data mutex, and `start` resets the parser before creating
 * the thread.
 */
module UpT201 {
  import opened CTypes
  import opened OpticalFlow

  /**
   * `parsePacket`: the decoded payload replaces the shared data and the
   * answer is true when the mutex was acquired; otherwise nothing changes
   * and the answer is false.
   */
  function ParsePacket(data: FlowData, payload: seq<bv8>, mutexOk: bool): (r: (FlowData, bool))
    requires |payload| == PAYLOAD_SIZE
    ensures r.1 == mutexOk
    ensures mutexOk ==> r.0 == Decode(payload)
    ensures !mutexOk ==> r.0 == data
  {
    if mutexOk then (Decode(payload), true) else (data, false)
  }

  /**
   * One iteration of `processSerialData` after a byte was read: the parser
   * switch, with `parsePacket`'s answer decided by the mutex.  A footer that
   * cannot publish its packet counts as an error, like a bad footer.
   */
  function ProcessSerialByte(p: Parser, b: bv8, mutexOk: bool, now: nat): (r: Parser)
    requires Valid(p) && IsU32(now)
    ensures Valid(r)
    ensures p.state == WaitFooter ==> r.state == WaitHeader
    ensures p.state == WaitFooter && b == FOOTER ==>
      r.data == ParsePacket(p.data, p.payload, mutexOk).0 &&
      r.packetCount == (if mutexOk then Wrap32(p.packetCount + 1) else p.packetCount) &&
      r.errorCount == (if mutexOk then p.errorCount else Wrap32(p.errorCount + 1))
  {
    Step(p, b, mutexOk, now).0
  }

  /** What `start` leaves behind: the parser, whether the thread runs, and the answer. */
  datatype Started = Started(parser: Parser, running: bool, ok: bool)

  /**
   * `start`: nothing to do when already running; a serial port that does not
   * open fails with nothing changed; otherwise the parser and counters are
   * reset, and the answer is whether the reader thread could be created.
   */
  function Start(p: Parser, running: bool, beginOk: bool, threadOk: bool, now: nat): (r: Started)
    requires Valid(p) && IsU32(now)
    ensures Valid(r.parser)
    ensures running ==> r == Started(p, true, true)
    ensures !running && !beginOk ==> r == Started(p, false, false)
    ensures !running && beginOk ==>
      r.parser.state == WaitHeader && r.parser.index == 0 && r.parser.checksum == 0 &&
      r.parser.packetCount == 0 && r.parser.errorCount == 0 && r.parser.lastUpdate == now &&
      r.running == threadOk && r.ok == threadOk
  {
    if running then Started(p, true, true)
    else if !beginOk then Started(p, false, false)
    else Started(Reset(p, now), threadOk, threadOk)
  }
}

=== FILE: upt20x.dfy ===
/**
 * The interrupt-driven optical-flow driver (`upt20x.cpp`).  Its `processByte`
 * is the shared frame parser with `parsePacket` always succeeding, except
 * that the success path returns before resetting the state, so the parser
 * stays in the footer state after every good packet.
 */
module Upt20x {
  import opened CTypes
  import opened OpticalFlow

  /**
   * `processByte` as written: the shared parser step, except that after a
   * good footer the state is left at WaitFooter instead of WaitHeader.
   */
  function ProcessByteAsWritten(p: Parser, b: bv8, now: nat): (r: (Parser, bool))
    requires Valid(p) && IsU32(now)
    ensures Valid(r.0)
    ensures r.1 <==> p.state == WaitFooter && b == FOOTER
    ensures r.1 ==> r.0.state == WaitFooter && r.0.data == Decode(p.payload) &&
                    r.0.packetCount == Wrap32(p.packetCount + 1) && r.0.errorCount == p.errorCount
    ensures !r.1 ==> r == Step(p, b, true, now)
  {
    match p.state
    case WaitFooter =>
      if b == FOOTER then
        (p.(data := Decode(p.payload), packetCount := Wrap32(p.packetCount + 1), lastUpdate := now), true)
      else
        (p.(errorCount := Wrap32(p.errorCount + 1), state := WaitHeader), false)
    case _ => Step(p, b, true, now)
  }

  /**
   * As written, a good packet followed by the next frame's `FE 0A` loses that
   * frame: the `FE` is taken for a bad footer and counted as an error, and the
   * `0A` then arrives while waiting for a header and is ignored.  The shared
   * parser instead counts no error and is ready for that frame's payload.
   */
  lemma NextHeaderLostAsWritten(p: Parser, now: nat)
    requires Valid(p) && IsU32(now) && p.state == WaitFooter
    ensures var s1 := ProcessByteAsWritten(p, FOOTER, now);
            var s2 := ProcessByteAsWritten(s1.0, HEADER, now);
            var s3 := ProcessByteAsWritten(s2.0, LENGTH, now);
            s1.1 && s3.0.state == WaitHeader && s3.0.errorCount == Wrap32(p.errorCount + 1)
    ensures var t1 := Step(p, FOOTER, true, now);
            var t2 := Step(t1.0, HEADER, true, now);
            var t3 := Step(t2.0, LENGTH, true, now);
            t1.1 && t3.0.state == ReceivePayload && t3.0.errorCount == p.errorCount
  {
  }

  /** `processByte` with the state reset on every footer byte, as its comment says and `up_t201.cpp` does. */
  function ProcessByte(p: Parser, b: bv8, now: nat): (r: (Parser, bool))
    requires Valid(p) && IsU32(now)
    ensures Valid(r.0)
    ensures r.1 <==> p.state == WaitFooter && b == FOOTER
    ensures p.state == WaitFooter ==> r.0.state == WaitHeader
    ensures r.1 ==> r.0.data == Decode(p.payload) && r.0.packetCount == Wrap32(p.packetCount + 1)
  {
    Step(p, b, true, now)
  }

  /** With the reset in place, two frames back to back are both accepted and the later one's data is kept. */
  lemma ConsecutiveFrames(p: Parser, a: seq<bv8>, b: seq<bv8>, now: nat)
    requires Valid(p) && IsU32(now) && p.state == WaitHeader
    requires |a| == PAYLOAD_SIZE && |b| == PAYLOAD_SIZE
    ensures var r := Run(p, Frame(a) + Frame(b), now);
            r.1 == 2 && r.0.state == WaitHeader && r.0.data == Decode(b) &&
            r.0.packetCount == Wrap32(p.packetCount + 2) && r.0.errorCount == p.errorCount
  {
    RunSplit(p, Frame(a), Frame(b), now);
    FrameRoundTrip(p, a, now);
    var first := Run(p, Frame(a), now);
    var mid := first.0;
    FrameRoundTrip(mid, b, now);
    var second := Run(mid, Frame(b), now);
    assert first.1 + second.1 == 2;
    TwoWraps(p.packetCount);
  }

  /** Two 32-bit increments in a row make one increment by two. */
  lemma TwoWraps(x: nat)
    requires IsU32(x)
    ensures Wrap32(Wrap32(x + 1) + 1) == Wrap32(x + 2)
  {
    if x + 1 == U32 {
      assert Wrap32(x + 1) == 0;
      assert Wrap32(x + 2) == 1;
    }
  }

  /** `init`: the parser reset, with the clock reading as the last update time. */
  function Init(p: Parser, now: nat): (r: Parser)
    requires Valid(p) && IsU32(now)
    ensures Valid(r) && r.state == WaitHeader && r.packetCount == 0 && r.errorCount == 0
    ensures r.lastUpdate == now
  {
    Reset(p, now)
  }
}

=== FILE: wrappers.dfy ===
/** Optional values: `None` models a null pointer or a failed allocation. */
module Wrappers {

  datatype Option<T> = None | Some(value: T)
}

=== FILE: ws2812.dfy ===
/**
 * The WS2812 LED driver (`ws2812.cpp`): the timer period for an 800 kHz bit
 * rate, the compare values for a one bit (70 % duty) and a zero bit (30 %),
 * and the PWM buffer slots that carry a colour, green then red then blue,
 * most significant bit first.  The timer clock is a parameter; the DMA start
 * is not modelled.
 */
module Ws2812 {
  import opened CTypes
  import MathBits

  const BUFFER_SIZE: nat := 255
  const BIT_RATE: nat := 800000
  /** First slot of the green, red and blue bytes. */
  const G_BASE: nat := 230
  const R_BASE: nat := 238
  const B_BASE: nat := 246

  /** `Ws2812_t`, with the timer handle reduced to whether there is one and its ARR register. */
  datatype Ws2812 = Ws2812(hasTimer: bool, arr: nat, buf: seq<nat>, cntOne: nat, cntZero: nat)

  predicate Valid(w: Ws2812)
  {
    |w.buf| == BUFFER_SIZE && IsU32(w.arr) && IsU32(w.cntOne) && IsU32(w.cntZero)
  }

  /** The reload value `tim_freq / 800000 - 1`, computed in 32 bits. */
  function Reload(timFreq: nat): (arr: nat)
    requires IsU32(timFreq)
    ensures IsU32(arr)
    ensures timFreq >= BIT_RATE ==> arr == timFreq / BIT_RATE - 1 && arr < 5369
    ensures timFreq < BIT_RATE ==> arr == U32 - 1
  {
    Wrap32(timFreq / BIT_RATE - 1)
  }

  /** `arr * percent / 100` with the product taken in 32 bits. */
  function Duty(arr: nat, percent: nat): (c: nat)
    requires IsU32(arr) && percent <= 100
    ensures IsU32(c)
  {
    Wrap32(arr * percent) / 100
  }

  /**
   * `Ws2812_Init`: without a timer, or when the timer clock reads 0, nothing
   * changes.  Otherwise the period gives 800 kHz, the one and zero compare
   * values are 70 % and 30 % of it, a zero never outlasts a one, and the
   * buffer is cleared.
   */
  function Init(w: Ws2812, timFreq: nat): (r: Ws2812)
    requires Valid(w) && IsU32(timFreq)
    ensures Valid(r)
    ensures !w.hasTimer || timFreq == 0 ==> r == w
    ensures w.hasTimer && timFreq != 0 ==>
      r.hasTimer && r.arr == Reload(timFreq) &&
      r.cntOne == Duty(r.arr, 70) && r.cntZero == Duty(r.arr, 30) && r.cntZero <= r.cntOne &&
      forall i :: 0 <= i < BUFFER_SIZE ==> r.buf[i] == 0
    ensures w.hasTimer && timFreq >= BIT_RATE ==>
      (r.arr + 1) * BIT_RATE <= timFreq < (r.arr + 2) * BIT_RATE &&
      r.cntOne == r.arr * 70 / 100 && r.cntZero == r.arr * 30 / 100
  {
    if !w.hasTimer || timFreq == 0 then w
    else
      var arr := Reload(timFreq);
      DutyOrdered(arr);
      Ws2812(true, arr, seq(BUFFER_SIZE, _ => 0), Duty(arr, 70), Duty(arr, 30))
  }

  /** The 30 % value never exceeds the 70 % value, also when the period wrapped round. */
  lemma DutyOrdered(arr: nat)
    requires IsU32(arr)
    requires arr < 5369 || arr == U32 - 1
    ensures Duty(arr, 30) <= Duty(arr, 70)
  {
    if arr == U32 - 1 {
      assert Wrap32(arr * 70) == U32 - 70;
      assert Wrap32(arr * 30) == U32 - 30;
    } else {
      assert arr * 30 <= arr * 70 < U32;
    }
  }

  /** The 8 bits of v, most significant first. */
  function ToBits(v: nat, n: nat): (bs: seq<bool>)
    ensures |bs| == n
  {
    if n == 0 then [] else ToBits(v / 2, n - 1) + [v % 2 == 1]
  }

  /** Reading bits back, most significant first. */
  function FromBits(bs: seq<bool>): nat
  {
    if |bs| == 0 then 0 else 2 * FromBits(bs[..|bs| - 1]) + (if bs[|bs| - 1] then 1 else 0)
  }

  lemma {:induction false} BitsRoundTrip(v: nat, n: nat)
    requires v < Pow2(n)
    ensures FromBits(ToBits(v, n)) == v
  {
    if n > 0 {
      BitsRoundTrip(v / 2, n - 1);
      assert ToBits(v, n)[..n - 1] == ToBits(v / 2, n - 1);
    }
  }

  /** Position n - 1 - i of the bit string is `(v >> i) & 1`. */
  lemma {:induction false} ToBitsShift(v: nat, n: nat, i: nat)
    requires i < n
    ensures ToBits(v, n)[n - 1 - i] == MathBits.BitSet(v, i)
  {
    if i > 0 {
      ToBitsShift(v / 2, n - 1, i - 1);
      MathBits.DivDiv2(v, Pow2(i - 1));
    }
  }

  /** The compare value that sends bit i of v. */
  function Code(w: Ws2812, v: nat, i: nat): nat
  {
    if MathBits.BitSet(v, i) then w.cntOne else w.cntZero
  }

  function Clamp255(v: nat): (c: nat)
    ensures c <= 255 && (v <= 255 ==> c == v) && (v > 255 ==> c == 255)
  {
    if v > 255 then 255 else v
  }

  /** Slots `base`..`base + 7` send v, bit 7 first. */
  predicate Painted(w: Ws2812, base: nat, v: nat)
  {
    base + 8 <= |w.buf| && forall j :: base <= j < base + 8 ==> w.buf[j] == Code(w, v, base + 7 - j)
  }

  /** One colour byte written into its 8 slots; the rest of the buffer is kept. */
  function Paint(w: Ws2812, base: nat, v: nat): (r: Ws2812)
    requires base + 8 <= |w.buf|
    ensures r.hasTimer == w.hasTimer && r.arr == w.arr && r.cntOne == w.cntOne && r.cntZero == w.cntZero
    ensures |r.buf| == |w.buf| && Painted(r, base, v)
    ensures forall j :: 0 <= j < |w.buf| && !(base <= j < base + 8) ==> r.buf[j] == w.buf[j]
  {
    w.(buf := seq(|w.buf|, j requires 0 <= j < |w.buf| =>
      if base <= j < base + 8 then Code(w, v, base + 7 - j) else w.buf[j]))
  }

  /** The driver as `Ws2812_SetColor` finds it after re-initialising when a compare value is 0. */
  function Ready(w: Ws2812, timFreq: nat): (r: Ws2812)
    requires Valid(w) && IsU32(timFreq)
    ensures Valid(r)
  {
    if w.cntOne == 0 || w.cntZero == 0 then Init(w, timFreq) else w
  }

  /**
   * `Ws2812_SetColor`: re-initialise when either compare value is 0, give up
   * without a timer, clamp each channel to 255, then write green to slots
   * 230..237, red to 238..245 and blue to 246..253, bit 7 first.  Every
   * other slot keeps its value.  The two timer-width branches of the source
   * write the same values and are modelled once.
   */
  function SetColor(w: Ws2812, r: nat, g: nat, b: nat, timFreq: nat): (res: Ws2812)
    requires Valid(w) && IsU16(r) && IsU16(g) && IsU16(b) && IsU32(timFreq)
    ensures Valid(res)
    ensures var w1 := Ready(w, timFreq);
            res.hasTimer == w1.hasTimer && res.arr == w1.arr &&
            res.cntOne == w1.cntOne && res.cntZero == w1.cntZero
    ensures !Ready(w, timFreq).hasTimer ==> res == Ready(w, timFreq)
    ensures Ready(w, timFreq).hasTimer ==>
      Painted(res, G_BASE, Clamp255(g)) && Painted(res, R_BASE, Clamp255(r)) &&
      Painted(res, B_BASE, Clamp255(b)) &&
      forall j :: 0 <= j < BUFFER_SIZE && !(G_BASE <= j < B_BASE + 8) ==> res.buf[j] == Ready(w, timFreq).buf[j]
  {
    var w1 := Ready(w, timFreq);
    if !w1.hasTimer then w1
    else
      var w2 := Paint(w1, G_BASE, Clamp255(g));
      var w3 := Paint(w2, R_BASE, Clamp255(r));
      Paint(w3, B_BASE, Clamp255(b))
  }

  /** A receiver's reading of the 8 slots from `base`: a slot holding the one value is a 1 bit. */
  function ReadByte(w: Ws2812, base: nat): nat
    requires base + 8 <= |w.buf|
  {
    FromBits(seq(8, k requires 0 <= k < 8 => w.buf[base + k] == w.cntOne))
  }

  /**
   * Reading the buffer back gives the clamped colour, as long as a one and a
   * zero are sent with different compare values.
   */
  lemma ColorRoundTrip(w: Ws2812, r: nat, g: nat, b: nat, timFreq: nat)
    requires Valid(w) && IsU16(r) && IsU16(g) && IsU16(b) && IsU32(timFreq)
    requires SetColor(w, r, g, b, timFreq).hasTimer
    requires SetColor(w, r, g, b, timFreq).cntOne != SetColor(w, r, g, b, timFreq).cntZero
    ensures var res := SetColor(w, r, g, b, timFreq);
            ReadByte(res, G_BASE) == Clamp255(g) && ReadByte(res, R_BASE) == Clamp255(r) &&
            ReadByte(res, B_BASE) == Clamp255(b)
  {
    var res := SetColor(w, r, g, b, timFreq);
    ByteRoundTrip(res, G_BASE, Clamp255(g));
    ByteRoundTrip(res, R_BASE, Clamp255(r));
    ByteRoundTrip(res, B_BASE, Clamp255(b));
  }

  lemma ByteRoundTrip(w: Ws2812, base: nat, v: nat)
    requires base + 8 <= |w.buf| && v <= 255 && w.cntOne != w.cntZero
    requires Painted(w, base, v)
    ensures ReadByte(w, base) == v
  {
    var bits := seq(8, k requires 0 <= k < 8 => w.buf[base + k] == w.cntOne);
    forall k | 0 <= k < 8
      ensures bits[k] == ToBits(v, 8)[k]
    {
      ToBitsShift(v, 8, 7 - k);
    }
    assert bits == ToBits(v, 8);
    assert Pow2(8) == 256 by {
      Pow2Values();
    }
    BitsRoundTrip(v, 8);
  }
}
